=== FILE: README.md ===
# Kryptoria in Dafny

Kryptoria teaches the Caesar cipher. A Spring backend encrypts, decrypts and
traces text letter by letter. It generates practice tasks and checks their
answers, and it keeps user accounts with refresh and password-reset tokens. A
React frontend drives the practice, visualiser and example pages, and it has
an administrators' user list.

This project models the logic under both halves as pure functions and explicit
state transitions:

- **Cipher engine.** Shifting within the English (26) or Russian (33, with Ё)
  alphabet, and the per-character visualisation trace.
- **Task service.** Difficulty ranges, the bounded word-fill text generator,
  the answer store and the answer comparison.
- **Client sessions.** The practice page, the visualiser and the example page,
  each as a record with named transitions. Remote calls are outcome
  parameters.
- **Paging.** The pagination controls, the generic paging hook and the
  page-size commit rules.
- **Small client pieces.** Input filters, password complexity, the
  local-storage hook and the notification queue.
- **Accounts and tokens.** Accounts, roles, refresh and reset tokens, and
  identity lookup, over explicit in-memory stores with the clock as a
  parameter.
- **Request mapping.** The string-to-enum converters, the admin sort rewrite,
  the bearer-token filter and the exception-to-status table.

Java's and JavaScript's string primitives are written out in `Strings`:
`trim`, `toUpperCase` and `toLowerCase` over the two alphabets,
`equalsIgnoreCase`, and `parseInt`.

## Model

| member | source | states |
|---|---|---|
| Cipher.Alphabet | backend/src/main/java/com/cryptolearn/backend/service/CipherService.java:23-29 | the English alphabet has 26 letters and the Russian one 33 |
| Cipher.AlphabetsAsWritten | backend/src/main/java/com/cryptolearn/backend/service/CipherService.java:23-24 | the alphabets are exactly A–Z and А–Я with Ё placed after Е |
| Cipher.AlphabetValid | backend/src/main/java/com/cryptolearn/backend/service/CipherService.java:23-24 | both alphabets are upper-case letters without repeats, so every letter has one position |
| Cipher.MaxShift | backend/src/main/java/com/cryptolearn/backend/service/CipherService.java:163 | the largest accepted shift is the alphabet length less one: 25 for English, 32 for Russian |
| Cipher.IndexOf | backend/src/main/java/com/cryptolearn/backend/service/CipherService.java:122 | `indexOf` is -1 exactly when the character is absent, and otherwise the first position holding it |
| Cipher.JavaRem | backend/src/main/java/com/cryptolearn/backend/service/CipherService.java:131 | Java's `%` lies strictly between -n and n and takes the sign of the dividend |
| Cipher.JavaRemFixup | backend/src/main/java/com/cryptolearn/backend/service/CipherService.java:131-134 | adding n to a negative Java remainder gives the mathematical residue modulo n |
| Cipher.ShiftedIndex | backend/src/main/java/com/cryptolearn/backend/service/CipherService.java:128-134 | the new index always lies in [0, n) and equals (index ± shift) mod n |
| Cipher.ProcessChar | backend/src/main/java/com/cryptolearn/backend/service/CipherService.java:120-138 | a character whose upper-case form is not in the alphabet comes back unchanged; a letter at index i becomes the letter at (i ± shift) mod n, lower-case exactly when the input was |
| Cipher.Transform | backend/src/main/java/com/cryptolearn/backend/service/CipherService.java:111-118 | the output is as long as the input, and character i is character i processed |
| Cipher.ProcessText | backend/src/main/java/com/cryptolearn/backend/service/CipherService.java:111-118 | the builder loop produces that character-wise transform |
| Cipher.ValidateInput | backend/src/main/java/com/cryptolearn/backend/service/CipherService.java:150-172 | input is accepted iff text and language are present and 1 ≤ shift ≤ alphabet length − 1; a missing text is reported before a missing language, and a bad shift is reported with the shift and the alphabet length |
| Cipher.Encrypt | backend/src/main/java/com/cryptolearn/backend/service/CipherService.java:43-47 | fails exactly when validation fails, with that error; otherwise returns the forward shift of the text |
| Cipher.Decrypt | backend/src/main/java/com/cryptolearn/backend/service/CipherService.java:49-53 | fails exactly when validation fails, with that error; otherwise returns the backward shift of the text |
| Cipher.ProcessCharRoundTrip | backend/src/main/java/com/cryptolearn/backend/service/CipherService.java:120-138 | for a character whose case mapping is a bijection on the alphabet, shifting one way and then the other gives the character back |
| Cipher.ShiftBack | backend/src/main/java/com/cryptolearn/backend/service/CipherService.java:128-134 | moving an index forward by the shift and then back (or back and then forward) returns it |
| Cipher.RoundTrip | backend/src/main/java/com/cryptolearn/backend/service/CipherService.java:43-53 | decrypting an encryption, and encrypting a decryption, give the text back when every character's case mapping is a bijection on the alphabet |
| Cipher.DotlessIBreaksRoundTrip | backend/src/main/java/com/cryptolearn/backend/service/CipherService.java:120-138 | the case condition is needed: `ı` encrypted by 1 and then decrypted comes back as `i` |
| Cipher.StepAt | backend/src/main/java/com/cryptolearn/backend/service/CipherService.java:65-105 | step i has step and character index i and the original character; it is skipped iff the upper-cased character is not in the alphabet; its processed character is output character i; its intermediate text is the processed prefix up to i followed by the untouched rest |
| Cipher.Trace | backend/src/main/java/com/cryptolearn/backend/service/CipherService.java:55-109 | the trace has exactly one step per character, step i being the step for position i |
| Cipher.BuildSteps | backend/src/main/java/com/cryptolearn/backend/service/CipherService.java:59-106 | the loop that rewrites the text in place and records a step per character yields that trace |
| Cipher.TraceStep | backend/src/main/java/com/cryptolearn/backend/service/CipherService.java:94-105 | one iteration keeps the in-place text equal to the processed prefix plus the untouched rest, and extends the recorded steps by the next trace step |
| Cipher.VisualizationSteps | backend/src/main/java/com/cryptolearn/backend/service/CipherService.java:55-109 | fails exactly when validation fails, with its error; otherwise returns the trace |
| Cipher.LastStepIsOutput | backend/src/main/java/com/cryptolearn/backend/service/CipherService.java:61-101 | the last step's intermediate text is the whole encrypted or decrypted text |
| CipherController.VisualizeCaesarCipher | backend/src/main/java/com/cryptolearn/backend/controller/CipherController.java:45-62 | fails only on a shift outside [1, max] (with that error); otherwise returns the service's steps unchanged, and the result text equals the direct encryption or decryption, whether it was read off the last step or computed because there were none |
| CipherController.Visualize | backend/src/main/java/com/cryptolearn/backend/controller/CipherController.java:39-62 | a body that breaks its field constraints is refused; a valid body fails iff the shift exceeds the alphabet's maximum, and otherwise gives one step per character of a non-empty text and the direct cipher output as result |
| CipherController.RequestConstraints | backend/src/main/java/com/cryptolearn/backend/dto/cipher/CipherRequest.java:14-26 | a body meeting the constraints has a text of 1 to 500 characters and passes the service's input check exactly when its shift is within the alphabet; a text of blanks and control characters only is refused |
| TaskService.RandomIn | backend/src/main/java/com/cryptolearn/backend/service/impl/TaskServiceImpl.java:126 | a bounded random draw stands for `nextInt(lo, hi + 1)` and always lies in [lo, hi] |
| TaskService.RandomInReaches | backend/src/main/java/com/cryptolearn/backend/service/impl/TaskServiceImpl.java:126 | every value of [lo, hi] is the outcome of some draw, so the model does not narrow the choice |
| TaskService.MaxPossibleKey | backend/src/main/java/com/cryptolearn/backend/service/impl/TaskServiceImpl.java:112 | the maximum key is at least 1, and it is the alphabet length less one for any alphabet longer than one letter |
| TaskService.StandardLengthRange | backend/src/main/java/com/cryptolearn/backend/service/impl/TaskServiceImpl.java:293-316 | the text-length range is 1–33 for EASY, 67–100 for HARD, and 34–66 for MEDIUM and the default branch |
| TaskService.TextLengthForStandardDifficulty | backend/src/main/java/com/cryptolearn/backend/service/impl/TaskServiceImpl.java:293-320 | the chosen length lies in its difficulty's range, and so within [1, 100] |
| TaskService.StandardKeyRange | backend/src/main/java/com/cryptolearn/backend/service/impl/TaskServiceImpl.java:322-352 | the key range always satisfies 1 ≤ low ≤ high ≤ max key; for a max key m ≥ 3 with p = m / 3 it is [1, p] for EASY, [p+1, 2p] for MEDIUM and the default, and [2p+1, m] for HARD |
| TaskService.StandardKeyRangesPartition | backend/src/main/java/com/cryptolearn/backend/service/impl/TaskServiceImpl.java:322-352 | with m ≥ 3 the three difficulty ranges split [1, m]: every key lies in exactly one |
| TaskService.KeyForStandardDifficulty | backend/src/main/java/com/cryptolearn/backend/service/impl/TaskServiceImpl.java:322-356 | a non-positive max key gives 1; otherwise the key lies in its difficulty's range, so within [1, max key] |
| TaskService.CustomLengthRange | backend/src/main/java/com/cryptolearn/backend/service/impl/TaskServiceImpl.java:115-125 | the custom length range always satisfies 1 ≤ min ≤ max ≤ 100; a requested minimum inside [1, 100] is kept, and so is a requested maximum between that minimum and 100 |
| TaskService.CustomKeyRange | backend/src/main/java/com/cryptolearn/backend/service/impl/TaskServiceImpl.java:117-137 | the custom key range satisfies 1 ≤ min ≤ max ≤ max key; in-range requested bounds are kept |
| TaskService.TaskParameters | backend/src/main/java/com/cryptolearn/backend/service/impl/TaskServiceImpl.java:101-153 | the task's text length lies in [1, 100] and its key in [1, alphabet length − 1]; both lie in the custom ranges for CUSTOM and in the standard ranges otherwise |
| TaskService.RandomLetters | backend/src/main/java/com/cryptolearn/backend/service/impl/TaskServiceImpl.java:372-376 | the fallback text is exactly `length` characters, each drawn from the alphabet |
| TaskService.GenerateText | backend/src/main/java/com/cryptolearn/backend/service/impl/TaskServiceImpl.java:358-428 | a non-positive length gives the empty text; the text is never longer than requested and is its own trim; every character is a space, an alphabet letter or a character of a word; without a word list it is exactly `length` alphabet letters |
| TaskService.LettersTrimmed | backend/src/main/java/com/cryptolearn/backend/service/impl/TaskServiceImpl.java:366-377 | a text of alphabet letters is unchanged by the final `trim` |
| TaskService.GenerateCaesarTask | backend/src/main/java/com/cryptolearn/backend/service/impl/TaskServiceImpl.java:100-192 | the store gains exactly the new task id and keeps every other entry; the stored answer is the key for FIND_KEY, the encryption of the source text for ENCRYPT_TEXT, and the source text (whose encryption is shown) for DECRYPT_TEXT; the source text is never longer than the chosen length |
| TaskService.AnswerString | backend/src/main/java/com/cryptolearn/backend/service/impl/TaskServiceImpl.java:212-231 | the stored answer reads as text exactly when its kind fits the task type (a key for FIND_KEY, a text otherwise); a mismatch is the failed cast |
| TaskService.VerifySolution | backend/src/main/java/com/cryptolearn/backend/service/impl/TaskServiceImpl.java:199-287 | an unknown task id gives "not found"; a stored answer of the wrong kind gives the internal error; an answer-only request returns the stored answer and is never correct; a solution is correct iff the key equals the stored key, or the trimmed, non-blank text equals the trimmed stored text ignoring case; the store is an argument only, so it never changes |
| TaskService.ExpectedAnswerAccepted | backend/src/main/java/com/cryptolearn/backend/service/impl/TaskServiceImpl.java:243-260 | submitting the answer just stored (the key, or a non-blank text) is accepted |
| TaskService.RevealGivesStoredAnswer | backend/src/main/java/com/cryptolearn/backend/service/impl/TaskServiceImpl.java:233-241 | an answer-only request reveals exactly the stored text, or a decimal string that parses back to the stored key, and is not marked correct |
| TaskParams.MaxPossibleKeyOf | frontend/src/pages/cipher/caesar/CaesarTaskPage.jsx:166-169 | the page's largest key is the cipher's largest shift: 32 for Russian, 25 for English, the same value the server computes |
| TaskParams.WithField | frontend/src/pages/cipher/caesar/CaesarTaskPage.jsx:236-257 | setting one custom-range field changes that field and leaves the other three as they were |
| TaskParams.InitialCustomParams | frontend/src/pages/cipher/caesar/CaesarTaskPage.jsx:171-176 | the initial custom ranges (1–100 for length, 1 to the largest key) satisfy the range invariant |
| TaskParams.EditedValue | frontend/src/pages/cipher/caesar/CaesarTaskPage.jsx:237-256 | an edited bound always lands in [1, its limit]; a number already in range is kept; unparsable input becomes that bound's default |
| TaskParams.EditPair | frontend/src/pages/cipher/caesar/CaesarTaskPage.jsx:244-257 | after an edit the edited field reads as the new value, and its partner is kept or moved to that value |
| TaskParams.EditPairKeepsValid | frontend/src/pages/cipher/caesar/CaesarTaskPage.jsx:244-256 | moving one bound of a valid pair to an in-range value keeps the pair valid (both bounds in range, min ≤ max) |
| TaskParams.CustomParamChange | frontend/src/pages/cipher/caesar/CaesarTaskPage.jsx:234-260 | an edit changes only its own pair (length or key); clearing a field empties it and leaves its partner alone |
| TaskParams.CustomParamChangeKeepsValid | frontend/src/pages/cipher/caesar/CaesarTaskPage.jsx:234-260 | any edit of any field keeps every bound within its limits and min ≤ max for both length and key |
| TaskParams.Reclamp | frontend/src/pages/cipher/caesar/CaesarTaskPage.jsx:262-274 | after a language switch both key bounds parse, and 1 ≤ min key ≤ max key ≤ the new largest key; the length bounds are untouched |
| TaskParams.ReclampKeepsValid | frontend/src/pages/cipher/caesar/CaesarTaskPage.jsx:262-274 | a language switch keeps the custom ranges valid, and key bounds already within the new maximum are kept |
| TaskParams.ClientLengthRange | frontend/src/pages/cipher/caesar/CaesarTaskPage.jsx:301-309 | the length range sent satisfies 1 ≤ min ≤ max ≤ 100, and in-range fields are sent as typed |
| TaskParams.ClientKeyRange | frontend/src/pages/cipher/caesar/CaesarTaskPage.jsx:304-313 | the key range sent satisfies 1 ≤ min ≤ max ≤ largest key, and in-range fields are sent as typed |
| TaskParams.GenerationParams | frontend/src/pages/cipher/caesar/CaesarTaskPage.jsx:299-315 | the request carries the language and difficulty; custom bounds are sent only for CUSTOM, and then they satisfy both range invariants |
| TaskParams.RequestFollowsFields | frontend/src/pages/cipher/caesar/CaesarTaskPage.jsx:299-315 | with valid, filled-in fields the request carries exactly the numbers in the fields |
| TaskParams.ServerKeepsClientRanges | frontend/src/pages/cipher/caesar/CaesarTaskPage.jsx:299-315 | the server's clamping of a custom request from the page changes nothing: it generates within exactly the ranges the page sent |
| TaskParams.KeySolutionChange | frontend/src/pages/cipher/caesar/CaesarTaskPage.jsx:457-467 | the typed key keeps only digits; it is empty iff no digit was typed; otherwise it reads as 0 for a literal "0" and as the digits' value clamped into [1, largest key] |
| TaskParams.KeyOfDigits | frontend/src/pages/cipher/caesar/CaesarTaskPage.jsx:461-466 | a non-empty digit string is shown as its value clamped into [1, largest key], with a lone "0" kept |
| TaskParams.SolutionTextChange | frontend/src/pages/cipher/caesar/CaesarTaskPage.jsx:469-473 | the text field keeps at most 150 characters, as a prefix of what was typed, and keeps short input whole |
| TaskParams.SolutionTextChangeIdempotent | frontend/src/pages/cipher/caesar/CaesarTaskPage.jsx:469-473 | capping the text twice is capping it once |
| TaskSession.FailureNotice | frontend/src/pages/cipher/caesar/CaesarTaskPage.jsx:325-329 | no response gives the network notice; a server message is shown as sent; otherwise the page's own generic notice |
| TaskSession.EffectiveMaxKey | frontend/src/pages/cipher/caesar/CaesarTaskPage.jsx:276-279 | the largest key follows the task's language when there is a task, and it is always between 1 and 32 |
| TaskSession.GenerateTask | frontend/src/pages/cipher/caesar/CaesarTaskPage.jsx:281-334 | a request is sent iff authentication has loaded and there is a token; otherwise the task is dropped, with a notice unless still loading; a sent request carries the page's parameters and clears the answers, result and memo (and the persisted slot on a user click); success shows and caches the task for its type, failure drops the task and that type's cache entry |
| TaskSession.ManageTaskState | frontend/src/pages/cipher/caesar/CaesarTaskPage.jsx:336-356 | nothing happens while authentication loads; signing out drops the task and the whole cache; a cached task of the route's type is shown with no call; otherwise a task is generated |
| TaskSession.GeneratedTaskIsReused | frontend/src/pages/cipher/caesar/CaesarTaskPage.jsx:316-350 | once a task has been generated, the effect keeps it on screen without another request |
| TaskSession.FailedGenerationRetries | frontend/src/pages/cipher/caesar/CaesarTaskPage.jsx:330-352 | after a failed generation the effect asks the server again |
| TaskSession.PrepareAnswer | frontend/src/pages/cipher/caesar/CaesarTaskPage.jsx:367-380 | a find-key answer succeeds iff the trimmed key is non-empty and numeric (with an "enter key" or "must be a number" notice otherwise), and is submitted clamped into [1, largest key] with the field rewritten to the clamped value; a text answer succeeds iff it is not blank and is submitted upper-cased and trimmed |
| TaskSession.KeyFieldReadsAsTrimmed | frontend/src/pages/cipher/caesar/CaesarTaskPage.jsx:369-371 | parsing the key field with or without its surrounding blanks gives the same number |
| TaskSession.PrepareIsStable | frontend/src/pages/cipher/caesar/CaesarTaskPage.jsx:367-380 | normalising an already normalised key changes nothing |
| TaskSession.SolutionPayload | frontend/src/pages/cipher/caesar/CaesarTaskPage.jsx:392-395 | the body carries the task id and "not answer-only", plus exactly one of the key or the text |
| TaskSession.Submit | frontend/src/pages/cipher/caesar/CaesarTaskPage.jsx:362-408 | without a task or token, or with an unusable answer, nothing is sent and a notice is shown; the same normalised answer for the same task after a verify reuses the memo with no call; otherwise the answer is sent, and a verdict is shown and memoised, while a failure clears the result and keeps the memo; the task, text, cache and slot never change |
| TaskSession.RepeatSubmitUsesMemo | frontend/src/pages/cipher/caesar/CaesarTaskPage.jsx:382-390 | submitting the same answer again right after a verdict makes no call and shows the same verdict |
| TaskSession.FailedSubmitKeepsMemo | frontend/src/pages/cipher/caesar/CaesarTaskPage.jsx:400-407 | a failed verification clears the result and keeps the memo |
| TaskSession.Reveal | frontend/src/pages/cipher/caesar/CaesarTaskPage.jsx:410-433 | without a task or token nothing is sent; a memoised reveal for this task is shown again with no call; otherwise the answer is requested, shown and memoised, while a failure clears the result and keeps the memo |
| TaskSession.RepeatRevealUsesMemo | frontend/src/pages/cipher/caesar/CaesarTaskPage.jsx:414-418 | asking for the answer twice calls the server once |
| TaskSession.TypedKeyIsSubmittedClamped | frontend/src/pages/cipher/caesar/CaesarTaskPage.jsx:362-376 | digits typed into the key field reach the server as their value clamped into [1, largest key] |
| TaskSession.ExpectedKeyIsAccepted | frontend/src/pages/cipher/caesar/CaesarTaskPage.jsx:362-399 | the task's own key, typed and submitted, is accepted by the server's comparison against its store |
| TaskSession.Persist | frontend/src/pages/cipher/caesar/CaesarTaskPage.jsx:207-217 | the persisted slot records the id of the task it belongs to exactly when there is a task |
| TaskSession.Restore | frontend/src/pages/cipher/caesar/CaesarTaskPage.jsx:187-205 | a slot brings back its answers and result (its memo only when it has one); no slot clears them |
| TaskSession.PersistThenRestore | frontend/src/pages/cipher/caesar/CaesarTaskPage.jsx:187-217 | persisting and then restoring brings back the text, key, result and memo |
| TaskSession.TaskIdChange | frontend/src/pages/cipher/caesar/CaesarTaskPage.jsx:219-231 | a new task id clears the result and memo unless the slot belongs to that id; losing the task clears them; the answers, task, slot and cache are untouched |
| TaskSession.ResultMessage | frontend/src/pages/cipher/caesar/CaesarTaskPage.jsx:479-488 | the result line is shown iff the slot belongs to the current task and there is a result; a revealed answer is informational, otherwise success or error by the verdict |
| TaskSession.ResultBelongsToTask | frontend/src/pages/cipher/caesar/CaesarTaskPage.jsx:219-231 | a result persisted for one task is never shown beside another |
| TaskSession.TypeKey | frontend/src/pages/cipher/caesar/CaesarTaskPage.jsx:457-467 | typing in the key field changes only that field; it is empty iff no digit was typed, and otherwise reads as a number in [0, largest key] |
| TaskSession.TypeSolution | frontend/src/pages/cipher/caesar/CaesarTaskPage.jsx:469-473 | typing in the text field changes only that field, to a prefix of the input of at most 150 characters |
| TaskSession.EditCustom | frontend/src/pages/cipher/caesar/CaesarTaskPage.jsx:234-260 | typing into a custom field keeps only its digits; with none the field is emptied; otherwise it reads as the digits' value clamped into [1, that bound's limit]; only the custom ranges change, and valid ranges stay valid |
| TaskSession.EditCustomReadsDigitsOnly | frontend/src/pages/cipher/caesar/CaesarTaskPage.jsx:521-538 | every custom field is filtered to digits before the change handler sees it: typing any text has the same effect as typing its digits |
| TaskSession.ChangeLanguage | frontend/src/pages/cipher/caesar/CaesarTaskPage.jsx:262-274 | switching language keeps the custom ranges valid against the new language's largest key |
| TaskSession.VisualizeLink | frontend/src/pages/cipher/caesar/CaesarTaskPage.jsx:435-455 | without a task there is no link and a notice; otherwise the link carries the task's language tag and the decrypt mode exactly for decrypt tasks, and a default-key notice exactly when a find-key or decrypt task has key 0 |
| TaskSession.LanguageName | frontend/src/pages/cipher/caesar/CaesarTaskPage.jsx:438 | the language tag put in the link is one the visualizer recognises as that language |
| TaskSession.LinkOpens | frontend/src/pages/cipher/caesar/CaesarTaskPage.jsx:437-454 | a link with a text, a language tag, a mode and an in-range key opens the visualizer on exactly those |
| TaskSession.VisualizerOpensTask | frontend/src/pages/cipher/caesar/CaesarTaskPage.jsx:435-455 | the visualizer opened from a task shows its text (the cipher text for a decrypt task), its language, the right mode, and its key ready to use |
| VisualizerSession.MaxKeyOfTag | frontend/src/pages/cipher/caesar/CaesarVisualizerPage.jsx:185-187 | the visualizer's largest key is the alphabet length less one, between 1 and 32 |
| VisualizerSession.CheckedShift | frontend/src/pages/cipher/caesar/CaesarVisualizerPage.jsx:184-192 | the shift field is accepted iff it is non-empty, parses, and lies in [1, largest key]; the accepted number is the parsed one |
| VisualizerSession.CheckedShiftPassesServer | frontend/src/pages/cipher/caesar/CaesarVisualizerPage.jsx:183-202 | a shift the page accepts is one the cipher service accepts for a known language |
| VisualizerSession.DefaultTag | frontend/src/pages/cipher/caesar/CaesarVisualizerPage.jsx:20-23 | the default language is EN exactly when the application language is English (resolved, or else the tag's primary subtag), and RU otherwise |
| VisualizerSession.FailureNotice | frontend/src/pages/cipher/caesar/CaesarVisualizerPage.jsx:211-221 | a failed call reports a network error when no response came, the server's message when it sent a non-empty one, and the page's generic processing error otherwise |
| VisualizerSession.CallEndpoint | frontend/src/pages/cipher/caesar/CaesarVisualizerPage.jsx:183-222 | the endpoint is called iff the shift checks out (else a key-range notice and nothing else); a call resets the page to 0; an answer replaces steps and result and becomes the memo of (text, language, numeric shift, direction); a failure only reports |
| VisualizerSession.Operate | frontend/src/pages/cipher/caesar/CaesarVisualizerPage.jsx:224-295 | the endpoint is called iff the user is signed in, the text is not blank, the shift is in range and the memo does not already answer the request; nothing happens while authentication loads; each refusal gives its notice; text, language and shift never change |
| VisualizerSession.RepeatUsesMemo | frontend/src/pages/cipher/caesar/CaesarVisualizerPage.jsx:243-255 | repeating a successful request makes no call and shows the same steps and result, whatever the endpoint would now answer |
| VisualizerSession.FailureKeepsResults | frontend/src/pages/cipher/caesar/CaesarVisualizerPage.jsx:211-221 | a failed call leaves the steps, result and memo as they were and reports the failure |
| VisualizerSession.AnswerShowsCipher | frontend/src/pages/cipher/caesar/CaesarVisualizerPage.jsx:196-210 | when the endpoint answers with the cipher's own trace, the page shows exactly the direct encryption or decryption of the text |
| VisualizerSession.ShiftChange | frontend/src/pages/cipher/caesar/CaesarVisualizerPage.jsx:349-372 | typing a shift changes only the shift; it is empty iff no digit was typed, and otherwise it is the digits' value clamped into [1, largest key] |
| VisualizerSession.ShiftChangeIdempotent | frontend/src/pages/cipher/caesar/CaesarVisualizerPage.jsx:349-372 | re-entering the shown shift leaves the session unchanged |
| VisualizerSession.LanguageChange | frontend/src/pages/cipher/caesar/CaesarVisualizerPage.jsx:443-454 | switching language changes the tag and clamps a numeric shift into [1, new largest key]; a non-numeric shift is left alone |
| VisualizerSession.LanguageChangeKeepsShiftValid | frontend/src/pages/cipher/caesar/CaesarVisualizerPage.jsx:443-454 | after a switch, a numeric shift is valid for the new language |
| VisualizerSession.Rows | frontend/src/pages/cipher/caesar/CaesarVisualizerPage.jsx:158-177 | the plain row is the alphabet; the shifted row is as long, is the alphabet itself for an invalid shift, and otherwise holds at i the letter (i + shift) mod n |
| VisualizerSession.RowsShowEncryption | frontend/src/pages/cipher/caesar/CaesarVisualizerPage.jsx:158-177 | under a valid shift, the letter below each alphabet letter is that letter's encryption |
| VisualizerSession.HydratedStepsPerPage | frontend/src/pages/cipher/caesar/CaesarVisualizerPage.jsx:92-95 | the steps-per-page size read at hydration is in [1, 10]: a stored number clamped, otherwise 3 |
| VisualizerSession.UrlKey | frontend/src/pages/cipher/caesar/CaesarVisualizerPage.jsx:76-86 | the link's key is kept, written back as its number, iff it parses to a number in [1, largest key]; otherwise the shift is empty |
| VisualizerSession.UrlLanguage | frontend/src/pages/cipher/caesar/CaesarVisualizerPage.jsx:70-73 | the link's alphabet, upper-cased, is used when it names a known alphabet; otherwise the default language |
| VisualizerSession.Hydrate | frontend/src/pages/cipher/caesar/CaesarVisualizerPage.jsx:62-115 | link parameters win: text, known alphabet, mode (decrypt only when asked) and acceptable key are taken, and steps, result, page and memo are cleared; otherwise a persisted slot is restored field by field; otherwise only the default language is set |
| VisualizerSession.PersistThenHydrate | frontend/src/pages/cipher/caesar/CaesarVisualizerPage.jsx:97-132 | reloading without link parameters restores the persisted session exactly, apart from the size, which has its own storage |
| VisualizerSession.Persist | frontend/src/pages/cipher/caesar/CaesarVisualizerPage.jsx:117-132 | the persisted slot records the session's memo, page and steps |
| VisualizerSession.PersistForgetsOnlySize | frontend/src/pages/cipher/caesar/CaesarVisualizerPage.jsx:117-132 | two sessions persist alike exactly when they differ at most in the steps-per-page size and its field |
| VisualizerSession.UrlKeyIsAccepted | frontend/src/pages/cipher/caesar/CaesarVisualizerPage.jsx:76-86 | a key taken from the link passes the page's own shift check with the linked number |
| VisualizerSession.InRangeKeyKept | frontend/src/pages/cipher/caesar/CaesarVisualizerPage.jsx:76-86 | a key in [1, largest key] written out survives the link and checks as itself |
| VisualizerSession.Reset | frontend/src/pages/cipher/caesar/CaesarVisualizerPage.jsx:297-313 | reset empties text, shift, steps and result, restores the default language, encrypt mode, page 0, size 3 and no memo, empties the persisted slot, and clears the address bar exactly when it had parameters |
| VisualizerSession.ResetIsQuiet | frontend/src/pages/cipher/caesar/CaesarVisualizerPage.jsx:297-313 | after a reset no button reaches the endpoint until text is typed, and a second reset changes nothing |
| ClientCipher.BeforeDash | frontend/src/pages/cipher/caesar/CaesarVisualizerPage.jsx:21 | the primary subtag is the longest prefix without a dash, ending at the first dash |
| ClientCipher.AppLanguageIs | frontend/src/pages/cipher/caesar/CaesarVisualizerPage.jsx:21 | the application language is a given two-letter code exactly when the resolved language is, or, with none resolved, when the tag's primary subtag is |
| ClientCipher.ShiftedAlphabet | frontend/src/pages/cipher/caesar/CaesarExamplePage.jsx:100-110 | the rotated row is as long as the alphabet and holds at i the letter (i + key) mod n, whatever the key's sign |
| ClientCipher.RotationIndex | frontend/src/pages/cipher/caesar/CaesarExamplePage.jsx:107 | JavaScript's (i + key % n + n) % n is the mathematical (i + key) mod n |
| ClientCipher.ShiftedRowEncrypts | frontend/src/pages/cipher/caesar/CaesarExamplePage.jsx:100-110 | the rotated row's letter at i is the cipher's encryption of the alphabet's letter at i |
| ExamplePage.ExampleLanguage | frontend/src/pages/cipher/caesar/CaesarExamplePage.jsx:18-24 | the example is in Russian exactly when the application language is "ru" (resolved, or else the tag's primary subtag) |
| ExamplePage.ExampleStepAt | frontend/src/pages/cipher/caesar/CaesarExamplePage.jsx:32-64 | step i has index i and the original character; it is skipped iff the upper-cased character is not in the alphabet, and a skipped character is kept with the non-alphabetic explanation |
| ExamplePage.CaseTestsAgree | frontend/src/pages/cipher/caesar/CaesarExamplePage.jsx:45 | the page's case test (equal to its upper-case form) and the service's (not lower-case) agree on every character |
| ExamplePage.ExampleCharIsCipherChar | frontend/src/pages/cipher/caesar/CaesarExamplePage.jsx:41-56 | each processed character is the cipher service's encryption of the original with key 3 |
| ExamplePage.BuildExample | frontend/src/pages/cipher/caesar/CaesarExamplePage.jsx:17-77 | the example has one step per character, key 3 and the language's alphabet, and its result is the encryption of the word with key 3 |
| ExamplePage.ExampleMatchesTrace | frontend/src/pages/cipher/caesar/CaesarExamplePage.jsx:31-64 | each example step agrees with the service's trace step for the same position: index, characters, skipped flag, explanation and letter positions |
| ExamplePage.SyncSizeInput | frontend/src/pages/cipher/caesar/CaesarExamplePage.jsx:89-98 | after the effect the size field reads as the stored size, and a field that already reads as it is left as typed |
| Paging.TotalPagesBounds | frontend/src/hooks/usePagination.js:24-28 | with a positive size, the page count is 0 iff there are no items, and it is the ceiling of items over size |
| Paging.ClampPage | frontend/src/hooks/usePagination.js:30-38 | the page is moved into [0, pages − 1], or to 0 when there are no pages; a page already in range stays |
| Paging.ClampPagesAgree | frontend/src/pages/cipher/caesar/CaesarVisualizerPage.jsx:322-330 | the pages' own re-clamp agrees with the hook's, and clamping twice is clamping once |
| Paging.GoToPage | frontend/src/hooks/usePagination.js:58-66 | an index among the pages is taken; any other index is ignored, except page 0 when there are no pages |
| Paging.ChangePage | frontend/src/pages/cipher/caesar/CaesarVisualizerPage.jsx:316-320 | a page change moves to the index exactly when it is among the pages |
| Paging.NavigationKeepsClamped | frontend/src/hooks/usePagination.js:30-66 | navigating from a clamped page never leaves the range |
| Paging.SliceIndex | frontend/src/hooks/usePagination.js:42-45 | JavaScript's slice bounds always land inside the sequence |
| Paging.JsSlice | frontend/src/hooks/usePagination.js:42-45 | a slice is never longer than the sequence |
| Paging.PageItemsContents | frontend/src/hooks/usePagination.js:40-46 | the shown items are at most a page's worth, and they are the items from p·k on |
| Paging.ItemOnItsPage | frontend/src/hooks/usePagination.js:24-46 | every item appears on page i / k, at position i mod k, and that page exists |
| Paging.TotalPages | frontend/src/hooks/usePagination.js:24-28 | for a positive size the page count is never negative and is 0 exactly when there are no items; a negative size gives no pages |
| Paging.PageItems | frontend/src/hooks/usePagination.js:40-46 | a page holds no more items than the list, and no more than the page size |
| Paging.SummarySpan | frontend/src/pages/admin/AdminUserListPage.jsx:271-272 | the label's end never exceeds the total; with no users it starts at 0, and for a page in range of a non-empty list it starts at 1 or more |
| Paging.SpanMatchesItems | frontend/src/hooks/usePagination.js:40-56 | on a page in range the 1-based label runs from the first shown item to the last, and the hook's, the pages' and the admin list's labels agree |
| Paging.ValidItemsPerPage | frontend/src/hooks/usePagination.js:14-22 | the hook's page size always lies in [min, max]; unparsable or too small input gives the clamped initial size; in-range input is used as typed |
| Paging.CommitPageSize | frontend/src/pages/cipher/caesar/CaesarVisualizerPage.jsx:378-396 | a committed size lies in [lo, hi]: blank or unparsable gives lo, in-range input is kept, too large gives hi; the field then shows the size, and the page resets only when the size changed |
| Paging.CommitsAgree | frontend/src/pages/cipher/caesar/CaesarExamplePage.jsx:154-169 | the example page's commit, without the blank check, agrees with the visualizer's |
| Paging.BlankIsNaN | frontend/src/pages/cipher/caesar/CaesarVisualizerPage.jsx:380 | a blank entry never parses, so the blank check adds nothing |
| Paging.JsParseIntOfIntToString | frontend/src/pages/cipher/caesar/CaesarVisualizerPage.jsx:388 | a number written out parses back to itself |
| Paging.CommitIdempotent | frontend/src/pages/cipher/caesar/CaesarVisualizerPage.jsx:378-396 | committing what the field shows after a commit changes nothing |
| Paging.TypePageSize | frontend/src/pages/cipher/caesar/CaesarVisualizerPage.jsx:398-411 | while typing, the field shows the typed digits, or the maximum in their place |
| Paging.TypePageSizeNormalized | frontend/src/pages/cipher/caesar/CaesarExamplePage.jsx:171-191 | while typing on the example page, the field is empty exactly when no digit was typed |
| Paging.TypingThenCommit | frontend/src/pages/cipher/caesar/CaesarVisualizerPage.jsx:398-411 | the typed field holds digits only, never reads above the maximum, and commits to the same size the raw digits would |
| Paging.TypingNormalizedThenCommit | frontend/src/pages/cipher/caesar/CaesarExamplePage.jsx:171-191 | the same holds for the example page's normalised field |
| Paging.NormalizeStoredSize | frontend/src/pages/admin/AdminUserListPage.jsx:45-64 | a size read from storage lies in [lo, hi]: an in-range number is kept, a non-number gives the default |
| Paging.NormalizeSettles | frontend/src/pages/admin/AdminUserListPage.jsx:45-64 | a normalised size written back reads as itself |
| PaginationControls.Interval | frontend/src/components/common/PaginationControls.jsx:34-36 | a run of page buttons lo..hi holds exactly those pages, in order, and is empty when lo > hi |
| PaginationControls.IntervalHas | frontend/src/components/common/PaginationControls.jsx:64-70 | a page is in the run iff it lies between its ends, and a run holds no ellipsis |
| PaginationControls.Siblings | frontend/src/components/common/PaginationControls.jsx:40 | the pages shown on each side of the current one leave room for the first, last and current buttons, and are none for four buttons or fewer |
| PaginationControls.BuildPageNumbers | frontend/src/components/common/PaginationControls.jsx:31-82 | the component's pushes, with their bounds and `includes` checks, build exactly the closed-form row: every page when they fit, otherwise first page, optional ellipsis, the window, optional ellipsis, last page |
| PaginationControls.BuildWindowRow | frontend/src/components/common/PaginationControls.jsx:38-81 | the pushes for more pages than buttons build exactly the assembled window row |
| PaginationControls.PushRange | frontend/src/components/common/PaginationControls.jsx:64-70 | the middle loop appends the window pages that lie between the second and the second-to-last page, and only those |
| PaginationControls.Dedup | frontend/src/components/common/PaginationControls.jsx:84-99 | the final pass drops repeated pages and ellipses that follow an ellipsis, keeps every page, adds nothing, and leaves a row that already has neither untouched |
| PaginationControls.Render | frontend/src/components/common/PaginationControls.jsx:4-133 | nothing is rendered iff there are no pages; previous is disabled on page 0 and next on the last page (or both when the whole control is); the buttons are the closed-form row |
| PaginationControls.PageRequested | frontend/src/components/common/PaginationControls.jsx:22-124 | previous asks for the page before, next for the page after, a page button for its own page, an ellipsis for nothing |
| PaginationControls.AppendWithin | frontend/src/components/common/PaginationControls.jsx:64-81 | joining two increasing pieces over adjacent page ranges, with no ellipsis on both sides of the seam, stays increasing with no adjacent ellipses |
| PaginationControls.HeadAndMiddle | frontend/src/components/common/PaginationControls.jsx:38-70 | the first page, left ellipsis and window are increasing, below the last page, with no adjacent ellipses |
| PaginationControls.AssembleShape | frontend/src/components/common/PaginationControls.jsx:38-81 | the assembled row starts at the first page, ends at the last, is strictly increasing with distinct pages and no adjacent ellipses |
| PaginationControls.Assemble | frontend/src/components/common/PaginationControls.jsx:38-81 | the assembled row starts with the first page and, with two pages or more, ends with the last |
| PaginationControls.RowShape | frontend/src/components/common/PaginationControls.jsx:33-82 | the same holds for every row with at least two pages |
| PaginationControls.PageRow | frontend/src/components/common/PaginationControls.jsx:33-82 | when the pages fit, the row is exactly pages 0 to n − 1 with no ellipsis; otherwise it starts with the first page |
| PaginationControls.RowOfOnePage | frontend/src/components/common/PaginationControls.jsx:33-82 | with a single page and fewer than one button allowed, the row is the first page, possibly followed by one ellipsis |
| PaginationControls.WindowFacts | frontend/src/components/common/PaginationControls.jsx:40-58 | the window lies between the second and the second-to-last page and fits in two buttons fewer than allowed; the ellipsis flags are the comparisons with the siblings count |
| PaginationControls.EllipsisRules | frontend/src/components/common/PaginationControls.jsx:41-77 | the second button is an ellipsis iff the current page is beyond the first siblings, and the second-to-last iff it is before the last siblings |
| PaginationControls.AssembleCount | frontend/src/components/common/PaginationControls.jsx:38-81 | the assembled row has two pages more than its window, and shows the first, the last and every window page |
| PaginationControls.RowFitsAndShowsCurrent | frontend/src/components/common/PaginationControls.jsx:33-82 | for a page in range and at least three buttons, the row never has more page buttons than allowed and always shows the current page |
| InputUtils.DigitsOf | frontend/src/utils/inputUtils.js:28-31 | what is kept is digits only and never longer than the input |
| InputUtils.SanitizeNumericInput | frontend/src/utils/inputUtils.js:28-31 | a non-string gives the empty string; a string gives its digits, in order |
| InputUtils.DigitsOfAppend | frontend/src/utils/inputUtils.js:30 | filtering distributes over concatenation |
| InputUtils.DigitsOfCounts | frontend/src/utils/inputUtils.js:30 | every digit keeps its count and every other character is removed: the result is the input's digits as a multiset |
| InputUtils.DigitsOfFixedIff | frontend/src/utils/inputUtils.js:30 | the filter leaves a string unchanged iff it is all digits |
| InputUtils.DigitsOfIdempotent | frontend/src/utils/inputUtils.js:28-31 | sanitising twice is sanitising once |
| InputUtils.DigitRangeIff | frontend/src/utils/inputUtils.js:4 | the string comparison `key >= '0' && key <= '9'` accepts exactly the keys starting with 0..8 and the key "9" |
| InputUtils.KeyAllowed | frontend/src/utils/inputUtils.js:1-26 | a single digit is always let through; any other single character without a modifier is stopped; the copy/paste/undo shortcuts with Ctrl or Meta and the control keys pass |
| InputUtils.ShortcutIsLower | frontend/src/utils/inputUtils.js:17 | the shortcut letters are their own lower case, so the comparison after lower-casing matches them |
| InputUtils.FunctionKeyAllowed | frontend/src/utils/inputUtils.js:21-23 | every function key F followed by a number passes |
| Passwords.IsPasswordComplex | frontend/src/utils/validationUtils.js:1-14 | a missing or empty password, or one shorter than 8 or longer than 128 characters, is refused |
| Passwords.IsPasswordComplexEnough | backend/src/main/java/com/cryptolearn/backend/service/impl/UserServiceImpl.java:397-409 | a missing password, or one shorter than 8 or longer than 128 characters, is refused |
| Passwords.ClientServerAgree | backend/src/main/java/com/cryptolearn/backend/service/impl/UserServiceImpl.java:397-409 | the browser's check and the server's agree on every password, and both accept exactly the 8..128-character passwords with an upper-case letter, a lower-case letter, a digit and a listed special character |
| LocalStorage.Init | frontend/src/hooks/useLocalStorage.js:4-23 | the hook starts from the initial value when the key is unset; otherwise from the stored text parsed, or the bare word light/dark for the theme key, or the initial value when parsing fails |
| LocalStorage.SetValue | frontend/src/hooks/useLocalStorage.js:25-35 | setting stores the new value (or the updater applied to the current one) under the key, serialised, and touches no other key |
| LocalStorage.OnStorageEvent | frontend/src/hooks/useLocalStorage.js:37-58 | an event for another key changes nothing; one for the key takes the parsed new value, or the initial value on removal or a parse failure |
| LocalStorage.SetThenInit | frontend/src/hooks/useLocalStorage.js:4-35 | a value whose serialisation parses back is what a hook on the same key starts from after it is set |
| LocalStorage.SetThenEvent | frontend/src/hooks/useLocalStorage.js:25-58 | another tab's hook on the same key receives exactly the value that was set |
| LocalStorage.InitReadsOnlyItsKey | frontend/src/hooks/useLocalStorage.js:4-23 | the starting value depends only on the entry under the hook's own key |
| LocalStorage.EventAgreesWithInit | frontend/src/hooks/useLocalStorage.js:4-58 | an event leaves the hook in the state a fresh hook would start in over the changed storage, except for a bare theme word |
| LocalStorage.BareThemeOnlyAtInit | frontend/src/hooks/useLocalStorage.js:13-49 | a bare `light`/`dark` under the theme key is accepted when the hook starts but replaced by the initial value when it arrives in an event |
| Notifications.NewNotification | frontend/src/contexts/NotificationContext.jsx:36-60 | a new notification is visible and carries its id, kind and duration; text content becomes the message with no key, keyed content becomes the key and its parameters with no message, and anything else becomes the fixed invalid-content message |
| Notifications.AddNotification | frontend/src/contexts/NotificationContext.jsx:62-83 | adding appends exactly one notification after the existing ones, in order, and leaves those already leaving untouched |
| Notifications.MarkOldestVisible | frontend/src/contexts/NotificationContext.jsx:66-80 | marking the k oldest visible notifications removes exactly the first k from the visible ones |
| Notifications.MarkOldestAt | frontend/src/contexts/NotificationContext.jsx:71-79 | a notification is marked iff it was visible and fewer than k visible ones come before it; nothing else about it changes |
| Notifications.MarkOldest | frontend/src/contexts/NotificationContext.jsx:66-80 | marking keeps every position of the queue (what happens at each is `MarkOldestAt`) |
| Notifications.VisibleAtRank | frontend/src/contexts/NotificationContext.jsx:66 | a visible notification stands in the visible list at its rank among the visible ones |
| Notifications.RankOfVisible | frontend/src/contexts/NotificationContext.jsx:66 | every entry of the visible list is some visible notification at that rank |
| Notifications.AddMarksOldest | frontend/src/contexts/NotificationContext.jsx:62-83 | adding is appending and then marking the oldest visible ones beyond three |
| Notifications.AddMarksOldestAt | frontend/src/contexts/NotificationContext.jsx:66-80 | with distinct ids, looking up the ids of the k oldest visible entries picks an entry exactly when it is visible with rank below k |
| Notifications.AddKeepsThreeVisible | frontend/src/contexts/NotificationContext.jsx:62-83 | after adding, the visible notifications are the newest min(visible, 3) of those before marking, the new one last |
| Notifications.MarkOldestNonPositive | frontend/src/contexts/NotificationContext.jsx:67 | when nothing is beyond the limit, no notification is marked |
| Notifications.VisibleAppend | frontend/src/contexts/NotificationContext.jsx:66 | the visible list of an appended queue is the old visible list followed by the new notification when it is visible |
| Notifications.MarkForRemoval | frontend/src/contexts/NotificationContext.jsx:26-34 | marking an id flags exactly the notifications with that id (and those already flagged) and changes nothing else |
| Notifications.RemoveContents | frontend/src/contexts/NotificationContext.jsx:18-24 | removal keeps exactly the notifications whose id differs |
| Notifications.RemoveNotification | frontend/src/contexts/NotificationContext.jsx:18-24 | removal never lengthens the queue, leaves no entry with the id, and shortens it when some entry had the id |
| Notifications.RemoveAbsent | frontend/src/contexts/NotificationContext.jsx:18-24 | removing an id no notification has changes nothing |
| Notifications.RemoveAppend | frontend/src/contexts/NotificationContext.jsx:18-24 | removal distributes over appending one notification |
| Notifications.AddThenRemove | frontend/src/contexts/NotificationContext.jsx:18-83 | with fewer than three visible, adding a notification with a fresh id and removing that id restores the queue |
| AdminEditModal.ResetFor | frontend/src/components/admin/AdminEditUserModal.jsx:17-34 | opening on a user fills name and e-mail (missing ones as empty), clears both password fields and remembers name and e-mail as the initial values; with no user the form is empty and nothing is remembered |
| AdminEditModal.Edit | frontend/src/components/admin/AdminEditUserModal.jsx:36-160 | typing never changes the initial values; editing one's own account changes nothing (the inputs are disabled); otherwise the typed field takes the value cut to its maxLength (50, 100, 128, 128) and every other field is unchanged |
| AdminEditModal.CheckPassword | frontend/src/components/admin/AdminEditUserModal.jsx:55-69 | with both password fields empty nothing is sent; otherwise the checks fail in order (new password required, confirmation required, shorter than 8, mismatch, not complex) and only a password passing all of them is sent |
| AdminEditModal.SentPasswordIsServerComplex | frontend/src/components/admin/AdminEditUserModal.jsx:55-69 | a password the dialog sends passes the server's complexity check and its 8..128 length bounds |
| AdminEditModal.Changed | frontend/src/components/admin/AdminEditUserModal.jsx:48-53 | a field is sent iff initial values exist and it differs from its initial value, and then with its current value |
| AdminEditModal.Save | frontend/src/components/admin/AdminEditUserModal.jsx:44-130 | the browser blocks the submit iff the inputs are enabled and the name is empty, the e-mail is empty or the e-mail is malformed; otherwise saving is refused with the password check's error iff that check fails; otherwise it saves to the edited user's id iff some field changed, sending exactly the changed fields and the checked password, and closes otherwise |
| AdminEditModal.UntouchedFormCloses | frontend/src/components/admin/AdminEditUserModal.jsx:17-130 | saving a dialog just opened closes it without sending anything, except that the browser blocks it when the user has no name, no e-mail or a malformed e-mail |
| AdminEditModal.OwnDialogCloses | frontend/src/components/admin/AdminEditUserModal.jsx:44-156 | an administrator's own dialog, whose inputs are disabled, is never blocked by the browser and closes when saved at once |
| AdminEditModal.NewNameIsSent | frontend/src/components/admin/AdminEditUserModal.jsx:44-130 | typing a new name that fits and saving sends that name and nothing else, unless the name was emptied or the e-mail is refused, when the browser blocks the submit |
| AdminEditModal.RevertedNameIsNotSent | frontend/src/components/admin/AdminEditUserModal.jsx:48-50 | typing back the initial name means no name is sent |
| AdminUserList.FailureNotice | frontend/src/pages/admin/AdminUserListPage.jsx:88-99 | a call with no response reports a network error; a server message is shown as it is; otherwise a 403 is access denied where the caller checks for it, and the caller's own message is used for anything else |
| AdminUserList.NormalizeStoredSize | frontend/src/pages/admin/AdminUserListPage.jsx:45-64 | the size used lies in [1, 100]: a stored number in range is kept and not rewritten, a non-number becomes 10 and is rewritten, out-of-range numbers are clamped; it is written back iff it differs from what is stored; the field reads as the size |
| AdminUserList.NormalizeSettles | frontend/src/pages/admin/AdminUserListPage.jsx:45-64 | once its write-back is stored, the effect runs again without changing the size, storage or the field |
| AdminUserList.FetchUsers | frontend/src/pages/admin/AdminUserListPage.jsx:66-108 | while authentication loads only the loading flag is set; a page replaces rows, totals and page number and clears the error, and a size the server changed is stored when it differs from both the requested and the current size; a failure empties the list, zeroes the totals and reports and keeps the error; size, sort and field never change |
| AdminUserList.ApplyPageSizeChange | frontend/src/pages/admin/AdminUserListPage.jsx:117-136 | a committed size lies in [1, 100]; an in-range entry is taken, an unparsable one gives 1; the field reads as the size; the page returns to 0 iff the size changed, and nothing else changes |
| AdminUserList.ApplyPageSizeChangeIdempotent | frontend/src/pages/admin/AdminUserListPage.jsx:117-136 | committing twice is committing once |
| AdminUserList.TypePageSize | frontend/src/pages/admin/AdminUserListPage.jsx:138-149 | typing changes only the field, which holds digits only and never reads above 100 |
| AdminUserList.TypeThenCommit | frontend/src/pages/admin/AdminUserListPage.jsx:117-149 | typing anything and committing gives 1 when no digit was typed and otherwise the digits' value clamped into [1, 100] |
| AdminUserList.PageSizeKeyDown | frontend/src/pages/admin/AdminUserListPage.jsx:155-161 | Enter commits the field; every other key leaves the list as it is |
| AdminUserList.RequestSort | frontend/src/pages/admin/AdminUserListPage.jsx:167-174 | a click sorts by the clicked column, descending exactly when that column was the ascending sort, and returns to page 0, changing nothing else |
| AdminUserList.HeaderClick | frontend/src/pages/admin/AdminUserListPage.jsx:261-333 | clicking a sortable header requests that sort; the actions header does nothing |
| AdminUserList.SortToggles | frontend/src/pages/admin/AdminUserListPage.jsx:167-174 | clicking the active column flips its direction, and three clicks equal one |
| AdminUserList.SortIndicator | frontend/src/pages/admin/AdminUserListPage.jsx:176-181 | a marker appears exactly on the sorted column: ▲ when ascending and ▼ when descending |
| AdminUserList.IndicatorFollowsClick | frontend/src/pages/admin/AdminUserListPage.jsx:167-181 | after a click only the clicked column is marked, with ▼ exactly when it had been ascending |
| AdminUserList.ConfirmDelete | frontend/src/pages/admin/AdminUserListPage.jsx:236-259 | without a target nothing happens; otherwise the dialog closes; a success announces the deleted user and fetches the previous page exactly when the only row of a later page went, and the same page otherwise, with the same size and sort; a failure reports and fetches nothing |
| AdminUserList.DeleteLandsOnARow | frontend/src/pages/admin/AdminUserListPage.jsx:236-259 | after a successful delete from a full page, the page fetched next still holds a row unless no user is left |
| AdminUserList.SaveUser | frontend/src/pages/admin/AdminUserListPage.jsx:205-223 | the dialog closes either way; a success announces the user by the new name when a non-empty one was sent, else the old name, and fetches the same page; a failure reports and fetches nothing |
| AdminUserList.ButtonsAgree | frontend/src/pages/admin/AdminUserListPage.jsx:339-360 | the edit and delete buttons, written differently, are disabled alike: each is enabled exactly on someone else's non-administrator row while nothing loads |
| AdminUserList.EditDisabled | frontend/src/pages/admin/AdminUserListPage.jsx:352 | the edit button is disabled exactly while loading, on an administrator's row, or on the viewer's own row |
| AdminUserList.DeleteDisabled | frontend/src/pages/admin/AdminUserListPage.jsx:360 | the delete button is enabled only when nothing loads and the row is someone else's without the administrator role |
| AdminUserList.SummaryCountsRows | frontend/src/pages/admin/AdminUserListPage.jsx:271-272 | with no users the label reads 0 to 0; for a page with rows it starts at page·size + 1, ends within the total and counts exactly the rows the page holds |
| AdminUserList.Summary | frontend/src/pages/admin/AdminUserListPage.jsx:271-272 | the label's end never exceeds the total; with no users it starts at 0, and for a page in range it starts at 1 or more |
| AdminUserList.ViewOf | frontend/src/pages/admin/AdminUserListPage.jsx:274-318 | the loading face shows iff authentication loads or a first load is under way; the error face only with no rows and an error; the table only with rows; the empty message only with no rows, no load and no error |
| Accounts.ReplaceKeepsConsistent | backend/src/main/java/com/cryptolearn/backend/service/impl/UserServiceImpl.java:100-120 | saving a row under its own id keeps names and e-mails unique when the new ones are the old ones or free |
| Accounts.UpdateProfile | backend/src/main/java/com/cryptolearn/backend/service/impl/UserServiceImpl.java:92-144 | an unknown user is not found; a requested name that has text, differs and is taken is refused, then likewise the e-mail; otherwise the profile takes exactly the requested new values, is saved iff it changed, and a principal of this user is rebuilt from it |
| Accounts.UpdateProfileSettles | backend/src/main/java/com/cryptolearn/backend/service/impl/UserServiceImpl.java:92-144 | a successful update keeps the tables consistent, and the same request again changes and saves nothing |
| Accounts.ChangePassword | backend/src/main/java/com/cryptolearn/backend/service/impl/UserServiceImpl.java:148-165 | an unknown user is not found; then the checks fail in order (current password does not match, new equals current, new is not complex enough); a change that passes them all stores only the encoded new password of that user |
| Accounts.NewPasswordBecomesCurrent | backend/src/main/java/com/cryptolearn/backend/service/impl/UserServiceImpl.java:148-165 | after a change, with an encoder that matches its own hashes, the new password passes the current-password check and the tables stay consistent |
| Accounts.DeleteAccount | backend/src/main/java/com/cryptolearn/backend/service/impl/UserServiceImpl.java:170-228 | an unknown user is not found; without an authenticated caller it fails; otherwise it succeeds iff the caller deletes themself or is an administrator deleting a non-administrator, removing the user and all their refresh and reset tokens, and is otherwise refused with the administrator or plain access-denied message |
| Accounts.MayDelete | backend/src/main/java/com/cryptolearn/backend/service/impl/UserServiceImpl.java:182-211 | a user may always delete their own account; another account only as an administrator and only when the target holds no administrator role |
| Accounts.DeleteRemovesEverything | backend/src/main/java/com/cryptolearn/backend/service/impl/UserServiceImpl.java:170-228 | after a delete the tables are consistent, the user and every token of theirs are gone, and every other user is still there |
| Accounts.AdminCheck | backend/src/main/java/com/cryptolearn/backend/service/impl/UserServiceImpl.java:244-278 | an edit is let through iff the caller is an administrator, the target is no other administrator, and a self-edit keeps its roles, does not disable itself and sets no password; each refusal is access denied, non-administrators and other administrators with their own messages |
| Accounts.FieldFailure | backend/src/main/java/com/cryptolearn/backend/service/impl/UserServiceImpl.java:283-336 | the field checks fail in order: the new name taken, the new e-mail taken, no role name with text, an unknown role, a weak password; none fails iff none applies |
| Accounts.ApplyFields | backend/src/main/java/com/cryptolearn/backend/service/impl/UserServiceImpl.java:281-336 | the field updates fail iff a check fails, with that failure; otherwise the row takes the trimmed new name and e-mail, the requested roles with text, the requested flag and the encoded password, and counts as changed iff it differs or a password was set |
| Accounts.UpdateUserByAdmin | backend/src/main/java/com/cryptolearn/backend/service/impl/UserServiceImpl.java:232-357 | an unknown target is not found; an unauthenticated caller fails; a forbidden edit is access denied; an allowed edit whose field checks fail returns the first field failure; one that passes returns the profile of the updated user, saves iff some field actually changed, replaces the target's row under the same id, and rebuilds the caller's principal from the saved user exactly when the caller edited their own account and sent a name or e-mail differing from the principal's |
| Accounts.SameValuesSaveNothing | backend/src/main/java/com/cryptolearn/backend/service/impl/UserServiceImpl.java:281-356 | an allowed edit that sends the target's own name, e-mail and enabled flag and nothing else saves nothing, returns the target unchanged and keeps the caller's authentication |
| Accounts.MayEdit | backend/src/main/java/com/cryptolearn/backend/service/impl/UserServiceImpl.java:244-278 | only an administrator may edit; on another account iff it holds no administrator role; on their own account iff the request keeps their roles, does not disable them and sets no password |
| Accounts.Applied | backend/src/main/java/com/cryptolearn/backend/service/impl/UserServiceImpl.java:281-337 | applying the fields keeps the id; an empty request changes nothing; without a new password the hash is kept; with requested roles, every new role is one requested and has a name with text; without an enabled flag the flag is kept |
| Accounts.AdminEditKeepsConsistent | backend/src/main/java/com/cryptolearn/backend/service/impl/UserServiceImpl.java:232-357 | a successful administrator edit keeps names and e-mails unique |
| Accounts.BlankRolesRejected | backend/src/main/java/com/cryptolearn/backend/service/impl/UserServiceImpl.java:303-307 | an allowed edit that sends only blank role names, leaving name and e-mail alone, is refused with the empty-roles message |
| Accounts.OwnNamePaddedIsTaken | backend/src/main/java/com/cryptolearn/backend/service/impl/UserServiceImpl.java:283-287 | as written, sending one's own name with surrounding spaces is refused as a taken name |
| Accounts.PaddedOwnNameFails | backend/src/main/java/com/cryptolearn/backend/service/impl/UserServiceImpl.java:283-287 | as written, the padded own name fails the field checks as taken, by the user being edited |
| Accounts.PaddedNameExample | backend/src/main/java/com/cryptolearn/backend/service/impl/UserServiceImpl.java:283-284 | "alice " differs from "alice" but trims to it |
| Accounts.OwnNamePaddedIsKept | backend/src/main/java/com/cryptolearn/backend/service/impl/UserServiceImpl.java:283-291 | comparing the trimmed name, the same request is no change: it succeeds, saves nothing and leaves the tables alone |
| AuthController.RegisterUser | backend/src/main/java/com/cryptolearn/backend/controller/AuthController.java:75-106 | a taken name is answered 400 first, then a taken e-mail, both leaving the tables alone; with no user role in the table registration throws; otherwise exactly one enabled user holding only the user role, with the encoded password, is added and 201 answered |
| AuthController.RegisteredUserLoads | backend/src/main/java/com/cryptolearn/backend/controller/AuthController.java:75-106 | after a registration the tables stay consistent and the new user loads by name as an enabled principal with exactly the user authority |
| AuthController.RefreshToken | backend/src/main/java/com/cryptolearn/backend/controller/AuthController.java:140-160 | an unknown refresh token is refused as not found; an expired one is refused as expired; one whose user is missing is refused; otherwise an access token is issued for exactly the token's user; the tables are never changed, because the failing service call rolls back the expired token's deletion |
| AuthController.ExpiredRetryRefusedAgain | backend/src/main/java/com/cryptolearn/backend/service/RefreshTokenService.java:76-84 | an expired token, once refused, is still stored, so any later retry is refused as expired again rather than as unknown |
| AuthController.LiveTokenRefreshes | backend/src/main/java/com/cryptolearn/backend/controller/AuthController.java:140-160 | on consistent tables, a token handed out at log-in refreshes for its user until it expires |
| AuthController.CurrentUserId | backend/src/main/java/com/cryptolearn/backend/controller/AuthController.java:235-247 | only a principal of this application yields an id; any other caller throws the fetch-failed illegal state |
| AuthController.CurrentUsername | backend/src/main/java/com/cryptolearn/backend/controller/AuthController.java:220-233 | there is no name exactly for no authentication and the anonymous user |
| AuthController.EndSession | backend/src/main/java/com/cryptolearn/backend/controller/AuthController.java:172-175 | the steps after the caller is known succeed iff the user exists, delete every refresh token of theirs, clear the context and answer 200 |
| AuthController.LoggedOutTokenRefused | backend/src/main/java/com/cryptolearn/backend/controller/AuthController.java:140-175 | after a log-out, every refresh token the user held is refused as unknown |
| AuthController.LogoutAsWritten | backend/src/main/java/com/cryptolearn/backend/controller/AuthController.java:162-176 | as written, every caller without a principal of this application fails the id lookup; an authenticated one is logged out |
| AuthController.LogoutUnauthorizedUnreachable | backend/src/main/java/com/cryptolearn/backend/controller/AuthController.java:162-176 | as written, an unauthenticated or anonymous caller gets the 400 of the illegal-state handler, and no successful log-out ever answers 401 |
| AuthController.Logout | backend/src/main/java/com/cryptolearn/backend/controller/AuthController.java:162-176 | with the name checked first, an unauthenticated or anonymous caller gets the 401 reply and nothing changes, a foreign principal fails the id lookup, and an authenticated one is logged out |
| AuthController.LogoutAgreesWhenAuthenticated | backend/src/main/java/com/cryptolearn/backend/controller/AuthController.java:162-176 | the corrected and the as-written log-out agree on every caller with a principal, and differ exactly where the 401 was meant to apply |
| AuthController.RequestPasswordReset | backend/src/main/java/com/cryptolearn/backend/controller/AuthController.java:178-201 | the reply is always the same success message; when a mail is requested it carries the new reset token of the user found, by name first and by e-mail next, and the tables are those after creating it; an unknown identifier changes nothing |
| AuthController.ResetRequestRevealsNothing | backend/src/main/java/com/cryptolearn/backend/controller/AuthController.java:178-201 | two requests get the same reply whatever identifiers they name and whatever the tables hold |
| AuthController.ResetPassword | backend/src/main/java/com/cryptolearn/backend/controller/AuthController.java:203-218 | an invalid reset token fails with the validation's error; a success sets the owner's password to the encoded new one, deletes that token and nothing else; on consistent tables every valid token succeeds |
| AuthController.ResetTokenIsSingleUse | backend/src/main/java/com/cryptolearn/backend/controller/AuthController.java:203-218 | a reset token that worked is unknown the next time |
| Tokens.CreateOrUpdateRefreshToken | backend/src/main/java/com/cryptolearn/backend/service/RefreshTokenService.java:50-74 | an unknown user is not found; otherwise the user's old refresh token goes and exactly one new token is stored under the new value, expiring the duration after now, with every other user's tokens and the other tables kept; the call fails only when another user's token already holds the value |
| Tokens.CreateRefreshKeepsConsistent | backend/src/main/java/com/cryptolearn/backend/service/RefreshTokenService.java:50-74 | a new refresh token keeps the tables consistent |
| Tokens.VerifyExpiration | backend/src/main/java/com/cryptolearn/backend/service/RefreshTokenService.java:76-84 | a token past its expiry is refused as expired, and the tables are unchanged because the transaction rolls back its deletion; any other token is returned with the tables untouched |
| Tokens.ExpiryIsInclusive | backend/src/main/java/com/cryptolearn/backend/service/RefreshTokenService.java:78-81 | a token is still good at its expiry instant; one instant later it is refused and stays stored, so a later check refuses it as expired again |
| Tokens.DeleteRefreshByUserId | backend/src/main/java/com/cryptolearn/backend/service/RefreshTokenService.java:86-100 | an unknown user is not found; otherwise the user has no refresh token afterwards, the count is 1 iff there was one, and every other token and table is kept |
| Tokens.DeleteRefreshSettles | backend/src/main/java/com/cryptolearn/backend/service/RefreshTokenService.java:86-100 | a second deletion for the same user finds no token, reports 0 and changes nothing |
| Tokens.CreatePasswordResetToken | backend/src/main/java/com/cryptolearn/backend/service/PasswordResetTokenService.java:39-54 | every earlier reset token of the user goes and exactly one new token is stored, expiring the duration after now, other users' tokens and the other tables kept; it fails only when another user's token holds the value |
| Tokens.ValidatePasswordResetToken | backend/src/main/java/com/cryptolearn/backend/service/PasswordResetTokenService.java:56-68 | an unknown token is not found, an expired one is refused as expired, and a token good until at least now yields its owner |
| Tokens.DeleteResetToken | backend/src/main/java/com/cryptolearn/backend/service/PasswordResetTokenService.java:70-76 | no token is a no-op; a token is removed and nothing else changes |
| Tokens.DeleteResetTokenByValue | backend/src/main/java/com/cryptolearn/backend/service/PasswordResetTokenService.java:78-82 | afterwards no reset token has the value, and every other token and table is unchanged |
| Tokens.DeleteByValueIdempotent | backend/src/main/java/com/cryptolearn/backend/service/PasswordResetTokenService.java:78-82 | deleting a value twice is deleting it once |
| Tokens.ResetTokenLifecycle | backend/src/main/java/com/cryptolearn/backend/service/PasswordResetTokenService.java:39-82 | a new reset token validates for its owner up to its expiry, is refused as expired after it, and is unknown once deleted; creating it keeps the tables consistent |
| UserDetails.LoadUserByUsername | backend/src/main/java/com/cryptolearn/backend/service/impl/UserDetailsServiceImpl.java:35-57 | loading fails, with the identifier-not-found message, iff no user has the identifier as name or e-mail; otherwise it yields the principal of some stored user |
| UserDetails.LoadUserById | backend/src/main/java/com/cryptolearn/backend/service/impl/UserDetailsServiceImpl.java:59-70 | loading by id fails iff no user has the id, and otherwise yields the principal of a stored user with that id |
| UserDetails.UsernameBeatsEmail | backend/src/main/java/com/cryptolearn/backend/service/impl/UserDetailsServiceImpl.java:39-44 | when one user's name is another's e-mail, the name wins |
| UserDetails.StoredUsersLoad | backend/src/main/java/com/cryptolearn/backend/service/impl/UserDetailsServiceImpl.java:35-70 | with unique names, e-mails and ids, a stored user loads by id and by name as its own principal, and by e-mail when no name equals it |
| UserStore.Find | backend/src/main/java/com/cryptolearn/backend/service/impl/UserServiceImpl.java:84-88 | the lookup finds the first user with the key, and finds none only when no user has it |
| UserStore.Lookup | backend/src/main/java/com/cryptolearn/backend/controller/AuthController.java:183-185 | a user is found iff one has the key, and the one found has it |
| UserStore.FindUnique | backend/src/main/java/com/cryptolearn/backend/service/impl/UserServiceImpl.java:84-88 | with unique keys, the user with the key is the one found |
| UserStore.DropTokensOf | backend/src/main/java/com/cryptolearn/backend/service/impl/UserServiceImpl.java:216-224 | deleting a user's tokens keeps exactly the other users' tokens, unchanged |
| UserStore.RemoveAtKeepsUnique | backend/src/main/java/com/cryptolearn/backend/service/impl/UserServiceImpl.java:226 | removing a user keeps the keys unique, the removed id is gone and every other id is still there |
| Roles.RoleNamesDistinct | backend/src/main/java/com/cryptolearn/backend/model/Role.java:19-20 | the user and administrator role names differ |
| Roles.Equals | backend/src/main/java/com/cryptolearn/backend/model/Role.java:29-38 | a role equals itself; null and other classes are unequal; two other roles with real (set, non-zero) ids are equal iff the ids are, otherwise iff the names are |
| Roles.Wrap32 | backend/src/main/java/com/cryptolearn/backend/model/Role.java:41-43 | the wrapped value is a Java int congruent to the unbounded one modulo 2^32 |
| Roles.StringHash | backend/src/main/java/com/cryptolearn/backend/model/Role.java:41-43 | the name's hash is a Java int congruent modulo 2^32 to the unbounded polynomial sum of 31^k times its characters |
| Roles.HashCode | backend/src/main/java/com/cryptolearn/backend/model/Role.java:41-43 | a role without a name hashes to 31; one with a name to a Java int congruent modulo 2^32 to 31 plus its name's polynomial |
| Roles.SameNameSameHash | backend/src/main/java/com/cryptolearn/backend/model/Role.java:41-43 | roles with the same name have the same hash code |
| Roles.EqualsReflexiveSymmetric | backend/src/main/java/com/cryptolearn/backend/model/Role.java:29-38 | equality as written is reflexive and symmetric |
| Roles.EqualsHashInconsistent | backend/src/main/java/com/cryptolearn/backend/model/Role.java:29-43 | two roles with the same id and different names are equal but hash differently |
| Roles.EqualsNotTransitive | backend/src/main/java/com/cryptolearn/backend/model/Role.java:29-38 | a role without an id equals two roles of its name with different ids, which are not equal to each other |
| Roles.EqualsByName | backend/src/main/java/com/cryptolearn/backend/model/Role.java:29-43 | equality by name alone: null and other classes are unequal, and two roles are equal iff their names are |
| Roles.EqualsByNameIsEquivalence | backend/src/main/java/com/cryptolearn/backend/model/Role.java:29-43 | name equality is reflexive, symmetric and transitive, and equal roles hash alike |
| Roles.AgreeOnStoredRoles | backend/src/main/java/com/cryptolearn/backend/model/Role.java:29-38 | where ids and names determine each other, as for stored roles, the two equalities agree |
| ExceptionHandler.Localize | backend/src/main/java/com/cryptolearn/backend/exception/handler/GlobalExceptionHandler.java:196-210 | no key reads as the fixed unknown-error text; a known key as its message; an unknown key as the key itself |
| ExceptionHandler.LocalizeFieldErrors | backend/src/main/java/com/cryptolearn/backend/exception/handler/GlobalExceptionHandler.java:47-55 | every field error is listed, in order, with its field and its localised message |
| ExceptionHandler.HandleValidation | backend/src/main/java/com/cryptolearn/backend/exception/handler/GlobalExceptionHandler.java:42-76 | a failed validation is a 400 whose message is the first field error's, else the first global error's, else the generic validation text; the field errors are listed iff there are any |
| ExceptionHandler.Handle | backend/src/main/java/com/cryptolearn/backend/exception/handler/GlobalExceptionHandler.java:78-194 | every failure gets its class's status and reason phrase; not-found, token, submission and bad-request failures carry their own message; a constraint violation, failed authentication, denied access and the unexpected read as fixed texts; only validation failures list field errors |
| ExceptionHandler.StatusOf | backend/src/main/java/com/cryptolearn/backend/exception/handler/GlobalExceptionHandler.java:78-194 | the status is 404 exactly for a missing resource, 403 for a refused token or denied access, 401 for bad credentials or failed authentication, 500 for an unexpected error, and 400 for every other class |
| ExceptionHandler.StatusTable | backend/src/main/java/com/cryptolearn/backend/exception/handler/GlobalExceptionHandler.java:78-194 | 404 exactly for a missing resource, 403 for a refused token or access, 401 for failed authentication, 500 for the unexpected, 400 for everything else |
| ExceptionHandler.NoEcho | backend/src/main/java/com/cryptolearn/backend/exception/handler/GlobalExceptionHandler.java:117-194 | failed authentication, denied access, unexpected errors and constraint violations answer the same whatever their own messages say |
| ExceptionHandler.FirstFieldErrorListed | backend/src/main/java/com/cryptolearn/backend/exception/handler/GlobalExceptionHandler.java:47-73 | with field errors, all are listed and the message is the first one listed |
| Converters.LanguageValueOf | backend/src/main/java/com/cryptolearn/backend/converter/StringToLanguageConverter.java:14 | a name gives a language exactly when it is that language's constant name |
| Converters.DifficultyValueOf | backend/src/main/java/com/cryptolearn/backend/converter/StringToTaskDifficultyConverter.java:14 | a name gives a difficulty exactly when it is that difficulty's constant name |
| Converters.TaskTypeValueOf | backend/src/main/java/com/cryptolearn/backend/converter/StringToCaesarTaskTypeConverter.java:16 | a name gives a task type exactly when it is that type's constant name |
| Converters.TaskTypeOfRoute | backend/src/main/java/com/cryptolearn/backend/converter/StringToCaesarTaskTypeConverter.java:18-24 | a route word gives a task type exactly when it is that type's route word |
| Converters.NamesDistinct | backend/src/main/java/com/cryptolearn/backend/converter/StringToCaesarTaskTypeConverter.java:18-24 | no two constants share a name and no two task types share a route word |
| Converters.CodesDistinct | backend/src/main/java/com/cryptolearn/backend/converter/StringToLanguageConverter.java:16-19 | no text is both of the three-letter codes, whatever its case |
| Converters.ConvertLanguage | backend/src/main/java/com/cryptolearn/backend/converter/StringToLanguageConverter.java:12-23 | a trimmed, upper-cased constant name converts to its language; any success is that or a three-letter code matched without case; a refusal carries the message naming the input |
| Converters.ConvertDifficulty | backend/src/main/java/com/cryptolearn/backend/converter/StringToTaskDifficultyConverter.java:12-18 | a difficulty results exactly when the trimmed, upper-cased text is its name; otherwise the refusal names the input |
| Converters.ConvertTaskType | backend/src/main/java/com/cryptolearn/backend/converter/StringToCaesarTaskTypeConverter.java:12-30 | a trimmed, upper-cased constant name converts to its type; any success is that or the trimmed, lower-cased route word |
| Converters.CodeConverts | backend/src/main/java/com/cryptolearn/backend/converter/StringToLanguageConverter.java:15-20 | text that names no constant but matches a code without case converts to the code's language |
| Converters.RouteConverts | backend/src/main/java/com/cryptolearn/backend/converter/StringToCaesarTaskTypeConverter.java:17-24 | text that names no constant but lower-cases to a route word converts to that type |
| Converters.OthersRefusedLanguage | backend/src/main/java/com/cryptolearn/backend/converter/StringToLanguageConverter.java:21 | text that is no name and no code is refused with the message naming it |
| Converters.OthersRefusedTaskType | backend/src/main/java/com/cryptolearn/backend/converter/StringToCaesarTaskTypeConverter.java:25-27 | text that is no name and no route word is refused with the message naming it |
| Converters.LanguageNameRoundTrip | backend/src/main/java/com/cryptolearn/backend/converter/StringToLanguageConverter.java:12-23 | every language's name converts back to it |
| Converters.DifficultyNameRoundTrip | backend/src/main/java/com/cryptolearn/backend/converter/StringToTaskDifficultyConverter.java:12-18 | every difficulty's name converts back to it |
| Converters.TaskTypeNameRoundTrip | backend/src/main/java/com/cryptolearn/backend/converter/StringToCaesarTaskTypeConverter.java:12-30 | every task type's name converts back to it |
| Converters.LanguageCodeConverts | backend/src/main/java/com/cryptolearn/backend/converter/StringToLanguageConverter.java:16-19 | each three-letter code, upper or lower case, converts to its language |
| Converters.TaskTypeRouteConverts | backend/src/main/java/com/cryptolearn/backend/converter/StringToCaesarTaskTypeConverter.java:18-24 | every route word converts to its task type |
| Converters.RouteIsNoName | backend/src/main/java/com/cryptolearn/backend/converter/StringToCaesarTaskTypeConverter.java:13-18 | a route word upper-cased is no constant name, so the route branch is the one that decides |
| Converters.LanguageCaseIgnored | backend/src/main/java/com/cryptolearn/backend/converter/StringToLanguageConverter.java:14 | a language name written in lower case converts too |
| Converters.DifficultyCaseIgnored | backend/src/main/java/com/cryptolearn/backend/converter/StringToTaskDifficultyConverter.java:14 | a difficulty name written in lower case converts too |
| Converters.TaskTypeCaseIgnored | backend/src/main/java/com/cryptolearn/backend/converter/StringToCaesarTaskTypeConverter.java:13 | a task-type name written in lower case converts too |
| Converters.LanguageTrimIgnored | backend/src/main/java/com/cryptolearn/backend/converter/StringToLanguageConverter.java:12-23 | texts that trim alike convert alike |
| Converters.DifficultyTrimIgnored | backend/src/main/java/com/cryptolearn/backend/converter/StringToTaskDifficultyConverter.java:12-18 | texts that trim alike convert alike |
| Converters.TaskTypeTrimIgnored | backend/src/main/java/com/cryptolearn/backend/converter/StringToCaesarTaskTypeConverter.java:12-30 | texts that trim alike convert alike |
| JwtFilter.ParseJwt | backend/src/main/java/com/cryptolearn/backend/security/jwt/JwtAuthFilter.java:73-79 | a token is read iff the header is present and starts with exactly "Bearer ", and the header is then that prefix followed by the token |
| JwtFilter.PrefixHasText | backend/src/main/java/com/cryptolearn/backend/security/jwt/JwtAuthFilter.java:75 | a header with the prefix always has text, so the text test decides nothing |
| JwtFilter.DoFilter | backend/src/main/java/com/cryptolearn/backend/security/jwt/JwtAuthFilter.java:36-71 | the request always goes on; the context changes only for a token the utility accepts whose claim names an id, and then to the principal of a stored user with that id; such a token naming a stored user always authenticates as them |
| JwtFilter.BearerRoundTrip | backend/src/main/java/com/cryptolearn/backend/security/jwt/JwtAuthFilter.java:73-79 | "Bearer " followed by a token yields that token |
| JwtFilter.SchemeIsCaseSensitive | backend/src/main/java/com/cryptolearn/backend/security/jwt/JwtAuthFilter.java:75 | "bearer " and "BEARER " yield no token |
| JwtFilter.NoTokenNoChange | backend/src/main/java/com/cryptolearn/backend/security/jwt/JwtAuthFilter.java:42-70 | no token, a refused token, an unreadable or missing id, or an id no user has leaves the context as it came |
| JwtFilter.FilterAuthenticatesTokenOwner | backend/src/main/java/com/cryptolearn/backend/security/jwt/JwtAuthFilter.java:45-58 | a valid bearer token naming a stored user authenticates as exactly that user, with their role names as authorities |
| AdminSort.Rewritten | backend/src/main/java/com/cryptolearn/backend/controller/AdminController.java:50-56 | an order on `roles`, in any case, becomes an order on `username` in the same direction; every other order is kept; no order is left on roles |
| AdminSort.RewriteOrders | backend/src/main/java/com/cryptolearn/backend/controller/AdminController.java:46-57 | the loop rewrites every order in place and reports whether any was on roles |
| AdminSort.EffectivePageable | backend/src/main/java/com/cryptolearn/backend/controller/AdminController.java:42-67 | page and size are kept; no order gives `username` ascending; otherwise each order is rewritten in place; a request with no order on roles is passed on as it came; nothing on roles is left |
| AdminSort.EffectiveIdempotent | backend/src/main/java/com/cryptolearn/backend/controller/AdminController.java:45-63 | rewriting the rewritten request changes nothing |
| AdminSort.RolesBecomesUsername | backend/src/main/java/com/cryptolearn/backend/controller/AdminController.java:49-63 | a request ordered only by roles is served ordered by username in the same direction |
| AdminSort.OrdersKeepPlace | backend/src/main/java/com/cryptolearn/backend/controller/AdminController.java:49-57 | every order keeps its position and direction; only the roles property is renamed |
| ClientServer.EnabledDeleteIsPermitted | frontend/src/pages/admin/AdminUserListPage.jsx:356-360 | a delete button the list enables, clicked by an administrator, is a delete the server permits and carries out |
| ClientServer.EnabledEditIsPermitted | frontend/src/pages/admin/AdminUserListPage.jsx:348-353 | an edit button the list enables opens an edit the server's permission checks let through, whatever the form sends |
| ClientServer.OwnRowStricterThanServer | frontend/src/pages/admin/AdminUserListPage.jsx:360 | the server would let a user delete their own account, but the list never enables that button |
| ClientServer.RequestOf | frontend/src/services/adminService.js:4-13 | the list's fetch arrives as one order on the column key, in its direction, with the page and size it asked for |
| ClientServer.RolesColumnServedByUsername | frontend/src/pages/admin/AdminUserListPage.jsx:167-174 | clicking the roles header gives a request the server serves from page 0, ordered by username in the clicked direction |
| ClientServer.LanguageTagConverts | frontend/src/pages/cipher/caesar/CaesarTaskPage.jsx:299 | the language tag the practice page sends converts back to that language on the server |
| Strings.UpperLetterCases | backend/src/main/java/com/cryptolearn/backend/service/CipherService.java:150-172 | an upper-case letter of either alphabet is its own upper case, and its lower case is a lower-case letter that upper-cases back to it |
| Strings.TrimEmptyIff | backend/src/main/java/com/cryptolearn/backend/service/impl/TaskServiceImpl.java:256 | a string trims to empty exactly when every character is whitespace |
| Strings.TrimIdempotent | backend/src/main/java/com/cryptolearn/backend/service/impl/TaskServiceImpl.java:427 | trimming twice is trimming once |
| Strings.JavaTrimFacts | backend/src/main/java/com/cryptolearn/backend/converter/StringToLanguageConverter.java:14-18 | Java `trim` never lengthens, leaves no blank or control character at either end, yields nothing exactly when nothing else was there, and keeps whole a string with no such character at either end |
| Strings.NatToStringRoundTrip | backend/src/main/java/com/cryptolearn/backend/service/impl/TaskServiceImpl.java:216 | the decimal digits a number is written with read back as that number |
| Strings.NatToStringInjective | backend/src/main/java/com/cryptolearn/backend/service/impl/TaskServiceImpl.java:216 | two numbers are written alike exactly when they are equal |
| Strings.ParseSignedIntToString | backend/src/main/java/com/cryptolearn/backend/service/impl/TaskServiceImpl.java:216-252 | a key written out as text parses back to the same key, sign included |
| Strings.ParseIntOfNatToString | frontend/src/pages/cipher/caesar/CaesarVisualizerPage.jsx:387-388 | JavaScript's parseInt reads a number written out by String back as itself |
| Strings.DigitPrefix | frontend/src/pages/cipher/caesar/CaesarVisualizerPage.jsx:185 | parseInt reads the longest run of leading digits and stops at the first non-digit |
| Strings.JsParseIntFacts | frontend/src/pages/cipher/caesar/CaesarVisualizerPage.jsx:184 | `parseInt` of the empty string is NaN; of a string starting with a digit, a non-negative number; of one starting with anything but whitespace, a sign or a digit, NaN |

## Left out

- Network, HTTP and JSON: remote calls are outcome parameters, and JSON encoding and decoding in the local-storage hook is a codec parameter. `JSON.parse` throwing on malformed text is modelled as the codec's `parse` answering `None`, which leads to the hook's catch branches. A `setItem` failure (a full or unavailable storage) is not modelled: the setter always writes.
- React scheduling: effects, state batching, `setTimeout` and asynchronous ordering are written as explicit transitions applied in the order the page runs them. Notification auto-hide timers are a transition the caller fires.
- Rendering: markup, CSS, translations and date formatting are left out. Messages are modelled as message keys, not as localised text, and the argument formatting done by `getLocalizedMessage` is not modelled.
- Floating point: JavaScript numbers are modelled as mathematical integers, and `parseInt` yields an integer or NaN (`None`). Precision loss on very long digit strings is not modelled.
- String lengths count UTF-16 code units on both sides: JavaScript's `length` and `slice`, and Java's `length()`, `toCharArray()` and `String.hashCode()`. The model counts characters. The two agree for every character of the Basic Multilingual Plane, which includes both alphabets. A character outside it, such as an emoji, is two units in the program but one character in the model: it gives two trace steps in the service (one in `Cipher.Trace`), two units toward the 500-character text limit and the 8–128 password bounds, and a different `Roles.StringHash`.
- Unicode case mapping outside the English and Russian alphabets (apart from the two characters Java maps into A–Z) is not modelled, nor is locale-dependent casing.
- Transactions: a failing service call is modelled as a `Failure` that leaves the stores as they were, which is what rollback gives. In particular the expired refresh token that `verifyExpiration` deletes before throwing stays stored.
- The database's unique token column is modelled as a `DataIntegrity` failure when a generated value is already stored.
- Bean validation is modelled for the cipher request only (`CipherController.RequestValid`, from the constraints on `CipherRequest`, with `CipherController.RequestConstraints` stating what they leave to the service). The constraints on the other request bodies are not modelled: registration, log-in, refresh, password reset, profile update, password change, the admin edit and task generation. Their handlers are modelled as receiving whatever the body holds. The reset-password handler itself checks nothing about the new password, and neither does the model.
- Login (`authenticateUser`, AuthController.java lines 108-138) is left out, because it delegates to Spring's authentication manager.
- The JWT utility and the password encoder are parameters. Signatures, expiry claims and hashing are not modelled.
- UUID generation, randomness and the clock are parameters.
- Loading the word list from its resource file is not modelled: the list is a parameter.
- Sending e-mail for password reset is not modelled.
- The `ignoreCase` and null-handling flags of Spring's `Sort.Order` are not modelled. Only direction and property are kept.
- `@PageableDefault` and Spring's pageable argument resolver are not modelled: the request reaches `getAllUsers` already built.
- Spring's wrapping of exceptions thrown by converters (into a conversion failure) is not modelled. The converter's own failure is returned.
- A user with a null role collection is not modelled: roles are always a set of role names. Role names stand in for `Role` objects; `Roles.AgreeOnStoredRoles` shows why `HashSet<Role>`'s id-or-name equality is the same as name equality on stored roles.
- The browser enforces an input's `maxLength` itself. The model truncates to the limit instead.
- AdminEditModal.Save: whether a text is a well-formed e-mail address is the browser's rule and a parameter, and the browser's stripping of surrounding whitespace from an e-mail input's value is not modelled. The `minLength` of the name input adds nothing beyond `required`.

## Findings

| source | as written | input that shows it | evidently intended | confidence | as-written member | corrected member |
|---|---|---|---|---|---|---|
| backend/src/main/java/com/cryptolearn/backend/model/Role.java:29-43 | `equals` compares ids when both are set and names otherwise, while `hashCode` hashes the name only | roles (id 1, "A") and (id 1, "B") are equal but hash differently; a role with no id equals both (id 1, "A") and (id 2, "A"), which differ | equal roles hash alike, and equality is an equivalence | high, not executed | Roles.EqualsHashInconsistent | Roles.EqualsByNameIsEquivalence |
| backend/src/main/java/com/cryptolearn/backend/service/impl/UserServiceImpl.java:283-287 | the uniqueness check compares the untrimmed new username with the stored one, then stores the trimmed one | user "alice" submitting "alice " is refused with `error.username.taken` | the user's own name, once trimmed, is not taken | medium, not executed | Accounts.OwnNamePaddedIsTaken | Accounts.OwnNamePaddedIsKept |
| backend/src/main/java/com/cryptolearn/backend/controller/AuthController.java:162-176 | `getCurrentUserId` runs before the check for a missing user name | an unauthenticated logout gets 400 from the illegal-state exception, never the 401 branch | an unauthenticated logout is answered 401 | high, not executed | AuthController.LogoutUnauthorizedUnreachable | AuthController.LogoutAgreesWhenAuthenticated |

=== FILE: accounts.dfy ===
/** The user service's account operations: a user's own profile and
    password changes, deleting an account, and an administrator's edit of
    any user. Each either throws (a `Failure`, after which the transaction
    leaves the tables as they were) or returns its result with the tables
    after it. The security context is an input and, where the service
    rebuilds it, an output. */
module Accounts {
  import opened Common
  import opened Strings
  import opened Passwords
  import opened Failures
  import opened UserStore
  import opened UserDetails
  import Roles

  /** The password encoder: `encode` hashes a raw password (with a salt of
      its own), `matches` checks a raw password against a stored hash. */
  datatype Encoder = Encoder(encode: string -> string, matches: (string, string) -> bool)

  predicate IsAdmin(p: Principal) {
    Roles.ADMIN in p.authorities
  }

  predicate HoldsAdminRole(u: User) {
    Roles.ADMIN in u.roles
  }

  /** The outcome of an update that did not throw: the tables after it, the
      profile it returns, whether the user row was saved, and the security
      context after it. */
  datatype Updated = Updated(db: Db, profile: User, saved: bool, auth: Auth)

  /** A principal of the saved user is rebuilt from the saved row. */
  function Refreshed(auth: Auth, u: User): Auth {
    if auth.Authenticated? && auth.principal.id == u.id then Authenticated(Build(u)) else auth
  }

  /** Replacing a user's row by one with the same id keeps the columns
      unique when the new name and e-mail are the old ones or free. */
  lemma ReplaceKeepsConsistent(db: Db, i: nat, v: User)
    requires Consistent(db) && i < |db.users| && v.id == db.users[i].id
    requires v.username == db.users[i].username || !Exists(db.users, ByUsername(v.username))
    requires v.email == db.users[i].email || !Exists(db.users, ByEmail(v.email))
    ensures Consistent(db.(users := Replace(db.users, i, v)))
  {
    var users := Replace(db.users, i, v);
    forall id | Exists(db.users, ById(id))
      ensures Exists(users, ById(id))
    {
      var j := Find(db.users, ById(id)).value;
      assert Matches(users[j], ById(id));
    }
  }

  // ---------------------------------------------------------------------
  // A user's own profile

  datatype ProfileUpdate = ProfileUpdate(username: Option<string>, email: Option<string>)

  /** A requested name or e-mail is a change when it has text and differs
      from the stored value. */
  predicate Requests(value: Option<string>, current: string) {
    HasText(value) && value.value != current
  }

  /** `updateUserProfile`: a requested name, then a requested e-mail, must
      not belong to any user; the row is saved only when something
      changes, and then a principal of this user is rebuilt. */
  function UpdateProfile(db: Db, userId: int, dto: ProfileUpdate, auth: Auth): (r: Result<Updated, Failure>)
    ensures !Exists(db.users, ById(userId)) ==> r == Failure(ResourceNotFound("error.resource.notfound"))
    ensures Exists(db.users, ById(userId)) ==>
      var i := Find(db.users, ById(userId)).value;
      var u := db.users[i];
      var nameTaken := Requests(dto.username, u.username) && Exists(db.users, ByUsername(dto.username.value));
      var emailTaken := Requests(dto.email, u.email) && Exists(db.users, ByEmail(dto.email.value));
      && (r == Failure(IllegalArgument("error.username.taken")) <==> nameTaken)
      && (r == Failure(IllegalArgument("error.email.taken")) <==> !nameTaken && emailTaken)
      && (r.Success? <==> !nameTaken && !emailTaken)
      && (r.Success? ==>
            && r.value.profile.id == userId
            && r.value.profile.username == (if Requests(dto.username, u.username) then dto.username.value else u.username)
            && r.value.profile.email == (if Requests(dto.email, u.email) then dto.email.value else u.email)
            && r.value.profile == u.(username := r.value.profile.username, email := r.value.profile.email)
            && (r.value.saved <==> r.value.profile != u)
            && (r.value.saved ==>
                  r.value.db == db.(users := Replace(db.users, i, r.value.profile))
                  && r.value.auth == Refreshed(auth, r.value.profile))
            && (!r.value.saved ==> r.value.db == db && r.value.auth == auth))
  {
    match Find(db.users, ById(userId))
    case None => Failure(ResourceNotFound("error.resource.notfound"))
    case Some(i) =>
      var u := db.users[i];
      if Requests(dto.username, u.username) && Exists(db.users, ByUsername(dto.username.value)) then
        Failure(IllegalArgument("error.username.taken"))
      else if Requests(dto.email, u.email) && Exists(db.users, ByEmail(dto.email.value)) then
        Failure(IllegalArgument("error.email.taken"))
      else
        var v := u.(username := if Requests(dto.username, u.username) then dto.username.value else u.username,
                    email := if Requests(dto.email, u.email) then dto.email.value else u.email);
        if !Requests(dto.username, u.username) && !Requests(dto.email, u.email) then
          Success(Updated(db, u, false, auth))
        else
          Success(Updated(db.(users := Replace(db.users, i, v)), v, true, Refreshed(auth, v)))
  }

  /** A profile update keeps the tables consistent, and sending the same
      request again changes nothing more. */
  lemma UpdateProfileSettles(db: Db, userId: int, dto: ProfileUpdate, auth: Auth)
    requires Consistent(db) && UpdateProfile(db, userId, dto, auth).Success?
    ensures var r := UpdateProfile(db, userId, dto, auth).value;
      Consistent(r.db) && UpdateProfile(r.db, userId, dto, r.auth) == Success(Updated(r.db, r.profile, false, r.auth))
  {
    var i := Find(db.users, ById(userId)).value;
    var r := UpdateProfile(db, userId, dto, auth).value;
    if r.saved {
      ReplaceKeepsConsistent(db, i, r.profile);
      FindUnique(r.db.users, ById(userId), i);
    }
  }

  // ---------------------------------------------------------------------
  // Changing one's password

  /** `changePassword`: the current password must match the stored hash,
      the new one must differ from it and be complex enough; then only
      that user's hash changes. */
  function ChangePassword(db: Db, userId: int, current: string, newPassword: string, enc: Encoder)
    : (r: Result<Db, Failure>)
    ensures !Exists(db.users, ById(userId)) ==> r == Failure(ResourceNotFound("error.resource.notfound"))
    ensures Exists(db.users, ById(userId)) ==>
      var i := Find(db.users, ById(userId)).value;
      var u := db.users[i];
      && (r == Failure(IllegalArgument("error.password.current.mismatch")) <==> !enc.matches(current, u.passwordHash))
      && (r == Failure(IllegalArgument("error.password.new.sameasold")) <==>
            enc.matches(current, u.passwordHash) && current == newPassword)
      && (r == Failure(IllegalArgument("validation.password.requirements")) <==>
            enc.matches(current, u.passwordHash) && current != newPassword && !IsPasswordComplexEnough(Some(newPassword)))
      && (r.Success? <==>
            enc.matches(current, u.passwordHash) && current != newPassword && IsPasswordComplexEnough(Some(newPassword)))
      && (r.Success? ==> r.value == db.(users := Replace(db.users, i, u.(passwordHash := enc.encode(newPassword)))))
  {
    match Find(db.users, ById(userId))
    case None => Failure(ResourceNotFound("error.resource.notfound"))
    case Some(i) =>
      var u := db.users[i];
      if !enc.matches(current, u.passwordHash) then Failure(IllegalArgument("error.password.current.mismatch"))
      else if current == newPassword then Failure(IllegalArgument("error.password.new.sameasold"))
      else if !IsPasswordComplexEnough(Some(newPassword)) then Failure(IllegalArgument("validation.password.requirements"))
      else Success(db.(users := Replace(db.users, i, u.(passwordHash := enc.encode(newPassword)))))
  }

  /** After a change, with an encoder whose hashes match their own
      password, the new password is the current one: changing it again
      gets past the current-password check, and the tables stay
      consistent. */
  lemma NewPasswordBecomesCurrent(db: Db, userId: int, current: string, newPassword: string, enc: Encoder, next: string)
    requires Consistent(db) && ChangePassword(db, userId, current, newPassword, enc).Success?
    requires enc.matches(newPassword, enc.encode(newPassword))
    ensures var after := ChangePassword(db, userId, current, newPassword, enc).value;
      && Consistent(after)
      && ChangePassword(after, userId, newPassword, next, enc) != Failure(IllegalArgument("error.password.current.mismatch"))
  {
    var i := Find(db.users, ById(userId)).value;
    var v := db.users[i].(passwordHash := enc.encode(newPassword));
    ReplaceKeepsConsistent(db, i, v);
    var after := db.(users := Replace(db.users, i, v));
    FindUnique(after.users, ById(userId), i);
  }

  // ---------------------------------------------------------------------
  // Deleting an account

  /** Who may delete whom: anyone themself, an administrator anyone who
      holds no administrator role. */
  function MayDelete(p: Principal, target: User): (allowed: bool)
    ensures p.id == target.id ==> allowed
    ensures p.id != target.id ==> (allowed <==> IsAdmin(p) && !HoldsAdminRole(target))
  {
    p.id == target.id || (IsAdmin(p) && !HoldsAdminRole(target))
  }

  /** `deleteUserAccount`: the target must exist and the caller must be
      an authenticated principal allowed to delete it; then its refresh
      tokens, its reset tokens and the user are removed. */
  function DeleteAccount(db: Db, userId: int, auth: Auth): (r: Result<Db, Failure>)
    ensures !Exists(db.users, ById(userId)) ==> r == Failure(ResourceNotFound("error.resource.notfound"))
    ensures Exists(db.users, ById(userId)) && !auth.Authenticated? ==>
      r == Failure(IllegalState("error.user.fetch.failed"))
    ensures Exists(db.users, ById(userId)) && auth.Authenticated? ==>
      var i := Find(db.users, ById(userId)).value;
      var p := auth.principal;
      && (r.Success? <==> MayDelete(p, db.users[i]))
      && (r.Failure? ==>
            r.error == AccessDenied(if IsAdmin(p) then "error.admin.delete.anotherAdmin" else "error.accessDenied"))
      && (r.Success? ==>
            r.value == Db(RemoveAt(db.users, i), DropTokensOf(db.refresh, userId), DropTokensOf(db.reset, userId),
                          db.roleNames))
  {
    match Find(db.users, ById(userId))
    case None => Failure(ResourceNotFound("error.resource.notfound"))
    case Some(i) =>
      match auth
      case Authenticated(p) =>
        var target := db.users[i];
        if p.id == userId || (IsAdmin(p) && !HoldsAdminRole(target)) then
          Success(Db(RemoveAt(db.users, i), DropTokensOf(db.refresh, userId), DropTokensOf(db.reset, userId),
                     db.roleNames))
        else if IsAdmin(p) then Failure(AccessDenied("error.admin.delete.anotherAdmin"))
        else Failure(AccessDenied("error.accessDenied"))
      case _ => Failure(IllegalState("error.user.fetch.failed"))
  }

  /** A delete leaves consistent tables in which the user and every token
      of theirs are gone and every other user is still found. */
  lemma DeleteRemovesEverything(db: Db, userId: int, auth: Auth)
    requires Consistent(db) && DeleteAccount(db, userId, auth).Success?
    ensures var after := DeleteAccount(db, userId, auth).value;
      && Consistent(after)
      && !Exists(after.users, ById(userId))
      && (forall v :: v in after.refresh ==> after.refresh[v].user != userId)
      && (forall v :: v in after.reset ==> after.reset[v].user != userId)
      && (forall id :: id != userId && Exists(db.users, ById(id)) ==> Exists(after.users, ById(id)))
  {
    var i := Find(db.users, ById(userId)).value;
    RemoveAtKeepsUnique(db.users, i);
  }

  // ---------------------------------------------------------------------
  // An administrator's edit

  datatype AdminUpdate = AdminUpdate(
    username: Option<string>, email: Option<string>, roles: Option<set<string>>,
    enabled: Option<bool>, newPassword: Option<string>)

  /** How a requested name or e-mail is compared with the stored one before
      its trimmed form is checked and stored: as written, untrimmed; or
      trimmed, so that surrounding spaces alone are no change. */
  datatype Comparison = AsWritten | Trimmed

  /** The value a requested name or e-mail field asks to store, if any:
      a value with something left after trimming, that counts as different
      from the stored one, trimmed. */
  function NewValue(requested: Option<string>, current: string, cmp: Comparison): Option<string> {
    if requested.None? || JavaTrim(requested.value) == [] then None
    else
      match cmp
      case AsWritten => if requested.value != current then Some(JavaTrim(requested.value)) else None
      case Trimmed => if JavaTrim(requested.value) != current then Some(JavaTrim(requested.value)) else None
  }

  /** What an administrator editing their own account may not do: change
      their roles, disable themself, or set their password. */
  predicate SelfEditAllowed(target: User, dto: AdminUpdate) {
    && (dto.roles.None? || dto.roles.value == target.roles)
    && !(dto.enabled == Some(false) && target.enabled)
    && !HasText(dto.newPassword)
  }

  /** The caller may make this edit: an administrator, editing a user who
      is no administrator or themself, and then only within the self-edit
      limits. */
  function MayEdit(p: Principal, target: User, dto: AdminUpdate): (allowed: bool)
    ensures allowed ==> IsAdmin(p)
    ensures IsAdmin(p) && p.id != target.id ==> (allowed <==> !HoldsAdminRole(target))
    ensures IsAdmin(p) && p.id == target.id ==> (allowed <==> SelfEditAllowed(target, dto))
  {
    && IsAdmin(p)
    && (HoldsAdminRole(target) ==> p.id == target.id)
    && (p.id == target.id ==> SelfEditAllowed(target, dto))
  }

  /** The permission checks, in order. */
  function AdminCheck(p: Principal, target: User, dto: AdminUpdate): (r: Option<Failure>)
    ensures r.None? <==> MayEdit(p, target, dto)
    ensures r.Some? ==> r.value.AccessDenied?
    ensures !IsAdmin(p) ==> r == Some(AccessDenied("error.accessDenied"))
    ensures IsAdmin(p) && HoldsAdminRole(target) && p.id != target.id ==>
      r == Some(AccessDenied("error.admin.edit.anotherAdmin"))
  {
    if !IsAdmin(p) then Some(AccessDenied("error.accessDenied"))
    else if HoldsAdminRole(target) && p.id != target.id then Some(AccessDenied("error.admin.edit.anotherAdmin"))
    else if p.id == target.id && dto.roles.Some? && dto.roles.value != target.roles then
      Some(AccessDenied("error.admin.edit.selfRoles"))
    else if p.id == target.id && dto.enabled == Some(false) && target.enabled then
      Some(AccessDenied("error.admin.disable.self"))
    else if p.id == target.id && HasText(dto.newPassword) then
      Some(AccessDenied("error.admin.edit.selfPassword.via.admin.panel"))
    else None
  }

  /** The requested role names that have text. */
  function RequestedRoles(names: set<string>): set<string> {
    set n | n in names && HasText(Some(n))
  }

  /** A user row with its flag saying whether any field was set. */
  datatype Step = Step(user: User, changed: bool)

  /** The checks of the field updates, in order: a taken name, a taken
      e-mail, an empty role list, an unknown role, a weak password. */
  function FieldFailure(db: Db, i: nat, dto: AdminUpdate, cmp: Comparison): (r: Option<Failure>)
    requires i < |db.users|
    ensures var u := db.users[i];
      var name := NewValue(dto.username, u.username, cmp);
      var mail := NewValue(dto.email, u.email, cmp);
      var nameTaken := name.Some? && Exists(db.users, ByUsername(name.value));
      var mailTaken := mail.Some? && Exists(db.users, ByEmail(mail.value));
      var noRoles := dto.roles.Some? && RequestedRoles(dto.roles.value) == {};
      var unknownRole := dto.roles.Some? && !(RequestedRoles(dto.roles.value) <= db.roleNames);
      var weak := HasText(dto.newPassword) && !IsPasswordComplexEnough(dto.newPassword);
      && (r == Some(IllegalArgument("error.username.taken")) <==> nameTaken)
      && (r == Some(IllegalArgument("error.email.taken")) <==> !nameTaken && mailTaken)
      && (r == Some(IllegalArgument("error.roles.mustNotBeEmpty")) <==> !nameTaken && !mailTaken && noRoles)
      && (r == Some(ResourceNotFound("error.role.notfound.name")) <==>
            !nameTaken && !mailTaken && !noRoles && unknownRole)
      && (r == Some(IllegalArgument("validation.password.requirements")) <==>
            !nameTaken && !mailTaken && !noRoles && !unknownRole && weak)
      && (r.None? <==> !nameTaken && !mailTaken && !noRoles && !unknownRole && !weak)
  {
    var u := db.users[i];
    var name := NewValue(dto.username, u.username, cmp);
    var mail := NewValue(dto.email, u.email, cmp);
    if name.Some? && Exists(db.users, ByUsername(name.value)) then Some(IllegalArgument("error.username.taken"))
    else if mail.Some? && Exists(db.users, ByEmail(mail.value)) then Some(IllegalArgument("error.email.taken"))
    else if dto.roles.Some? && RequestedRoles(dto.roles.value) == {} then
      Some(IllegalArgument("error.roles.mustNotBeEmpty"))
    else if dto.roles.Some? && !(RequestedRoles(dto.roles.value) <= db.roleNames) then
      Some(ResourceNotFound("error.role.notfound.name"))
    else if HasText(dto.newPassword) && !IsPasswordComplexEnough(dto.newPassword) then
      Some(IllegalArgument("validation.password.requirements"))
    else None
  }

  /** The row after the field updates: a new name or e-mail when one is
      asked for, the requested roles with text, the requested enabled flag,
      and the encoded password when one has text. */
  function Applied(u: User, dto: AdminUpdate, enc: Encoder, cmp: Comparison): (v: User)
    ensures v.id == u.id
    ensures dto == AdminUpdate(None, None, None, None, None) ==> v == u
    ensures !HasText(dto.newPassword) ==> v.passwordHash == u.passwordHash
    ensures dto.roles.Some? ==> v.roles <= dto.roles.value && forall n :: n in v.roles ==> HasText(Some(n))
    ensures dto.enabled.None? ==> v.enabled == u.enabled
  {
    var name := NewValue(dto.username, u.username, cmp);
    var mail := NewValue(dto.email, u.email, cmp);
    User(
      u.id,
      if name.Some? then name.value else u.username,
      if mail.Some? then mail.value else u.email,
      if HasText(dto.newPassword) then enc.encode(dto.newPassword.value) else u.passwordHash,
      dto.enabled.GetOr(u.enabled),
      if dto.roles.Some? then RequestedRoles(dto.roles.value) else u.roles)
  }

  /** The field updates: the first failed check throws; otherwise the
      updated row, marked changed exactly when it differs from the stored
      one or a password was set. */
  function ApplyFields(db: Db, i: nat, dto: AdminUpdate, enc: Encoder, cmp: Comparison): (r: Result<Step, Failure>)
    requires i < |db.users|
    ensures r.Failure? <==> FieldFailure(db, i, dto, cmp).Some?
    ensures r.Failure? ==> r.error == FieldFailure(db, i, dto, cmp).value
    ensures r.Success? ==>
      && r.value.user == Applied(db.users[i], dto, enc, cmp)
      && (r.value.changed <==> r.value.user != db.users[i] || HasText(dto.newPassword))
  {
    var u := db.users[i];
    match FieldFailure(db, i, dto, cmp)
    case Some(f) => Failure(f)
    case None =>
      var name := NewValue(dto.username, u.username, cmp);
      var mail := NewValue(dto.email, u.email, cmp);
      var v := Applied(u, dto, enc, cmp);
      assert name.Some? ==> v.username != u.username by {
        if name.Some? { assert !Matches(db.users[i], ByUsername(name.value)); }
      }
      assert mail.Some? ==> v.email != u.email by {
        if mail.Some? { assert !Matches(db.users[i], ByEmail(mail.value)); }
      }
      Success(Step(v, name.Some? || mail.Some? || v.roles != u.roles || v.enabled != u.enabled
                      || HasText(dto.newPassword)))
  }

  /** A name or e-mail field with text that differs from the caller's
      current value (compared untrimmed): such a self-edit rebuilds the
      caller's principal. */
  predicate Mentions(requested: Option<string>, current: string) {
    requested.Some? && JavaTrim(requested.value) != [] && requested.value != current
  }

  /** `updateUserByAdmin`: the target must exist, the caller must be an
      authenticated administrator allowed this edit, and the field updates
      must pass; the row is saved only when a field was set, and an
      administrator who renamed themself gets a rebuilt principal. */
  function UpdateUserByAdmin(db: Db, userId: int, dto: AdminUpdate, auth: Auth, enc: Encoder, cmp: Comparison)
    : (r: Result<Updated, Failure>)
    ensures !Exists(db.users, ById(userId)) ==> r == Failure(ResourceNotFound("error.resource.notfound"))
    ensures Exists(db.users, ById(userId)) && !auth.Authenticated? ==>
      r == Failure(IllegalState("error.user.fetch.failed"))
    ensures Exists(db.users, ById(userId)) && auth.Authenticated? ==>
      var i := Find(db.users, ById(userId)).value;
      var u := db.users[i];
      && (!MayEdit(auth.principal, u, dto) ==> r.Failure? && r.error.AccessDenied?)
      && (MayEdit(auth.principal, u, dto) ==> r.Success? == ApplyFields(db, i, dto, enc, cmp).Success?)
      && (r.Success? ==>
            && r.value.profile.id == userId
            && (!r.value.saved ==> r.value.db == db && r.value.profile == u && r.value.auth == auth)
            && (r.value.saved ==>
                  r.value.profile != u || HasText(dto.newPassword))
            && (r.value.profile != u ==> r.value.saved)
            && (r.value.saved ==> r.value.db == db.(users := Replace(db.users, i, r.value.profile))))
    ensures Exists(db.users, ById(userId)) && auth.Authenticated? ==>
      var i := Find(db.users, ById(userId)).value;
      var p := auth.principal;
      var a := ApplyFields(db, i, dto, enc, cmp);
      MayEdit(p, db.users[i], dto) ==>
        && (a.Failure? ==> r == Failure(FieldFailure(db, i, dto, cmp).value))
        && (a.Success? ==>
              && r.Success?
              && r.value.profile == a.value.user
              && (r.value.saved <==> a.value.changed)
              && (r.value.saved ==>
                    r.value.auth ==
                      if p.id == userId && (Mentions(dto.username, p.username) || Mentions(dto.email, p.email))
                      then Authenticated(Build(a.value.user)) else auth))
  {
    match Find(db.users, ById(userId))
    case None => Failure(ResourceNotFound("error.resource.notfound"))
    case Some(i) =>
      match auth
      case Authenticated(p) =>
        var u := db.users[i];
        var denied := AdminCheck(p, u, dto);
        if denied.Some? then Failure(denied.value)
        else
          var applied := ApplyFields(db, i, dto, enc, cmp);
          if applied.Failure? then Failure(applied.error)
          else if !applied.value.changed then Success(Updated(db, u, false, auth))
          else
            var v := applied.value.user;
            var renamedSelf := p.id == userId && (Mentions(dto.username, p.username) || Mentions(dto.email, p.email));
            Success(Updated(db.(users := Replace(db.users, i, v)), v, true,
                            if renamedSelf then Authenticated(Build(v)) else auth))
      case _ => Failure(IllegalState("error.user.fetch.failed"))
  }

  /** A successful administrator edit keeps the tables consistent. */
  lemma AdminEditKeepsConsistent(db: Db, userId: int, dto: AdminUpdate, auth: Auth, enc: Encoder, cmp: Comparison)
    requires Consistent(db) && UpdateUserByAdmin(db, userId, dto, auth, enc, cmp).Success?
    ensures Consistent(UpdateUserByAdmin(db, userId, dto, auth, enc, cmp).value.db)
  {
    var i := Find(db.users, ById(userId)).value;
    var r := UpdateUserByAdmin(db, userId, dto, auth, enc, cmp).value;
    if r.saved {
      ReplaceKeepsConsistent(db, i, r.profile);
    }
  }

  /** A form sent back with the stored name, e-mail and enabled flag and
      no password saves nothing and leaves the caller's context alone
      (under the trimmed comparison, for stored values without surrounding
      spaces, which is how they are stored). */
  lemma SameValuesSaveNothing(db: Db, userId: int, auth: Auth, enc: Encoder, cmp: Comparison)
    requires Exists(db.users, ById(userId)) && auth.Authenticated?
    requires var u := db.users[Find(db.users, ById(userId)).value];
      && MayEdit(auth.principal, u, AdminUpdate(Some(u.username), Some(u.email), None, Some(u.enabled), None))
      && (cmp == Trimmed ==> JavaTrim(u.username) == u.username && JavaTrim(u.email) == u.email)
    ensures var u := db.users[Find(db.users, ById(userId)).value];
      var r := UpdateUserByAdmin(db, userId, AdminUpdate(Some(u.username), Some(u.email), None, Some(u.enabled), None), auth, enc, cmp);
      r == Success(Updated(db, u, false, auth))
  {
    var i := Find(db.users, ById(userId)).value;
    var u := db.users[i];
    var dto := AdminUpdate(Some(u.username), Some(u.email), None, Some(u.enabled), None);
    assert NewValue(dto.username, u.username, cmp).None?;
    assert NewValue(dto.email, u.email, cmp).None?;
    assert Applied(u, dto, enc, cmp) == u;
  }

  /** An edit that sends roles whose names are all blank is refused with
      the empty-roles message, whatever else it asks when name and e-mail
      are left alone. */
  lemma BlankRolesRejected(db: Db, userId: int, dto: AdminUpdate, auth: Auth, enc: Encoder, cmp: Comparison)
    requires Exists(db.users, ById(userId)) && auth.Authenticated?
    requires MayEdit(auth.principal, db.users[Find(db.users, ById(userId)).value], dto)
    requires dto.username.None? && dto.email.None?
    requires dto.roles.Some? && forall n :: n in dto.roles.value ==> !HasText(Some(n))
    ensures UpdateUserByAdmin(db, userId, dto, auth, enc, cmp) == Failure(IllegalArgument("error.roles.mustNotBeEmpty"))
  {
    var i := Find(db.users, ById(userId)).value;
    assert RequestedRoles(dto.roles.value) == {};
    assert FieldFailure(db, i, dto, cmp) == Some(IllegalArgument("error.roles.mustNotBeEmpty"));
  }

  // ---------------------------------------------------------------------
  // The untrimmed comparison

  /** As written, a requested name that differs from the stored name only
      by surrounding spaces is compared untrimmed, found different, and its
      trimmed form, the user's own name, is then reported as taken. */
  lemma OwnNamePaddedIsTaken(db: Db, userId: int, padded: string, auth: Auth, enc: Encoder)
    requires Exists(db.users, ById(userId)) && auth.Authenticated?
    requires var u := db.users[Find(db.users, ById(userId)).value];
      MayEdit(auth.principal, u, AdminUpdate(Some(padded), None, None, None, None))
      && padded != u.username && JavaTrim(padded) == u.username && u.username != []
    ensures UpdateUserByAdmin(db, userId, AdminUpdate(Some(padded), None, None, None, None), auth, enc, AsWritten)
      == Failure(IllegalArgument("error.username.taken"))
  {
    var i := Find(db.users, ById(userId)).value;
    var dto := AdminUpdate(Some(padded), None, None, None, None);
    PaddedOwnNameFails(db, i, padded);
    assert AdminCheck(auth.principal, db.users[i], dto).None?;
    assert ApplyFields(db, i, dto, enc, AsWritten) == Failure(IllegalArgument("error.username.taken"));
  }

  /** The field checks alone: compared as written, the padded own name is
      found taken by the very user being edited. */
  lemma PaddedOwnNameFails(db: Db, i: nat, padded: string)
    requires i < |db.users|
    requires padded != db.users[i].username && JavaTrim(padded) == db.users[i].username && db.users[i].username != []
    ensures FieldFailure(db, i, AdminUpdate(Some(padded), None, None, None, None), AsWritten)
      == Some(IllegalArgument("error.username.taken"))
  {
    assert Matches(db.users[i], ByUsername(JavaTrim(padded)));
  }

  /** Such a name exists: "alice " trims to "alice". */
  lemma PaddedNameExample()
    ensures JavaTrim("alice ") == "alice" && "alice " != "alice"
  {
    assert "alice "[..5] == "alice";
    TrimStartStops("alice ", IsJavaTrimmable);
    TrimEndStops("alice", IsJavaTrimmable);
  }

  /** Compared trimmed, the same request is no change: nothing is refused
      and nothing is saved. */
  lemma OwnNamePaddedIsKept(db: Db, userId: int, padded: string, auth: Auth, enc: Encoder)
    requires Exists(db.users, ById(userId)) && auth.Authenticated?
    requires var u := db.users[Find(db.users, ById(userId)).value];
      MayEdit(auth.principal, u, AdminUpdate(Some(padded), None, None, None, None))
      && JavaTrim(padded) == u.username
    ensures var r := UpdateUserByAdmin(db, userId, AdminUpdate(Some(padded), None, None, None, None), auth, enc, Trimmed);
      r.Success? && !r.value.saved && r.value.db == db
  {
    var i := Find(db.users, ById(userId)).value;
    var dto := AdminUpdate(Some(padded), None, None, None, None);
    assert NewValue(dto.username, db.users[i].username, Trimmed).None?;
    assert FieldFailure(db, i, dto, Trimmed).None?;
    assert Applied(db.users[i], dto, enc, Trimmed) == db.users[i];
  }
}

=== FILE: admin_edit_modal.dfy ===
/** The administrator's edit dialog for one user: a form holding the user's
    name and e-mail and an optional new password with its confirmation.
    Saving sends only what differs from the values the dialog opened with,
    after checking the new password in a fixed order; the first failed check
    is reported and nothing is sent. */
module AdminEditModal {
  import opened Common
  import opened Passwords

  /** The user the dialog edits; a missing name or e-mail reads as empty. */
  datatype UserView = UserView(id: int, username: Option<string>, email: Option<string>)

  datatype Form = Form(username: string, email: string, newPassword: string, confirmNewPassword: string)

  /** The values the dialog opened with, against which changes are found. */
  datatype Initial = Initial(username: string, email: string)

  datatype Modal = Modal(form: Form, initial: Option<Initial>)

  const EMPTY_FORM: Form := Form("", "", "", "")

  datatype Field = UsernameField | EmailField | NewPasswordField | ConfirmPasswordField

  /** The inputs' `maxLength` attributes. */
  function MaxLength(f: Field): (n: int)
    ensures n >= 1
  {
    match f
    case UsernameField => 50
    case EmailField => 100
    case NewPasswordField => 128
    case ConfirmPasswordField => 128
  }

  // ---------------------------------------------------------------------
  // Opening and typing

  /** The effect on `userToEdit`: a user fills the form with their name and
      e-mail and empty password fields, and remembers those as the initial
      values; no user empties the form and forgets the initial values. */
  function ResetFor(userToEdit: Option<UserView>): (m: Modal)
    ensures userToEdit.None? ==> m == Modal(EMPTY_FORM, None)
    ensures userToEdit.Some? ==>
      && m.form.username == userToEdit.value.username.GetOr("")
      && m.form.email == userToEdit.value.email.GetOr("")
      && m.form.newPassword == [] && m.form.confirmNewPassword == []
      && m.initial == Some(Initial(m.form.username, m.form.email))
  {
    match userToEdit
    case None => Modal(EMPTY_FORM, None)
    case Some(u) =>
      var name := u.username.GetOr("");
      var mail := u.email.GetOr("");
      Modal(Form(name, mail, "", ""), Some(Initial(name, mail)))
  }

  function FieldOf(form: Form, f: Field): string {
    match f
    case UsernameField => form.username
    case EmailField => form.email
    case NewPasswordField => form.newPassword
    case ConfirmPasswordField => form.confirmNewPassword
  }

  /** Typing into one input. Every input is disabled when an administrator
      edits their own account, so nothing changes then; otherwise the field
      takes the value the browser lets through, at most `maxLength`
      characters. */
  function Edit(m: Modal, f: Field, value: string, editingSelf: bool): (r: Modal)
    ensures r.initial == m.initial
    ensures editingSelf ==> r == m
    ensures !editingSelf ==>
      && FieldOf(r.form, f) == value[..Min(|value|, MaxLength(f))]
      && (forall g: Field {:trigger FieldOf(r.form, g)} :: g != f ==> FieldOf(r.form, g) == FieldOf(m.form, g))
  {
    if editingSelf then m
    else
      var v := value[..Min(|value|, MaxLength(f))];
      match f
      case UsernameField => m.(form := m.form.(username := v))
      case EmailField => m.(form := m.form.(email := v))
      case NewPasswordField => m.(form := m.form.(newPassword := v))
      case ConfirmPasswordField => m.(form := m.form.(confirmNewPassword := v))
  }

  // ---------------------------------------------------------------------
  // The password checks

  /** The messages of the password checks, in the order they are tried. */
  datatype PasswordError =
    | NewPasswordRequired
    | ConfirmPasswordRequired
    | TooShort
    | Mismatch
    | NotComplex

  /** The password part of saving: both fields empty means no password
      change; otherwise the first failing check, or the new password. */
  function CheckPassword(newPassword: string, confirm: string): (r: Result<Option<string>, PasswordError>)
    ensures r == Success(None) <==> newPassword == [] && confirm == []
    ensures r == Failure(NewPasswordRequired) <==> newPassword == [] && confirm != []
    ensures r == Failure(ConfirmPasswordRequired) <==> newPassword != [] && confirm == []
    ensures r == Failure(TooShort) <==> newPassword != [] && confirm != [] && |newPassword| < MIN_PASSWORD_LENGTH
    ensures r == Failure(Mismatch) <==>
      newPassword != [] && confirm != [] && |newPassword| >= MIN_PASSWORD_LENGTH && newPassword != confirm
    ensures r == Failure(NotComplex) <==>
      && newPassword != [] && |newPassword| >= MIN_PASSWORD_LENGTH && newPassword == confirm
      && !IsPasswordComplex(Some(newPassword))
    ensures r.Success? && r.value.Some? <==>
      newPassword != [] && newPassword == confirm && IsPasswordComplex(Some(newPassword))
    ensures r.Success? && r.value.Some? ==> r.value.value == newPassword
  {
    if newPassword == [] && confirm == [] then Success(None)
    else if newPassword == [] then Failure(NewPasswordRequired)
    else if confirm == [] then Failure(ConfirmPasswordRequired)
    else if |newPassword| < MIN_PASSWORD_LENGTH then Failure(TooShort)
    else if newPassword != confirm then Failure(Mismatch)
    else if !IsPasswordComplex(Some(newPassword)) then Failure(NotComplex)
    else Success(Some(newPassword))
  }

  /** A password the dialog sends is one the server's own complexity rule
      accepts, and it is no longer than the server allows. */
  lemma SentPasswordIsServerComplex(newPassword: string, confirm: string)
    requires CheckPassword(newPassword, confirm).Success?
    ensures var p := CheckPassword(newPassword, confirm).value;
      p.Some? ==> IsPasswordComplexEnough(p) && MIN_PASSWORD_LENGTH <= |p.value| <= MAX_PASSWORD_LENGTH
  {
    ClientServerAgree(Some(newPassword));
  }

  // ---------------------------------------------------------------------
  // Saving

  /** The fields sent to the server; absent ones are left alone there. */
  datatype Changes = Changes(username: Option<string>, email: Option<string>, newPassword: Option<string>)

  predicate NoChanges(c: Changes) {
    c.username.None? && c.email.None? && c.newPassword.None?
  }

  /** A name or e-mail is a change only when it differs from the value the
      dialog opened with. */
  function Changed(was: Option<string>, now: string): (c: Option<string>)
    ensures c.Some? <==> was.Some? && now != was.value
    ensures c.Some? ==> c.value == now
  {
    if was.Some? && now != was.value then Some(now) else None
  }

  /** The initial name, when the dialog has initial values. */
  function InitialUsername(m: Modal): Option<string> {
    if m.initial.Some? then Some(m.initial.value.username) else None
  }

  function InitialEmail(m: Modal): Option<string> {
    if m.initial.Some? then Some(m.initial.value.email) else None
  }

  /** The browser's own check of the form before it submits: the name and
      e-mail inputs are `required` and the e-mail input has `type="email"`.
      Disabled inputs (an administrator editing their own account) take no
      part in it. Whether a text is a well-formed e-mail address is the
      browser's rule, the `validEmail` parameter. */
  predicate SubmitBlocked(m: Modal, editingSelf: bool, validEmail: string -> bool) {
    !editingSelf && (m.form.username == [] || m.form.email == [] || !validEmail(m.form.email))
  }

  /** What pressing save ends in: the browser refusing to submit, a reported
      password error, `onSave` with the user's id and the changes, or
      `onClose`. */
  datatype SaveOutcome =
    | Blocked
    | Rejected(error: PasswordError)
    | Saved(userId: int, changes: Changes)
    | Closed

  function Save(m: Modal, userToEdit: Option<UserView>, editingSelf: bool, validEmail: string -> bool): (o: SaveOutcome)
    ensures o.Blocked? <==> SubmitBlocked(m, editingSelf, validEmail)
    ensures o.Rejected? <==>
      !SubmitBlocked(m, editingSelf, validEmail) && CheckPassword(m.form.newPassword, m.form.confirmNewPassword).Failure?
    ensures o.Rejected? ==> o.error == CheckPassword(m.form.newPassword, m.form.confirmNewPassword).error
    ensures o.Saved? ==>
      && userToEdit.Some? && o.userId == userToEdit.value.id && !NoChanges(o.changes)
      && o.changes.username == Changed(InitialUsername(m), m.form.username)
      && o.changes.email == Changed(InitialEmail(m), m.form.email)
      && o.changes.newPassword == CheckPassword(m.form.newPassword, m.form.confirmNewPassword).value
    ensures o.Closed? ==>
      userToEdit.None?
      || (&& CheckPassword(m.form.newPassword, m.form.confirmNewPassword) == Success(None)
          && (m.initial.None? || m.initial.value == Initial(m.form.username, m.form.email)))
  {
    if SubmitBlocked(m, editingSelf, validEmail) then Blocked
    else match CheckPassword(m.form.newPassword, m.form.confirmNewPassword)
    case Failure(e) => Rejected(e)
    case Success(password) =>
      var changes := Changes(
        Changed(InitialUsername(m), m.form.username),
        Changed(InitialEmail(m), m.form.email),
        password);
      if !NoChanges(changes) && userToEdit.Some? then Saved(userToEdit.value.id, changes)
      else Closed
  }

  /** The browser's check on the values a user's dialog opens with: it
      passes when the user has a name and a well-formed e-mail. */
  predicate OpensSubmittable(u: UserView, validEmail: string -> bool) {
    u.username.GetOr("") != [] && u.email.GetOr("") != [] && validEmail(u.email.GetOr(""))
  }

  /** Opening the dialog for a user and saving at once sends nothing: the
      dialog closes, unless the browser already refuses the opened values
      (a user without a name or e-mail, or with a malformed e-mail). */
  lemma UntouchedFormCloses(u: UserView, validEmail: string -> bool)
    ensures Save(ResetFor(Some(u)), Some(u), false, validEmail)
      == if OpensSubmittable(u, validEmail) then Closed else Blocked
  {
    var m := ResetFor(Some(u));
    assert CheckPassword(m.form.newPassword, m.form.confirmNewPassword) == Success(None);
  }

  /** An administrator's own dialog is never blocked by the browser, since
      its inputs are disabled; saving it at once just closes. */
  lemma OwnDialogCloses(u: UserView, validEmail: string -> bool)
    ensures Save(ResetFor(Some(u)), Some(u), true, validEmail) == Closed
  {
    var m := ResetFor(Some(u));
    assert CheckPassword(m.form.newPassword, m.form.confirmNewPassword) == Success(None);
  }

  /** Opening the dialog for a user and typing a new name sends exactly that
      name for that user, nothing else, when the browser lets the form
      through: an emptied name, or an e-mail it refuses, stops the submit. */
  lemma NewNameIsSent(u: UserView, name: string, validEmail: string -> bool)
    requires |name| <= MaxLength(UsernameField) && name != u.username.GetOr("")
    ensures Save(Edit(ResetFor(Some(u)), UsernameField, name, false), Some(u), false, validEmail)
      == if name != [] && u.email.GetOr("") != [] && validEmail(u.email.GetOr(""))
         then Saved(u.id, Changes(Some(name), None, None))
         else Blocked
  {
    var m := Edit(ResetFor(Some(u)), UsernameField, name, false);
    assert name[..Min(|name|, MaxLength(UsernameField))] == name;
    assert m.form == Form(name, u.email.GetOr(""), "", "");
  }

  /** Typing a name back to its initial value takes it out of the changes
      again. */
  lemma RevertedNameIsNotSent(m: Modal, userToEdit: Option<UserView>, validEmail: string -> bool)
    requires m.initial.Some? && |m.initial.value.username| <= MaxLength(UsernameField)
    ensures var r := Save(Edit(m, UsernameField, m.initial.value.username, false), userToEdit, false, validEmail);
      r.Saved? ==> r.changes.username.None?
  {
    var name := m.initial.value.username;
    assert name[..Min(|name|, MaxLength(UsernameField))] == name;
  }
}

=== FILE: admin_sort.dfy ===
/** The sort the administrators' user list is fetched with. The list's
    `roles` column is a collection the repository cannot order by, so every
    order on it (the property name compared without case) becomes an order
    on `username` in the same direction; the other orders are kept in
    place. A request with no order at all is ordered by `username`,
    ascending. Page number and page size are passed on untouched. */
module AdminSort {
  import opened Strings

  datatype Direction = ASC | DESC

  datatype Order = Order(direction: Direction, property: string)

  /** A page request; an empty sequence of orders is the unsorted sort. */
  datatype Pageable = Pageable(page: int, size: int, sort: seq<Order>)

  const ROLES: string := "roles"
  const USERNAME: string := "username"

  predicate OnRoles(o: Order) {
    EqualsIgnoreCase(ROLES, o.property)
  }

  /** One order after the rewrite. */
  function Rewritten(o: Order): (r: Order)
    ensures r.direction == o.direction
    ensures OnRoles(o) ==> r.property == USERNAME
    ensures !OnRoles(o) ==> r == o
    ensures !OnRoles(r)
  {
    if OnRoles(o) then Order(o.direction, USERNAME) else o
  }

  /** The loop over the requested orders: the rewritten orders, and
      whether some order was on `roles`. */
  function RewriteOrders(orders: seq<Order>): (r: (seq<Order>, bool))
    ensures |r.0| == |orders|
    ensures forall i :: 0 <= i < |orders| ==> r.0[i] == Rewritten(orders[i])
    ensures r.1 <==> exists i :: 0 <= i < |orders| && OnRoles(orders[i])
  {
    if orders == [] then ([], false)
    else
      var rest := RewriteOrders(orders[1..]);
      assert forall i :: 1 <= i < |orders| ==> orders[i] == orders[1..][i - 1];
      ([Rewritten(orders[0])] + rest.0, OnRoles(orders[0]) || rest.1)
  }

  /** `getAllUsers`: the page request handed to the user service. */
  function EffectivePageable(p: Pageable): (r: Pageable)
    ensures r.page == p.page && r.size == p.size
    ensures p.sort == [] ==> r.sort == [Order(ASC, USERNAME)]
    ensures p.sort != [] ==>
      && |r.sort| == |p.sort|
      && forall i :: 0 <= i < |p.sort| ==> r.sort[i] == Rewritten(p.sort[i])
    ensures (forall i :: 0 <= i < |p.sort| ==> !OnRoles(p.sort[i])) && p.sort != [] ==> r == p
    ensures forall i :: 0 <= i < |r.sort| ==> !OnRoles(r.sort[i])
  {
    var (orders, rolesSortRequested) := RewriteOrders(p.sort);
    if rolesSortRequested || p.sort == [] then
      Pageable(p.page, p.size, if orders == [] then [Order(ASC, USERNAME)] else orders)
    else
      p
  }

  // ---------------------------------------------------------------------
  // Properties

  /** The rewrite is settled after one pass: the request it hands on would
      be handed on unchanged. */
  lemma EffectiveIdempotent(p: Pageable)
    ensures EffectivePageable(EffectivePageable(p)) == EffectivePageable(p)
  {
    var r := EffectivePageable(p);
    assert r.sort != [];
  }

  /** A request ordered only by `roles`, in any case, is served ordered by
      `username` in the same direction. */
  lemma RolesBecomesUsername(page: int, size: int, d: Direction, property: string)
    requires EqualsIgnoreCase(ROLES, property)
    ensures EffectivePageable(Pageable(page, size, [Order(d, property)])) == Pageable(page, size, [Order(d, USERNAME)])
  {
  }

  /** The position and direction of every order survive; only the roles
      property is renamed. */
  lemma OrdersKeepPlace(p: Pageable, i: nat)
    requires i < |p.sort|
    ensures EffectivePageable(p).sort[i].direction == p.sort[i].direction
    ensures EffectivePageable(p).sort[i].property == (if OnRoles(p.sort[i]) then USERNAME else p.sort[i].property)
  {
  }
}

=== FILE: admin_user_list.dfy ===
/** The administrator's user list: one page of users fetched from the
    server, sorted by a column the server orders on, with a page-size field,
    a summary label, and edit and delete buttons on every row.

    The server's replies are parameters. What the page does with each reply
    is modelled, down to which page it asks for next; the effect that
    refetches whenever the page, the size or the sort changes is folded into
    the `fetch` a reaction names. */
module AdminUserList {
  import opened Common
  import opened Strings
  import opened InputUtils
  import opened LocalStorage
  import Paging
  import AdminEditModal

  const MIN_PAGE_SIZE: int := 1
  const MAX_PAGE_SIZE: int := 100
  const DEFAULT_PAGE_SIZE: int := 10

  const ROLE_ADMIN: string := "ROLE_ADMIN"

  datatype Direction = Asc | Desc

  datatype SortConfig = SortConfig(key: string, direction: Direction)

  /** The list opens sorted by id, ascending. */
  const INITIAL_SORT: SortConfig := SortConfig("id", Asc)

  /** The columns the header lets one sort by; the actions column is not
      one of them. */
  const SORTABLE_COLUMNS: seq<string> := ["id", "username", "email", "createdAt", "roles", "enabled"]

  datatype UserRow = UserRow(id: int, username: string, roles: seq<string>)

  /** How a failed call ended: no response at all (the network error), or
      a status with the server's message (empty when it sent none). */
  datatype CallFailure = NoResponse | ErrorStatus(status: int, message: string)

  datatype Notice =
    | NetworkError
    | ServerMessage(text: string)
    | AccessDenied
    | LoadFailed
    | UserUpdated(username: string)
    | UpdateFailed(username: string)
    | UserDeleted(username: string)
    | DeleteFailed(username: string)

  datatype ListState = ListState(
    users: seq<UserRow>, loading: bool, error: Option<Notice>,
    currentPage: int, totalPages: int, totalElements: int,
    pageSize: int, pageSizeInput: string, sort: SortConfig,
    deleteTarget: Option<UserRow>, editTarget: Option<UserRow>)

  /** The request for one page: page number, size and sort. */
  datatype FetchArgs = FetchArgs(page: int, size: int, sort: SortConfig)

  /** The state afterwards, the notification raised, and the page fetched
      next. */
  datatype Reaction = Reaction(state: ListState, notice: Option<Notice>, fetch: Option<FetchArgs>)

  // ---------------------------------------------------------------------
  // Errors

  /** The notification for a failed call: no response is a network error,
      a message from the server is shown as it is, a 403 is access denied
      where the caller checks for it, and anything else is the caller's own
      fallback. */
  function FailureNotice(f: CallFailure, checks403: bool, fallback: Notice): (n: Notice)
    ensures f.NoResponse? ==> n == NetworkError
    ensures f.ErrorStatus? && f.message != [] ==> n == ServerMessage(f.message)
    ensures f.ErrorStatus? && f.message == [] ==> n == (if checks403 && f.status == 403 then AccessDenied else fallback)
  {
    match f
    case NoResponse => NetworkError
    case ErrorStatus(status, message) =>
      if message != [] then ServerMessage(message)
      else if checks403 && status == 403 then AccessDenied
      else fallback
  }

  // ---------------------------------------------------------------------
  // The stored page size

  /** What the effect on the stored size leaves: the size to use, whether
      it writes that size back to storage, and the field's text. */
  datatype SizeEffect = SizeEffect(size: int, writeBack: bool, input: string)

  /** The stored size is whatever JSON local storage holds: anything but a
      number becomes 10, then it is clamped into `[1, 100]`; it is written
      back when it differs from what is stored, and the field then shows
      the size. */
  function NormalizeStoredSize(stored: Json, input: string, firstRun: bool): (e: SizeEffect)
    ensures MIN_PAGE_SIZE <= e.size <= MAX_PAGE_SIZE
    ensures e.writeBack <==> stored != JNum(e.size)
    ensures stored.JNum? && MIN_PAGE_SIZE <= stored.n <= MAX_PAGE_SIZE ==> e.size == stored.n && !e.writeBack
    ensures !stored.JNum? ==> e.size == DEFAULT_PAGE_SIZE && e.writeBack
    ensures stored.JNum? && stored.n < MIN_PAGE_SIZE ==> e.size == MIN_PAGE_SIZE
    ensures stored.JNum? && stored.n > MAX_PAGE_SIZE ==> e.size == MAX_PAGE_SIZE
    ensures JsParseInt(e.input) == Some(e.size)
  {
    var size := Paging.NormalizeStoredSize(stored, DEFAULT_PAGE_SIZE, MIN_PAGE_SIZE, MAX_PAGE_SIZE);
    var shown := if firstRun || IntToString(size) != input then IntToString(size) else input;
    Paging.JsParseIntOfIntToString(size);
    SizeEffect(size, !stored.JNum? || size != stored.n, shown)
  }

  /** The effect settles: once its write-back is stored, running it again
      keeps the size, writes nothing and leaves the field alone. */
  lemma NormalizeSettles(stored: Json, input: string, firstRun: bool)
    ensures var e := NormalizeStoredSize(stored, input, firstRun);
      var again := NormalizeStoredSize(if e.writeBack then JNum(e.size) else stored, e.input, false);
      again == SizeEffect(e.size, false, e.input)
  {
    var e := NormalizeStoredSize(stored, input, firstRun);
    Paging.NormalizeSettles(stored, DEFAULT_PAGE_SIZE, MIN_PAGE_SIZE, MAX_PAGE_SIZE);
    assert e.input == IntToString(e.size);
  }

  // ---------------------------------------------------------------------
  // Fetching a page

  /** The server's page: its rows, totals, the page number and size it
      actually used. */
  datatype PageReply = PageReply(content: seq<UserRow>, totalPages: int, totalElements: int, number: int, size: int)

  /** What a fetch leaves: the state, the notification, and a size to write
      to storage when the server used a different one. */
  datatype Fetched = Fetched(state: ListState, notice: Option<Notice>, storeSize: Option<int>)

  /** `fetchUsers`: nothing but the loading flag while authentication is
      still loading; a page replaces rows, totals and page number; a
      failure empties the list and reports the error. */
  function FetchUsers(s: ListState, authLoading: bool, args: FetchArgs, reply: Result<PageReply, CallFailure>)
    : (r: Fetched)
    ensures authLoading ==> r == Fetched(s.(loading := true), None, None)
    ensures !authLoading ==> !r.state.loading
    ensures !authLoading && reply.Success? ==>
      && r.state.users == reply.value.content && r.state.error.None?
      && r.state.currentPage == reply.value.number
      && r.state.totalPages == reply.value.totalPages && r.state.totalElements == reply.value.totalElements
      && r.notice.None?
      && (r.storeSize.Some? <==> reply.value.size != args.size && reply.value.size != s.pageSize)
      && (r.storeSize.Some? ==> r.storeSize.value == reply.value.size)
    ensures !authLoading && reply.Failure? ==>
      && r.state.users == [] && r.state.totalPages == 0 && r.state.totalElements == 0
      && r.notice == Some(FailureNotice(reply.error, true, LoadFailed))
      && r.state.error == r.notice && r.storeSize.None?
    ensures r.state.pageSize == s.pageSize && r.state.sort == s.sort && r.state.pageSizeInput == s.pageSizeInput
  {
    if authLoading then Fetched(s.(loading := true), None, None)
    else match reply
      case Success(page) =>
        Fetched(s.(users := page.content, totalPages := page.totalPages, totalElements := page.totalElements,
                   currentPage := page.number, error := None, loading := false),
                None,
                if page.size != args.size && page.size != s.pageSize then Some(page.size) else None)
      case Failure(f) =>
        var n := FailureNotice(f, true, LoadFailed);
        Fetched(s.(users := [], totalPages := 0, totalElements := 0, error := Some(n), loading := false),
                Some(n), None)
  }

  /** The request the list sends for its own state. */
  function CurrentFetch(s: ListState): FetchArgs {
    FetchArgs(s.currentPage, s.pageSize, s.sort)
  }

  // ---------------------------------------------------------------------
  // The page-size field

  /** Committing the field on blur or Enter: blank, unparsable or below 1
      gives 1, above 100 gives 100; the field shows the size; a changed
      size is stored and sends the list back to page 0. */
  function ApplyPageSizeChange(s: ListState): (r: ListState)
    ensures MIN_PAGE_SIZE <= r.pageSize <= MAX_PAGE_SIZE
    ensures JsParseInt(r.pageSizeInput) == Some(r.pageSize)
    ensures r.currentPage == (if r.pageSize != s.pageSize then 0 else s.currentPage)
    ensures JsParseInt(s.pageSizeInput).Some? && MIN_PAGE_SIZE <= JsParseInt(s.pageSizeInput).value <= MAX_PAGE_SIZE
      ==> r.pageSize == JsParseInt(s.pageSizeInput).value
    ensures JsParseInt(s.pageSizeInput).None? ==> r.pageSize == MIN_PAGE_SIZE
    ensures r == s.(pageSize := r.pageSize, pageSizeInput := r.pageSizeInput, currentPage := r.currentPage)
  {
    var c := Paging.CommitPageSize(s.pageSizeInput, s.pageSize, MIN_PAGE_SIZE, MAX_PAGE_SIZE);
    Paging.JsParseIntOfIntToString(c.size);
    s.(pageSize := c.size, pageSizeInput := c.shown, currentPage := if c.changed then 0 else s.currentPage)
  }

  /** Committing twice is committing once. */
  lemma ApplyPageSizeChangeIdempotent(s: ListState)
    ensures ApplyPageSizeChange(ApplyPageSizeChange(s)) == ApplyPageSizeChange(s)
  {
    Paging.CommitIdempotent(s.pageSizeInput, s.pageSize, MIN_PAGE_SIZE, MAX_PAGE_SIZE);
  }

  /** Typing into the field keeps the digits of the entry, shown as 100
      when they exceed it. */
  function TypePageSize(s: ListState, raw: string): (r: ListState)
    ensures r == s.(pageSizeInput := r.pageSizeInput)
    ensures AllDigits(r.pageSizeInput)
    ensures JsParseInt(r.pageSizeInput).Some? ==> JsParseInt(r.pageSizeInput).value <= MAX_PAGE_SIZE
  {
    Paging.TypingThenCommit(raw, s.pageSize, MIN_PAGE_SIZE, MAX_PAGE_SIZE);
    s.(pageSizeInput := Paging.TypePageSize(raw, MAX_PAGE_SIZE))
  }

  /** Typing anything and committing lands on the digits' value clamped
      into `[1, 100]`, or on 1 when no digit was typed. */
  lemma TypeThenCommit(s: ListState, raw: string)
    ensures var d := DigitsOf(raw);
      ApplyPageSizeChange(TypePageSize(s, raw)).pageSize
        == (if d == [] then MIN_PAGE_SIZE else Clamp(DigitsValue(d), MIN_PAGE_SIZE, MAX_PAGE_SIZE))
  {
    var d := DigitsOf(raw);
    Paging.TypingThenCommit(raw, s.pageSize, MIN_PAGE_SIZE, MAX_PAGE_SIZE);
    ParseIntOfDigits(d);
  }

  /** A key in the field: keys the numeric filter refuses do nothing; an
      allowed Enter commits. */
  function PageSizeKeyDown(s: ListState, key: string, ctrlKey: bool, metaKey: bool): (r: ListState)
    ensures key != "Enter" ==> r == s
    ensures key == "Enter" ==> r == ApplyPageSizeChange(s)
  {
    if KeyAllowed(key, ctrlKey, metaKey) && key == "Enter" then ApplyPageSizeChange(s) else s
  }

  // ---------------------------------------------------------------------
  // Sorting

  /** Clicking a column header: the active ascending column turns
      descending, any other click sorts that column ascending; the list goes
      back to page 0. */
  function RequestSort(s: ListState, key: string): (r: ListState)
    ensures r.sort.key == key
    ensures r.sort.direction == Desc <==> s.sort == SortConfig(key, Asc)
    ensures r == s.(sort := r.sort, currentPage := 0)
  {
    var direction := if s.sort.key == key && s.sort.direction == Asc then Desc else Asc;
    s.(sort := SortConfig(key, direction), currentPage := 0)
  }

  /** A header click sorts only by a sortable column. */
  function HeaderClick(s: ListState, column: string): (r: ListState)
    ensures column !in SORTABLE_COLUMNS ==> r == s
    ensures column in SORTABLE_COLUMNS ==> r == RequestSort(s, column)
  {
    if column in SORTABLE_COLUMNS then RequestSort(s, column) else s
  }

  /** Clicking the active column flips its direction both ways, and a
      third click on a column is a first click again. */
  lemma SortToggles(s: ListState, key: string)
    ensures s.sort.key == key ==> RequestSort(s, key).sort.direction != s.sort.direction
    ensures RequestSort(RequestSort(RequestSort(s, key), key), key) == RequestSort(s, key)
  {
  }

  /** The marker after a header: ▲ or ▼ on the active column, nothing on
      the others. */
  function SortIndicator(sort: SortConfig, column: string): (mark: string)
    ensures mark != [] <==> column == sort.key
    ensures mark == " ▲" <==> column == sort.key && sort.direction == Asc
    ensures mark == " ▼" <==> column == sort.key && sort.direction == Desc
  {
    assert " ▲"[1] != " ▼"[1];
    if sort.key != column then ""
    else match sort.direction
      case Asc => " ▲"
      case Desc => " ▼"
  }

  /** After a click the marker shows on the clicked column alone, pointing
      down exactly when that column had been ascending. */
  lemma IndicatorFollowsClick(s: ListState, key: string, column: string)
    ensures var mark := SortIndicator(RequestSort(s, key).sort, column);
      (mark != [] <==> column == key)
      && (column == key ==> (mark == " ▼" <==> s.sort == SortConfig(key, Asc)))
  {
  }

  // ---------------------------------------------------------------------
  // Edit and delete

  /** The delete dialog's confirm: nothing without a target; on success
      the deleted user is announced, and the list steps back a page when
      it deleted the only row of a later page, otherwise refetches the same
      page; on failure the error is announced. The dialog closes either
      way. */
  function ConfirmDelete(s: ListState, outcome: Result<(), CallFailure>): (r: Reaction)
    ensures s.deleteTarget.None? ==> r == Reaction(s, None, None)
    ensures s.deleteTarget.Some? ==> r.state.deleteTarget.None?
    ensures s.deleteTarget.Some? && outcome.Success? ==>
      && r.notice == Some(UserDeleted(s.deleteTarget.value.username))
      && r.fetch.Some? && r.fetch.value.size == s.pageSize && r.fetch.value.sort == s.sort
      && (r.fetch.value.page == s.currentPage - 1 <==> |s.users| == 1 && s.currentPage > 0)
      && (r.fetch.value.page == s.currentPage <==> !(|s.users| == 1 && s.currentPage > 0))
      && r.state.currentPage == r.fetch.value.page
    ensures s.deleteTarget.Some? && outcome.Failure? ==>
      && r.notice == Some(FailureNotice(outcome.error, false, DeleteFailed(s.deleteTarget.value.username)))
      && r.fetch.None? && r.state == s.(deleteTarget := None)
  {
    match s.deleteTarget
    case None => Reaction(s, None, None)
    case Some(u) =>
      var closed := s.(deleteTarget := None);
      match outcome
      case Success(_) =>
        var page := if |s.users| == 1 && s.currentPage > 0 then s.currentPage - 1 else s.currentPage;
        Reaction(closed.(currentPage := page), Some(UserDeleted(u.username)), Some(FetchArgs(page, s.pageSize, s.sort)))
      case Failure(f) =>
        Reaction(closed, Some(FailureNotice(f, false, DeleteFailed(u.username))), None)
  }

  /** The rows a page of `total` users shows with `size` per page. */
  function RowsOnPage(total: int, page: int, size: int): int {
    Min(size, total - page * size)
  }

  /** After a successful delete on a page that held the rows it should,
      the next page fetched still has a row, unless the list is now empty:
      the list never lands on a page past its end. */
  lemma DeleteLandsOnARow(s: ListState, outcome: Result<(), CallFailure>)
    requires s.deleteTarget.Some? && outcome.Success?
    requires s.pageSize >= 1 && 0 <= s.currentPage && s.currentPage * s.pageSize < s.totalElements
    requires |s.users| == RowsOnPage(s.totalElements, s.currentPage, s.pageSize)
    ensures var q := ConfirmDelete(s, outcome).fetch.value.page;
      q >= 0 && (s.totalElements - 1 == 0 || q * s.pageSize < s.totalElements - 1)
  {
    var p := s.currentPage;
    var k := s.pageSize;
    var q := ConfirmDelete(s, outcome).fetch.value.page;
    if |s.users| == 1 && p > 0 {
      assert q * k == p * k - k;
    } else if p > 0 || |s.users| != 1 {
      assert s.totalElements - p * k >= 2;
    }
  }

  /** Saving from the edit dialog: on success the user is announced by the
      new name when one was sent and the old one otherwise, and the same
      page is fetched again; on failure the error is announced. The dialog
      closes either way. The dialog only saves while it has a user. */
  function SaveUser(s: ListState, changes: AdminEditModal.Changes, outcome: Result<(), CallFailure>)
    : (r: Reaction)
    requires s.editTarget.Some?
    ensures r.state == s.(editTarget := None)
    ensures outcome.Success? ==>
      && r.fetch == Some(CurrentFetch(s))
      && r.notice == Some(UserUpdated(
           if changes.username.Some? && changes.username.value != [] then changes.username.value
           else s.editTarget.value.username))
    ensures outcome.Failure? ==>
      r.fetch.None? && r.notice == Some(FailureNotice(outcome.error, false, UpdateFailed(s.editTarget.value.username)))
  {
    var u := s.editTarget.value;
    var closed := s.(editTarget := None);
    match outcome
    case Success(_) =>
      var name := if changes.username.Some? && changes.username.value != [] then changes.username.value else u.username;
      Reaction(closed, Some(UserUpdated(name)), Some(CurrentFetch(s)))
    case Failure(f) =>
      Reaction(closed, Some(FailureNotice(f, false, UpdateFailed(u.username))), None)
  }

  /** The edit button of a row: disabled while loading, for another
      administrator, and for oneself. */
  function EditDisabled(loading: bool, row: UserRow, selfId: Option<int>): (disabled: bool)
    ensures disabled <==> loading || ROLE_ADMIN in row.roles || selfId == Some(row.id)
  {
    var isTargetAdmin := ROLE_ADMIN in row.roles;
    var isSelf := selfId == Some(row.id);
    loading || (isTargetAdmin && !isSelf) || isSelf
  }

  /** The delete button of a row: disabled while loading, for any
      administrator, and for oneself. */
  function DeleteDisabled(loading: bool, row: UserRow, selfId: Option<int>): (disabled: bool)
    ensures !disabled ==> !loading && ROLE_ADMIN !in row.roles && selfId != Some(row.id)
  {
    loading || ROLE_ADMIN in row.roles || selfId == Some(row.id)
  }

  /** The two buttons follow one rule, however differently written: each is
      enabled exactly on a row of someone else who is not an administrator,
      while nothing loads. */
  lemma ButtonsAgree(loading: bool, row: UserRow, selfId: Option<int>)
    ensures EditDisabled(loading, row, selfId) == DeleteDisabled(loading, row, selfId)
    ensures !DeleteDisabled(loading, row, selfId) <==>
      !loading && ROLE_ADMIN !in row.roles && selfId != Some(row.id)
  {
  }

  // ---------------------------------------------------------------------
  // What the page shows

  /** The summary label, from the server's totals. */
  function Summary(s: ListState): (sp: Paging.Span)
    ensures sp.end <= s.totalElements
    ensures s.totalElements <= 0 ==> sp.start == 0
    ensures s.totalElements > 0 && s.currentPage >= 0 && s.pageSize >= 1 ==> sp.start >= 1
  {
    Paging.SummarySpan(s.totalElements, s.currentPage, s.pageSize)
  }

  /** For a page with rows, the label counts exactly those rows, 1-based;
      with no users it reads from 0 to 0. */
  lemma SummaryCountsRows(total: int, page: int, size: int)
    requires size >= 1 && page >= 0
    ensures total <= 0 ==> Paging.SummarySpan(total, page, size).start == 0
    ensures total == 0 ==> Paging.SummarySpan(total, page, size).end == 0
    ensures page * size < total ==>
      var sp := Paging.SummarySpan(total, page, size);
      && 1 <= sp.start <= sp.end <= total
      && sp.start == page * size + 1
      && sp.end - sp.start + 1 == RowsOnPage(total, page, size)
  {
    Paging.MulNonneg(page, size);
  }

  datatype View = LoadingView | ErrorView(error: Notice) | EmptyView | TableView

  /** Which of the page's four faces it shows. */
  function ViewOf(s: ListState, authLoading: bool): (v: View)
    ensures v == LoadingView <==> authLoading || (s.loading && s.users == [] && s.error.None?)
    ensures v.ErrorView? ==> s.users == [] && s.error == Some(v.error)
    ensures v == TableView ==> s.users != [] && !authLoading
    ensures v == EmptyView ==> s.users == [] && !s.loading && s.error.None?
  {
    if authLoading || (s.loading && s.users == [] && s.error.None?) then LoadingView
    else if s.error.Some? && s.users == [] then ErrorView(s.error.value)
    else if s.users == [] && !s.loading then EmptyView
    else TableView
  }
}

=== FILE: auth_controller.dfy ===
/** The authentication endpoints: registration, refreshing an access
    token, log-out, and the two steps of a password reset. A reply is the
    status and message key the endpoint answers with itself; a thrown
    failure is answered by the error handler. The issued access token is
    modelled by the claims it is issued for, and the reset mail by the
    user and token it is asked to carry. */
module AuthController {
  import opened Common
  import opened Failures
  import opened UserStore
  import opened UserDetails
  import opened Tokens
  import Roles
  import Accounts
  import ExceptionHandler

  const OK: int := 200
  const CREATED: int := 201

  datatype Reply = Reply(status: int, message: string)

  /** The tables after a request and the reply. */
  datatype Handled = Handled(db: Db, reply: Reply)

  datatype Registration = Registration(username: string, email: string, password: string)

  /** `registerUser`: a taken name is refused first, a taken e-mail next;
      otherwise one enabled user holding only the user role is stored with
      the encoded password, under the fresh id the table assigns. */
  function RegisterUser(db: Db, request: Registration, enc: Accounts.Encoder, newId: int): (r: Result<Handled, Failure>)
    requires !Exists(db.users, ById(newId))
    ensures Exists(db.users, ByUsername(request.username)) ==>
      r == Success(Handled(db, Reply(ExceptionHandler.BAD_REQUEST, "error.username.taken")))
    ensures !Exists(db.users, ByUsername(request.username)) && Exists(db.users, ByEmail(request.email)) ==>
      r == Success(Handled(db, Reply(ExceptionHandler.BAD_REQUEST, "error.email.taken")))
    ensures r.Failure? <==>
      !Exists(db.users, ByUsername(request.username)) && !Exists(db.users, ByEmail(request.email))
      && Roles.USER !in db.roleNames
    ensures r.Success? && r.value.reply.status == CREATED ==>
      && r.value.reply.message == "success.registration"
      && r.value.db == db.(users := db.users
           + [User(newId, request.username, request.email, enc.encode(request.password), true, {Roles.USER})])
    ensures r.Success? && r.value.reply.status != CREATED ==> r.value.db == db
  {
    if Exists(db.users, ByUsername(request.username)) then
      Success(Handled(db, Reply(ExceptionHandler.BAD_REQUEST, "error.username.taken")))
    else if Exists(db.users, ByEmail(request.email)) then
      Success(Handled(db, Reply(ExceptionHandler.BAD_REQUEST, "error.email.taken")))
    else if Roles.USER !in db.roleNames then Failure(Unexpected(Some("error.role.notfound")))
    else
      var u := User(newId, request.username, request.email, enc.encode(request.password), true, {Roles.USER});
      Success(Handled(db.(users := db.users + [u]), Reply(CREATED, "success.registration")))
  }

  /** A registration keeps the tables consistent, and the new user can
      then be loaded by name as an enabled principal with exactly the user
      authority. */
  lemma RegisteredUserLoads(db: Db, request: Registration, enc: Accounts.Encoder, newId: int)
    requires Consistent(db) && !Exists(db.users, ById(newId))
    requires RegisterUser(db, request, enc, newId).Success?
    requires RegisterUser(db, request, enc, newId).value.reply.status == CREATED
    ensures var after := RegisterUser(db, request, enc, newId).value.db;
      && Consistent(after)
      && LoadUserByUsername(after.users, request.username)
         == Success(Principal(newId, request.username, request.email, enc.encode(request.password), true, {Roles.USER}))
  {
    var after := RegisterUser(db, request, enc, newId).value.db;
    var n := |db.users|;
    forall id | Exists(db.users, ById(id))
      ensures Exists(after.users, ById(id))
    {
      var j := Find(db.users, ById(id)).value;
      assert Matches(after.users[j], ById(id));
    }
    assert UniqueUsers(after.users) by {
      forall a, b | 0 <= a < b < |after.users|
        ensures after.users[a].id != after.users[b].id
        ensures after.users[a].username != after.users[b].username
        ensures after.users[a].email != after.users[b].email
      {
        if b == n {
          assert !Matches(db.users[a], ById(newId));
          assert !Matches(db.users[a], ByUsername(request.username));
          assert !Matches(db.users[a], ByEmail(request.email));
        }
      }
    }
    FindUnique(after.users, ByUsername(request.username), n);
  }

  // ---------------------------------------------------------------------
  // Refreshing an access token

  /** The claims a new access token is issued for. */
  datatype Claims = Claims(username: string, id: int)

  datatype Refreshed = Refreshed(db: Db, result: Result<Claims, Failure>)

  /** `refreshToken`: an unknown token, an expired one, or one whose user
      is missing is refused; otherwise an access token is issued for the
      token's user. The expired token's deletion is rolled back with the
      failing service call, so the tables are never written. */
  function RefreshToken(db: Db, value: string, now: int): (r: Refreshed)
    ensures value !in db.refresh ==> r == Refreshed(db, Failure(TokenRefresh(value, "error.token.refresh.notfound")))
    ensures r.db == db
    ensures value in db.refresh && db.refresh[value].expiry < now ==>
      r.result == Failure(TokenRefresh(value, "error.token.refresh.expired"))
    ensures r.result.Success? <==>
      value in db.refresh && now <= db.refresh[value].expiry && Exists(db.users, ById(db.refresh[value].user))
    ensures r.result.Success? ==>
      && r.result.value.id == db.refresh[value].user
      && Lookup(db.users, ById(r.result.value.id)).value.username == r.result.value.username
  {
    if value !in db.refresh then Refreshed(db, Failure(TokenRefresh(value, "error.token.refresh.notfound")))
    else
      var checked := VerifyExpiration(db, value, db.refresh[value], now);
      if checked.result.Failure? then Refreshed(checked.db, Failure(checked.result.error))
      else
        match Lookup(db.users, ById(db.refresh[value].user))
        case None => Refreshed(db, Failure(TokenRefresh(value, "error.token.refresh.user.mismatch")))
        case Some(u) => Refreshed(db, Success(Claims(u.username, u.id)))
  }

  /** On consistent tables a token that has not expired always refreshes,
      for the user who logged in with it. */
  lemma LiveTokenRefreshes(db: Db, userId: int, now: int, durationMs: int, value: string, later: int)
    requires Consistent(db) && CreateOrUpdateRefreshToken(db, userId, now, durationMs, value).Success?
    requires later <= now + durationMs
    ensures var made := CreateOrUpdateRefreshToken(db, userId, now, durationMs, value).value;
      var r := RefreshToken(made, value, later);
      r.result.Success? && r.result.value.id == userId
  {
    CreateRefreshKeepsConsistent(db, userId, now, durationMs, value);
  }

  /** An expired token presented again, at any later instant, is refused
      as expired again: the refusal leaves it stored. */
  lemma ExpiredRetryRefusedAgain(db: Db, value: string, now: int, later: int)
    requires value in db.refresh && db.refresh[value].expiry < now <= later
    ensures var first := RefreshToken(db, value, now);
      && first.result == Failure(TokenRefresh(value, "error.token.refresh.expired"))
      && RefreshToken(first.db, value, later).result == first.result
  {
  }

  // ---------------------------------------------------------------------
  // Log-out

  /** The caller's id, as the controller reads it: only a principal of
      this application has one; anything else throws. */
  function CurrentUserId(auth: Auth): (r: Result<int, Failure>)
    ensures r.Success? <==> auth.Authenticated?
    ensures r.Failure? ==> r.error == IllegalState("error.user.fetch.failed")
  {
    match auth
    case Authenticated(p) => Success(p.id)
    case _ => Failure(IllegalState("error.user.fetch.failed"))
  }

  /** The caller's name: none for no authentication or the anonymous user,
      the principal's name otherwise. */
  function CurrentUsername(auth: Auth): (r: Option<string>)
    ensures r.None? <==> auth.Unauthenticated? || auth.AnonymousUser?
  {
    match auth
    case Unauthenticated => None
    case AnonymousUser => None
    case Authenticated(p) => Some(p.username)
    case OtherPrincipal(name) => Some(name)
  }

  /** A log-out with the tables and the security context after it. */
  datatype LoggedOut = LoggedOut(db: Db, reply: Reply, auth: Auth)

  /** The log-out steps after the caller is known: their refresh token is
      deleted and the context cleared. */
  function EndSession(db: Db, userId: int): (r: Result<LoggedOut, Failure>)
    ensures r.Success? <==> Exists(db.users, ById(userId))
    ensures r.Success? ==>
      && r.value.reply == Reply(OK, "success.logout") && r.value.auth == Unauthenticated
      && TokensOf(r.value.db.refresh, userId) == {}
  {
    match DeleteRefreshByUserId(db, userId)
    case Failure(f) => Failure(f)
    case Success(d) => Success(LoggedOut(d.db, Reply(OK, "success.logout"), Unauthenticated))
  }

  /** After a log-out, every refresh token the user held is refused as
      unknown. */
  lemma LoggedOutTokenRefused(db: Db, userId: int, value: string, now: int)
    requires Exists(db.users, ById(userId))
    requires value in db.refresh && db.refresh[value].user == userId
    ensures var out := EndSession(db, userId);
      && out.Success?
      && RefreshToken(out.value.db, value, now).result == Failure(TokenRefresh(value, "error.token.refresh.notfound"))
  {
  }

  /** `logoutUser` as written: the id is read before the name is checked,
      so a caller without a principal of this application makes the id
      lookup throw before the 401 reply is reached. */
  function LogoutAsWritten(db: Db, auth: Auth): (r: Result<LoggedOut, Failure>)
    ensures !auth.Authenticated? ==> r == Failure(IllegalState("error.user.fetch.failed"))
    ensures auth.Authenticated? ==> r == EndSession(db, auth.principal.id)
  {
    match CurrentUserId(auth)
    case Failure(f) => Failure(f)
    case Success(id) =>
      if CurrentUsername(auth).None? then Success(LoggedOut(db, Reply(ExceptionHandler.UNAUTHORIZED, "error.user.fetch.failed"), auth))
      else EndSession(db, id)
  }

  /** As written, the unauthenticated caller gets the 400 of an illegal
      state, never the 401 the controller spells out. */
  lemma LogoutUnauthorizedUnreachable(db: Db, auth: Auth, messages: ExceptionHandler.Messages)
    requires auth.Unauthenticated? || auth.AnonymousUser?
    ensures LogoutAsWritten(db, auth).Failure?
    ensures ExceptionHandler.Handle(messages, LogoutAsWritten(db, auth).error).status == ExceptionHandler.BAD_REQUEST
    ensures forall a: Auth :: LogoutAsWritten(db, a).Success? ==> LogoutAsWritten(db, a).value.reply.status != ExceptionHandler.UNAUTHORIZED
  {
    forall a: Auth | LogoutAsWritten(db, a).Success?
      ensures LogoutAsWritten(db, a).value.reply.status != ExceptionHandler.UNAUTHORIZED
    {
      assert a.Authenticated?;
    }
  }

  /** `logoutUser` with the name checked first: a caller with no
      authentication, or the anonymous user, gets the 401 reply and
      nothing changes; a principal of this application is logged out. */
  function Logout(db: Db, auth: Auth): (r: Result<LoggedOut, Failure>)
    ensures auth.Unauthenticated? || auth.AnonymousUser? ==>
      r == Success(LoggedOut(db, Reply(ExceptionHandler.UNAUTHORIZED, "error.user.fetch.failed"), auth))
    ensures auth.OtherPrincipal? ==> r == Failure(IllegalState("error.user.fetch.failed"))
    ensures auth.Authenticated? ==> r == EndSession(db, auth.principal.id)
  {
    if CurrentUsername(auth).None? then
      Success(LoggedOut(db, Reply(ExceptionHandler.UNAUTHORIZED, "error.user.fetch.failed"), auth))
    else
      match CurrentUserId(auth)
      case Failure(f) => Failure(f)
      case Success(id) => EndSession(db, id)
  }

  /** The two agree on every caller with a principal of this
      application; they differ only where the 401 was meant to apply. */
  lemma LogoutAgreesWhenAuthenticated(db: Db, auth: Auth)
    ensures auth.Authenticated? || auth.OtherPrincipal? ==> Logout(db, auth) == LogoutAsWritten(db, auth)
    ensures !(auth.Authenticated? || auth.OtherPrincipal?) ==>
      Logout(db, auth).Success? && LogoutAsWritten(db, auth).Failure?
  {
  }

  // ---------------------------------------------------------------------
  // Password reset

  /** The reset mail requested: the user and the token it carries. */
  datatype Mail = Mail(userId: int, token: string)

  datatype ResetRequested = ResetRequested(db: Db, mail: Option<Mail>, reply: Reply)

  /** `requestPasswordReset`: the identifier is tried as a name, then as an
      e-mail; for a user found, a reset token is created and its mail
      requested, and a failure there is swallowed. The reply is always the
      same success message. */
  function RequestPasswordReset(db: Db, usernameOrEmail: string, now: int, durationMs: int, value: string)
    : (r: ResetRequested)
    ensures r.reply == Reply(OK, "success.password.reset.request.sent")
    ensures r.mail.Some? ==>
      && r.mail.value.token == value
      && CreatePasswordResetToken(db, r.mail.value.userId, now, durationMs, value).Success?
      && r.db == CreatePasswordResetToken(db, r.mail.value.userId, now, durationMs, value).value
      && (Exists(db.users, ByUsername(usernameOrEmail)) ==>
            r.mail.value.userId == Lookup(db.users, ByUsername(usernameOrEmail)).value.id)
    ensures r.mail.None? ==> r.db == db
    ensures !Exists(db.users, ByUsername(usernameOrEmail)) && !Exists(db.users, ByEmail(usernameOrEmail)) ==>
      r == ResetRequested(db, None, Reply(OK, "success.password.reset.request.sent"))
  {
    var found :=
      if Exists(db.users, ByUsername(usernameOrEmail)) then Lookup(db.users, ByUsername(usernameOrEmail))
      else Lookup(db.users, ByEmail(usernameOrEmail));
    var reply := Reply(OK, "success.password.reset.request.sent");
    match found
    case None => ResetRequested(db, None, reply)
    case Some(u) =>
      match CreatePasswordResetToken(db, u.id, now, durationMs, value)
      case Failure(_) => ResetRequested(db, None, reply)
      case Success(made) => ResetRequested(made, Some(Mail(u.id, value)), reply)
  }

  /** The reply gives nothing away: two requests answer alike whether or
      not either identifier names a user. */
  lemma ResetRequestRevealsNothing(db1: Db, id1: string, db2: Db, id2: string, now: int, durationMs: int, value: string)
    ensures RequestPasswordReset(db1, id1, now, durationMs, value).reply
         == RequestPasswordReset(db2, id2, now, durationMs, value).reply
  {
  }

  /** `resetPassword`: a valid reset token sets its owner's password to
      the encoded new one and is then deleted. */
  function ResetPassword(db: Db, token: string, newPassword: string, now: int, enc: Accounts.Encoder)
    : (r: Result<Handled, Failure>)
    ensures ValidatePasswordResetToken(db, token, now).Failure? ==>
      r == Failure(ValidatePasswordResetToken(db, token, now).error)
    ensures r.Success? ==>
      && token in db.reset && Exists(db.users, ById(db.reset[token].user))
      && ValidatePasswordResetToken(db, token, now) == Success(db.reset[token].user)
      && var i := Find(db.users, ById(db.reset[token].user)).value;
      && r.value.reply == Reply(OK, "success.password.reset.success")
      && r.value.db.users == Replace(db.users, i, db.users[i].(passwordHash := enc.encode(newPassword)))
      && r.value.db.reset == db.reset - {token}
      && r.value.db.refresh == db.refresh
    ensures Consistent(db) && ValidatePasswordResetToken(db, token, now).Success? ==> r.Success?
  {
    match ValidatePasswordResetToken(db, token, now)
    case Failure(f) => Failure(f)
    case Success(owner) =>
      match Find(db.users, ById(owner))
      case None => Failure(Unexpected(None))
      case Some(i) =>
        var saved := db.(users := Replace(db.users, i, db.users[i].(passwordHash := enc.encode(newPassword))));
        Success(Handled(DeleteResetTokenByValue(saved, token), Reply(OK, "success.password.reset.success")))
  }

  /** A reset token works once: the same token used again is unknown. */
  lemma ResetTokenIsSingleUse(db: Db, token: string, newPassword: string, now: int, enc: Accounts.Encoder,
                              again: string, later: int)
    requires ResetPassword(db, token, newPassword, now, enc).Success?
    ensures var after := ResetPassword(db, token, newPassword, now, enc).value.db;
      ResetPassword(after, token, again, later, enc)
        == Failure(ResourceNotFound("error.password.reset.token.notfound"))
  {
  }
}

=== FILE: cipher.dfy ===
/** The Caesar cipher engine of the backend's cipher service: the two
    alphabets, input validation, the per-character shift, whole-text
    encryption and decryption, and the per-character visualisation trace. */
module Cipher {
  import opened Common
  import opened Strings

  datatype Language = EN | RU

  /** Letter `i` of the English alphabet, `A`..`Z`. */
  function EnLetter(i: int): char
    requires 0 <= i < 26
  {
    ('A' as int + i) as char
  }

  /** Letter `i` of the Russian alphabet: `А`..`Е`, then `Ё`, then `Ж`..`Я`. */
  function RuLetter(i: int): char
    requires 0 <= i < 33
  {
    if i < 6 then ('А' as int + i) as char
    else if i == 6 then 'Ё'
    else ('А' as int + i - 1) as char
  }

  function Alphabet(lang: Language): (a: string)
    ensures lang == EN ==> |a| == 26
    ensures lang == RU ==> |a| == 33
  {
    match lang
    case EN => seq(26, EnLetter)
    case RU => seq(33, RuLetter)
  }

  /** The alphabets are exactly the service's two constant strings. */
  lemma AlphabetsAsWritten()
    ensures Alphabet(EN) == "ABCDEFGHIJKLMNOPQRSTUVWXYZ"
    ensures Alphabet(RU) == "АБВГДЕЁЖЗИЙКЛМНОПРСТУФХЦЧШЩЪЫЬЭЮЯ"
  {
  }

  /** The largest valid shift: one less than the alphabet length. */
  function MaxShift(lang: Language): (m: int)
    ensures m == |Alphabet(lang)| - 1
    ensures lang == EN ==> m == 25
    ensures lang == RU ==> m == 32
  {
    match lang
    case EN => 25
    case RU => 32
  }

  /** What the cipher needs of an alphabet: upper-case letters, no repeats. */
  predicate ValidAlphabet(a: string) {
    && |a| > 0
    && (forall i :: 0 <= i < |a| ==> IsUpperLetter(a[i]))
    && (forall i, j :: 0 <= i < j < |a| ==> a[i] != a[j])
  }

  lemma AlphabetValid(lang: Language)
    ensures ValidAlphabet(Alphabet(lang))
  {
  }

  // ---------------------------------------------------------------------
  // Java's `String.indexOf(char)` and `%`

  /** First position of `c` in `a`, or -1. */
  function IndexOf(a: string, c: char): (r: int)
    ensures -1 <= r < |a|
    ensures r == -1 <==> c !in a
    ensures r >= 0 ==> a[r] == c
    ensures forall j :: 0 <= j < |a| && (r == -1 || j < r) ==> a[j] != c
  {
    if |a| == 0 then -1
    else if a[0] == c then 0
    else
      var r := IndexOf(a[1..], c);
      if r == -1 then -1 else r + 1
  }

  lemma IndexOfDistinct(a: string, i: int)
    requires 0 <= i < |a|
    requires forall p, q :: 0 <= p < q < |a| ==> a[p] != a[q]
    ensures IndexOf(a, a[i]) == i
  {
  }

  /** Java's `%` on `int`: the remainder takes the sign of the dividend. */
  function JavaRem(x: int, n: int): (r: int)
    requires n > 0
    ensures -n < r < n
    ensures x >= 0 ==> r >= 0
    ensures x < 0 ==> r <= 0
  {
    if x >= 0 then x % n else -((-x) % n)
  }

  /** `x % n` is the unique remainder in `[0, n)`. */
  lemma ModUnique(x: int, q: int, n: int, r: int)
    requires n > 0 && 0 <= r < n && x == q * n + r
    ensures x % n == r
  {
    var q0, r0 := x / n, x % n;
    assert x == q0 * n + r0;
    assert (q - q0) * n == r0 - r;
    if q > q0 {
      MulAtLeast(q - q0, n);
    } else if q < q0 {
      MulAtLeast(q0 - q, n);
    }
  }

  lemma MulAtLeast(d: int, n: int)
    requires d >= 1 && n > 0
    ensures d * n >= n
  {
  }

  /** Java's remainder fixed up by adding `n` when negative is the
      mathematical (non-negative) remainder. */
  lemma JavaRemFixup(x: int, n: int)
    requires n > 0
    ensures (if JavaRem(x, n) < 0 then JavaRem(x, n) + n else JavaRem(x, n)) == x % n
  {
    if x < 0 {
      var m := (-x) % n;
      var q := (-x) / n;
      assert -x == q * n + m;
      if m == 0 {
        ModUnique(x, -q, n, 0);
      } else {
        ModUnique(x, -q - 1, n, n - m);
      }
    }
  }

  // ---------------------------------------------------------------------
  // One character

  /** The position the shift sends alphabet index `idx` to. */
  function ShiftedIndex(idx: int, shift: int, n: int, encrypt: bool): (k: int)
    requires n > 0
    ensures 0 <= k < n
    ensures k == (idx + (if encrypt then shift else -shift)) % n
  {
    var effectiveShift := if encrypt then shift else -shift;
    var newIndex := JavaRem(idx + effectiveShift, n);
    JavaRemFixup(idx + effectiveShift, n);
    if newIndex < 0 then newIndex + n else newIndex
  }

  /** A character whose upper-case form is in the alphabet is replaced by the
      letter `shift` places further (encrypt) or back (decrypt), lower-cased
      when the original was lower-case; anything else passes through. */
  function ProcessChar(c: char, shift: int, alphabet: string, encrypt: bool): (p: char)
    ensures IndexOf(alphabet, ToUpper(c)) == -1 ==> p == c
    ensures IndexOf(alphabet, ToUpper(c)) >= 0 ==>
      p == WithCase(c, alphabet[(IndexOf(alphabet, ToUpper(c)) + (if encrypt then shift else -shift)) % |alphabet|])
  {
    var upperChar := ToUpper(c);
    var originalIndex := IndexOf(alphabet, upperChar);
    if originalIndex == -1 then c
    else
      var newUpperChar := alphabet[ShiftedIndex(originalIndex, shift, |alphabet|, encrypt)];
      WithCase(c, newUpperChar)
  }

  /** The whole text, character by character: the reference definition the
      loops below are checked against. */
  function Transform(text: string, shift: int, alphabet: string, encrypt: bool): (r: string)
    ensures |r| == |text|
    ensures forall i :: 0 <= i < |text| ==> r[i] == ProcessChar(text[i], shift, alphabet, encrypt)
  {
    seq(|text|, i requires 0 <= i < |text| => ProcessChar(text[i], shift, alphabet, encrypt))
  }

  // ---------------------------------------------------------------------
  // Validation and the public operations

  datatype CipherError = TextNull | LanguageNull | ShiftInvalid(shift: int, alphabetLength: nat)

  /** Null text is reported first, then a null language, then a shift outside
      `1 .. |alphabet| - 1`. */
  function ValidateInput(text: Option<string>, shift: int, lang: Option<Language>): (r: Result<(), CipherError>)
    ensures r.Success? <==> text.Some? && lang.Some? && 1 <= shift <= MaxShift(lang.value)
    ensures text.None? ==> r == Failure(TextNull)
    ensures text.Some? && lang.None? ==> r == Failure(LanguageNull)
    ensures text.Some? && lang.Some? && r.Failure? ==> r.error == ShiftInvalid(shift, |Alphabet(lang.value)|)
  {
    if text.None? then Failure(TextNull)
    else if lang.None? then Failure(LanguageNull)
    else if shift <= 0 || shift >= |Alphabet(lang.value)| then Failure(ShiftInvalid(shift, |Alphabet(lang.value)|))
    else Success(())
  }

  /** The `StringBuilder` loop of the service. */
  method ProcessText(text: string, shift: int, lang: Language, encrypt: bool) returns (r: string)
    ensures r == Transform(text, shift, Alphabet(lang), encrypt)
  {
    var alphabet := Alphabet(lang);
    r := [];
    var i := 0;
    while i < |text|
      invariant 0 <= i <= |text|
      invariant r == Transform(text[..i], shift, alphabet, encrypt)
    {
      r := r + [ProcessChar(text[i], shift, alphabet, encrypt)];
      i := i + 1;
    }
    assert text[..i] == text;
  }

  method Encrypt(text: Option<string>, shift: int, lang: Option<Language>) returns (r: Result<string, CipherError>)
    ensures r.Failure? <==> ValidateInput(text, shift, lang).Failure?
    ensures r.Failure? ==> r.error == ValidateInput(text, shift, lang).error
    ensures r.Success? ==> r.value == Transform(text.value, shift, Alphabet(lang.value), true)
  {
    var v := ValidateInput(text, shift, lang);
    if v.Failure? {
      return Failure(v.error);
    }
    var s := ProcessText(text.value, shift, lang.value, true);
    return Success(s);
  }

  method Decrypt(text: Option<string>, shift: int, lang: Option<Language>) returns (r: Result<string, CipherError>)
    ensures r.Failure? <==> ValidateInput(text, shift, lang).Failure?
    ensures r.Failure? ==> r.error == ValidateInput(text, shift, lang).error
    ensures r.Success? ==> r.value == Transform(text.value, shift, Alphabet(lang.value), false)
  {
    var v := ValidateInput(text, shift, lang);
    if v.Failure? {
      return Failure(v.error);
    }
    var s := ProcessText(text.value, shift, lang.value, false);
    return Success(s);
  }

  // ---------------------------------------------------------------------
  // Properties of the character map

  /** Characters for which Java's case mapping is a bijection with the
      alphabet: lower-casing the upper-case form gives the character back. */
  predicate CaseRoundTrips(c: char, alphabet: string) {
    IndexOf(alphabet, ToUpper(c)) >= 0 ==>
      (if IsLower(c) then ToLower(ToUpper(c)) == c else ToUpper(c) == c)
  }

  /** Decryption undoes encryption (and vice versa) on a character whose case
      mapping round-trips. */
  lemma ProcessCharRoundTrip(c: char, shift: int, a: string, encrypt: bool)
    requires ValidAlphabet(a)
    requires CaseRoundTrips(c, a)
    ensures ProcessChar(ProcessChar(c, shift, a, encrypt), shift, a, !encrypt) == c
  {
    var i := IndexOf(a, ToUpper(c));
    if i >= 0 {
      var k := (i + (if encrypt then shift else -shift)) % |a|;
      var p := ProcessChar(c, shift, a, encrypt);
      ShiftLetter(c, shift, a, encrypt, i, ToUpper(c));
      LetterIndex(c, p, a, k);
      UndoShift(p, shift, a, encrypt, i, k, ToUpper(p));
      CaseRestored(c, p, a, i);
    }
  }

  /** A letter at alphabet index `i` becomes the letter at `(i ± shift) mod n`
      with the original's case. */
  lemma ShiftLetter(c: char, shift: int, a: string, encrypt: bool, i: int, u: char)
    requires u == ToUpper(c) && i == IndexOf(a, u) && i >= 0
    ensures ProcessChar(c, shift, a, encrypt) == WithCase(c, a[(i + (if encrypt then shift else -shift)) % |a|])
  {
  }

  /** Shifting the other way from index `(i ± shift) mod n` lands on `i`. */
  lemma UndoShift(p: char, shift: int, a: string, encrypt: bool, i: int, k: int, u: char)
    requires 0 <= i < |a|
    requires u == ToUpper(p) && IndexOf(a, u) == k
    requires k == (i + (if encrypt then shift else -shift)) % |a|
    ensures ProcessChar(p, shift, a, !encrypt) == WithCase(p, a[i])
  {
    ShiftLetter(p, shift, a, !encrypt, k, u);
    ShiftBack(i, shift, |a|, encrypt);
  }

  /** A letter given the case of `c` is found back at its alphabet index and
      has the case of `c`. */
  lemma LetterIndex(c: char, p: char, a: string, k: int)
    requires ValidAlphabet(a) && 0 <= k < |a|
    requires p == WithCase(c, a[k])
    ensures IndexOf(a, ToUpper(p)) == k && IsLower(p) == IsLower(c)
  {
    WithCaseOf(c, a[k]);
    IndexOfDistinct(a, k);
  }

  /** Giving `c`'s own upper-case letter the case of `p`, which matches the
      case of `c`, restores `c` when its case mapping round-trips. */
  lemma CaseRestored(c: char, p: char, a: string, i: int)
    requires CaseRoundTrips(c, a)
    requires i == IndexOf(a, ToUpper(c)) && i >= 0
    requires IsLower(p) == IsLower(c)
    ensures WithCase(p, a[i]) == c
  {
  }

  lemma ShiftBack(i: int, shift: int, n: int, encrypt: bool)
    requires 0 <= i < n
    ensures ((i + (if encrypt then shift else -shift)) % n + (if !encrypt then shift else -shift)) % n == i
  {
    ModCancel(i, if encrypt then shift else -shift, n);
  }

  lemma ModCancel(i: int, d: int, n: int)
    requires 0 <= i < n
    ensures ((i + d) % n - d) % n == i
  {
    var k := (i + d) % n;
    var q := (i + d) / n;
    assert i + d == q * n + k;
    ModUnique(k - d, -q, n, i);
  }

  /** `decrypt(encrypt(t, k), k) == t` for a valid shift, when every character
      of `t` has a case mapping that round-trips. */
  lemma {:induction false} RoundTrip(text: string, shift: int, lang: Language)
    requires forall i :: 0 <= i < |text| ==> CaseRoundTrips(text[i], Alphabet(lang))
    ensures Transform(Transform(text, shift, Alphabet(lang), true), shift, Alphabet(lang), false) == text
    ensures Transform(Transform(text, shift, Alphabet(lang), false), shift, Alphabet(lang), true) == text
  {
    var a := Alphabet(lang);
    AlphabetValid(lang);
    forall i | 0 <= i < |text|
      ensures Transform(Transform(text, shift, a, true), shift, a, false)[i] == text[i]
      ensures Transform(Transform(text, shift, a, false), shift, a, true)[i] == text[i]
    {
      ProcessCharRoundTrip(text[i], shift, a, true);
      ProcessCharRoundTrip(text[i], shift, a, false);
    }
  }

  /** Without the case condition the round trip fails: Java upper-cases the
      dotless `ı` to `I`, so it encrypts to `j` and decrypts to `i`. */
  lemma DotlessIBreaksRoundTrip()
    ensures Transform(Transform("ı", 1, Alphabet(EN), true), 1, Alphabet(EN), false) == "i"
  {
    AlphabetValid(EN);
    DotlessIShifts(Alphabet(EN));
  }

  lemma DotlessIShifts(a: string)
    requires ValidAlphabet(a) && |a| == 26 && a[8] == 'I' && a[9] == 'J'
    ensures Transform(Transform("ı", 1, a, true), 1, a, false) == "i"
  {
    IndexOfDistinct(a, 8);
    IndexOfDistinct(a, 9);
    assert ToUpper('ı') == 'I' && IsLower('ı');
    assert ToUpper('j') == 'J' && IsLower('j');
    assert ProcessChar('ı', 1, a, true) == 'j';
    assert Transform("ı", 1, a, true) == "j";
  }

  // ---------------------------------------------------------------------
  // The visualisation trace

  /** The two shapes of `params` a step carries. */
  datatype StepParams =
    | AlphabeticParams(original: char, originalPosition: int, operationKey: string,
                       shift: int, processed: char, processedPosition: int)
    | NonAlphabeticParams(original: char, languageNameKey: string)

  datatype VisualizationStep = VisualizationStep(
    stepIndex: int, charIndex: int, originalChar: char, processedChar: char,
    intermediateText: string, explanationKey: string, params: StepParams, skipped: bool)

  function LanguageNameKey(lang: Language): string {
    match lang
    case RU => "alphabet_russian"
    case EN => "alphabet_english"
  }

  /** The step record for position `i`: character `c` became `p`; the
      indices are the alphabet positions of their upper-case forms (-1 when
      absent), and `intermediate` is the text after the replacement. */
  function MakeStep(i: int, c: char, p: char, originalIndex: int, processedIndex: int,
                    shift: int, lang: Language, encrypt: bool, intermediate: string): VisualizationStep
  {
    if originalIndex != -1 then
      VisualizationStep(i, i, c, p, intermediate, "visualization_explanation_alphabetic_trans",
        AlphabeticParams(c, originalIndex + 1,
          if encrypt then "visualization_operation_encrypt" else "visualization_operation_decrypt",
          shift, p, processedIndex + 1),
        false)
    else
      VisualizationStep(i, i, c, p, intermediate, "visualization_explanation_nonalphabetic_trans",
        NonAlphabeticParams(c, LanguageNameKey(lang)), true)
  }

  /** Step `i` of the trace of `text`: character `i` processed, and the text
      with positions `0..i` processed and the rest untouched. */
  function StepAt(text: string, shift: int, lang: Language, encrypt: bool, i: int): (st: VisualizationStep)
    requires 0 <= i < |text|
    ensures st.stepIndex == i && st.charIndex == i && st.originalChar == text[i]
    ensures st.skipped <==> ToUpper(text[i]) !in Alphabet(lang)
    ensures st.skipped ==> st.processedChar == text[i]
    ensures st.processedChar == Transform(text, shift, Alphabet(lang), encrypt)[i]
    ensures st.intermediateText == Transform(text, shift, Alphabet(lang), encrypt)[..i + 1] + text[i + 1..]
  {
    var a := Alphabet(lang);
    var c := text[i];
    var p := ProcessChar(c, shift, a, encrypt);
    MakeStep(i, c, p, IndexOf(a, ToUpper(c)), IndexOf(a, ToUpper(p)), shift, lang, encrypt,
      Transform(text, shift, a, encrypt)[..i + 1] + text[i + 1..])
  }

  /** The whole trace, one step per character. */
  function Trace(text: string, shift: int, lang: Language, encrypt: bool): (steps: seq<VisualizationStep>)
    ensures |steps| == |text|
    ensures forall i :: 0 <= i < |text| ==> steps[i] == StepAt(text, shift, lang, encrypt, i)
  {
    seq(|text|, i requires 0 <= i < |text| => StepAt(text, shift, lang, encrypt, i))
  }

  /** The trace loop: the text rewritten in place, one step per character. */
  method BuildSteps(text: string, shift: int, lang: Language, encrypt: bool) returns (steps: seq<VisualizationStep>)
    ensures steps == Trace(text, shift, lang, encrypt)
  {
    var a := Alphabet(lang);
    var builder := text;
    steps := [];
    var i := 0;
    while i < |text|
      invariant 0 <= i <= |text|
      invariant builder == Transform(text, shift, a, encrypt)[..i] + text[i..]
      invariant steps == Trace(text, shift, lang, encrypt)[..i]
    {
      var c := text[i];
      var p := ProcessChar(c, shift, a, encrypt);
      TraceStep(text, shift, lang, encrypt, i, builder, steps);
      builder := builder[i := p];
      steps := steps + [MakeStep(i, c, p, IndexOf(a, ToUpper(c)), IndexOf(a, ToUpper(p)), shift, lang, encrypt, builder)];
      i := i + 1;
    }
    assert steps == Trace(text, shift, lang, encrypt)[..i];
  }

  /** One iteration of the trace loop keeps its two invariants. */
  lemma TraceStep(text: string, shift: int, lang: Language, encrypt: bool, i: int,
                  builder: string, steps: seq<VisualizationStep>)
    requires 0 <= i < |text|
    requires builder == Transform(text, shift, Alphabet(lang), encrypt)[..i] + text[i..]
    requires steps == Trace(text, shift, lang, encrypt)[..i]
    ensures var a := Alphabet(lang);
      var p := ProcessChar(text[i], shift, a, encrypt);
      var b := builder[i := p];
      && b == Transform(text, shift, a, encrypt)[..i + 1] + text[i + 1..]
      && steps + [MakeStep(i, text[i], p, IndexOf(a, ToUpper(text[i])), IndexOf(a, ToUpper(p)), shift, lang, encrypt, b)]
         == Trace(text, shift, lang, encrypt)[..i + 1]
  {
    var a := Alphabet(lang);
    var target := Transform(text, shift, a, encrypt);
    SpliceStep(target, text, i);
    var b := builder[i := target[i]];
    StepMatches(text, shift, lang, encrypt, i, b);
    PrefixExtend(Trace(text, shift, lang, encrypt), i);
  }

  /** The step the loop builds from its in-place text is the reference step. */
  lemma StepMatches(text: string, shift: int, lang: Language, encrypt: bool, i: int, builder: string)
    requires 0 <= i < |text|
    requires builder == Transform(text, shift, Alphabet(lang), encrypt)[..i + 1] + text[i + 1..]
    ensures var a := Alphabet(lang);
      var p := ProcessChar(text[i], shift, a, encrypt);
      MakeStep(i, text[i], p, IndexOf(a, ToUpper(text[i])), IndexOf(a, ToUpper(p)), shift, lang, encrypt, builder)
        == Trace(text, shift, lang, encrypt)[i]
  {
  }

  lemma PrefixExtend<T>(s: seq<T>, i: int)
    requires 0 <= i < |s|
    ensures s[..i + 1] == s[..i] + [s[i]]
  {
  }

  /** Overwriting position `i` of "done up to `i`, original after" with the
      done character moves the boundary one place right. */
  lemma SpliceStep(done: string, orig: string, i: int)
    requires |done| == |orig| && 0 <= i < |orig|
    ensures (done[..i] + orig[i..])[i := done[i]] == done[..i + 1] + orig[i + 1..]
  {
  }

  method VisualizationSteps(text: Option<string>, shift: int, lang: Option<Language>, encrypt: bool)
    returns (r: Result<seq<VisualizationStep>, CipherError>)
    ensures r.Failure? <==> ValidateInput(text, shift, lang).Failure?
    ensures r.Failure? ==> r.error == ValidateInput(text, shift, lang).error
    ensures r.Success? ==> r.value == Trace(text.value, shift, lang.value, encrypt)
  {
    var v := ValidateInput(text, shift, lang);
    if v.Failure? {
      return Failure(v.error);
    }
    var steps := BuildSteps(text.value, shift, lang.value, encrypt);
    return Success(steps);
  }

  /** The last step's text is the whole cipher output. */
  lemma LastStepIsOutput(text: string, shift: int, lang: Language, encrypt: bool)
    requires |text| > 0
    ensures StepAt(text, shift, lang, encrypt, |text| - 1).intermediateText
         == Transform(text, shift, Alphabet(lang), encrypt)
  {
    var t := Transform(text, shift, Alphabet(lang), encrypt);
    assert t[..|text|] == t;
  }
}

=== FILE: cipher_controller.dfy ===
/** The visualisation endpoint: the request's bean-validation constraints,
    the service's trace, and the result text taken from the trace's last
    step (or computed directly when there are no steps). */
module CipherController {
  import opened Common
  import opened Strings
  import opened Cipher

  /** The request body after JSON binding; absent fields are `None`. */
  datatype CipherRequest = CipherRequest(
    text: Option<string>, shift: Option<int>, language: Option<Language>, encrypt: Option<bool>)

  datatype VisualizationResponse = VisualizationResponse(steps: seq<VisualizationStep>, resultText: string)

  datatype EndpointError = InvalidRequest | CipherFailed(error: CipherError)

  /** `@NotBlank`, `@Size(max = 500)` on the text, `@NotNull @Min(1)` on the
      shift, `@NotNull` on the language and the direction flag. */
  predicate RequestValid(req: CipherRequest) {
    && req.text.Some? && JavaTrim(req.text.value) != [] && |req.text.value| <= 500
    && req.shift.Some? && req.shift.value >= 1
    && req.language.Some?
    && req.encrypt.Some?
  }

  /** What the constraints leave to the service: a valid body has a text of
      1 to 500 characters, and passes the service's own input check exactly
      when its shift is within the alphabet; a text of nothing but blanks
      and control characters is refused. */
  lemma RequestConstraints(req: CipherRequest)
    ensures RequestValid(req) ==> 0 < |req.text.value| <= 500
    ensures RequestValid(req) ==>
      (ValidateInput(req.text, req.shift.value, req.language).Success? <==> req.shift.value <= MaxShift(req.language.value))
    ensures req.text.Some? && (forall i :: 0 <= i < |req.text.value| ==> IsJavaTrimmable(req.text.value[i])) ==>
      !RequestValid(req)
  {
    if req.text.Some? {
      JavaTrimFacts(req.text.value);
    }
  }

  /** The handler body, given the bound fields: the trace from the service,
      and the result text read off the last step, or computed directly when
      the trace is empty. */
  method VisualizeCaesarCipher(text: string, shift: int, lang: Language, encrypt: bool)
    returns (r: Result<VisualizationResponse, CipherError>)
    ensures r.Failure? <==> !(1 <= shift <= MaxShift(lang))
    ensures r.Failure? ==> r.error == ShiftInvalid(shift, |Alphabet(lang)|)
    ensures r.Success? ==>
      && r.value.steps == Trace(text, shift, lang, encrypt)
      && r.value.resultText == Transform(text, shift, Alphabet(lang), encrypt)
  {
    var stepsResult := VisualizationSteps(Some(text), shift, Some(lang), encrypt);
    if stepsResult.Failure? {
      return Failure(stepsResult.error);
    }
    var steps := stepsResult.value;
    var resultText;
    if |steps| == 0 {
      var direct;
      if encrypt {
        direct := Encrypt(Some(text), shift, Some(lang));
      } else {
        direct := Decrypt(Some(text), shift, Some(lang));
      }
      resultText := direct.value;
    } else {
      LastStepIsOutput(text, shift, lang, encrypt);
      resultText := steps[|steps| - 1].intermediateText;
    }
    return Success(VisualizationResponse(steps, resultText));
  }

  /** The endpoint: a body that breaks a constraint is refused before the
      handler runs, so the handler only ever sees a non-blank text and a
      positive shift; the service still rejects a shift past the alphabet. */
  method Visualize(req: CipherRequest) returns (r: Result<VisualizationResponse, EndpointError>)
    ensures !RequestValid(req) ==> r == Failure(InvalidRequest)
    ensures RequestValid(req) ==>
      (r.Failure? <==> req.shift.value > MaxShift(req.language.value))
    ensures RequestValid(req) && r.Failure? ==>
      r.error == CipherFailed(ShiftInvalid(req.shift.value, |Alphabet(req.language.value)|))
    ensures r.Success? ==>
      && |r.value.steps| == |req.text.value| > 0
      && r.value.resultText == Transform(req.text.value, req.shift.value, Alphabet(req.language.value), req.encrypt.value)
  {
    if !RequestValid(req) {
      return Failure(InvalidRequest);
    }
    var h := VisualizeCaesarCipher(req.text.value, req.shift.value, req.language.value, req.encrypt.value);
    if h.Failure? {
      return Failure(CipherFailed(h.error));
    }
    return Success(h.value);
  }
}

=== FILE: client_cipher.dfy ===
/** Pieces the client's cipher pages share: the application language they
    start from, and the alphabet row rotated by the key that both pages show
    under the plain alphabet. */
module ClientCipher {
  import opened Common
  import opened Strings
  import opened Cipher

  // ---------------------------------------------------------------------
  // The application language

  /** The part of a language tag before the first `-` (`split('-')[0]`). */
  function BeforeDash(s: string): (r: string)
    ensures |r| <= |s| && r == s[..|r|]
    ensures '-' !in r
    ensures |r| < |s| ==> s[|r|] == '-'
  {
    if |s| == 0 || s[0] == '-' then [] else [s[0]] + BeforeDash(s[1..])
  }

  /** The tag is the two letters `x y` alone or followed by `-`. */
  predicate HasPrimary(tag: string, x: char, y: char) {
    |tag| >= 2 && tag[0] == x && tag[1] == y && (|tag| == 2 || tag[2] == '-')
  }

  /** A tag's primary subtag is `x y` exactly when the tag is `x y` or
      starts with `x y -`. */
  lemma {:induction false} BeforeDashIs(tag: string, x: char, y: char)
    requires x != '-' && y != '-'
    ensures BeforeDash(tag) == [x, y] <==> HasPrimary(tag, x, y)
  {
    if |tag| >= 2 && tag[0] == x && tag[1] == y {
      var rest := tag[2..];
      assert tag[1..][1..] == rest;
      assert BeforeDash(tag) == [x, y] + BeforeDash(rest);
    } else if |tag| >= 1 && tag[0] == x {
      assert BeforeDash(tag) == [x] + BeforeDash(tag[1..]);
    }
  }

  /** `i18n.resolvedLanguage || i18n.language.split('-')[0]`: an empty
      resolved language counts as missing. */
  function AppLanguage(resolved: Option<string>, language: string): string {
    if resolved.Some? && resolved.value != [] then resolved.value else BeforeDash(language)
  }

  /** The application language is `x y` exactly when the resolved language
      is, or, with none resolved, when the language tag's primary subtag is. */
  lemma AppLanguageIs(resolved: Option<string>, language: string, x: char, y: char)
    requires x != '-' && y != '-'
    ensures AppLanguage(resolved, language) == [x, y] <==>
      if resolved.Some? && resolved.value != [] then resolved.value == [x, y]
      else HasPrimary(language, x, y)
  {
    BeforeDashIs(language, x, y);
  }

  // ---------------------------------------------------------------------
  // The rotated alphabet

  /** The alphabet row shown under the original: position `i` holds the
      letter `(i + key % len + len) % len`, with JavaScript's `%`; an empty
      alphabet gives an empty row. Whatever the sign of the key, that is
      the letter `key` places on. */
  function ShiftedAlphabet(a: string, key: int): (r: string)
    ensures |r| == |a|
    ensures forall i :: 0 <= i < |a| ==> r[i] == a[(i + key) % |a|]
  {
    if |a| == 0 then ""
    else
      var n := |a|;
      assert forall i :: 0 <= i < n ==> RotatedIndex(key, n, i) == (i + key) % n by {
        forall i | 0 <= i < n
          ensures RotatedIndex(key, n, i) == (i + key) % n
        {
          RotationIndex(key, n, i);
        }
      }
      seq(n, i requires 0 <= i < n => a[RotatedIndex(key, n, i)])
  }

  /** JavaScript's fix-up `(i + key % n + n) % n` is the rotation index
      `(i + key) mod n`. */
  function RotatedIndex(key: int, n: int, i: int): int
    requires n > 0
  {
    (i + JavaRem(key, n) + n) % n
  }

  lemma RotationIndex(key: int, n: int, i: int)
    requires n > 0 && 0 <= i < n
    ensures RotatedIndex(key, n, i) == (i + key) % n
  {
    var r := JavaRem(key, n);
    JavaRemFixup(key, n);
    var m, q := key % n, key / n;
    var t, u := (i + m) % n, (i + m) / n;
    assert i + key == (q + u) * n + t by {
      assert key == q * n + m && i + m == u * n + t;
      assert (q + u) * n == q * n + u * n;
    }
    ModUnique(i + key, q + u, n, t);
    if r == m {
      ModUnique(i + r + n, u + 1, n, t);
    } else {
      ModUnique(i + r + n, u, n, t);
    }
  }

  /** The rotated row is the encryption of the alphabet: the letter under
      each letter is what the cipher turns it into with the same key. */
  lemma ShiftedRowEncrypts(lang: Language, key: int, i: int)
    requires 0 <= i < |Alphabet(lang)|
    ensures ShiftedAlphabet(Alphabet(lang), key)[i] == ProcessChar(Alphabet(lang)[i], key, Alphabet(lang), true)
  {
    var a := Alphabet(lang);
    AlphabetValid(lang);
    IndexOfDistinct(a, i);
    UpperLetterCases(a[i]);
  }

}

=== FILE: client_server.dfy ===
/** Where the browser client and the server meet: what the client lets
    an administrator click is what the server then permits, the sort the
    list asks for is one the server can serve, and the language tag the
    practice page sends is one the server's converter reads back. */
module ClientServer {
  import opened Common
  import opened UserStore
  import opened UserDetails
  import AdminUserList
  import Accounts
  import AdminSort
  import Converters
  import TaskSession
  import Cipher

  /** A list row shows the stored user: same id, same role names. */
  predicate RowShows(row: AdminUserList.UserRow, u: User) {
    && row.id == u.id
    && (forall r :: r in row.roles ==> r in u.roles)
    && (forall r :: r in u.roles ==> r in row.roles)
  }

  /** An enabled delete button on a row, clicked by an administrator, is a
      delete the server carries out. */
  lemma EnabledDeleteIsPermitted(
    db: Db, loading: bool, row: AdminUserList.UserRow, p: Principal, i: nat)
    requires i < |db.users| && UniqueUsers(db.users) && RowShows(row, db.users[i])
    requires Accounts.IsAdmin(p)
    requires !AdminUserList.DeleteDisabled(loading, row, Some(p.id))
    ensures Accounts.MayDelete(p, db.users[i])
    ensures Accounts.DeleteAccount(db, row.id, Authenticated(p)).Success?
  {
    FindUnique(db.users, ById(row.id), i);
  }

  /** An enabled edit button on a row opens an edit the server's permission
      checks let through, whatever the form then sends. */
  lemma EnabledEditIsPermitted(
    loading: bool, row: AdminUserList.UserRow, p: Principal, u: User, dto: Accounts.AdminUpdate)
    requires RowShows(row, u) && Accounts.IsAdmin(p)
    requires !AdminUserList.EditDisabled(loading, row, Some(p.id))
    ensures Accounts.MayEdit(p, u, dto)
    ensures Accounts.AdminCheck(p, u, dto).None?
  {
  }

  /** The client is stricter than the server on one's own row: the server
      would let an administrator delete their own account, the list does
      not offer it. */
  lemma OwnRowStricterThanServer(loading: bool, row: AdminUserList.UserRow, p: Principal, u: User)
    requires RowShows(row, u) && p.id == u.id
    ensures Accounts.MayDelete(p, u)
    ensures AdminUserList.DeleteDisabled(loading, row, Some(p.id))
  {
  }

  /** The server's direction for the list's direction. */
  function ServerDirection(d: AdminUserList.Direction): AdminSort.Direction {
    match d
    case Asc => AdminSort.ASC
    case Desc => AdminSort.DESC
  }

  /** The page request the list's fetch arrives as: one order, on the
      column key, in the column's direction. */
  function RequestOf(args: AdminUserList.FetchArgs): (p: AdminSort.Pageable)
    ensures p.page == args.page && p.size == args.size
    ensures |p.sort| == 1 && p.sort[0].property == args.sort.key
  {
    AdminSort.Pageable(args.page, args.size, [AdminSort.Order(ServerDirection(args.sort.direction), args.sort.key)])
  }

  /** Clicking the list's roles header gives a request the server serves
      ordered by user name, ascending or descending as the click asked,
      from the first page. */
  lemma RolesColumnServedByUsername(s: AdminUserList.ListState)
    ensures var after := AdminUserList.HeaderClick(s, AdminSort.ROLES);
      var served := AdminSort.EffectivePageable(RequestOf(AdminUserList.CurrentFetch(after)));
      && served.page == 0
      && served.sort == [AdminSort.Order(ServerDirection(after.sort.direction), AdminSort.USERNAME)]
  {
    assert AdminSort.ROLES in AdminUserList.SORTABLE_COLUMNS by {
      assert AdminUserList.SORTABLE_COLUMNS[4] == AdminSort.ROLES;
    }
    var after := AdminUserList.HeaderClick(s, AdminSort.ROLES);
    AdminSort.RolesBecomesUsername(after.currentPage, after.pageSize, ServerDirection(after.sort.direction), AdminSort.ROLES);
  }

  /** The practice page's language tag converts back to the language. */
  lemma LanguageTagConverts(l: Cipher.Language)
    ensures Converters.ConvertLanguage(TaskSession.LanguageName(l)) == Success(l)
  {
    Converters.LanguageNameRoundTrip(l);
    assert TaskSession.LanguageName(l) == Converters.LanguageName(l);
  }
}

=== FILE: common.dfy ===
/** Small shared vocabulary: optional values, results with an error value,
    and the integer clamping the application uses everywhere it bounds user
    input (`Math.max(lo, Math.min(x, hi))`). */
module Common {

  datatype Option<+T> = None | Some(value: T) {
    function GetOr(default: T): T {
      match this
      case Some(v) => v
      case None => default
    }
  }

  datatype Result<+R, +E> = Success(value: R) | Failure(error: E) {
    predicate IsFailure() { Failure? }
  }

  function Min(a: int, b: int): int { if a <= b then a else b }

  function Max(a: int, b: int): int { if a >= b then a else b }

  /** `Math.max(lo, Math.min(x, hi))`: the upper bound is applied first, so
      when `lo > hi` the result is `lo`. */
  function Clamp(x: int, lo: int, hi: int): (r: int)
    ensures r >= lo && (lo <= hi ==> r <= hi)
    ensures lo <= x <= hi ==> r == x
    ensures x < lo || hi < lo ==> r == lo
    ensures lo <= hi < x ==> r == hi
  {
    Max(lo, Min(x, hi))
  }
}

=== FILE: converters.dfy ===
/** The request-parameter converters of the server: a language, a task
    difficulty or a Caesar task type named in a query string or a path.
    The value is trimmed and upper-cased and looked up among the constant
    names; the language also accepts its three-letter code and the task
    type its kebab-case route name, both without regard to case. Anything
    else is an illegal argument whose message names the refused value. */
module Converters {
  import opened Common
  import opened Strings
  import opened Failures
  import opened Cipher
  import opened TaskService

  // ---------------------------------------------------------------------
  // Constant names

  /** The declared name of a language constant. */
  function LanguageName(l: Language): string {
    match l
    case EN => "EN"
    case RU => "RU"
  }

  /** The three-letter code a language is also known by. */
  function LanguageCode(l: Language): string {
    match l
    case EN => "ENG"
    case RU => "RUS"
  }

  function DifficultyName(d: TaskDifficulty): string {
    match d
    case EASY => "EASY"
    case MEDIUM => "MEDIUM"
    case HARD => "HARD"
    case CUSTOM => "CUSTOM"
  }

  function TaskTypeName(t: CaesarTaskType): string {
    match t
    case FIND_KEY => "FIND_KEY"
    case ENCRYPT_TEXT => "ENCRYPT_TEXT"
    case DECRYPT_TEXT => "DECRYPT_TEXT"
  }

  /** The lower-case, hyphenated route name of a task type. */
  function TaskTypeRoute(t: CaesarTaskType): string {
    match t
    case FIND_KEY => "find-key"
    case ENCRYPT_TEXT => "encrypt-text"
    case DECRYPT_TEXT => "decrypt-text"
  }

  // ---------------------------------------------------------------------
  // `valueOf`: exact, case-sensitive lookup by declared name

  function LanguageValueOf(s: string): (r: Option<Language>)
    ensures forall l :: r == Some(l) <==> LanguageName(l) == s
  {
    if s == "EN" then Some(EN) else if s == "RU" then Some(RU) else None
  }

  function DifficultyValueOf(s: string): (r: Option<TaskDifficulty>)
    ensures forall d :: r == Some(d) <==> DifficultyName(d) == s
  {
    if s == "EASY" then Some(EASY)
    else if s == "MEDIUM" then Some(MEDIUM)
    else if s == "HARD" then Some(HARD)
    else if s == "CUSTOM" then Some(CUSTOM)
    else None
  }

  function TaskTypeValueOf(s: string): (r: Option<CaesarTaskType>)
    ensures forall t :: r == Some(t) <==> TaskTypeName(t) == s
  {
    if s == "FIND_KEY" then Some(FIND_KEY)
    else if s == "ENCRYPT_TEXT" then Some(ENCRYPT_TEXT)
    else if s == "DECRYPT_TEXT" then Some(DECRYPT_TEXT)
    else None
  }

  /** The route-name switch of the task-type converter. */
  function TaskTypeOfRoute(s: string): (r: Option<CaesarTaskType>)
    ensures forall t :: r == Some(t) <==> TaskTypeRoute(t) == s
  {
    if s == "find-key" then Some(FIND_KEY)
    else if s == "encrypt-text" then Some(ENCRYPT_TEXT)
    else if s == "decrypt-text" then Some(DECRYPT_TEXT)
    else None
  }

  // ---------------------------------------------------------------------
  // Refusal messages

  /** The refusals quote the value between a fixed opening and a fixed
      list of the accepted values. */
  const REFUSAL_QUOTE_END: string := "'. Допустимые значения: "
  const LANGUAGE_REFUSAL_OPENING: string := "Неподдерживаемое значение языка: '"
  const LANGUAGE_ACCEPTED: string := "RU, EN."
  const DIFFICULTY_REFUSAL_OPENING: string := "Неподдерживаемое значение сложности: '"
  const DIFFICULTY_ACCEPTED: string := "EASY, MEDIUM, HARD, CUSTOM."
  const TASK_TYPE_REFUSAL_OPENING: string := "Неподдерживаемый тип задания Цезаря: '"
  const TASK_TYPE_ACCEPTED: string :=
    "FIND_KEY, ENCRYPT_TEXT, DECRYPT_TEXT (или find-key, encrypt-text, decrypt-text)."

  function LanguageRefusal(source: string): string {
    LANGUAGE_REFUSAL_OPENING + source + REFUSAL_QUOTE_END + LANGUAGE_ACCEPTED
  }

  function DifficultyRefusal(source: string): string {
    DIFFICULTY_REFUSAL_OPENING + source + REFUSAL_QUOTE_END + DIFFICULTY_ACCEPTED
  }

  function TaskTypeRefusal(source: string): string {
    TASK_TYPE_REFUSAL_OPENING + source + REFUSAL_QUOTE_END + TASK_TYPE_ACCEPTED
  }

  // ---------------------------------------------------------------------
  // Distinct names

  /** No two constants share a name, a code or a route name. */
  lemma NamesDistinct()
    ensures forall l, m :: LanguageName(l) == LanguageName(m) ==> l == m
    ensures forall d, e :: DifficultyName(d) == DifficultyName(e) ==> d == e
    ensures forall x, y :: TaskTypeName(x) == TaskTypeName(y) ==> x == y
    ensures forall x, y :: TaskTypeRoute(x) == TaskTypeRoute(y) ==> x == y
  {
    forall l, m | LanguageName(l) == LanguageName(m) ensures l == m {
      assert LanguageName(l)[0] == LanguageName(m)[0];
    }
    forall d, e | DifficultyName(d) == DifficultyName(e) ensures d == e {
      assert DifficultyName(d)[0] == DifficultyName(e)[0];
    }
    forall x, y | TaskTypeName(x) == TaskTypeName(y) ensures x == y {
      assert TaskTypeName(x)[0] == TaskTypeName(y)[0];
    }
    forall x, y | TaskTypeRoute(x) == TaskTypeRoute(y) ensures x == y {
      assert TaskTypeRoute(x)[0] == TaskTypeRoute(y)[0];
    }
  }

  /** Ignoring case, a character equal to `R` is not equal to `E`. */
  lemma CodesDistinct(t: string)
    ensures !(EqualsIgnoreCase(LanguageCode(RU), t) && EqualsIgnoreCase(LanguageCode(EN), t))
  {
    if |t| == 3 && EqualsIgnoreCase(LanguageCode(RU), t) {
      var c := t[0];
      assert CharEqualsIgnoreCase('R', c);
      var u := ToUpper(c);
      assert u == 'R' || ToLower(u) == 'r';
      assert ToLower('E') == 'e';
      assert !CharEqualsIgnoreCase('E', c);
    }
  }

  // ---------------------------------------------------------------------
  // The converters

  /** `StringToLanguageConverter.convert`: the constant whose name is the
      trimmed, upper-cased value; failing that, the language whose code
      equals the trimmed value ignoring case (`CodeConverts`). */
  function ConvertLanguage(source: string): (r: Result<Language, Failure>)
    ensures forall l :: UpperString(JavaTrim(source)) == LanguageName(l) ==> r == Success(l)
    ensures r.Success? ==>
      UpperString(JavaTrim(source)) == LanguageName(r.value) || EqualsIgnoreCase(LanguageCode(r.value), JavaTrim(source))
    ensures r.Failure? ==> r.error == IllegalArgument(LanguageRefusal(source))
  {
    var t := JavaTrim(source);
    NamesDistinct();
    match LanguageValueOf(UpperString(t))
    case Some(l) => Success(l)
    case None =>
      if EqualsIgnoreCase("RUS", t) then Success(RU)
      else if EqualsIgnoreCase("ENG", t) then Success(EN)
      else Failure(IllegalArgument(LanguageRefusal(source)))
  }

  /** `StringToTaskDifficultyConverter.convert`: the constant whose name is
      the trimmed, upper-cased value. */
  function ConvertDifficulty(source: string): (r: Result<TaskDifficulty, Failure>)
    ensures forall d :: r == Success(d) <==> UpperString(JavaTrim(source)) == DifficultyName(d)
    ensures r.Failure? ==> r.error == IllegalArgument(DifficultyRefusal(source))
  {
    match DifficultyValueOf(UpperString(JavaTrim(source)))
    case Some(d) => Success(d)
    case None => Failure(IllegalArgument(DifficultyRefusal(source)))
  }

  /** `StringToCaesarTaskTypeConverter.convert`: the constant whose name is
      the trimmed, upper-cased value; failing that, the type whose route
      name is the trimmed, lower-cased value (`RouteConverts`); anything
      else is refused (`OthersRefusedTaskType`). */
  function ConvertTaskType(source: string): (r: Result<CaesarTaskType, Failure>)
    ensures forall x :: UpperString(JavaTrim(source)) == TaskTypeName(x) ==> r == Success(x)
    ensures r.Success? ==>
      UpperString(JavaTrim(source)) == TaskTypeName(r.value) || LowerString(JavaTrim(source)) == TaskTypeRoute(r.value)
  {
    var t := JavaTrim(source);
    var named := TaskTypeValueOf(UpperString(t));
    var routed := TaskTypeOfRoute(LowerString(t));
    if named.Some? then Success(named.value)
    else if routed.Some? then Success(routed.value)
    else Failure(IllegalArgument(TaskTypeRefusal(source)))
  }

  /** A value that names no language but equals a language's code,
      ignoring case, converts to that language. */
  lemma CodeConverts(source: string, l: Language)
    requires LanguageValueOf(UpperString(JavaTrim(source))).None?
    requires EqualsIgnoreCase(LanguageCode(l), JavaTrim(source))
    ensures ConvertLanguage(source) == Success(l)
  {
    CodesDistinct(JavaTrim(source));
  }

  /** A value that names no task type but lower-cases to a route name
      converts to that type. */
  lemma RouteConverts(source: string, x: CaesarTaskType)
    requires TaskTypeValueOf(UpperString(JavaTrim(source))).None?
    requires LowerString(JavaTrim(source)) == TaskTypeRoute(x)
    ensures ConvertTaskType(source) == Success(x)
  {
    NamesDistinct();
  }

  /** A value that is neither a name nor an alias is refused. */
  lemma OthersRefusedLanguage(source: string)
    requires forall l :: UpperString(JavaTrim(source)) != LanguageName(l) && !EqualsIgnoreCase(LanguageCode(l), JavaTrim(source))
    ensures ConvertLanguage(source) == Failure(IllegalArgument(LanguageRefusal(source)))
  {
  }

  lemma OthersRefusedTaskType(source: string)
    requires forall x :: UpperString(JavaTrim(source)) != TaskTypeName(x) && LowerString(JavaTrim(source)) != TaskTypeRoute(x)
    ensures ConvertTaskType(source) == Failure(IllegalArgument(TaskTypeRefusal(source)))
  {
  }

  // ---------------------------------------------------------------------
  // Properties

  /** Names that hold no lower-case letter and no trimmable character are
      left alone by trimming and upper-casing. */
  lemma PlainNameUnchanged(s: string)
    requires |s| > 0
    requires forall i :: 0 <= i < |s| ==> 'A' <= s[i] <= 'Z' || s[i] == '_'
    ensures JavaTrim(s) == s && UpperString(s) == s
  {
    TrimStartStops(s, IsJavaTrimmable);
    TrimEndStops(s, IsJavaTrimmable);
  }

  /** Every constant's own name converts back to it. */
  lemma LanguageNameRoundTrip(l: Language)
    ensures ConvertLanguage(LanguageName(l)) == Success(l)
  {
    PlainNameUnchanged(LanguageName(l));
  }

  lemma DifficultyNameRoundTrip(d: TaskDifficulty)
    ensures ConvertDifficulty(DifficultyName(d)) == Success(d)
  {
    PlainNameUnchanged(DifficultyName(d));
  }

  lemma TaskTypeNameRoundTrip(x: CaesarTaskType)
    ensures ConvertTaskType(TaskTypeName(x)) == Success(x)
  {
    PlainNameUnchanged(TaskTypeName(x));
  }

  /** The aliases convert too: a language's three-letter code, in any
      case, and a task type's route name. */
  lemma LanguageCodeConverts(l: Language)
    ensures ConvertLanguage(LanguageCode(l)) == Success(l)
    ensures ConvertLanguage(LowerString(LanguageCode(l))) == Success(l)
  {
    var c := LanguageCode(l);
    PlainNameUnchanged(c);
    LowerNameRestores(c);
    assert |UpperString(c)| == 3;
    CodeConverts(c, l);
    var low := LowerString(c);
    assert EqualsIgnoreCase(c, low) by {
      forall i | 0 <= i < 3 ensures CharEqualsIgnoreCase(c[i], low[i]) {
        assert ToUpper(low[i]) == c[i];
      }
    }
    CodeConverts(low, l);
  }

  lemma TaskTypeRouteConverts(x: CaesarTaskType)
    ensures ConvertTaskType(TaskTypeRoute(x)) == Success(x)
  {
    var route := TaskTypeRoute(x);
    assert JavaTrim(route) == route by {
      TrimStartStops(route, IsJavaTrimmable);
      TrimEndStops(route, IsJavaTrimmable);
    }
    RouteIsLowerCase(x);
    RouteIsNoName(x);
    RouteConverts(route, x);
  }

  /** A route name holds a hyphen where every name of its length holds an
      underscore, so upper-casing it gives no constant's name. */
  lemma RouteIsNoName(x: CaesarTaskType)
    ensures TaskTypeValueOf(UpperString(TaskTypeRoute(x))).None?
  {
    var route := TaskTypeRoute(x);
    var hyphen := if x == FIND_KEY then 4 else 7;
    assert UpperString(route)[hyphen] == '-';
    forall y ensures UpperString(route) != TaskTypeName(y) {
      assert |TaskTypeName(y)| != |route| || TaskTypeName(y)[hyphen] == '_';
    }
  }

  /** Route names are in lower case already. */
  lemma RouteIsLowerCase(x: CaesarTaskType)
    ensures LowerString(TaskTypeRoute(x)) == TaskTypeRoute(x)
  {
    match x
    case FIND_KEY => assert LowerString("find-key") == "find-key";
    case ENCRYPT_TEXT => assert LowerString("encrypt-text") == "encrypt-text";
    case DECRYPT_TEXT => assert LowerString("decrypt-text") == "decrypt-text";
  }

  /** The converters ignore the case of the letters: the lower-case
      spelling of a name is accepted as the name. */
  lemma LanguageCaseIgnored(l: Language)
    ensures ConvertLanguage(LowerString(LanguageName(l))) == Success(l)
  {
    LowerNameRestores(LanguageName(l));
  }

  lemma DifficultyCaseIgnored(d: TaskDifficulty)
    ensures ConvertDifficulty(LowerString(DifficultyName(d))) == Success(d)
  {
    LowerNameRestores(DifficultyName(d));
  }

  lemma TaskTypeCaseIgnored(x: CaesarTaskType)
    ensures ConvertTaskType(LowerString(TaskTypeName(x))) == Success(x)
  {
    LowerNameRestores(TaskTypeName(x));
  }

  /** Lower-casing a name of capitals and underscores gives a string that
      trims to itself and upper-cases back to the name. */
  lemma LowerNameRestores(s: string)
    requires |s| > 0
    requires forall i :: 0 <= i < |s| ==> 'A' <= s[i] <= 'Z' || s[i] == '_'
    ensures JavaTrim(LowerString(s)) == LowerString(s)
    ensures UpperString(LowerString(s)) == s
  {
    var low := LowerString(s);
    TrimStartStops(low, IsJavaTrimmable);
    TrimEndStops(low, IsJavaTrimmable);
  }

  /** Surrounding blanks and control characters do not matter: two values
      that trim alike convert to the same constant, or are both refused. */
  lemma LanguageTrimIgnored(a: string, b: string)
    requires JavaTrim(a) == JavaTrim(b)
    ensures ConvertLanguage(a).Success? == ConvertLanguage(b).Success?
    ensures ConvertLanguage(a).Success? ==> ConvertLanguage(a).value == ConvertLanguage(b).value
  {
    var t := JavaTrim(a);
    var named := LanguageValueOf(UpperString(t));
    if named.Some? {
      assert ConvertLanguage(a) == Success(named.value) == ConvertLanguage(b);
    } else if EqualsIgnoreCase(LanguageCode(RU), t) {
      CodeConverts(a, RU);
      CodeConverts(b, RU);
    } else if EqualsIgnoreCase(LanguageCode(EN), t) {
      CodeConverts(a, EN);
      CodeConverts(b, EN);
    } else {
      OthersRefusedLanguage(a);
      OthersRefusedLanguage(b);
    }
  }

  lemma DifficultyTrimIgnored(a: string, b: string)
    requires JavaTrim(a) == JavaTrim(b)
    ensures ConvertDifficulty(a).Success? == ConvertDifficulty(b).Success?
    ensures ConvertDifficulty(a).Success? ==> ConvertDifficulty(a).value == ConvertDifficulty(b).value
  {
    var x, y := ConvertDifficulty(a), ConvertDifficulty(b);
    if x.Success? {
      assert y == Success(x.value);
    }
    if y.Success? {
      assert x == Success(y.value);
    }
  }

  lemma TaskTypeTrimIgnored(a: string, b: string)
    requires JavaTrim(a) == JavaTrim(b)
    ensures ConvertTaskType(a).Success? == ConvertTaskType(b).Success?
    ensures ConvertTaskType(a).Success? ==> ConvertTaskType(a).value == ConvertTaskType(b).value
  {
    var t := JavaTrim(a);
    var named := TaskTypeValueOf(UpperString(t));
    var routed := TaskTypeOfRoute(LowerString(t));
    if named.Some? {
      assert ConvertTaskType(a) == Success(named.value) == ConvertTaskType(b);
    } else if routed.Some? {
      RouteConverts(a, routed.value);
      RouteConverts(b, routed.value);
    } else {
      OthersRefusedTaskType(a);
      OthersRefusedTaskType(b);
    }
  }
}

=== FILE: example_page.dfy ===
/** The worked-example page: the client encrypts the translated example word
    with key 3 by itself, step by step, and shows the alphabet rotated by the
    key. The steps are paged with the shared paging helpers.

    The alphabet the page reads from its translations is taken to be the
    cipher's alphabet of the same language. */
module ExamplePage {
  import opened Common
  import opened Strings
  import opened Cipher
  import opened Paging
  import opened ClientCipher

  const EXAMPLE_KEY: int := 3
  const MIN_STEPS_PER_PAGE: int := 1
  const MAX_STEPS_PER_PAGE: int := 10
  const DEFAULT_STEPS_PER_PAGE: int := 3

  const EXPLANATION_ALPHABETIC: string := "visualization_explanation_alphabetic_trans"
  const EXPLANATION_NONALPHABETIC: string := "visualization_explanation_nonalphabetic_trans"

  // ---------------------------------------------------------------------
  // Which alphabet

  /** The example is Russian when the application language is `ru`, that
      is when the resolved language is `ru` or, with none resolved, when the
      language tag is `ru` or starts with `ru-`; it is English otherwise. */
  function ExampleLanguage(resolved: Option<string>, language: string): (lang: Language)
    ensures resolved.Some? && resolved.value != [] ==> (lang == RU <==> resolved.value == "ru")
    ensures (resolved.None? || resolved.value == []) ==> (lang == RU <==> HasPrimary(language, 'r', 'u'))
  {
    AppLanguageIs(resolved, language, 'r', 'u');
    if AppLanguage(resolved, language) == "ru" then RU else EN
  }

  // ---------------------------------------------------------------------
  // The steps

  datatype ExampleParams =
    | LetterParams(original: char, originalPosition: int, key: int, processed: char, processedPosition: int)
    | OtherParams(original: char, language: Language)

  datatype ExampleStep = ExampleStep(
    stepIndex: int, originalChar: char, processedChar: char,
    explanationKey: string, params: ExampleParams, skipped: bool)

  /** Step `i` as the page writes it: the letter moved `EXAMPLE_KEY` places
      on, kept upper-case when the original equals its upper-case form and
      lower-cased otherwise; a character outside the alphabet is skipped. */
  function ExampleStepAt(word: string, lang: Language, i: int): (st: ExampleStep)
    requires 0 <= i < |word|
    ensures st.stepIndex == i && st.originalChar == word[i]
    ensures st.skipped <==> ToUpper(word[i]) !in Alphabet(lang)
    ensures st.skipped ==> st.processedChar == word[i] && st.params == OtherParams(word[i], lang)
  {
    var a := Alphabet(lang);
    var c := word[i];
    var u := ToUpper(c);
    var idx := IndexOf(a, u);
    if idx == -1 then
      ExampleStep(i, c, c, EXPLANATION_NONALPHABETIC, OtherParams(c, lang), true)
    else
      var newIndex := (idx + EXAMPLE_KEY) % |a|;
      var newUpper := a[newIndex];
      var p := if c == u then newUpper else ToLower(newUpper);
      ExampleStep(i, c, p, EXPLANATION_ALPHABETIC,
        LetterParams(c, idx + 1, EXAMPLE_KEY, p, newIndex + 1), false)
  }

  /** JavaScript's case test `c === c.toUpperCase()` is Java's
      `!Character.isLowerCase(c)` on the letters of the case table. */
  lemma CaseTestsAgree(c: char)
    ensures c == ToUpper(c) <==> !IsLower(c)
  {
  }

  /** Each step's character is what the server's cipher makes of it with
      key 3, encrypting. */
  lemma ExampleCharIsCipherChar(word: string, lang: Language, i: int)
    requires 0 <= i < |word|
    ensures ExampleStepAt(word, lang, i).processedChar
      == ProcessChar(word[i], EXAMPLE_KEY, Alphabet(lang), true)
  {
    CaseTestsAgree(word[i]);
  }

  /** The example data: the word (empty when missing), the steps, one per
      character, and the result text. */
  datatype ExampleData = ExampleData(
    language: Language, text: string, key: int, alphabet: string,
    steps: seq<ExampleStep>, result: string)

  /** The page's loop over the word; the result it accumulates is the
      server's encryption of the word with key 3. */
  method BuildExample(word: string, lang: Language) returns (d: ExampleData)
    ensures d.language == lang && d.text == word && d.key == EXAMPLE_KEY && d.alphabet == Alphabet(lang)
    ensures |d.steps| == |word|
    ensures forall i :: 0 <= i < |word| ==> d.steps[i] == ExampleStepAt(word, lang, i)
    ensures d.result == Transform(word, EXAMPLE_KEY, Alphabet(lang), true)
  {
    var a := Alphabet(lang);
    var steps: seq<ExampleStep> := [];
    var result := "";
    var i := 0;
    while i < |word|
      invariant 0 <= i <= |word|
      invariant |steps| == i && |result| == i
      invariant forall j :: 0 <= j < i ==> steps[j] == ExampleStepAt(word, lang, j)
      invariant result == Transform(word, EXAMPLE_KEY, a, true)[..i]
    {
      var st := ExampleStepAt(word, lang, i);
      ExampleCharIsCipherChar(word, lang, i);
      PrefixExtend(Transform(word, EXAMPLE_KEY, a, true), i);
      result := result + [st.processedChar];
      steps := steps + [st];
      i := i + 1;
    }
    assert Transform(word, EXAMPLE_KEY, a, true)[..|word|] == Transform(word, EXAMPLE_KEY, a, true);
    d := ExampleData(lang, word, EXAMPLE_KEY, a, steps, result);
  }

  /** The client's steps and the server's trace of the same word with key 3
      agree on every step: index, characters, whether it is skipped, the
      explanation, and the one-based alphabet positions. */
  lemma ExampleMatchesTrace(word: string, lang: Language, i: int)
    requires 0 <= i < |word|
    ensures var e := ExampleStepAt(word, lang, i);
      var s := StepAt(word, EXAMPLE_KEY, lang, true, i);
      && e.stepIndex == s.stepIndex && e.originalChar == s.originalChar
      && e.processedChar == s.processedChar && e.skipped == s.skipped
      && e.explanationKey == s.explanationKey
      && (e.params.LetterParams? <==> s.params.AlphabeticParams?)
      && (e.params.LetterParams? ==>
            e.params.originalPosition == s.params.originalPosition
            && e.params.processedPosition == s.params.processedPosition)
  {
    var a := Alphabet(lang);
    var c := word[i];
    ExampleCharIsCipherChar(word, lang, i);
    var idx := IndexOf(a, ToUpper(c));
    if idx != -1 {
      AlphabetValid(lang);
      var ni := (idx + EXAMPLE_KEY) % |a|;
      var e := ExampleStepAt(word, lang, i);
      assert e.processedChar == WithCase(c, a[ni]);
      WithCaseOf(c, a[ni]);
      IndexOfDistinct(a, ni);
    }
  }

  // ---------------------------------------------------------------------
  // The size field

  /** The effect that follows the stored size: the field is rewritten to the
      size unless its text already parses to it. */
  function SyncSizeInput(input: string, size: int): (shown: string)
    ensures JsParseInt(shown) == Some(size)
    ensures JsParseInt(input) == Some(size) ==> shown == input
  {
    JsParseIntOfIntToString(size);
    if JsParseInt(input) != Some(size) then IntToString(size) else input
  }
}

=== FILE: exception_handler.dfy ===
/** The server's single error handler: every exception a request throws
    becomes an error response with a status, the status's reason phrase, a
    localised message and, for a failed validation, the list of field
    errors.

    The statuses are those of sections 15.5 and 15.6 of RFC 9110: 400 Bad
    Request, 401 Unauthorized, 403 Forbidden, 404 Not Found and 500
    Internal Server Error. The message source is a map from message key to
    text for the request's locale. */
module ExceptionHandler {
  import opened Common
  import opened Failures

  const BAD_REQUEST: int := 400
  const UNAUTHORIZED: int := 401
  const FORBIDDEN: int := 403
  const NOT_FOUND: int := 404
  const INTERNAL_SERVER_ERROR: int := 500

  /** The text for a null message key. */
  const UNKNOWN_ERROR_TEXT: string := "Произошла неизвестная ошибка."

  type Messages = map<string, string>

  datatype ValidationError = ValidationError(field: string, message: string)

  datatype ErrorResponse = ErrorResponse(
    status: int, error: string, message: string, validationErrors: Option<seq<ValidationError>>)

  /** The reason phrase of a status. */
  function ReasonPhrase(status: int): string {
    if status == BAD_REQUEST then "Bad Request"
    else if status == UNAUTHORIZED then "Unauthorized"
    else if status == FORBIDDEN then "Forbidden"
    else if status == NOT_FOUND then "Not Found"
    else "Internal Server Error"
  }

  /** `getLocalizedMessage`: a null key gives a fixed text; a key the
      message source lacks gives the key itself. */
  function Localize(messages: Messages, key: Option<string>): (text: string)
    ensures key.None? ==> text == UNKNOWN_ERROR_TEXT
    ensures key.Some? && key.value in messages ==> text == messages[key.value]
    ensures key.Some? && key.value !in messages ==> text == key.value
  {
    match key
    case None => UNKNOWN_ERROR_TEXT
    case Some(k) => if k in messages then messages[k] else k
  }

  function LocalizeFieldErrors(messages: Messages, errors: seq<FieldError>): (r: seq<ValidationError>)
    ensures |r| == |errors|
    ensures forall i :: 0 <= i < |errors| ==>
      r[i] == ValidationError(errors[i].field, Localize(messages, errors[i].defaultMessage))
  {
    if errors == [] then []
    else ([ValidationError(errors[0].field, Localize(messages, errors[0].defaultMessage))]
          + LocalizeFieldErrors(messages, errors[1..]))
  }

  /** A failed validation: 400, with the first field error's message, or
      else the first global error's, or else the generic validation text;
      the list of field errors is left out when there are none. */
  function HandleValidation(messages: Messages, fieldErrors: seq<FieldError>, globalErrors: seq<Option<string>>)
    : (r: ErrorResponse)
    ensures r.status == BAD_REQUEST && r.error == "Bad Request"
    ensures fieldErrors != [] ==> r.message == Localize(messages, fieldErrors[0].defaultMessage)
    ensures fieldErrors == [] && globalErrors != [] ==> r.message == Localize(messages, globalErrors[0])
    ensures fieldErrors == [] && globalErrors == [] ==> r.message == Localize(messages, Some("error.validation"))
    ensures r.validationErrors.None? <==> fieldErrors == []
    ensures r.validationErrors.Some? ==> r.validationErrors.value == LocalizeFieldErrors(messages, fieldErrors)
  {
    var listed := LocalizeFieldErrors(messages, fieldErrors);
    var first :=
      if fieldErrors != [] then Some(listed[0].message)
      else if globalErrors != [] then Some(Localize(messages, globalErrors[0]))
      else None;
    ErrorResponse(BAD_REQUEST, ReasonPhrase(BAD_REQUEST),
                  if first.Some? then first.value else Localize(messages, Some("error.validation")),
                  if listed == [] then None else Some(listed))
  }

  /** The status each exception class is answered with. */
  function StatusOf(f: Failure): (status: int)
    ensures status == NOT_FOUND <==> f.ResourceNotFound?
    ensures status == FORBIDDEN <==> f.TokenRefresh? || f.AccessDenied?
    ensures status == UNAUTHORIZED <==> f.BadCredentials? || f.AuthenticationFailed?
    ensures status == INTERNAL_SERVER_ERROR <==> f.Unexpected?
    ensures status == BAD_REQUEST <==>
      f.InvalidSubmission? || f.IllegalArgument? || f.IllegalState? || f.DataIntegrity? || f.ValidationFailed?
  {
    match f
    case ResourceNotFound(_) => NOT_FOUND
    case TokenRefresh(_, _) => FORBIDDEN
    case InvalidSubmission(_) => BAD_REQUEST
    case BadCredentials(_) => UNAUTHORIZED
    case AuthenticationFailed(_) => UNAUTHORIZED
    case AccessDenied(_) => FORBIDDEN
    case IllegalArgument(_) => BAD_REQUEST
    case IllegalState(_) => BAD_REQUEST
    case DataIntegrity(_) => BAD_REQUEST
    case ValidationFailed(_, _) => BAD_REQUEST
    case Unexpected(_) => INTERNAL_SERVER_ERROR
  }

  /** The handler for each exception. Not-found, token, submission and bad
      request exceptions carry their own message (already localised by the
      thrower); a data-integrity violation always reads as the constraint
      violation text; authentication, access-denied and unexpected failures
      read as a fixed text and never echo their own message. */
  function Handle(messages: Messages, f: Failure): (r: ErrorResponse)
    ensures r.status == StatusOf(f) && r.error == ReasonPhrase(r.status)
    ensures r.validationErrors.Some? ==> f.ValidationFailed?
    ensures f.ResourceNotFound? || f.TokenRefresh? || f.InvalidSubmission? || f.IllegalArgument? || f.IllegalState? ==>
      r.message == f.message
    ensures f.DataIntegrity? ==> r.message == Localize(messages, Some("error.database.constraintViolation"))
    ensures f.BadCredentials? || f.AuthenticationFailed? ==> r.message == Localize(messages, Some("error.authentication"))
    ensures f.AccessDenied? ==> r.message == Localize(messages, Some("error.accessDenied"))
    ensures f.Unexpected? ==> r.message == Localize(messages, Some("error.internalServer"))
    ensures f.ValidationFailed? ==> r == HandleValidation(messages, f.fieldErrors, f.globalErrors)
  {
    match f
    case ValidationFailed(fieldErrors, globalErrors) => HandleValidation(messages, fieldErrors, globalErrors)
    case _ =>
      var status := StatusOf(f);
      var message :=
        match f
        case ResourceNotFound(m) => m
        case TokenRefresh(_, m) => m
        case InvalidSubmission(m) => m
        case BadCredentials(_) => Localize(messages, Some("error.authentication"))
        case AuthenticationFailed(_) => Localize(messages, Some("error.authentication"))
        case AccessDenied(_) => Localize(messages, Some("error.accessDenied"))
        case IllegalArgument(m) => m
        case IllegalState(m) => m
        case DataIntegrity(_) => Localize(messages, Some("error.database.constraintViolation"))
        case Unexpected(_) => Localize(messages, Some("error.internalServer"));
      ErrorResponse(status, ReasonPhrase(status), message, None)
  }

  /** The status table: 404 for a missing resource, 403 for a refused
      token or access, 401 for failed authentication, 500 for the
      unexpected, 400 for everything the client got wrong. */
  lemma StatusTable(messages: Messages, f: Failure)
    ensures var s := Handle(messages, f).status;
      && (s == NOT_FOUND <==> f.ResourceNotFound?)
      && (s == FORBIDDEN <==> f.TokenRefresh? || f.AccessDenied?)
      && (s == UNAUTHORIZED <==> f.BadCredentials? || f.AuthenticationFailed?)
      && (s == INTERNAL_SERVER_ERROR <==> f.Unexpected?)
      && (s == BAD_REQUEST <==>
            f.InvalidSubmission? || f.IllegalArgument? || f.IllegalState? || f.DataIntegrity? || f.ValidationFailed?)
  {
  }

  /** Two failures of a class that is not echoed give the same response,
      whatever their own messages: nothing the exception carries leaks
      into a 401, a 403 for access, a 500 or a constraint violation. */
  lemma NoEcho(messages: Messages, f: Failure, g: Failure)
    requires || ((f.BadCredentials? || f.AuthenticationFailed?) && (g.BadCredentials? || g.AuthenticationFailed?))
             || (f.AccessDenied? && g.AccessDenied?)
             || (f.Unexpected? && g.Unexpected?)
             || (f.DataIntegrity? && g.DataIntegrity?)
    ensures Handle(messages, f) == Handle(messages, g)
  {
  }

  /** The first error chosen is the first in order: with field errors, the
      message is the one listed first. */
  lemma FirstFieldErrorListed(messages: Messages, fieldErrors: seq<FieldError>, globalErrors: seq<Option<string>>)
    requires fieldErrors != []
    ensures var r := HandleValidation(messages, fieldErrors, globalErrors);
      r.validationErrors.Some? && |r.validationErrors.value| == |fieldErrors|
      && r.message == r.validationErrors.value[0].message
  {
  }
}

=== FILE: failures.dfy ===
/** The exceptions the server's services and controllers throw, one
    constructor per exception class the error handler tells apart. A
    message is the message key the thrower localises (the message source
    itself is a parameter of the error handler). */
module Failures {
  import opened Common

  /** A field error of bean validation: the field and its message key. */
  datatype FieldError = FieldError(field: string, defaultMessage: Option<string>)

  datatype Failure =
    | ResourceNotFound(message: string)
    | TokenRefresh(token: string, message: string)
    | InvalidSubmission(message: string)
    | BadCredentials(message: string)
      /** Any other authentication exception, `UsernameNotFoundException`
          among them. */
    | AuthenticationFailed(message: string)
    | AccessDenied(message: string)
    | IllegalArgument(message: string)
    | IllegalState(message: string)
    | DataIntegrity(detail: Option<string>)
      /** A request body that failed bean validation: its field errors and
          its global (object) errors, in order. */
    | ValidationFailed(fieldErrors: seq<FieldError>, globalErrors: seq<Option<string>>)
      /** Anything else: a bare runtime exception, a null pointer, ... */
    | Unexpected(detail: Option<string>)
}

=== FILE: input_utils.dfy ===
/** Numeric input helpers of the web client: the digit sanitiser applied to
    every key, shift and page-size field, and the key-down filter that lets
    only digits, editing keys, clipboard shortcuts and function keys through. */
module InputUtils {
  import opened Common
  import opened Strings

  // ---------------------------------------------------------------------
  // Sanitiser

  /** The digits of `s` in their original order: the reference definition
      of the sanitiser, built from the left. */
  function DigitsOf(s: string): (d: string)
    ensures AllDigits(d) && |d| <= |s|
  {
    if |s| == 0 then []
    else DigitsOf(s[..|s| - 1]) + (if IsDigit(s[|s| - 1]) then [s[|s| - 1]] else [])
  }

  /** Removing every non-digit (`replace(/[^0-9]/g, '')`); a value that is
      not a string gives the empty string. */
  method SanitizeNumericInput(value: Option<string>) returns (r: string)
    ensures value.None? ==> r == []
    ensures value.Some? ==> r == DigitsOf(value.value)
  {
    if value.None? {
      return [];
    }
    var s := value.value;
    r := [];
    var i := 0;
    while i < |s|
      invariant 0 <= i <= |s|
      invariant r == DigitsOf(s[..i])
    {
      assert s[..i + 1][..i] == s[..i];
      if IsDigit(s[i]) {
        r := r + [s[i]];
      }
      i := i + 1;
    }
    assert s[..|s|] == s;
  }

  /** Filtering distributes over concatenation: the order of the kept
      digits is the order in the input. */
  lemma {:induction false} DigitsOfAppend(a: string, b: string)
    ensures DigitsOf(a + b) == DigitsOf(a) + DigitsOf(b)
  {
    if |b| > 0 {
      var b' := b[..|b| - 1];
      assert (a + b)[..|a + b| - 1] == a + b';
      DigitsOfAppend(a, b');
    } else {
      assert a + b == a;
    }
  }

  /** Exactly the non-digits are removed: each digit occurs as often as in
      the input, and nothing else occurs. */
  lemma {:induction false} DigitsOfCounts(s: string)
    ensures forall c :: multiset(DigitsOf(s))[c] == if IsDigit(c) then multiset(s)[c] else 0
  {
    if |s| > 0 {
      var p := s[..|s| - 1];
      DigitsOfCounts(p);
      assert s == p + [s[|s| - 1]];
      assert multiset(s) == multiset(p) + multiset{s[|s| - 1]};
    }
  }

  /** A string is left unchanged exactly when it is all digits. */
  lemma {:induction false} DigitsOfFixedIff(s: string)
    ensures DigitsOf(s) == s <==> AllDigits(s)
  {
    if |s| > 0 {
      var p := s[..|s| - 1];
      DigitsOfFixedIff(p);
      if !IsDigit(s[|s| - 1]) {
        assert |DigitsOf(s)| < |s|;
      } else if DigitsOf(s) == s {
        assert DigitsOf(p) == s[..|s| - 1];
      } else {
        assert !AllDigits(p) by {
          assert DigitsOf(p) != p;
        }
      }
    }
  }

  /** Sanitising twice is sanitising once. */
  lemma DigitsOfIdempotent(s: string)
    ensures DigitsOf(DigitsOf(s)) == DigitsOf(s)
  {
    DigitsOfFixedIff(DigitsOf(s));
  }

  // ---------------------------------------------------------------------
  // Key-down filter

  /** JavaScript's `<=` on strings: code-unit lexicographic order. */
  predicate LexLe(a: string, b: string) {
    |a| == 0 || (|b| > 0 && (a[0] < b[0] || (a[0] == b[0] && LexLe(a[1..], b[1..]))))
  }

  /** `key >= '0' && key <= '9'` compares strings, not characters. It holds
      for any key starting with `0`..`8`, and for `9` only alone. */
  lemma DigitRangeIff(key: string)
    ensures LexLe("0", key) && LexLe(key, "9") <==>
      (|key| > 0 && '0' <= key[0] < '9') || key == "9"
  {
    if |key| > 0 && key[0] == '9' {
      assert LexLe(key, "9") <==> LexLe(key[1..], "");
      if |key| > 1 {
        assert !LexLe(key[1..], "");
      } else {
        assert key == "9";
      }
    }
  }

  const CONTROL_KEYS: seq<string> :=
    ["Backspace", "Delete", "Tab", "Enter", "Escape",
     "ArrowLeft", "ArrowRight", "ArrowUp", "ArrowDown", "Home", "End"]

  const SHORTCUT_LETTERS: seq<string> := ["a", "c", "v", "x", "r", "z", "y"]

  /** `false` means the default action is prevented. */
  function KeyAllowed(key: string, ctrlKey: bool, metaKey: bool): (allowed: bool)
    ensures |key| == 1 && IsDigit(key[0]) ==> allowed
    ensures |key| == 1 && !IsDigit(key[0]) && !ctrlKey && !metaKey ==> !allowed
    ensures (ctrlKey || metaKey) && key in SHORTCUT_LETTERS ==> allowed
    ensures key in CONTROL_KEYS ==> allowed
  {
    DigitRangeIff(key);
    ShortcutIsLower(key);
    if LexLe("0", key) && LexLe(key, "9") then true
    else if key in CONTROL_KEYS then true
    else if (ctrlKey || metaKey) && LowerString(key) in SHORTCUT_LETTERS then true
    else if StartsWith(key, "F") && JsParseInt(key[1..]).Some? then true
    else false
  }

  lemma ShortcutIsLower(key: string)
    ensures key in SHORTCUT_LETTERS ==> LowerString(key) == key
  {
    if key in SHORTCUT_LETTERS {
      assert |key| == 1 && IsAsciiLower(key[0]);
      assert LowerString(key)[0] == key[0];
    }
  }

  /** `F1`, `F2`, … pass the filter without modifiers. */
  lemma FunctionKeyAllowed(n: nat)
    ensures KeyAllowed("F" + NatToString(n), false, false)
  {
    var key := "F" + NatToString(n);
    assert key[1..] == NatToString(n);
    ParseIntOfNatToString(n);
  }
}

=== FILE: jwt_filter.dfy ===
/** The bearer-token filter run once per request: it reads the
    `Authorization` header, and when it carries a token that the token
    utility accepts and whose subject is a user id, loads that user and
    authenticates the request as them. Whatever happens the request goes on
    down the filter chain.

    The token utility (signature, expiry and claims) is not part of this
    model: it is a parameter that says which tokens validate and which user
    id, if any, a token names. */
module JwtFilter {
  import opened Common
  import opened Strings
  import opened UserStore
  import opened UserDetails

  const BEARER: string := "Bearer "

  /** The user-id claim of a token: an id, no id, or a claim that cannot be
      read (the utility throws). */
  datatype Claim = Id(id: int) | NoId | Unreadable

  datatype TokenUtility = TokenUtility(validates: string -> bool, claimOf: string -> Claim)

  /** `parseJwt`: the text after `Bearer ` when the header has text and
      starts with exactly that prefix; no token otherwise. */
  function ParseJwt(header: Option<string>): (token: Option<string>)
    ensures token.Some? <==> header.Some? && StartsWith(header.value, BEARER)
    ensures token.Some? ==> header.value == BEARER + token.value
  {
    PrefixHasText(header);
    if HasText(header) && StartsWith(header.value, BEARER) then Some(header.value[|BEARER|..]) else None
  }

  /** A header that starts with `Bearer ` has text, so the text test never
      decides anything on its own. */
  lemma PrefixHasText(header: Option<string>)
    ensures header.Some? && StartsWith(header.value, BEARER) ==> HasText(header)
  {
    if header.Some? && StartsWith(header.value, BEARER) {
      assert header.value[0] == BEARER[0];
      assert !IsJavaWhitespace(header.value[0]);
    }
  }

  /** The security context after the filter, and whether the request was
      passed on. */
  datatype FilterOutcome = FilterOutcome(auth: Auth, chainContinues: bool)

  /** `doFilterInternal`: `prior` is the context the request arrived with.
      A missing user and an unreadable claim are logged and swallowed. */
  function DoFilter(header: Option<string>, jwt: TokenUtility, users: seq<User>, prior: Auth)
    : (r: FilterOutcome)
    ensures r.chainContinues
    ensures r.auth != prior ==>
      && ParseJwt(header).Some? && jwt.validates(ParseJwt(header).value)
      && jwt.claimOf(ParseJwt(header).value).Id?
      && r.auth.Authenticated?
      && r.auth.principal.id == jwt.claimOf(ParseJwt(header).value).id
      && exists i :: 0 <= i < |users| && r.auth.principal == Build(users[i])
    ensures ParseJwt(header).Some? && jwt.validates(ParseJwt(header).value) ==>
      var claim := jwt.claimOf(ParseJwt(header).value);
      claim.Id? && LoadUserById(users, claim.id).Success? ==>
        r.auth == Authenticated(LoadUserById(users, claim.id).value)
  {
    var token := ParseJwt(header);
    var auth :=
      if token.Some? && jwt.validates(token.value) then
        match jwt.claimOf(token.value)
        case Id(id) =>
          (match LoadUserById(users, id)
           case Success(p) => Authenticated(p)
           case Failure(_) => prior)
        case _ => prior
      else prior;
    FilterOutcome(auth, true)
  }

  // ---------------------------------------------------------------------
  // Properties

  /** A header of `Bearer ` and a token gives back that token (the
      converse is `ParseJwt`'s second postcondition). */
  lemma BearerRoundTrip(t: string)
    ensures ParseJwt(Some(BEARER + t)) == Some(t)
  {
    var h := BEARER + t;
    assert h[..|BEARER|] == BEARER && h[|BEARER|..] == t;
  }

  /** The prefix is matched with its case: `bearer ` and `BEARER ` give
      no token. */
  lemma SchemeIsCaseSensitive(t: string)
    ensures ParseJwt(Some("bearer " + t)).None?
    ensures ParseJwt(Some("BEARER " + t)).None?
  {
    assert ("bearer " + t)[0] != BEARER[0];
    assert ("BEARER " + t)[1] != BEARER[1];
  }

  /** Requests without a usable token, with a token the utility refuses,
      or with a claim that names no stored user, keep the context they
      came with. */
  lemma NoTokenNoChange(header: Option<string>, jwt: TokenUtility, users: seq<User>, prior: Auth)
    requires
      || ParseJwt(header).None?
      || !jwt.validates(ParseJwt(header).value)
      || !jwt.claimOf(ParseJwt(header).value).Id?
      || forall i :: 0 <= i < |users| ==> users[i].id != jwt.claimOf(ParseJwt(header).value).id
    ensures DoFilter(header, jwt, users, prior) == FilterOutcome(prior, true)
  {
  }

  /** A valid bearer token naming a stored user authenticates the request
      as exactly that user, with that user's role names as authorities. */
  lemma FilterAuthenticatesTokenOwner(
    t: string, jwt: TokenUtility, users: seq<User>, i: nat, prior: Auth)
    requires UniqueUsers(users) && i < |users|
    requires jwt.validates(t) && jwt.claimOf(t) == Id(users[i].id)
    ensures DoFilter(Some(BEARER + t), jwt, users, prior).auth == Authenticated(Build(users[i]))
    ensures DoFilter(Some(BEARER + t), jwt, users, prior).auth.principal.authorities == users[i].roles
  {
    BearerRoundTrip(t);
    StoredUsersLoad(users, i);
  }
}

=== FILE: local_storage.dfy ===
/** The client's persisted-state hook: a piece of state mirrored into the
    browser's local storage under one key as JSON text.

    Local storage is a map from key to text; `None` stands for a storage
    that cannot be read at all. `JSON.parse` and `JSON.stringify` belong to
    the browser and are a `Codec` parameter: `parse` answers `None` where
    the browser throws. */
module LocalStorage {
  import opened Common

  datatype Json =
    | JNull
    | JBool(b: bool)
    | JNum(n: int)
    | JStr(s: string)
    | JArr(items: seq<Json>)
    | JObj(fields: map<string, Json>)

  type Storage = map<string, string>

  datatype Codec = Codec(parse: string -> Option<Json>, stringify: Json -> string)

  /** `v` survives being written as JSON and read back (true of every value
      JSON represents faithfully). */
  predicate RoundTrips(codec: Codec, v: Json) {
    codec.parse(codec.stringify(v)) == Some(v)
  }

  const THEME_KEY: string := "theme"

  /** The one legacy format accepted although it is not JSON: the theme
      stored as a bare word. */
  predicate IsBareTheme(key: string, raw: string) {
    key == THEME_KEY && (raw == "light" || raw == "dark")
  }

  datatype Hook = Hook(key: string, initialValue: Json, state: Json)

  /** The state a hook starts with: the parsed stored text, or the initial
      value when storage cannot be read, holds nothing for the key, or holds
      text that does not parse (except a bare theme word, kept as text). */
  function Init(storage: Option<Storage>, key: string, initialValue: Json, codec: Codec): (h: Hook)
    ensures h.key == key && h.initialValue == initialValue
    ensures (storage.None? || key !in storage.value) ==> h.state == initialValue
    ensures h.state == initialValue
      || (storage.Some? && key in storage.value
          && (codec.parse(storage.value[key]) == Some(h.state)
              || (IsBareTheme(key, storage.value[key]) && h.state == JStr(storage.value[key]))))
    ensures storage.Some? && key in storage.value && codec.parse(storage.value[key]).Some? ==>
      h.state == codec.parse(storage.value[key]).value
    ensures storage.Some? && key in storage.value && codec.parse(storage.value[key]).None? ==>
      h.state == (if IsBareTheme(key, storage.value[key]) then JStr(storage.value[key]) else initialValue)
  {
    var state :=
      if storage.None? || key !in storage.value then initialValue
      else
        var raw := storage.value[key];
        match codec.parse(raw)
        case Some(v) => v
        case None => if IsBareTheme(key, raw) then JStr(raw) else initialValue;
    Hook(key, initialValue, state)
  }

  /** The argument of the setter: a value, or a function of the previous
      state. */
  datatype Update = SetTo(value: Json) | Apply(f: Json -> Json)

  /** The setter: the new state is the value (or the function applied to the
      previous state), and exactly that value's JSON is written under the
      hook's key. */
  function SetValue(h: Hook, storage: Storage, u: Update, codec: Codec): (r: (Hook, Storage))
    ensures r.0.key == h.key && r.0.initialValue == h.initialValue
    ensures u.SetTo? ==> r.0.state == u.value
    ensures u.Apply? ==> r.0.state == u.f(h.state)
    ensures h.key in r.1 && r.1[h.key] == codec.stringify(r.0.state)
    ensures forall k :: k != h.key ==> (k in r.1 <==> k in storage)
    ensures forall k :: k != h.key && k in storage ==> r.1[k] == storage[k]
  {
    var v := match u case SetTo(x) => x case Apply(f) => f(h.state);
    (h.(state := v), storage[h.key := codec.stringify(v)])
  }

  /** A change made to local storage in another tab: the key (`None` when
      the storage was cleared) and the new text (`None` when removed). */
  datatype StorageEvent = StorageEvent(key: Option<string>, newValue: Option<string>)

  /** The hook's listener: an event for its own key sets the state to the
      parsed new text, or to the initial value when the entry was removed or
      does not parse; any other event leaves the hook as it is. */
  function OnStorageEvent(h: Hook, e: StorageEvent, codec: Codec): (h': Hook)
    ensures h'.key == h.key && h'.initialValue == h.initialValue
    ensures e.key != Some(h.key) ==> h' == h
    ensures e.key == Some(h.key) ==>
      (h'.state == h.initialValue || (e.newValue.Some? && codec.parse(e.newValue.value) == Some(h'.state)))
    ensures e.key == Some(h.key) && e.newValue.None? ==> h' == h.(state := h.initialValue)
    ensures e.key == Some(h.key) && e.newValue.Some? && codec.parse(e.newValue.value).Some? ==>
      h' == h.(state := codec.parse(e.newValue.value).value)
    ensures e.key == Some(h.key) && e.newValue.Some? && codec.parse(e.newValue.value).None? ==>
      h' == h.(state := h.initialValue)
  {
    if e.key != Some(h.key) then h
    else if e.newValue.None? then h.(state := h.initialValue)
    else match codec.parse(e.newValue.value)
      case Some(v) => h.(state := v)
      case None => h.(state := h.initialValue)
  }

  /** Writing a value and opening the hook again (a reload) reads the same
      value back. */
  lemma SetThenInit(h: Hook, storage: Storage, v: Json, initialValue: Json, codec: Codec)
    requires RoundTrips(codec, v)
    ensures var (_, s') := SetValue(h, storage, SetTo(v), codec);
      Init(Some(s'), h.key, initialValue, codec).state == v
  {
  }

  /** A write in one tab reaches another tab's hook for the same key as the
      same value. */
  lemma SetThenEvent(writer: Hook, reader: Hook, storage: Storage, v: Json, codec: Codec)
    requires reader.key == writer.key
    requires RoundTrips(codec, v)
    ensures var (_, s') := SetValue(writer, storage, SetTo(v), codec);
      OnStorageEvent(reader, StorageEvent(Some(writer.key), Some(s'[writer.key])), codec).state == v
  {
  }

  /** A hook reads only its own key: storages that agree on it give the same
      initial state. */
  lemma InitReadsOnlyItsKey(s1: Storage, s2: Storage, key: string, initialValue: Json, codec: Codec)
    requires (key in s1 <==> key in s2)
    requires key in s1 ==> s1[key] == s2[key]
    ensures Init(Some(s1), key, initialValue, codec) == Init(Some(s2), key, initialValue, codec)
  {
  }

  /** Apart from the bare theme word, an event carrying text for the key
      puts the hook in the state a fresh start on that text would. */
  lemma EventAgreesWithInit(h: Hook, storage: Storage, raw: Option<string>, codec: Codec)
    requires !(raw.Some? && IsBareTheme(h.key, raw.value) && codec.parse(raw.value).None?)
    ensures var s' := if raw.Some? then storage[h.key := raw.value] else storage - {h.key};
      OnStorageEvent(h, StorageEvent(Some(h.key), raw), codec).state
        == Init(Some(s'), h.key, h.initialValue, codec).state
  {
  }

  /** The bare theme word is honoured only when the hook starts: the same
      text arriving by event resets the theme to the initial value. */
  lemma BareThemeOnlyAtInit(h: Hook, storage: Storage, raw: string, codec: Codec)
    requires h.key == THEME_KEY && IsBareTheme(h.key, raw) && codec.parse(raw).None?
    ensures Init(Some(storage[h.key := raw]), h.key, h.initialValue, codec).state == JStr(raw)
    ensures OnStorageEvent(h, StorageEvent(Some(h.key), Some(raw)), codec).state == h.initialValue
  {
  }
}

=== FILE: notifications.dfy ===
/** The client's toast queue: new notifications are appended, at most three
    stay visible (older ones are marked for removal and animate out), and a
    marked entry is later dropped by id.

    Ids come from the clock and a random number; they are a parameter here.
    The queue marks "the oldest visible entries" by looking their ids up,
    which picks exactly those entries when ids are distinct
    (`AddMarksOldest`). */
module Notifications {
  import opened Common

  const MAX_VISIBLE_NOTIFICATIONS: int := 3

  const INVALID_CONTENT_MESSAGE: string := "Некорректное содержимое уведомления"

  /** What the caller passed: a plain message, an object with a message key
      (and optional parameters), or anything else. */
  datatype Content =
    | TextContent(text: string)
    | KeyContent(key: string, params: Option<map<string, string>>)
    | OtherContent

  datatype Notification = Notification(
    id: int, message: Option<string>, messageKey: Option<string>,
    messageParams: map<string, string>, kind: string, duration: int, isBeingRemoved: bool)

  /** The new entry for `content`: its text or its key and parameters
      (`{}` when absent), or the fixed fallback text; never marked. */
  function NewNotification(id: int, content: Content, kind: string, duration: int): (n: Notification)
    ensures n.id == id && !n.isBeingRemoved && n.kind == kind && n.duration == duration
    ensures content.TextContent? ==> n.message == Some(content.text) && n.messageKey == None && n.messageParams == map[]
    ensures content.KeyContent? ==> n.message == None && n.messageKey == Some(content.key)
    ensures content.KeyContent? && content.params.Some? ==> n.messageParams == content.params.value
    ensures content.KeyContent? && content.params.None? ==> n.messageParams == map[]
    ensures content.OtherContent? ==>
      n.message == Some(INVALID_CONTENT_MESSAGE) && n.messageKey == None && n.messageParams == map[]
  {
    match content
    case TextContent(s) => Notification(id, Some(s), None, map[], kind, duration, false)
    case KeyContent(k, p) => Notification(id, None, Some(k), p.GetOr(map[]), kind, duration, false)
    case OtherContent => Notification(id, Some(INVALID_CONTENT_MESSAGE), None, map[], kind, duration, false)
  }

  /** The entries still shown, oldest first. */
  function Visible(q: seq<Notification>): (v: seq<Notification>)
    ensures |v| <= |q|
  {
    if |q| == 0 then []
    else (if q[0].isBeingRemoved then [] else [q[0]]) + Visible(q[1..])
  }

  predicate UniqueIds(q: seq<Notification>) {
    forall i, j :: 0 <= i < j < |q| ==> q[i].id != q[j].id
  }

  /** Flagging `n` when `mark` holds, nothing else touched. */
  function Flag(n: Notification, mark: bool): Notification {
    if mark then n.(isBeingRemoved := true) else n
  }

  /** `addNotification`: append the new entry, then mark every unmarked
      entry whose id is among the oldest visible ones beyond the three
      newest. */
  function AddNotification(q: seq<Notification>, id: int, content: Content, kind: string, duration: int)
    : (r: seq<Notification>)
    ensures |r| == |q| + 1
    ensures forall i :: 0 <= i < |r| ==> r[i].id == (q + [NewNotification(id, content, kind, duration)])[i].id
    ensures forall i :: 0 <= i < |q| ==> q[i].isBeingRemoved ==> r[i] == q[i]
  {
    var cur := q + [NewNotification(id, content, kind, duration)];
    var vis := Visible(cur);
    if |vis| > MAX_VISIBLE_NOTIFICATIONS then
      var oldest := vis[..|vis| - MAX_VISIBLE_NOTIFICATIONS];
      var oldestIds := set ov | ov in oldest :: ov.id;
      seq(|cur|, i requires 0 <= i < |cur| => Flag(cur[i], cur[i].id in oldestIds && !cur[i].isBeingRemoved))
    else cur
  }

  /** Marking the `k` oldest visible entries, by position. */
  function MarkOldest(q: seq<Notification>, k: int): (r: seq<Notification>)
    ensures |r| == |q|
  {
    if |q| == 0 then []
    else if !q[0].isBeingRemoved && k > 0 then [Flag(q[0], true)] + MarkOldest(q[1..], k - 1)
    else [q[0]] + MarkOldest(q[1..], k)
  }

  /** After marking the `k` oldest, the visible entries are the newest
      `|Visible(q)| - k` of those visible before. */
  lemma {:induction false} MarkOldestVisible(q: seq<Notification>, k: int)
    requires k >= 0
    ensures Visible(MarkOldest(q, k)) == Visible(q)[Min(k, |Visible(q)|)..]
  {
    if |q| > 0 {
      var x := q[0];
      var k' := if !x.isBeingRemoved && k > 0 then k - 1 else k;
      var y := Flag(x, !x.isBeingRemoved && k > 0);
      MarkOldestVisible(q[1..], k');
      assert MarkOldest(q, k) == [y] + MarkOldest(q[1..], k');
      VisibleCons(y, MarkOldest(q[1..], k'));
      VisibleCons(x, q[1..]);
      assert q == [x] + q[1..];
      if !x.isBeingRemoved && k > 0 {
        SliceCons(x, Visible(q[1..]), k);
      }
    }
  }

  lemma VisibleCons(x: Notification, r: seq<Notification>)
    ensures Visible([x] + r) == (if x.isBeingRemoved then [] else [x]) + Visible(r)
  {
    assert ([x] + r)[0] == x;
    assert ([x] + r)[1..] == r;
  }

  lemma SliceCons<T>(x: T, s: seq<T>, k: int)
    requires k > 0
    ensures ([x] + s)[Min(k, |s| + 1)..] == s[Min(k - 1, |s|)..]
  {
  }

  /** The number of visible entries before position `i`. */
  function Rank(q: seq<Notification>, i: int): nat
    requires 0 <= i <= |q|
  {
    |Visible(q[..i])|
  }

  /** Entry `i` of `MarkOldest` is flagged exactly when it was visible with
      rank below `k`. */
  lemma {:induction false} MarkOldestAt(q: seq<Notification>, k: int, i: int)
    requires 0 <= i < |q|
    ensures MarkOldest(q, k)[i] == Flag(q[i], !q[i].isBeingRemoved && Rank(q, i) < k)
  {
    if i > 0 {
      var k' := if !q[0].isBeingRemoved && k > 0 then k - 1 else k;
      MarkOldestAt(q[1..], k', i - 1);
      assert MarkOldest(q, k)[i] == MarkOldest(q[1..], k')[i - 1];
      RankCons(q, i);
    } else {
      assert q[..0] == [];
    }
  }

  /** The rank past the first entry counts that entry when it is visible. */
  lemma RankCons(q: seq<Notification>, i: int)
    requires 0 < i <= |q|
    ensures Rank(q, i) == (if q[0].isBeingRemoved then 0 else 1) + Rank(q[1..], i - 1)
  {
    assert q[..i] == [q[0]] + q[1..][..i - 1];
    VisibleCons(q[0], q[1..][..i - 1]);
  }

  /** A visible entry sits in `Visible` at its rank. */
  lemma {:induction false} VisibleAtRank(q: seq<Notification>, i: int)
    requires 0 <= i < |q| && !q[i].isBeingRemoved
    ensures Rank(q, i) < |Visible(q)| && Visible(q)[Rank(q, i)] == q[i]
  {
    if i > 0 {
      VisibleAtRank(q[1..], i - 1);
      assert q[..i] == [q[0]] + q[1..][..i - 1];
      assert Visible(q[..i]) == (if q[0].isBeingRemoved then [] else [q[0]]) + Visible(q[1..][..i - 1]);
    } else {
      assert q[..0] == [];
    }
  }

  /** Every visible entry is some visible position of the queue, at its rank. */
  lemma {:induction false} RankOfVisible(q: seq<Notification>, m: int) returns (j: int)
    requires 0 <= m < |Visible(q)|
    ensures 0 <= j < |q| && !q[j].isBeingRemoved && Rank(q, j) == m && Visible(q)[m] == q[j]
  {
    if q[0].isBeingRemoved {
      var j' := RankOfVisible(q[1..], m);
      j := j' + 1;
      assert q[..j] == [q[0]] + q[1..][..j'];
      assert Visible(q[..j]) == Visible(q[1..][..j']);
    } else if m == 0 {
      j := 0;
      assert q[..0] == [];
    } else {
      var j' := RankOfVisible(q[1..], m - 1);
      j := j' + 1;
      assert q[..j] == [q[0]] + q[1..][..j'];
      assert Visible(q[..j]) == [q[0]] + Visible(q[1..][..j']);
    }
  }

  /** With distinct ids, looking the oldest visible ids up marks exactly the
      visible entries of rank below the excess. */
  lemma AddMarksOldest(q: seq<Notification>, id: int, content: Content, kind: string, duration: int)
    requires UniqueIds(q + [NewNotification(id, content, kind, duration)])
    ensures var cur := q + [NewNotification(id, content, kind, duration)];
      AddNotification(q, id, content, kind, duration) ==
        MarkOldest(cur, |Visible(cur)| - MAX_VISIBLE_NOTIFICATIONS)
  {
    var cur := q + [NewNotification(id, content, kind, duration)];
    var k := |Visible(cur)| - MAX_VISIBLE_NOTIFICATIONS;
    var r := AddNotification(q, id, content, kind, duration);
    var m := MarkOldest(cur, k);
    forall i | 0 <= i < |cur|
      ensures r[i] == m[i]
    {
      MarkOldestAt(cur, k, i);
      AddMarksOldestAt(cur, k, i);
    }
  }

  /** Looking up the ids of the `k` oldest visible entries picks entry `i`
      exactly when its rank is below `k`, when ids are distinct. */
  lemma AddMarksOldestAt(cur: seq<Notification>, k: int, i: int)
    requires UniqueIds(cur) && 0 <= i < |cur| && k <= |Visible(cur)|
    ensures var vis := Visible(cur);
      var oldestIds := set ov | ov in vis[..Max(k, 0)] :: ov.id;
      (cur[i].id in oldestIds && !cur[i].isBeingRemoved) <==> (!cur[i].isBeingRemoved && Rank(cur, i) < k)
  {
    var vis := Visible(cur);
    var oldest := vis[..Max(k, 0)];
    var oldestIds := set ov | ov in oldest :: ov.id;
    if !cur[i].isBeingRemoved {
      VisibleAtRank(cur, i);
      if Rank(cur, i) < k {
        assert vis[Rank(cur, i)] in oldest;
      }
      if cur[i].id in oldestIds {
        var ov :| ov in oldest && ov.id == cur[i].id;
        var p :| 0 <= p < |oldest| && oldest[p] == ov;
        var j := RankOfVisible(cur, p);
        assert cur[j].id == cur[i].id;
      }
    }
  }

  /** After an addition with distinct ids, at most three entries are
      visible: the newest ones, the new entry last among them. */
  lemma AddKeepsThreeVisible(q: seq<Notification>, id: int, content: Content, kind: string, duration: int)
    requires UniqueIds(q + [NewNotification(id, content, kind, duration)])
    ensures var cur := q + [NewNotification(id, content, kind, duration)];
      var v := Visible(AddNotification(q, id, content, kind, duration));
      && |v| == Min(|Visible(cur)|, MAX_VISIBLE_NOTIFICATIONS)
      && v == Visible(cur)[|Visible(cur)| - |v|..]
      && |v| > 0 && v[|v| - 1] == NewNotification(id, content, kind, duration)
  {
    var n := NewNotification(id, content, kind, duration);
    var cur := q + [n];
    var vc := Visible(cur);
    var k := |vc| - MAX_VISIBLE_NOTIFICATIONS;
    AddMarksOldest(q, id, content, kind, duration);
    VisibleAppend(q, n);
    var j := Min(Max(k, 0), |vc|);
    if k <= 0 {
      MarkOldestNonPositive(cur, k);
    } else {
      MarkOldestVisible(cur, k);
    }
    assert Visible(AddNotification(q, id, content, kind, duration)) == vc[j..];
    LastOfSuffix(Visible(q), n, j);
  }

  lemma LastOfSuffix<T>(s: seq<T>, x: T, j: int)
    requires 0 <= j <= |s|
    ensures var t := (s + [x])[j..]; |t| > 0 && t[|t| - 1] == x
  {
  }

  lemma {:induction false} MarkOldestNonPositive(q: seq<Notification>, k: int)
    requires k <= 0
    ensures MarkOldest(q, k) == MarkOldest(q, 0) == q
  {
    if |q| > 0 {
      MarkOldestNonPositive(q[1..], k);
    }
  }

  /** The last entry, when visible, is the last visible one. */
  lemma VisibleLastRank(q: seq<Notification>)
    requires |q| > 0 && !q[|q| - 1].isBeingRemoved
    ensures Rank(q, |q| - 1) == |Visible(q)| - 1
  {
    VisibleAppend(q[..|q| - 1], q[|q| - 1]);
    assert q == q[..|q| - 1] + [q[|q| - 1]];
  }

  lemma {:induction false} VisibleAppend(p: seq<Notification>, n: Notification)
    ensures Visible(p + [n]) == Visible(p) + (if n.isBeingRemoved then [] else [n])
  {
    if |p| > 0 {
      VisibleAppend(p[1..], n);
      assert (p + [n])[1..] == p[1..] + [n];
    } else {
      assert p + [n] == [n];
    }
  }

  /** `markForRemoval`: the flag is set on the entries with that id; every
      other field and every other entry is unchanged. */
  function MarkForRemoval(q: seq<Notification>, id: int): (r: seq<Notification>)
    ensures |r| == |q|
    ensures forall i :: 0 <= i < |q| ==> r[i].(isBeingRemoved := q[i].isBeingRemoved) == q[i]
    ensures forall i :: 0 <= i < |q| ==> (r[i].isBeingRemoved <==> q[i].isBeingRemoved || q[i].id == id)
  {
    seq(|q|, i requires 0 <= i < |q| => Flag(q[i], q[i].id == id))
  }

  /** `removeNotificationFromState`: exactly the entries with that id go,
      the rest keep their order. */
  function RemoveNotification(q: seq<Notification>, id: int): (r: seq<Notification>)
    ensures |r| <= |q|
    ensures forall i :: 0 <= i < |r| ==> r[i].id != id
    ensures (exists i :: 0 <= i < |q| && q[i].id == id) ==> |r| < |q|
  {
    if |q| == 0 then []
    else (if q[0].id == id then [] else [q[0]]) + RemoveNotification(q[1..], id)
  }

  /** Exactly the entries with another id remain. */
  lemma {:induction false} RemoveContents(q: seq<Notification>, id: int)
    ensures forall n :: n in RemoveNotification(q, id) <==> n in q && n.id != id
  {
    if |q| > 0 {
      RemoveContents(q[1..], id);
      assert q == [q[0]] + q[1..];
    }
  }

  /** Removing an id that is not in the queue changes nothing. */
  lemma {:induction false} RemoveAbsent(q: seq<Notification>, id: int)
    requires forall i :: 0 <= i < |q| ==> q[i].id != id
    ensures RemoveNotification(q, id) == q
  {
    if |q| > 0 {
      RemoveAbsent(q[1..], id);
    }
  }

  lemma {:induction false} RemoveAppend(p: seq<Notification>, n: Notification, id: int)
    ensures RemoveNotification(p + [n], id) == RemoveNotification(p, id) + (if n.id == id then [] else [n])
  {
    if |p| > 0 {
      RemoveAppend(p[1..], n, id);
      assert (p + [n])[1..] == p[1..] + [n];
    } else {
      assert p + [n] == [n];
    }
  }

  /** Adding a notification with a fresh id while fewer than three are
      visible, then removing it, gives back the original queue. */
  lemma AddThenRemove(q: seq<Notification>, id: int, content: Content, kind: string, duration: int)
    requires forall i :: 0 <= i < |q| ==> q[i].id != id
    requires |Visible(q)| < MAX_VISIBLE_NOTIFICATIONS
    ensures RemoveNotification(AddNotification(q, id, content, kind, duration), id) == q
  {
    var n := NewNotification(id, content, kind, duration);
    VisibleAppend(q, n);
    assert AddNotification(q, id, content, kind, duration) == q + [n];
    RemoveAppend(q, n, id);
    RemoveAbsent(q, id);
  }
}

=== FILE: pagination_controls.dfy ===
/** The pager under every paginated list: previous/next buttons around a
    row of page buttons. When there are more pages than buttons, the row
    keeps the first and last page, a window around the current page, and
    ellipses for what it leaves out.

    `BuildPageNumbers` follows the component's loops (including its
    membership checks); `PageRow` is the same row in closed form; `Dedup`
    is the final pass that drops repeated pages and doubled ellipses. */
module PaginationControls {
  import opened Common

  datatype PageItem = Page(index: int) | Ellipsis

  const DEFAULT_MAX_VISIBLE_PAGE_BUTTONS: int := 5

  /** Pages `lo..hi` in order (empty when `lo > hi`). */
  function Interval(lo: int, hi: int): (s: seq<PageItem>)
    ensures |s| == if lo <= hi then hi - lo + 1 else 0
    ensures forall i :: 0 <= i < |s| ==> s[i] == Page(lo + i)
  {
    if lo > hi then [] else seq(hi - lo + 1, i => Page(lo + i))
  }

  lemma IntervalHas(lo: int, hi: int, x: int)
    ensures Page(x) in Interval(lo, hi) <==> lo <= x <= hi
    ensures Ellipsis !in Interval(lo, hi)
  {
    var s := Interval(lo, hi);
    if lo <= x <= hi {
      assert s[x - lo] == Page(x);
    }
  }

  predicate PagesWithin(s: seq<PageItem>, lo: int, hi: int) {
    forall i :: 0 <= i < |s| && s[i].Page? ==> lo <= s[i].index <= hi
  }

  predicate PagesIncreasing(s: seq<PageItem>) {
    forall i, j :: 0 <= i < j < |s| && s[i].Page? && s[j].Page? ==> s[i].index < s[j].index
  }

  predicate DistinctPages(s: seq<PageItem>) {
    forall i, j :: 0 <= i < j < |s| && s[i].Page? && s[j].Page? ==> s[i].index != s[j].index
  }

  predicate NoAdjacentEllipses(s: seq<PageItem>) {
    forall i :: 0 <= i < |s| - 1 ==> s[i].Page? || s[i + 1].Page?
  }

  /** How many page buttons (not ellipses) a row holds. */
  function PageCount(s: seq<PageItem>): int {
    |s| - multiset(s)[Ellipsis]
  }

  // ---------------------------------------------------------------------
  // The window

  /** Pages shown on each side of the current one:
      `max(0, floor((maxVisible - 3) / 2))` (Dafny's `/` floors for a
      positive divisor). */
  function Siblings(maxVisible: int): (s: nat)
    ensures maxVisible >= 3 ==> 2 * s + 3 <= maxVisible
    ensures maxVisible <= 4 ==> s == 0
  {
    Max(0, (maxVisible - 3) / 2)
  }

  datatype Window = Window(left: bool, right: bool, start: int, end: int)

  /** Which ellipses are wanted and which middle range is listed. */
  function WindowOf(currentPage: int, totalPages: int, maxVisible: int): Window {
    var sib := Siblings(maxVisible);
    var left := currentPage > sib + 1;
    var right := currentPage < totalPages - 2 - sib;
    if !left && right then Window(left, right, 1, Min(totalPages - 2, maxVisible - 2))
    else if left && !right then Window(left, right, Max(1, totalPages - 1 - (maxVisible - 2)), totalPages - 2)
    else if left && right then
      Window(left, right, Max(1, currentPage - sib), Min(totalPages - 2, currentPage + sib))
    else Window(left, right, 1, totalPages - 2)
  }

  /** The middle pages that pass the `1 <= i <= totalPages - 2` check. */
  function Middle(totalPages: int, w: Window): seq<PageItem> {
    Interval(Max(w.start, 1), Min(w.end, totalPages - 2))
  }

  /** The right ellipsis is pushed only after a page below the
      second-to-last one, never straight after the left ellipsis. */
  predicate RightEllipsisPushed(totalPages: int, w: Window) {
    w.right &&
    if |Middle(totalPages, w)| > 0 then w.end < totalPages - 2
    else !w.left && 0 < totalPages - 2
  }

  /** The row for more pages than buttons: the first page, the optional
      left ellipsis, the middle pages, the optional right ellipsis and the
      last page (unless it is the first). */
  function Assemble(totalPages: int, w: Window): (r: seq<PageItem>)
    ensures |r| >= 1 && r[0] == Page(0)
    ensures totalPages >= 2 ==> r[|r| - 1] == Page(totalPages - 1)
  {
    [Page(0)] + (if w.left then [Ellipsis] else []) + Middle(totalPages, w)
    + (if RightEllipsisPushed(totalPages, w) then [Ellipsis] else [])
    + (if totalPages == 1 then [] else [Page(totalPages - 1)])
  }

  /** The row in closed form: every page when they fit, otherwise the
      assembled window. */
  function PageRow(currentPage: int, totalPages: int, maxVisible: int): (r: seq<PageItem>)
    ensures totalPages <= maxVisible ==> Ellipsis !in r && |r| == Max(totalPages, 0)
    ensures totalPages <= maxVisible ==> forall i :: 0 <= i < |r| ==> r[i] == Page(i)
    ensures totalPages > maxVisible ==> |r| >= 1 && r[0] == Page(0)
  {
    IntervalHas(0, totalPages - 1, 0);
    if totalPages <= maxVisible then Interval(0, totalPages - 1)
    else Assemble(totalPages, WindowOf(currentPage, totalPages, maxVisible))
  }

  // ---------------------------------------------------------------------
  // The component's loops

  /** `pageNumbersToRender`, built as the component builds it: pushes
      guarded by bounds checks and by `includes`. */
  method BuildPageNumbers(currentPage: int, totalPages: int, maxVisible: int) returns (raw: seq<PageItem>)
    requires totalPages >= 1
    ensures raw == PageRow(currentPage, totalPages, maxVisible)
  {
    raw := [];
    if totalPages <= maxVisible {
      var i := 0;
      while i < totalPages
        invariant 0 <= i <= totalPages
        invariant raw == Interval(0, i - 1)
      {
        raw := raw + [Page(i)];
        i := i + 1;
      }
      return;
    }
    raw := BuildWindowRow(totalPages, WindowOf(currentPage, totalPages, maxVisible));
  }

  /** The row for more pages than buttons, given the window. */
  method BuildWindowRow(totalPages: int, w: Window) returns (raw: seq<PageItem>)
    requires totalPages >= 1
    ensures raw == Assemble(totalPages, w)
  {
    raw := [Page(0)];
    if w.left {
      raw := raw + [Ellipsis];
    }
    var head := raw;
    raw := PushRange(head, w.start, w.end, totalPages);
    ghost var mid := Middle(totalPages, w);
    assert raw == head + mid;
    if w.right {
      var lastPushed := raw[|raw| - 1];
      assert lastPushed == if |mid| > 0 then mid[|mid| - 1] else head[|head| - 1];
      if lastPushed != Ellipsis && lastPushed.index < totalPages - 2 {
        raw := raw + [Ellipsis];
      }
    }
    assert raw == head + mid + (if RightEllipsisPushed(totalPages, w) then [Ellipsis] else []);
    IntervalHas(Max(w.start, 1), Min(w.end, totalPages - 2), totalPages - 1);
    if Page(totalPages - 1) !in raw {
      raw := raw + [Page(totalPages - 1)];
    }
  }

  /** The middle loop: each page of `start..end` that passes the bounds check
      and is not listed yet is appended. */
  method PushRange(head: seq<PageItem>, start: int, end: int, totalPages: int) returns (raw: seq<PageItem>)
    requires PagesWithin(head, 0, 0)
    ensures raw == head + Interval(Max(start, 1), Min(end, totalPages - 2))
  {
    raw := head;
    var lo := Max(start, 1);
    var i := start;
    while i <= end
      invariant start <= i <= Max(start, end + 1)
      invariant raw == head + Interval(lo, Min(i - 1, totalPages - 2))
      decreases end + 1 - i
    {
      if 1 <= i <= totalPages - 2 {
        IntervalHas(lo, Min(i - 1, totalPages - 2), i);
        assert Page(i) !in head;
        if Page(i) !in raw {
          raw := raw + [Page(i)];
        }
      }
      i := i + 1;
    }
  }

  /** `finalPageNumbers`: a page already listed is skipped, and an ellipsis
      right after another is dropped. */
  method Dedup(raw: seq<PageItem>) returns (items: seq<PageItem>)
    ensures DistinctPages(items) && NoAdjacentEllipses(items)
    ensures forall x :: x in items ==> x in raw
    ensures forall p :: Page(p) in raw ==> Page(p) in items
    ensures DistinctPages(raw) && NoAdjacentEllipses(raw) ==> items == raw
  {
    ghost var wellFormed := DistinctPages(raw) && NoAdjacentEllipses(raw);
    items := [];
    var lastIsEllipsis := false;
    for i := 0 to |raw|
      invariant DistinctPages(items) && NoAdjacentEllipses(items)
      invariant lastIsEllipsis <==> |items| > 0 && items[|items| - 1] == Ellipsis
      invariant forall x :: x in items ==> x in raw[..i]
      invariant forall k :: 0 <= k < i && raw[k].Page? ==> raw[k] in items
      invariant wellFormed ==> items == raw[..i]
    {
      var x := raw[i];
      if x == Ellipsis {
        if !lastIsEllipsis {
          items := items + [x];
          lastIsEllipsis := true;
        }
      } else if x !in items {
        items := items + [x];
        lastIsEllipsis := false;
      }
    }
  }

  // ---------------------------------------------------------------------
  // The rendered controls

  datatype Controls = Controls(previousDisabled: bool, items: seq<PageItem>, nextDisabled: bool)

  /** Nothing is rendered for zero pages; otherwise the row, with previous
      disabled on the first page and next on the last. */
  method Render(currentPage: int, totalPages: nat, maxVisible: int, disabled: bool) returns (r: Option<Controls>)
    ensures r.None? <==> totalPages == 0
    ensures r.Some? ==> r.value.previousDisabled == (disabled || currentPage == 0)
    ensures r.Some? ==> r.value.nextDisabled == (disabled || currentPage == totalPages - 1)
    ensures r.Some? ==> r.value.items == PageRow(currentPage, totalPages, maxVisible)
    ensures r.Some? && totalPages <= maxVisible ==>
      |r.value.items| == totalPages && forall i :: 0 <= i < totalPages ==> r.value.items[i] == Page(i)
    ensures r.Some? && totalPages >= 2 ==>
      var row := r.value.items;
      && |row| >= 2 && row[0] == Page(0) && row[|row| - 1] == Page(totalPages - 1)
      && PagesIncreasing(row) && NoAdjacentEllipses(row) && PagesWithin(row, 0, totalPages - 1)
  {
    if totalPages == 0 {
      return None;
    }
    var raw := BuildPageNumbers(currentPage, totalPages, maxVisible);
    if totalPages >= 2 {
      RowShape(currentPage, totalPages, maxVisible);
    } else if totalPages > maxVisible {
      RowOfOnePage(currentPage, maxVisible);
      assert DistinctPages(raw) && NoAdjacentEllipses(raw);
    }
    var items := Dedup(raw);
    return Some(Controls(disabled || currentPage == 0, items, disabled || currentPage == totalPages - 1));
  }

  /** Clicking an item: previous and next request the neighbouring pages, a
      page button requests exactly its page, an ellipsis nothing. */
  datatype Button = Previous | PageButton(item: PageItem) | Next

  function PageRequested(currentPage: int, b: Button): (r: Option<int>)
    ensures b.Previous? ==> r == Some(currentPage - 1)
    ensures b.Next? ==> r == Some(currentPage + 1)
    ensures b.PageButton? ==> (r.Some? <==> b.item.Page?) && (r.Some? ==> r.value == b.item.index)
  {
    match b
    case Previous => Some(currentPage - 1)
    case Next => Some(currentPage + 1)
    case PageButton(Page(i)) => Some(i)
    case PageButton(Ellipsis) => None
  }

  // ---------------------------------------------------------------------
  // Properties of the row

  lemma AppendWithin(a: seq<PageItem>, b: seq<PageItem>, lo: int, m: int, hi: int)
    requires lo <= m <= hi + 1
    requires PagesIncreasing(a) && PagesWithin(a, lo, m - 1)
    requires PagesIncreasing(b) && PagesWithin(b, m, hi)
    requires NoAdjacentEllipses(a) && NoAdjacentEllipses(b)
    requires |a| == 0 || |b| == 0 || a[|a| - 1].Page? || b[0].Page?
    ensures PagesIncreasing(a + b) && PagesWithin(a + b, lo, hi) && NoAdjacentEllipses(a + b)
  {
    var s := a + b;
    forall i | 0 <= i < |s| && s[i].Page?
      ensures lo <= s[i].index <= hi
    {
      if i < |a| {
        assert s[i] == a[i];
      } else {
        assert s[i] == b[i - |a|];
      }
    }
    forall i, j | 0 <= i < j < |s| && s[i].Page? && s[j].Page?
      ensures s[i].index < s[j].index
    {
      if i < |a| && j >= |a| {
        assert s[i] == a[i] && s[j] == b[j - |a|];
      } else if i < |a| {
        assert s[i] == a[i] && s[j] == a[j];
      } else {
        assert s[i] == b[i - |a|] && s[j] == b[j - |a|];
      }
    }
    forall i | 0 <= i < |s| - 1
      ensures s[i].Page? || s[i + 1].Page?
    {
      if i + 1 < |a| {
        assert s[i] == a[i] && s[i + 1] == a[i + 1];
      } else if i >= |a| {
        assert s[i] == b[i - |a|] && s[i + 1] == b[i + 1 - |a|];
      }
    }
  }

  /** The first page, the optional left ellipsis and the middle pages:
      increasing, within `0..totalPages - 2`, no doubled ellipsis, ending in
      the last middle page when there is one. */
  lemma HeadAndMiddle(totalPages: int, w: Window)
    requires totalPages >= 2
    ensures var hm := [Page(0)] + (if w.left then [Ellipsis] else []) + Middle(totalPages, w);
      && PagesIncreasing(hm) && PagesWithin(hm, 0, totalPages - 2) && NoAdjacentEllipses(hm)
      && hm[0] == Page(0)
      && (hm[|hm| - 1].Page? || (w.left && |Middle(totalPages, w)| == 0))
      && (|Middle(totalPages, w)| > 0 ==> hm[|hm| - 1] == Page(Min(w.end, totalPages - 2)))
    ensures PagesWithin(Middle(totalPages, w), 1, totalPages - 2)
  {
    var head := [Page(0)] + (if w.left then [Ellipsis] else []);
    var mid := Middle(totalPages, w);
    var lo := Max(w.start, 1);
    var hi := Min(w.end, totalPages - 2);
    assert PagesIncreasing(mid) && PagesWithin(mid, 1, totalPages - 2) && NoAdjacentEllipses(mid) by {
      forall i | 0 <= i < |mid| ensures mid[i] == Page(lo + i) && lo + i <= hi { }
    }
    AppendWithin(head, mid, 0, 1, totalPages - 2);
    assert |mid| > 0 ==> (head + mid)[|head + mid| - 1] == mid[|mid| - 1] == Page(hi);
  }

  /** With more than one page, whatever the window: the first item is page
      0, the last is the last page, pages strictly increase (so none
      repeats), every page lies in range, and no two ellipses are
      adjacent. */
  lemma AssembleShape(totalPages: int, w: Window)
    requires totalPages >= 2
    ensures var row := Assemble(totalPages, w);
      && |row| >= 2 && row[0] == Page(0) && row[|row| - 1] == Page(totalPages - 1)
      && PagesIncreasing(row) && DistinctPages(row) && NoAdjacentEllipses(row)
      && PagesWithin(row, 0, totalPages - 1)
  {
    var hm := [Page(0)] + (if w.left then [Ellipsis] else []) + Middle(totalPages, w);
    HeadAndMiddle(totalPages, w);
    var rightE: seq<PageItem> := if RightEllipsisPushed(totalPages, w) then [Ellipsis] else [];
    AppendWithin(hm, rightE, 0, totalPages - 1, totalPages - 1);
    var row := hm + rightE + [Page(totalPages - 1)];
    AppendWithin(hm + rightE, [Page(totalPages - 1)], 0, totalPages - 1, totalPages - 1);
    assert Assemble(totalPages, w) == row;
    assert row[0] == hm[0];
  }

  /** With more than one page: the row starts at page 0, ends at the last
      page, lists pages in strictly increasing order within range, and never
      shows two ellipses side by side. */
  lemma RowShape(currentPage: int, totalPages: int, maxVisible: int)
    requires totalPages >= 2
    ensures var row := PageRow(currentPage, totalPages, maxVisible);
      && |row| >= 2 && row[0] == Page(0) && row[|row| - 1] == Page(totalPages - 1)
      && PagesIncreasing(row) && DistinctPages(row) && NoAdjacentEllipses(row)
      && PagesWithin(row, 0, totalPages - 1)
  {
    if totalPages > maxVisible {
      AssembleShape(totalPages, WindowOf(currentPage, totalPages, maxVisible));
    } else {
      var row := Interval(0, totalPages - 1);
      assert PagesIncreasing(row) && NoAdjacentEllipses(row) by {
        forall i | 0 <= i < |row| ensures row[i] == Page(i) { }
      }
    }
  }

  /** A single page with no room for buttons at all: the row is just page 0,
      possibly followed by one ellipsis. */
  lemma RowOfOnePage(currentPage: int, maxVisible: int)
    requires maxVisible < 1
    ensures var row := PageRow(currentPage, 1, maxVisible);
      row == [Page(0)] || row == [Page(0), Ellipsis]
  {
  }

  /** The window arithmetic for at least three buttons and more pages than
      buttons: the middle range is non-empty, inside `1..totalPages - 2`, at
      most `maxVisible - 2` long, each ellipsis is shown exactly when the
      current page is far enough from that end, and a current page in range
      is the first page, the last page or in the middle. */
  lemma WindowFacts(currentPage: int, totalPages: int, maxVisible: int)
    requires 3 <= maxVisible < totalPages
    ensures var w := WindowOf(currentPage, totalPages, maxVisible);
      var sib := Siblings(maxVisible);
      var lo := Max(w.start, 1);
      var hi := Min(w.end, totalPages - 2);
      && 1 <= lo <= hi <= totalPages - 2
      && hi - lo + 1 <= maxVisible - 2
      && (w.left <==> currentPage > sib + 1)
      && (RightEllipsisPushed(totalPages, w) <==> currentPage < totalPages - 2 - sib)
      && (0 <= currentPage < totalPages ==>
            currentPage == 0 || currentPage == totalPages - 1 || lo <= currentPage <= hi)
  {
    var w := WindowOf(currentPage, totalPages, maxVisible);
    assert |Middle(totalPages, w)| == Min(w.end, totalPages - 2) - Max(w.start, 1) + 1;
  }

  /** With at least three buttons and more pages than buttons, a left
      ellipsis follows page 0 exactly when the current page is more than
      `siblings + 1` from the start, and a right ellipsis precedes the last
      page exactly when the current page is more than `siblings + 1` from the
      end. */
  lemma EllipsisRules(currentPage: int, totalPages: int, maxVisible: int)
    requires 3 <= maxVisible < totalPages
    ensures var row := PageRow(currentPage, totalPages, maxVisible);
      var sib := Siblings(maxVisible);
      && |row| >= 3
      && (row[1] == Ellipsis <==> currentPage > sib + 1)
      && (row[|row| - 2] == Ellipsis <==> currentPage < totalPages - 2 - sib)
  {
    var w := WindowOf(currentPage, totalPages, maxVisible);
    WindowFacts(currentPage, totalPages, maxVisible);
    var lo := Max(w.start, 1);
    var hi := Min(w.end, totalPages - 2);
    var mid := Middle(totalPages, w);
    assert mid[0] == Page(lo) && mid[|mid| - 1] == Page(hi);
    var head := [Page(0)] + (if w.left then [Ellipsis] else []);
    var rightE: seq<PageItem> := if RightEllipsisPushed(totalPages, w) then [Ellipsis] else [];
    var row := head + mid + rightE + [Page(totalPages - 1)];
    assert PageRow(currentPage, totalPages, maxVisible) == row;
    assert row[1] == if w.left then Ellipsis else mid[0];
    assert row[|row| - 2] == if |rightE| > 0 then Ellipsis else mid[|mid| - 1];
  }

  /** Pages listed by an assembled row: exactly two outside the middle. */
  lemma AssembleCount(totalPages: int, w: Window, x: int)
    requires totalPages >= 2
    ensures PageCount(Assemble(totalPages, w)) == 2 + |Middle(totalPages, w)|
    ensures x == 0 || x == totalPages - 1 || Max(w.start, 1) <= x <= Min(w.end, totalPages - 2)
      ==> Page(x) in Assemble(totalPages, w)
  {
    var head := [Page(0)] + (if w.left then [Ellipsis] else []);
    var mid := Middle(totalPages, w);
    var rightE: seq<PageItem> := if RightEllipsisPushed(totalPages, w) then [Ellipsis] else [];
    var row := head + mid + rightE + [Page(totalPages - 1)];
    assert Assemble(totalPages, w) == row;
    IntervalHas(Max(w.start, 1), Min(w.end, totalPages - 2), x);
    assert multiset(row) == multiset(head) + multiset(mid) + multiset(rightE) + multiset{Page(totalPages - 1)};
  }

  /** With at least three buttons and a current page in range, at most
      `maxVisible` page buttons are listed and the current page is one of
      them. */
  lemma RowFitsAndShowsCurrent(currentPage: int, totalPages: int, maxVisible: int)
    requires 3 <= maxVisible && 0 <= currentPage < totalPages
    ensures var row := PageRow(currentPage, totalPages, maxVisible);
      PageCount(row) <= maxVisible && Page(currentPage) in row
  {
    if totalPages <= maxVisible {
      var row := Interval(0, totalPages - 1);
      IntervalHas(0, totalPages - 1, currentPage);
      assert PageCount(row) == totalPages;
    } else {
      WindowFacts(currentPage, totalPages, maxVisible);
      AssembleCount(totalPages, WindowOf(currentPage, totalPages, maxVisible), currentPage);
    }
  }
}

=== FILE: paging.dfy ===
/** Page arithmetic shared by the client's paged lists: the generic
    pagination hook, the worked-example page, the visualizer and the admin
    user list. They all count pages with `Math.ceil`, keep the current page
    in range, show a `slice` of the items with a 1-based "start–end" label,
    and let the user type a page size that is committed on blur or Enter. */
module Paging {
  import opened Common
  import opened Strings
  import opened InputUtils
  import opened LocalStorage

  // ---------------------------------------------------------------------
  // Counting and clamping pages

  /** `Math.ceil(n / k)`, and 0 when there are no items or the size is 0. */
  function TotalPages(n: nat, k: int): (tp: int)
    ensures k > 0 ==> tp >= 0 && (tp == 0 <==> n == 0)
    ensures k < 0 ==> tp <= 0
  {
    if n == 0 || k == 0 then 0
    else if k > 0 then
      assert (n + k - 1) / k >= 1 by {
        assert n + k - 1 >= k;
        DivAtLeastOne(n + k - 1, k);
      }
      (n + k - 1) / k
    else -(n / -k)
  }

  lemma DivAtLeastOne(a: int, k: int)
    requires k >= 1 && a >= k
    ensures a / k >= 1
  {
  }

  /** For a positive size the page count is the least number of pages that
      holds every item: zero exactly when there are no items. */
  lemma TotalPagesBounds(n: nat, k: int)
    requires k >= 1
    ensures var tp := TotalPages(n, k);
      && tp >= 0 && (tp == 0 <==> n == 0)
      && (tp - 1) * k < n <= tp * k
  {
    if n > 0 {
      var q := (n + k - 1) / k;
      var r := (n + k - 1) % k;
      assert n + k - 1 == q * k + r && 0 <= r < k;
    }
  }

  /** The hook's re-clamp: no pages forces page 0, a page past the end moves
      to the last page, a negative page to the first. */
  function ClampPage(currentPage: int, totalPages: int): (p: int)
    ensures totalPages > 0 ==> 0 <= p < totalPages
    ensures totalPages == 0 ==> p == 0
    ensures 0 <= currentPage < totalPages ==> p == currentPage
  {
    if totalPages == 0 then 0
    else if currentPage >= totalPages then Max(0, totalPages - 1)
    else if currentPage < 0 && totalPages > 0 then 0
    else currentPage
  }

  /** The same re-clamp as the example and visualizer pages write it. */
  function ClampPageOnPage(currentPage: int, totalPages: int): int {
    if currentPage >= totalPages && totalPages > 0 then totalPages - 1
    else if totalPages == 0 && currentPage != 0 then 0
    else if totalPages > 0 && currentPage < 0 then 0
    else currentPage
  }

  /** The two copies agree on every page count a list can have, and a
      clamped page stays put. */
  lemma ClampPagesAgree(currentPage: int, totalPages: int)
    requires totalPages >= 0
    ensures ClampPage(currentPage, totalPages) == ClampPageOnPage(currentPage, totalPages)
    ensures ClampPage(ClampPage(currentPage, totalPages), totalPages) == ClampPage(currentPage, totalPages)
  {
  }

  /** The hook's `goToPage`: an index outside the pages is ignored, except
      that page 0 may always be requested when there are no pages. */
  function GoToPage(currentPage: int, totalPages: int, pageIndex: int): (p: int)
    ensures 0 <= pageIndex < totalPages ==> p == pageIndex
    ensures !(0 <= pageIndex < totalPages) && !(totalPages == 0 && pageIndex == 0) ==> p == currentPage
  {
    if totalPages == 0 then (if pageIndex == 0 then 0 else currentPage)
    else if 0 <= pageIndex < totalPages then pageIndex
    else currentPage
  }

  /** The pages' `handlePageChange`: only an index among the pages moves. */
  function ChangePage(currentPage: int, totalPages: int, pageIndex: int): (p: int)
    ensures p == pageIndex || p == currentPage
    ensures p == pageIndex <== 0 <= pageIndex < totalPages
  {
    if 0 <= pageIndex < totalPages then pageIndex else currentPage
  }

  /** Navigation never takes a clamped page out of range. */
  lemma NavigationKeepsClamped(currentPage: int, totalPages: int, pageIndex: int)
    requires totalPages >= 0 && ClampPage(currentPage, totalPages) == currentPage
    ensures ClampPage(GoToPage(currentPage, totalPages, pageIndex), totalPages)
      == GoToPage(currentPage, totalPages, pageIndex)
    ensures ClampPage(ChangePage(currentPage, totalPages, pageIndex), totalPages)
      == ChangePage(currentPage, totalPages, pageIndex)
  {
  }

  // ---------------------------------------------------------------------
  // The visible slice and its label

  /** Where JavaScript's `slice` puts an index: negative ones count from the
      end, and both ends are clamped into the sequence. */
  function SliceIndex(i: int, n: nat): (j: nat)
    ensures j <= n
  {
    if i < 0 then Max(n + i, 0) else Min(i, n)
  }

  function JsSlice<T>(s: seq<T>, start: int, end: int): (r: seq<T>)
    ensures |r| <= |s|
  {
    var a := SliceIndex(start, |s|);
    var b := SliceIndex(end, |s|);
    if a < b then s[a..b] else []
  }

  /** The items on page `p` of size `k`: `slice(p * k, (p + 1) * k)`. */
  function PageItems<T>(items: seq<T>, p: int, k: int): (r: seq<T>)
    ensures |r| <= |items|
    ensures p >= 0 && k >= 1 ==> |r| <= k
  {
    var pk := p * k;
    assert (p + 1) * k == pk + k;
    JsSlice(items, pk, pk + k)
  }

  /** For a page at or after the first and a positive size, a page holds at
      most `k` items, and they are the items from `p * k` on. */
  lemma PageItemsContents<T>(items: seq<T>, p: int, k: int)
    requires p >= 0 && k >= 1
    ensures var r := PageItems(items, p, k);
      && |r| <= k
      && r == items[Min(p * k, |items|)..Min((p + 1) * k, |items|)]
      && forall i :: 0 <= i < |r| ==> r[i] == items[p * k + i]
  {
    assert p * k >= 0 && (p + 1) * k == p * k + k;
  }

  /** Scaling by a positive size keeps order, both ways. */
  lemma ScaleOrder(a: int, b: int, k: int)
    requires k >= 1
    ensures a <= b <==> a * k <= b * k
  {
    if a <= b {
      MulNonneg(b - a, k);
      assert b * k - a * k == (b - a) * k;
    } else {
      MulNonneg(a - b - 1, k);
      assert a * k - b * k == (a - b - 1) * k + k;
    }
  }

  lemma MulNonneg(x: int, k: int)
    requires x >= 0 && k >= 0
    ensures x * k >= 0
  {
  }

  /** Every item is on page `i / k`, at position `i % k`, and that page
      exists. */
  lemma ItemOnItsPage<T>(items: seq<T>, k: int, i: int)
    requires k >= 1 && 0 <= i < |items|
    ensures 0 <= i / k < TotalPages(|items|, k)
    ensures var r := PageItems(items, i / k, k); i % k < |r| && r[i % k] == items[i]
  {
    var p := i / k;
    var m := i % k;
    DivModSplit(i, k);
    ItemPageExists(|items|, k, i);
    ItemAtPosition(items, p, k, m);
  }

  /** Division by a positive size splits an index into page and offset. */
  lemma DivModSplit(i: int, k: int)
    requires k >= 1 && i >= 0
    ensures i / k >= 0 && 0 <= i % k < k && i == (i / k) * k + i % k
  {
  }

  /** The page an item falls on is one of the pages. */
  lemma ItemPageExists(n: nat, k: int, i: int)
    requires k >= 1 && 0 <= i < n
    ensures 0 <= i / k < TotalPages(n, k)
  {
    var p := i / k;
    DivModSplit(i, k);
    var tp := TotalPages(n, k);
    TotalPagesBounds(n, k);
    ScaleOrder(tp, p, k);
  }

  /** Offset `m` of page `p` is item `p * k + m`, when that item exists. */
  lemma ItemAtPosition<T>(items: seq<T>, p: int, k: int, m: int)
    requires k >= 1 && p >= 0 && 0 <= m < k && p * k + m < |items|
    ensures var r := PageItems(items, p, k); m < |r| && r[m] == items[p * k + m]
  {
    PageItemsContents(items, p, k);
  }

  /** The 1-based label of the visible range. */
  datatype Span = Span(start: int, end: int)

  /** The hook's label: `0–0` when empty or the size is 0. */
  function ItemSpan(n: nat, p: int, k: int): Span {
    if n == 0 || k == 0 then Span(0, 0) else Span(p * k + 1, Min((p + 1) * k, n))
  }

  /** The example and visualizer pages' label: `0–0` only when empty. */
  function StepSpan(n: nat, p: int, k: int): Span {
    if n == 0 then Span(0, 0) else Span(p * k + 1, Min((p + 1) * k, n))
  }

  /** The admin list's label, computed from the server's totals. */
  function SummarySpan(total: int, p: int, size: int): (sp: Span)
    ensures sp.end <= total
    ensures total <= 0 ==> sp.start == 0
    ensures total > 0 && p >= 0 && size >= 1 ==> sp.start >= 1
  {
    Span(if total > 0 then p * size + 1 else 0, Min((p + 1) * size, total))
  }

  /** For a page in range, the label names exactly the items shown: it runs
      from the first shown item to the last, 1-based, and the three copies
      of the label agree. */
  lemma SpanMatchesItems<T>(items: seq<T>, p: int, k: int)
    requires k >= 1 && 0 <= p < TotalPages(|items|, k)
    ensures var sp := ItemSpan(|items|, p, k);
      && 1 <= sp.start <= sp.end <= |items|
      && PageItems(items, p, k) == items[sp.start - 1..sp.end]
      && StepSpan(|items|, p, k) == sp
      && SummarySpan(|items|, p, k) == sp
  {
    TotalPagesBounds(|items|, k);
    var tp := TotalPages(|items|, k);
    assert p * k < |items| by {
      assert p <= tp - 1;
      assert p * k <= (tp - 1) * k by {
        assert (tp - 1 - p) * k >= 0;
      }
    }
    PageItemsContents(items, p, k);
  }

  // ---------------------------------------------------------------------
  // Page-size input

  /** The hook's page size from its text input: an unparsable or too small
      entry gives the clamped initial size, anything else is clamped into
      `[lo, hi]` (upper bound first). */
  function ValidItemsPerPage(input: string, initial: int, lo: int, hi: int): (k: int)
    ensures lo <= hi ==> lo <= k <= hi
    ensures (JsParseInt(input).None? || JsParseInt(input).value < lo) ==> k == Clamp(initial, lo, hi)
    ensures JsParseInt(input).Some? && lo <= JsParseInt(input).value <= hi ==> k == JsParseInt(input).value
  {
    var parsed := JsParseInt(input);
    if parsed.None? || parsed.value < lo then Max(lo, Min(initial, hi))
    else Min(hi, Max(lo, parsed.value))
  }

  /** What committing the typed size does: the size to use, the text the
      field shows afterwards, and whether the size changed (which also sends
      the list back to page 0). */
  datatype Commit = Commit(size: int, shown: string, changed: bool)

  /** Committing on blur or Enter, as the visualizer and the admin list
      write it: blank or unparsable gives `lo`, below `lo` gives `lo`, above
      `hi` gives `hi`. */
  function CommitPageSize(input: string, current: int, lo: int, hi: int): (c: Commit)
    ensures c.shown == IntToString(c.size) && (c.changed <==> c.size != current)
    ensures lo <= hi ==> lo <= c.size <= hi
    ensures JsParseInt(input).None? ==> c.size == lo
    ensures JsParseInt(input).Some? && lo <= JsParseInt(input).value <= hi ==> c.size == JsParseInt(input).value
    ensures JsParseInt(input).Some? && lo <= hi < JsParseInt(input).value ==> c.size == hi
  {
    BlankIsNaN(input);
    var parsed := JsParseInt(input);
    var size :=
      if JsTrim(input) == [] || parsed.None? then lo
      else if parsed.value < lo then lo
      else if parsed.value > hi then hi
      else parsed.value;
    Commit(size, IntToString(size), size != current)
  }

  /** The worked-example page's commit, which has no blank check. */
  function CommitPageSizeNoBlankCheck(input: string, current: int, lo: int, hi: int): Commit {
    var parsed := JsParseInt(input);
    var size :=
      if parsed.None? || parsed.value < lo then lo
      else if parsed.value > hi then hi
      else parsed.value;
    Commit(size, IntToString(size), size != current)
  }

  /** Blank input already fails to parse, so the blank check changes
      nothing: the copies commit alike. */
  lemma CommitsAgree(input: string, current: int, lo: int, hi: int)
    ensures CommitPageSize(input, current, lo, hi) == CommitPageSizeNoBlankCheck(input, current, lo, hi)
  {
    BlankIsNaN(input);
  }

  lemma BlankIsNaN(s: string)
    ensures JsTrim(s) == [] ==> JsParseInt(s).None?
  {
    if JsTrim(s) == [] {
      TrimEmptyIff(s, IsJsWhitespace);
    }
  }

  lemma JsParseIntOfIntToString(k: int)
    ensures JsParseInt(IntToString(k)) == Some(k)
  {
    var s := IntToString(k);
    if k >= 0 {
      DigitNotWhitespace(s[0]);
    }
    TrimStartStops(s, IsJsWhitespace);
    ParseSignedIntToString(k);
  }

  /** Committing twice is committing once: the shown text commits to the
      same size and changes nothing. */
  lemma CommitIdempotent(input: string, current: int, lo: int, hi: int)
    requires lo <= hi
    ensures var c := CommitPageSize(input, current, lo, hi);
      CommitPageSize(c.shown, c.size, lo, hi) == Commit(c.size, c.shown, false)
  {
    var c := CommitPageSize(input, current, lo, hi);
    JsParseIntOfIntToString(c.size);
  }

  /** Typing into the visualizer's or the admin list's size field: the
      digits of the entry, replaced by `hi` when they exceed it. */
  function TypePageSize(raw: string, hi: int): (shown: string)
    ensures shown == DigitsOf(raw) || shown == IntToString(hi)
  {
    var d := DigitsOf(raw);
    var parsed := JsParseInt(d);
    if d != [] && parsed.Some? && parsed.value > hi then IntToString(hi) else d
  }

  /** Typing into the example page's size field: empty stays empty,
      otherwise the number typed (leading zeros dropped), capped at `hi`. */
  function TypePageSizeNormalized(raw: string, hi: int): (shown: string)
    ensures shown == [] <==> DigitsOf(raw) == []
  {
    var d := DigitsOf(raw);
    if d == [] then []
    else match JsParseInt(d)
      case None => []
      case Some(v) => IntToString(if v > hi then hi else v)
  }

  /** While typing into the visualizer's or the admin list's field, what
      is shown never parses above `hi` and commits to the same size the raw
      digits would: the cap changes nothing that matters. */
  lemma TypingThenCommit(raw: string, current: int, lo: int, hi: int)
    requires 0 <= lo <= hi
    ensures var shown := TypePageSize(raw, hi);
      && AllDigits(shown)
      && (JsParseInt(shown).Some? ==> JsParseInt(shown).value <= hi)
      && CommitPageSize(shown, current, lo, hi).size == CommitPageSize(DigitsOf(raw), current, lo, hi).size
  {
    var d := DigitsOf(raw);
    ParseIntOfDigits(d);
    var parsed := JsParseInt(d);
    if d != [] && parsed.Some? && parsed.value > hi {
      JsParseIntOfIntToString(hi);
      assert TypePageSize(raw, hi) == NatToString(hi);
    } else {
      assert TypePageSize(raw, hi) == d;
    }
  }

  /** The example page's rule does the same, and drops leading zeros. */
  lemma TypingNormalizedThenCommit(raw: string, current: int, lo: int, hi: int)
    requires 0 <= lo <= hi
    ensures var shown := TypePageSizeNormalized(raw, hi);
      && AllDigits(shown)
      && (JsParseInt(shown).Some? ==> JsParseInt(shown).value <= hi)
      && CommitPageSize(shown, current, lo, hi).size == CommitPageSize(DigitsOf(raw), current, lo, hi).size
  {
    var d := DigitsOf(raw);
    ParseIntOfDigits(d);
    if d != [] {
      var v := DigitsValue(d) as int;
      var m := if v > hi then hi else v;
      JsParseIntOfIntToString(m);
      assert TypePageSizeNormalized(raw, hi) == NatToString(m);
    }
  }

  /** The size read back from local storage by the admin list and the
      visualizer: a stored value that is not a number becomes the default,
      then it is clamped into `[lo, hi]`. */
  function NormalizeStoredSize(stored: Json, default: int, lo: int, hi: int): (k: int)
    ensures lo <= hi ==> lo <= k <= hi
    ensures stored.JNum? && lo <= stored.n <= hi ==> k == stored.n
    ensures !stored.JNum? && lo <= default <= hi ==> k == default
  {
    var v := if stored.JNum? then stored.n else default;
    if v < lo then lo else if v > hi then hi else v
  }

  /** Normalising is idempotent: a normalised size written back and read
      again is left alone, so the effect that writes it settles at once. */
  lemma NormalizeSettles(stored: Json, default: int, lo: int, hi: int)
    requires lo <= hi
    ensures var k := NormalizeStoredSize(stored, default, lo, hi);
      NormalizeStoredSize(JNum(k), default, lo, hi) == k
  {
  }
}

=== FILE: password.dfy ===
/** Password complexity, checked twice with the same rule: in the web
    client before a form is sent, and on the server before a new password
    is hashed. */
module Passwords {
  import opened Common
  import opened Strings

  const MIN_PASSWORD_LENGTH: int := 8
  const MAX_PASSWORD_LENGTH: int := 128

  /** The special-character class `[!@#$%^&*()_+\-=[\]{};':"\\|,.<>/?~`]`. */
  const SPECIAL_CHARS: string := "!@#$%^&*()_+-=[]{};':\"\\|,.<>/?~`"

  predicate IsSpecial(c: char) { c in SPECIAL_CHARS }

  /** `pattern.test(s)` / `matcher(s).find()` for a one-character class. */
  predicate Contains(s: string, p: char -> bool) {
    exists i :: 0 <= i < |s| && p(s[i])
  }

  /** The four character classes a password must each hit. */
  predicate HasAllClasses(s: string) {
    Contains(s, IsAsciiUpper) && Contains(s, IsAsciiLower) && Contains(s, IsDigit) && Contains(s, IsSpecial)
  }

  /** Client check: a missing or empty password fails (`!password`), then
      the length bounds, then the four classes. */
  function IsPasswordComplex(password: Option<string>): (ok: bool)
    ensures password.None? || password.value == [] ==> !ok
    ensures password.Some? && (|password.value| < MIN_PASSWORD_LENGTH || |password.value| > MAX_PASSWORD_LENGTH) ==> !ok
  {
    if password.None? || password.value == [] then false
    else if |password.value| < MIN_PASSWORD_LENGTH || |password.value| > MAX_PASSWORD_LENGTH then false
    else HasAllClasses(password.value)
  }

  /** Server check: `null` fails, then the same bounds and classes. */
  function IsPasswordComplexEnough(password: Option<string>): (ok: bool)
    ensures password.None? ==> !ok
    ensures password.Some? && (|password.value| < MIN_PASSWORD_LENGTH || |password.value| > MAX_PASSWORD_LENGTH) ==> !ok
  {
    if password.None? then false
    else if |password.value| < MIN_PASSWORD_LENGTH || |password.value| > MAX_PASSWORD_LENGTH then false
    else HasAllClasses(password.value)
  }

  /** Client and server accept exactly the same passwords: a password of
      8 to 128 characters with an ASCII upper-case letter, a lower-case
      letter, a digit and a listed special character. */
  lemma ClientServerAgree(password: Option<string>)
    ensures IsPasswordComplex(password) == IsPasswordComplexEnough(password)
    ensures IsPasswordComplex(password) <==>
      password.Some? && MIN_PASSWORD_LENGTH <= |password.value| <= MAX_PASSWORD_LENGTH && HasAllClasses(password.value)
  {
  }

  /** Eight characters hitting all four classes are enough. */
  lemma ExampleAccepted()
    ensures IsPasswordComplex(Some("Passw0rd!"))
  {
    var s := "Passw0rd!";
    assert IsAsciiUpper(s[0]) && IsAsciiLower(s[1]) && IsDigit(s[5]) && IsSpecial(s[8]);
  }

  /** A long password without a digit is refused. */
  lemma ExampleRefused()
    ensures !IsPasswordComplexEnough(Some("Abcdefg!"))
  {
    var s := "Abcdefg!";
    assert !Contains(s, IsDigit) by {
      forall i | 0 <= i < |s|
        ensures !IsDigit(s[i])
      {
      }
    }
  }
}

=== FILE: roles.dfy ===
/** The role entity: a stored id and a unique name, with the two role
    names the application knows. Equality compares ids when both roles
    have a real one and names otherwise; the hash code uses only the name.

    A Java object is modelled by a reference number and its fields; two
    values with the same reference are the same object and hold the same
    fields. `equals` takes any object: null, a role, or an object of
    another class. */
module Roles {
  import opened Common

  const USER: string := "ROLE_USER"
  const ADMIN: string := "ROLE_ADMIN"

  /** The two role names differ. */
  lemma RoleNamesDistinct()
    ensures USER != ADMIN
  {
    assert USER[5] != ADMIN[5];
  }

  datatype Role = Role(ref: nat, id: Option<int>, name: Option<string>)

  datatype Obj = Null | RoleObj(role: Role) | OtherObj(ref: nat)

  /** The id counts only when it is set and not zero (an unsaved role may
      carry 0). */
  predicate HasRealId(r: Role) {
    r.id.Some? && r.id.value != 0
  }

  /** `Role.equals` as written: the same object is equal; null and other
      classes are not; two roles with real ids compare ids, any other pair
      compares names, a missing name equal only to a missing name. */
  function Equals(a: Role, o: Obj): (eq: bool)
    ensures o.Null? || o.OtherObj? ==> !eq
    ensures o.RoleObj? && o.role.ref == a.ref ==> eq
    ensures o.RoleObj? && o.role.ref != a.ref && HasRealId(a) && HasRealId(o.role) ==>
      (eq <==> a.id == o.role.id)
    ensures o.RoleObj? && o.role.ref != a.ref && !(HasRealId(a) && HasRealId(o.role)) ==>
      (eq <==> a.name == o.role.name)
  {
    match o
    case Null => false
    case OtherObj(_) => false
    case RoleObj(b) =>
      if b.ref == a.ref then true
      else if HasRealId(a) && HasRealId(b) then a.id.value == b.id.value
      else a.name == b.name
  }

  // ---------------------------------------------------------------------
  // Hash codes, with Java's 32-bit wrap-around

  const TWO_32: int := 0x1_0000_0000
  const TWO_31: int := 0x8000_0000

  /** Java `int` arithmetic: the value wrapped into `[-2^31, 2^31)`. */
  function Wrap32(x: int): (w: int)
    ensures -TWO_31 <= w < TWO_31
    ensures (w - x) % TWO_32 == 0
  {
    (x + TWO_31) % TWO_32 - TWO_31
  }

  /** The polynomial `String.hashCode` is defined by, in unbounded
      integers: each character's code weighted by a power of 31, the last
      character with weight 1. */
  function UnboundedHash(s: string): int {
    if |s| == 0 then 0 else 31 * UnboundedHash(s[..|s| - 1]) + s[|s| - 1] as int
  }

  /** Multiples of 2^32 add up to a multiple of 2^32. */
  lemma MultiplesAdd(a: int, b: int)
    requires a % TWO_32 == 0 && b % TWO_32 == 0
    ensures (a + b) % TWO_32 == 0
  {
    var qa := a / TWO_32;
    var qb := b / TWO_32;
    assert a + b == TWO_32 * (qa + qb);
  }

  /** A multiple of 2^32 stays one when scaled by 31. */
  lemma MultipleScaled(a: int)
    requires a % TWO_32 == 0
    ensures (31 * a) % TWO_32 == 0
  {
    var q := a / TWO_32;
    assert 31 * a == TWO_32 * (31 * q);
  }

  /** One step of the hash loop keeps the wrapped value congruent to the
      unbounded one. */
  lemma HashStep(prev: int, exact: int, c: int)
    requires (prev - exact) % TWO_32 == 0
    ensures (Wrap32(31 * prev + c) - (31 * exact + c)) % TWO_32 == 0
  {
    MultipleScaled(prev - exact);
    assert 31 * (prev - exact) == (31 * prev + c) - (31 * exact + c);
    MultiplesAdd(Wrap32(31 * prev + c) - (31 * prev + c), (31 * prev + c) - (31 * exact + c));
  }

  /** `String.hashCode`: `h = 31 * h + c` over the characters, in `int`
      arithmetic; the result is the polynomial value wrapped into an
      `int`. */
  function StringHash(s: string): (h: int)
    ensures -TWO_31 <= h < TWO_31
    ensures (h - UnboundedHash(s)) % TWO_32 == 0
  {
    if |s| == 0 then 0
    else
      var prev := StringHash(s[..|s| - 1]);
      HashStep(prev, UnboundedHash(s[..|s| - 1]), s[|s| - 1] as int);
      Wrap32(31 * prev + s[|s| - 1] as int)
  }

  /** `Objects.hash(name)`: `31 * 1 + hash(name)`, with 0 for null: a
      role without a name hashes to 31, and one with a name to 31 plus its
      name's polynomial, wrapped into an `int`. */
  function HashCode(r: Role): (h: int)
    ensures -TWO_31 <= h < TWO_31
    ensures r.name.None? ==> h == 31
    ensures r.name.Some? ==> (h - (31 + UnboundedHash(r.name.value))) % TWO_32 == 0
  {
    var inner := if r.name.Some? then StringHash(r.name.value) else 0;
    var exact := if r.name.Some? then UnboundedHash(r.name.value) else 0;
    MultiplesAdd(Wrap32(31 + inner) - (31 + inner), (31 + inner) - (31 + exact));
    Wrap32(31 + inner)
  }

  /** Roles with the same name hash alike. */
  lemma SameNameSameHash(a: Role, b: Role)
    requires a.name == b.name
    ensures HashCode(a) == HashCode(b)
  {
  }

  // ---------------------------------------------------------------------
  // The Java contract, against the code as written

  /** The heap is consistent: two values with one reference are one object
      with one set of fields. */
  predicate SameObjectSameFields(a: Role, b: Role) {
    a.ref == b.ref ==> a == b
  }

  /** What `equals` as written does keep: it is reflexive and symmetric,
      and returns the same answer the field comparison gives even for the
      same object. */
  lemma EqualsReflexiveSymmetric(a: Role, b: Role)
    requires SameObjectSameFields(a, b)
    ensures Equals(a, RoleObj(a))
    ensures Equals(a, RoleObj(b)) == Equals(b, RoleObj(a))
    ensures a.ref == b.ref ==>
      Equals(a, RoleObj(b)) == (if HasRealId(a) && HasRealId(b) then a.id == b.id else a.name == b.name)
  {
  }

  /** Two saved roles equal by id with different names: `equals` says
      equal, the hash codes differ. */
  lemma EqualsHashInconsistent()
    ensures var a := Role(1, Some(1), Some("A"));
      var b := Role(2, Some(1), Some("B"));
      Equals(a, RoleObj(b)) && HashCode(a) != HashCode(b)
  {
    var a := Role(1, Some(1), Some("A"));
    var b := Role(2, Some(1), Some("B"));
    assert StringHash("A") == 65 by {
      assert "A"[..0] == [];
    }
    assert StringHash("B") == 66 by {
      assert "B"[..0] == [];
    }
  }

  /** An unsaved role bridges two saved roles of one name with different
      ids: equal to each, while they are not equal to each other. */
  lemma EqualsNotTransitive()
    ensures var a := Role(1, Some(1), Some(USER));
      var b := Role(2, None, Some(USER));
      var c := Role(3, Some(2), Some(USER));
      Equals(a, RoleObj(b)) && Equals(b, RoleObj(c)) && !Equals(a, RoleObj(c))
  {
  }

  // ---------------------------------------------------------------------
  // Equality by name

  /** Equality by name alone, which is what the hash code already assumes:
      the same object, or a role with the same name. */
  function EqualsByName(a: Role, o: Obj): (eq: bool)
    ensures o.Null? || o.OtherObj? ==> !eq
    ensures o.RoleObj? && SameObjectSameFields(a, o.role) ==> (eq <==> a.name == o.role.name)
  {
    match o
    case Null => false
    case OtherObj(_) => false
    case RoleObj(b) => b.ref == a.ref || a.name == b.name
  }

  /** Equality by name is an equivalence on a consistent heap and agrees
      with the hash code. */
  lemma EqualsByNameIsEquivalence(a: Role, b: Role, c: Role)
    requires SameObjectSameFields(a, b) && SameObjectSameFields(b, c) && SameObjectSameFields(a, c)
    ensures EqualsByName(a, RoleObj(a))
    ensures EqualsByName(a, RoleObj(b)) == EqualsByName(b, RoleObj(a))
    ensures EqualsByName(a, RoleObj(b)) && EqualsByName(b, RoleObj(c)) ==> EqualsByName(a, RoleObj(c))
    ensures EqualsByName(a, RoleObj(b)) ==> HashCode(a) == HashCode(b)
  {
  }

  /** Where the table's constraints hold between two roles, a real id
      naming exactly one role name, the code as written and equality by
      name agree. */
  lemma AgreeOnStoredRoles(a: Role, b: Role)
    requires SameObjectSameFields(a, b)
    requires HasRealId(a) && HasRealId(b) ==> (a.id == b.id <==> a.name == b.name)
    ensures Equals(a, RoleObj(b)) == EqualsByName(a, RoleObj(b))
  {
  }
}

=== FILE: strings.dfy ===
/** Character and string primitives that the Java backend and the JavaScript
    frontend take from their platforms: the case mapping of the two cipher
    alphabets, the two different `trim`s, Spring's `hasText`, Java's
    `equalsIgnoreCase`, JavaScript's `parseInt(s, 10)` and `String(n)`.

    Unicode case mapping is given as an explicit table covering the letters
    the cipher works with: ASCII `a`–`z`, Cyrillic `а`–`я` and `ё`, and the two
    non-ASCII letters that Java's `Character.toUpperCase` sends into `A`–`Z`
    (dotless `ı` to `I`, long `ſ` to `S`). Every other character maps to
    itself. */
module Strings {
  import opened Common

  // ---------------------------------------------------------------------
  // Character classes

  predicate IsDigit(c: char) { '0' <= c <= '9' }
  predicate IsAsciiUpper(c: char) { 'A' <= c <= 'Z' }
  predicate IsAsciiLower(c: char) { 'a' <= c <= 'z' }
  /** U+0410 `А` .. U+042F `Я` */
  predicate IsCyrillicUpper(c: char) { 'А' <= c <= 'Я' }
  /** U+0430 `а` .. U+044F `я` */
  predicate IsCyrillicLower(c: char) { 'а' <= c <= 'я' }

  const DOTLESS_I: char := 'ı'   // U+0131, upper-cases to 'I'
  const LONG_S: char := 'ſ'      // U+017F, upper-cases to 'S'

  /** `Character.isLowerCase` on the table's letters. */
  predicate IsLower(c: char) {
    IsAsciiLower(c) || IsCyrillicLower(c) || c == 'ё' || c == DOTLESS_I || c == LONG_S
  }

  /** `Character.toUpperCase` (and the per-character effect of
      `String.toUpperCase`) on the table. */
  function ToUpper(c: char): (u: char)
    ensures !IsLower(c) ==> u == c
    ensures IsLower(c) ==> IsAsciiUpper(u) || IsCyrillicUpper(u) || u == 'Ё'
  {
    if IsAsciiLower(c) then (c as int - 32) as char
    else if IsCyrillicLower(c) then (c as int - 32) as char
    else if c == 'ё' then 'Ё'
    else if c == DOTLESS_I then 'I'
    else if c == LONG_S then 'S'
    else c
  }

  /** `Character.toLowerCase` on the table. */
  function ToLower(c: char): (l: char)
    ensures IsAsciiUpper(c) ==> IsAsciiLower(l)
    ensures IsCyrillicUpper(c) ==> IsCyrillicLower(l)
    ensures !IsAsciiUpper(c) && !IsCyrillicUpper(c) && c != 'Ё' ==> l == c
  {
    if IsAsciiUpper(c) then (c as int + 32) as char
    else if IsCyrillicUpper(c) then (c as int + 32) as char
    else if c == 'Ё' then 'ё'
    else c
  }

  /** The upper-case letters of the two alphabets. */
  predicate IsUpperLetter(c: char) { IsAsciiUpper(c) || IsCyrillicUpper(c) || c == 'Ё' }

  /** An upper-case letter is fixed by `ToUpper`, and lower-casing it gives a
      lower-case letter that `ToUpper` sends back. */
  lemma UpperLetterCases(c: char)
    requires IsUpperLetter(c)
    ensures !IsLower(c) && ToUpper(c) == c
    ensures IsLower(ToLower(c)) && ToUpper(ToLower(c)) == c
  {
  }

  /** The upper-case letter `u` given the case of `c`: lower-cased when `c`
      is a lower-case letter. */
  function WithCase(c: char, u: char): char {
    if IsLower(c) then ToLower(u) else u
  }

  /** Giving an upper-case letter a case is undone by `ToUpper`, and the
      result is lower-case exactly when `c` is. */
  lemma WithCaseOf(c: char, u: char)
    requires IsUpperLetter(u)
    ensures ToUpper(WithCase(c, u)) == u && IsLower(WithCase(c, u)) == IsLower(c)
  {
    UpperLetterCases(u);
  }

  function UpperString(s: string): (r: string)
    ensures |r| == |s|
    ensures forall i :: 0 <= i < |s| ==> r[i] == ToUpper(s[i])
  {
    seq(|s|, i requires 0 <= i < |s| => ToUpper(s[i]))
  }

  function LowerString(s: string): (r: string)
    ensures |r| == |s|
    ensures forall i :: 0 <= i < |s| ==> r[i] == ToLower(s[i])
  {
    seq(|s|, i requires 0 <= i < |s| => ToLower(s[i]))
  }

  // ---------------------------------------------------------------------
  // Whitespace and trimming

  /** Java `String.trim` strips every character up to U+0020. */
  predicate IsJavaTrimmable(c: char) { c <= ' ' }

  /** JavaScript `String.prototype.trim` / `parseInt` whitespace: WhiteSpace
      and LineTerminator of ECMA-262. */
  predicate IsJsWhitespace(c: char) {
    c == '\t' || c == '\n' || c == '\U{000B}' || c == '\U{000C}' || c == '\r' || c == ' '
    || c == '\U{00A0}' || c == '\U{1680}' || ('\U{2000}' <= c <= '\U{200A}')
    || c == '\U{2028}' || c == '\U{2029}' || c == '\U{202F}' || c == '\U{205F}'
    || c == '\U{3000}' || c == '\U{FEFF}'
  }

  /** Java `Character.isWhitespace`, the test behind Spring's `hasText`. */
  predicate IsJavaWhitespace(c: char) {
    c == '\t' || c == '\n' || c == '\U{000B}' || c == '\U{000C}' || c == '\r'
    || ('\U{001C}' <= c <= '\U{001F}') || c == ' '
    || c == '\U{1680}' || ('\U{2000}' <= c <= '\U{2006}') || ('\U{2008}' <= c <= '\U{200A}')
    || c == '\U{2028}' || c == '\U{2029}' || c == '\U{205F}' || c == '\U{3000}'
  }

  function TrimStart(s: string, ws: char -> bool): (r: string)
    ensures |r| <= |s| && r == s[|s| - |r|..]
    ensures |r| > 0 ==> !ws(r[0])
    ensures forall i :: 0 <= i < |s| - |r| ==> ws(s[i])
  {
    if |s| > 0 && ws(s[0]) then
      var r := TrimStart(s[1..], ws);
      assert forall i :: 1 <= i < |s| - |r| ==> s[i] == s[1..][i - 1];
      r
    else s
  }

  function TrimEnd(s: string, ws: char -> bool): (r: string)
    ensures |r| <= |s| && r == s[..|r|]
    ensures |r| > 0 ==> !ws(r[|r| - 1])
    ensures forall i :: |r| <= i < |s| ==> ws(s[i])
  {
    if |s| > 0 && ws(s[|s| - 1]) then
      var r := TrimEnd(s[..|s| - 1], ws);
      assert forall i :: |r| <= i < |s| - 1 ==> s[i] == s[..|s| - 1][i];
      r
    else s
  }

  lemma DigitNotWhitespace(c: char)
    requires IsDigit(c)
    ensures !IsJsWhitespace(c) && !IsJavaWhitespace(c) && !IsJavaTrimmable(c)
  {
  }

  lemma TrimStartStops(s: string, ws: char -> bool)
    requires |s| > 0 && !ws(s[0])
    ensures TrimStart(s, ws) == s
  {
  }

  lemma TrimEndStops(s: string, ws: char -> bool)
    requires |s| > 0 && !ws(s[|s| - 1])
    ensures TrimEnd(s, ws) == s
  {
  }

  /** Both ends stripped; what remains is the middle of `s`. */
  function Trim(s: string, ws: char -> bool): (r: string)
    ensures |r| <= |s|
    ensures |r| > 0 ==> !ws(r[0]) && !ws(r[|r| - 1])
    ensures var a := TrimStart(s, ws); |r| <= |a| && r == s[|s| - |a|..][..|r|]
  {
    TrimEnd(TrimStart(s, ws), ws)
  }

  /** Java `String.trim`: strips every character up to U+0020 from both
      ends (`JavaTrimFacts`). */
  function JavaTrim(s: string): string { Trim(s, IsJavaTrimmable) }

  /** What `String.trim` promises: no shorter-than-nothing, no blank or
      control character left at either end, nothing left exactly when
      nothing else was there, and a string with no such character at
      either end kept whole. */
  lemma JavaTrimFacts(s: string)
    ensures var t := JavaTrim(s);
      && |t| <= |s|
      && (|t| > 0 ==> !IsJavaTrimmable(t[0]) && !IsJavaTrimmable(t[|t| - 1]))
      && (t == [] <==> forall i :: 0 <= i < |s| ==> IsJavaTrimmable(s[i]))
      && (|s| > 0 && !IsJavaTrimmable(s[0]) && !IsJavaTrimmable(s[|s| - 1]) ==> t == s)
  {
    TrimEmptyIff(s, IsJavaTrimmable);
    TrimKeepsWhole(s, IsJavaTrimmable);
  }

  /** A string with no whitespace at either end is its own trim. */
  lemma TrimKeepsWhole(s: string, ws: char -> bool)
    ensures |s| > 0 && !ws(s[0]) && !ws(s[|s| - 1]) ==> Trim(s, ws) == s
  {
    if |s| > 0 && !ws(s[0]) && !ws(s[|s| - 1]) {
      TrimStartStops(s, ws);
      TrimEndStops(s, ws);
    }
  }

  function JsTrim(s: string): string { Trim(s, IsJsWhitespace) }

  /** The trimmed string is empty exactly when every character is whitespace. */
  lemma {:induction false} TrimEmptyIff(s: string, ws: char -> bool)
    ensures Trim(s, ws) == [] <==> forall i :: 0 <= i < |s| ==> ws(s[i])
  {
    var a := TrimStart(s, ws);
    var r := TrimEnd(a, ws);
    if |a| > 0 {
      // a non-whitespace character survives the left strip and is kept
      // by the right strip, which stops at the last such character
      assert !ws(a[0]);
      assert |r| > 0;
      assert a[0] == s[|s| - |a|];
    } else {
      assert forall i :: 0 <= i < |s| ==> ws(s[i]);
    }
  }

  /** Trimming a trimmed string changes nothing. */
  lemma TrimIdempotent(s: string, ws: char -> bool)
    ensures Trim(Trim(s, ws), ws) == Trim(s, ws)
  {
    var r := Trim(s, ws);
    if |r| > 0 {
      TrimStartStops(r, ws);
      TrimEndStops(r, ws);
    }
  }

  /** Every character of the trimmed string comes from the original. */
  lemma TrimSlice(s: string, ws: char -> bool)
    ensures forall i :: 0 <= i < |Trim(s, ws)| ==> Trim(s, ws)[i] in s
  {
    var a := TrimStart(s, ws);
    var r := Trim(s, ws);
    forall i | 0 <= i < |r|
      ensures r[i] in s
    {
      assert r[i] == s[|s| - |a| + i];
    }
  }

  /** Spring `StringUtils.hasText`: non-null with a non-whitespace character. */
  predicate HasText(s: Option<string>) {
    s.Some? && exists i :: 0 <= i < |s.value| && !IsJavaWhitespace(s.value[i])
  }

  // ---------------------------------------------------------------------
  // Comparison

  function StartsWith(s: string, prefix: string): bool {
    |prefix| <= |s| && s[..|prefix|] == prefix
  }

  /** Java `equalsIgnoreCase`, character by character. */
  predicate CharEqualsIgnoreCase(a: char, b: char) {
    a == b || ToUpper(a) == ToUpper(b) || ToLower(ToUpper(a)) == ToLower(ToUpper(b))
  }

  predicate EqualsIgnoreCase(a: string, b: string) {
    |a| == |b| && forall i :: 0 <= i < |a| ==> CharEqualsIgnoreCase(a[i], b[i])
  }

  // ---------------------------------------------------------------------
  // Decimal numbers

  predicate AllDigits(s: string) { forall i :: 0 <= i < |s| ==> IsDigit(s[i]) }

  function DigitValue(c: char): nat
    requires IsDigit(c)
  {
    c as int - '0' as int
  }

  function DigitChar(d: nat): (c: char)
    requires d < 10
    ensures IsDigit(c) && DigitValue(c) == d
  {
    ('0' as int + d) as char
  }

  /** The value of a decimal digit string, most significant digit first. */
  function DigitsValue(s: string): nat
    requires AllDigits(s)
  {
    if |s| == 0 then 0 else DigitsValue(s[..|s| - 1]) * 10 + DigitValue(s[|s| - 1])
  }

  /** JavaScript `String(n)` / `n.toString()` for a non-negative integer. */
  function NatToString(n: nat): (s: string)
    ensures |s| > 0 && AllDigits(s)
    ensures |s| > 1 ==> s[0] != '0'
  {
    if n < 10 then [DigitChar(n)] else NatToString(n / 10) + [DigitChar(n % 10)]
  }

  /** `String(n)` read back as a number gives `n`. */
  lemma {:induction false} NatToStringRoundTrip(n: nat)
    ensures DigitsValue(NatToString(n)) == n
  {
    if n >= 10 {
      var s := NatToString(n);
      assert s[..|s| - 1] == NatToString(n / 10);
      NatToStringRoundTrip(n / 10);
    }
  }

  /** `String` is injective on numbers. */
  lemma NatToStringInjective(m: nat, n: nat)
    ensures NatToString(m) == NatToString(n) <==> m == n
  {
    if NatToString(m) == NatToString(n) {
      NatToStringRoundTrip(m);
      NatToStringRoundTrip(n);
    }
  }

  /** Java `String.valueOf(int)`: a minus sign before the magnitude. */
  function IntToString(k: int): (s: string)
    ensures |s| > 0
  {
    if k < 0 then "-" + NatToString(-k) else NatToString(k)
  }

  /** The longest prefix of decimal digits. */
  function DigitPrefix(s: string): (d: string)
    ensures |d| <= |s| && AllDigits(d) && d == s[..|d|]
    ensures |d| < |s| ==> !IsDigit(s[|d|])
  {
    if |s| > 0 && IsDigit(s[0]) then [s[0]] + DigitPrefix(s[1..]) else []
  }

  /** JavaScript `parseInt(s, 10)`: leading whitespace, an optional sign,
      then the longest run of digits; `None` stands for `NaN`
      (`JsParseIntFacts`). */
  function JsParseInt(s: string): Option<int>
  {
    ParseSigned(TrimStart(s, IsJsWhitespace))
  }

  /** The empty string is `NaN`; a string starting with a digit is a
      non-negative number; one starting with anything but whitespace, a
      sign or a digit is `NaN`. */
  lemma JsParseIntFacts(s: string)
    ensures s == [] ==> JsParseInt(s).None?
    ensures |s| > 0 && IsDigit(s[0]) ==> JsParseInt(s).Some? && JsParseInt(s).value >= 0
    ensures |s| > 0 && !IsDigit(s[0]) && !IsJsWhitespace(s[0]) && s[0] != '-' && s[0] != '+' ==> JsParseInt(s).None?
  {
    if |s| > 0 && IsDigit(s[0]) {
      DigitNotWhitespace(s[0]);
    }
    if |s| > 0 && !IsJsWhitespace(s[0]) {
      TrimStartStops(s, IsJsWhitespace);
    }
  }

  /** The part of `parseInt` after the leading whitespace. */
  function ParseSigned(t: string): Option<int>
  {
    var negative := |t| > 0 && t[0] == '-';
    var body := if |t| > 0 && (t[0] == '-' || t[0] == '+') then t[1..] else t;
    var d := DigitPrefix(body);
    if |d| == 0 then None
    else if negative then Some(-(DigitsValue(d) as int))
    else Some(DigitsValue(d) as int)
  }

  lemma DigitPrefixOfDigits(s: string)
    requires AllDigits(s)
    ensures DigitPrefix(s) == s
  {
    if |s| > 0 {
      DigitPrefixOfDigits(s[1..]);
    }
  }

  lemma ParseSignedOfDigits(s: string)
    requires AllDigits(s)
    ensures |s| == 0 ==> ParseSigned(s) == None
    ensures |s| > 0 ==> ParseSigned(s) == Some(DigitsValue(s) as int)
  {
    if |s| > 0 {
      assert IsDigit(s[0]);
      assert s[0] != '-' && s[0] != '+';
    }
    DigitPrefixOfDigits(s);
  }

  /** On a non-empty digit string (the output of the digit sanitiser),
      `parseInt` is the plain decimal value; on the empty string it is NaN. */
  lemma ParseIntOfDigits(s: string)
    requires AllDigits(s)
    ensures |s| == 0 ==> JsParseInt(s) == None
    ensures |s| > 0 ==> JsParseInt(s) == Some(DigitsValue(s) as int)
  {
    var t := TrimStart(s, IsJsWhitespace);
    if |s| > 0 {
      DigitNotWhitespace(s[0]);
      TrimStartStops(s, IsJsWhitespace);
    }
    assert t == s;
    ParseSignedOfDigits(s);
  }

  /** `parseInt(String(n), 10) == n`. */
  lemma ParseIntOfNatToString(n: nat)
    ensures JsParseInt(NatToString(n)) == Some(n)
  {
    ParseIntOfDigits(NatToString(n));
    NatToStringRoundTrip(n);
  }

  /** A number written by `String.valueOf` reads back as itself: the sign
      and digit parser inverts `IntToString`. */
  lemma ParseSignedIntToString(k: int)
    ensures ParseSigned(IntToString(k)) == Some(k)
  {
    if k < 0 {
      var d := NatToString(-k);
      var t := "-" + d;
      assert IntToString(k) == t && t[0] == '-' && t[1..] == d;
      DigitPrefixOfDigits(d);
      NatToStringRoundTrip(-k);
      assert ParseSigned(t) == Some(-(DigitsValue(d) as int));
    } else {
      ParseSignedOfDigits(NatToString(k));
      NatToStringRoundTrip(k);
    }
  }
}

=== FILE: task_params.dfy ===
/** The task page's inputs before anything is sent: the largest key of a
    language, the four custom-range fields with their edit and language
    rules, the custom bounds a generation request carries, and the key and
    text answer fields.

    The page's language is its select box, which offers `EN` and `RU` only,
    so it is a `Language` here. */
module TaskParams {
  import opened Common
  import opened Strings
  import opened Cipher
  import opened InputUtils
  import Paging
  import TaskService

  const DEFAULT_CUSTOM_MIN_TEXT_LENGTH: int := 1
  const DEFAULT_CUSTOM_MAX_TEXT_LENGTH: int := 100
  const DEFAULT_CUSTOM_MIN_KEY: int := 1
  const MAX_TEXT_INPUT_LENGTH: int := 150

  // ---------------------------------------------------------------------
  // The largest key

  /** `getMaxPossibleKey`: 33 letters for `RU`, 26 otherwise, less one. It
      is the server's largest shift for the language. */
  function MaxPossibleKeyOf(lang: Language): (m: int)
    ensures m == MaxShift(lang) && m == |Alphabet(lang)| - 1
    ensures m == TaskService.MaxPossibleKey(|Alphabet(lang)|)
    ensures lang == RU ==> m == 32
    ensures lang == EN ==> m == 25
  {
    var alphabetLength := if lang == RU then 33 else 26;
    if alphabetLength > 1 then alphabetLength - 1 else 1
  }

  // ---------------------------------------------------------------------
  // The custom-range fields

  /** Which of the four fields an edit is for. */
  datatype Bound = MinTextLength | MaxTextLength | MinKey | MaxKey {
    predicate IsMin() { this == MinTextLength || this == MinKey }
    predicate IsTextLength() { this == MinTextLength || this == MaxTextLength }

    /** The other end of the same range. */
    function Partner(): Bound {
      match this
      case MinTextLength => MaxTextLength
      case MaxTextLength => MinTextLength
      case MinKey => MaxKey
      case MaxKey => MinKey
    }
  }

  /** The fields as typed; an empty field is allowed while editing. */
  datatype CustomParams = CustomParams(minTextLength: string, maxTextLength: string,
                                       minKey: string, maxKey: string)
  {
    function Field(b: Bound): string {
      match b
      case MinTextLength => minTextLength
      case MaxTextLength => maxTextLength
      case MinKey => minKey
      case MaxKey => maxKey
    }

    function WithField(b: Bound, v: string): (p: CustomParams)
      ensures p.Field(b) == v
      ensures forall c: Bound :: c != b ==> p.Field(c) == Field(c)
    {
      match b
      case MinTextLength => this.(minTextLength := v)
      case MaxTextLength => this.(maxTextLength := v)
      case MinKey => this.(minKey := v)
      case MaxKey => this.(maxKey := v)
    }
  }

  /** The largest value a field may hold: 100 for text lengths, the largest
      key of the language for keys. */
  function Limit(b: Bound, maxKey: int): (hi: int)
    requires maxKey >= 1
    ensures hi >= 1
  {
    if b.IsTextLength() then DEFAULT_CUSTOM_MAX_TEXT_LENGTH else maxKey
  }

  /** The value an unreadable entry stands for: 1 for a lower bound, the
      limit for an upper bound. */
  function DefaultFor(b: Bound, maxKey: int): int
    requires maxKey >= 1
  {
    if b.IsMin() then (if b.IsTextLength() then DEFAULT_CUSTOM_MIN_TEXT_LENGTH else DEFAULT_CUSTOM_MIN_KEY)
    else Limit(b, maxKey)
  }

  /** A field is empty or reads as a number in `[lo, hi]`. */
  predicate InRange(f: string, lo: int, hi: int) {
    f == [] || (JsParseInt(f).Some? && lo <= JsParseInt(f).value <= hi)
  }

  /** Two fields are ordered unless one of them is empty. */
  predicate Ordered(a: string, b: string) {
    a == [] || b == []
    || (JsParseInt(a).Some? && JsParseInt(b).Some? && JsParseInt(a).value <= JsParseInt(b).value)
  }

  /** What the fields always satisfy: every bound within its limits, and
      each minimum at most its maximum; `maxKey` is the largest key of the
      page's language. */
  predicate Valid(p: CustomParams, maxKey: int) {
    PairValid(p.minTextLength, p.maxTextLength, DEFAULT_CUSTOM_MAX_TEXT_LENGTH)
    && PairValid(p.minKey, p.maxKey, maxKey)
  }

  /** The fields a page opens with: `1`, `100`, `1` and the largest key. */
  function InitialCustomParams(lang: Language): (p: CustomParams)
    ensures Valid(p, MaxPossibleKeyOf(lang))
  {
    Paging.JsParseIntOfIntToString(DEFAULT_CUSTOM_MIN_TEXT_LENGTH);
    Paging.JsParseIntOfIntToString(DEFAULT_CUSTOM_MAX_TEXT_LENGTH);
    Paging.JsParseIntOfIntToString(MaxPossibleKeyOf(lang));
    CustomParams(IntToString(DEFAULT_CUSTOM_MIN_TEXT_LENGTH), IntToString(DEFAULT_CUSTOM_MAX_TEXT_LENGTH),
                 IntToString(DEFAULT_CUSTOM_MIN_KEY), IntToString(MaxPossibleKeyOf(lang)))
  }

  /** The clamped value an edit stores: the entry read as a number (its
      default when unreadable) clamped into `[1, limit]`. */
  function EditedValue(b: Bound, raw: string, maxKey: int): (n: int)
    requires maxKey >= 1
    ensures 1 <= n <= Limit(b, maxKey)
    ensures JsParseInt(raw).Some? && 1 <= JsParseInt(raw).value <= Limit(b, maxKey) ==> n == JsParseInt(raw).value
    ensures JsParseInt(raw).None? ==> n == DefaultFor(b, maxKey)
  {
    Clamp(JsParseInt(raw).GetOr(DefaultFor(b, maxKey)), 1, Limit(b, maxKey))
  }

  /** Two fields of one range, both in `[1, limit]` when filled in, and
      ordered. */
  predicate PairValid(lo: string, hi: string, limit: int) {
    InRange(lo, 1, limit) && InRange(hi, 1, limit) && Ordered(lo, hi)
  }

  /** Storing `n` at one end of a range: a new minimum above a readable
      maximum moves the maximum to it, and a new maximum below a readable
      minimum moves the minimum to it. */
  function EditPair(lo: string, hi: string, editMin: bool, n: int): (r: (string, string))
    ensures editMin ==> JsParseInt(r.0) == Some(n) && (r.1 == hi || r.1 == r.0)
    ensures !editMin ==> JsParseInt(r.1) == Some(n) && (r.0 == lo || r.0 == r.1)
  {
    Paging.JsParseIntOfIntToString(n);
    var shown := IntToString(n);
    if editMin then
      (shown, if hi != [] && JsParseInt(hi).Some? && n > JsParseInt(hi).value then shown else hi)
    else
      (if lo != [] && JsParseInt(lo).Some? && n < JsParseInt(lo).value then shown else lo, shown)
  }

  lemma EditPairKeepsValid(lo: string, hi: string, editMin: bool, n: int, limit: int)
    requires PairValid(lo, hi, limit) && 1 <= n <= limit
    ensures var (lo', hi') := EditPair(lo, hi, editMin, n); PairValid(lo', hi', limit)
  {
    Paging.JsParseIntOfIntToString(n);
  }

  /** `handleCustomParamChange`: an emptied field stays empty; otherwise the
      clamped value is stored, and the other end of the range is moved to
      the same value when it would cross. `maxKey` is the largest key of
      the page's language. */
  function CustomParamChange(p: CustomParams, b: Bound, raw: string, maxKey: int): (r: CustomParams)
    requires maxKey >= 1
    ensures b.IsTextLength() ==> r.minKey == p.minKey && r.maxKey == p.maxKey
    ensures !b.IsTextLength() ==> r.minTextLength == p.minTextLength && r.maxTextLength == p.maxTextLength
    ensures raw == [] ==> r.Field(b) == [] && r.Field(b.Partner()) == p.Field(b.Partner())
    ensures raw != [] ==> JsParseInt(r.Field(b)) == Some(EditedValue(b, raw, maxKey))
    ensures r.Field(b.Partner()) == p.Field(b.Partner()) || r.Field(b.Partner()) == r.Field(b)
  {
    if raw == [] then p.WithField(b, [])
    else
      var n := EditedValue(b, raw, maxKey);
      match b
      case MinTextLength =>
        var (lo, hi) := EditPair(p.minTextLength, p.maxTextLength, true, n);
        p.(minTextLength := lo, maxTextLength := hi)
      case MaxTextLength =>
        var (lo, hi) := EditPair(p.minTextLength, p.maxTextLength, false, n);
        p.(minTextLength := lo, maxTextLength := hi)
      case MinKey =>
        var (lo, hi) := EditPair(p.minKey, p.maxKey, true, n);
        p.(minKey := lo, maxKey := hi)
      case MaxKey =>
        var (lo, hi) := EditPair(p.minKey, p.maxKey, false, n);
        p.(minKey := lo, maxKey := hi)
  }

  /** Every edit keeps the fields valid. */
  lemma CustomParamChangeKeepsValid(p: CustomParams, b: Bound, raw: string, maxKey: int)
    requires maxKey >= 1 && Valid(p, maxKey)
    ensures Valid(CustomParamChange(p, b, raw, maxKey), maxKey)
  {
    if raw != [] {
      var n := EditedValue(b, raw, maxKey);
      if b.IsTextLength() {
        EditPairKeepsValid(p.minTextLength, p.maxTextLength, b.IsMin(), n, DEFAULT_CUSTOM_MAX_TEXT_LENGTH);
      } else {
        EditPairKeepsValid(p.minKey, p.maxKey, b.IsMin(), n, maxKey);
      }
    }
  }

  /** The language re-clamp effect: both key fields are read (an unreadable
      minimum as 1, an unreadable maximum as the new largest key), clamped
      into `[1, largest key]`, and the minimum lowered to the maximum when
      it exceeds it. */
  function Reclamp(p: CustomParams, m: int): (r: CustomParams)
    requires m >= 1
    ensures r.minTextLength == p.minTextLength && r.maxTextLength == p.maxTextLength
    ensures JsParseInt(r.minKey).Some? && JsParseInt(r.maxKey).Some?
    ensures 1 <= JsParseInt(r.minKey).value <= JsParseInt(r.maxKey).value <= m
  {
    var currentMin := JsParseInt(p.minKey).GetOr(DEFAULT_CUSTOM_MIN_KEY);
    var currentMax := JsParseInt(p.maxKey).GetOr(m);
    var newMax := Clamp(currentMax, DEFAULT_CUSTOM_MIN_KEY, m);
    var clampedMin := Clamp(currentMin, DEFAULT_CUSTOM_MIN_KEY, m);
    var newMin := if clampedMin > newMax then newMax else clampedMin;
    Paging.JsParseIntOfIntToString(newMin);
    Paging.JsParseIntOfIntToString(newMax);
    p.(minKey := IntToString(newMin), maxKey := IntToString(newMax))
  }

  /** A language switch leaves the fields valid for the new language, and
      key bounds that already fit it keep their values. */
  lemma ReclampKeepsValid(p: CustomParams, from: int, to: int)
    requires from >= 1 && to >= 1 && Valid(p, from)
    ensures Valid(Reclamp(p, to), to)
    ensures p.minKey != [] && p.maxKey != [] && JsParseInt(p.maxKey).value <= to ==>
      JsParseInt(Reclamp(p, to).minKey) == JsParseInt(p.minKey)
      && JsParseInt(Reclamp(p, to).maxKey) == JsParseInt(p.maxKey)
  {
    var r := Reclamp(p, to);
    assert PairValid(r.minKey, r.maxKey, to);
    if p.minKey != [] && p.maxKey != [] && JsParseInt(p.maxKey).value <= to {
      var a := JsParseInt(p.minKey).value;
      var b := JsParseInt(p.maxKey).value;
      assert 1 <= a <= b <= to;
      Paging.JsParseIntOfIntToString(a);
      Paging.JsParseIntOfIntToString(b);
    }
  }

  // ---------------------------------------------------------------------
  // The custom bounds of a generation request

  /** The text-length bounds sent: an unreadable or too small minimum is 1,
      a larger one is capped at 100; an unreadable maximum or one below the
      minimum becomes 100, a larger one is capped at 100. */
  function ClientLengthRange(minField: string, maxField: string): (r: (int, int))
    ensures 1 <= r.0 <= r.1 <= DEFAULT_CUSTOM_MAX_TEXT_LENGTH
    ensures InRange(minField, 1, DEFAULT_CUSTOM_MAX_TEXT_LENGTH) && minField != [] ==> r.0 == JsParseInt(minField).value
    ensures InRange(maxField, 1, DEFAULT_CUSTOM_MAX_TEXT_LENGTH) && maxField != [] && r.0 <= JsParseInt(maxField).value ==>
      r.1 == JsParseInt(maxField).value
    ensures (JsParseInt(maxField).None? || JsParseInt(maxField).value < r.0) ==> r.1 == DEFAULT_CUSTOM_MAX_TEXT_LENGTH
  {
    var parsedMin := JsParseInt(minField);
    var parsedMax := JsParseInt(maxField);
    var minLen :=
      if parsedMin.None? || parsedMin.value < DEFAULT_CUSTOM_MIN_TEXT_LENGTH then DEFAULT_CUSTOM_MIN_TEXT_LENGTH
      else Min(parsedMin.value, DEFAULT_CUSTOM_MAX_TEXT_LENGTH);
    var maxLen :=
      if parsedMax.None? || parsedMax.value < minLen then Max(minLen, DEFAULT_CUSTOM_MAX_TEXT_LENGTH)
      else Min(parsedMax.value, DEFAULT_CUSTOM_MAX_TEXT_LENGTH);
    (minLen, if minLen > maxLen then minLen else maxLen)
  }

  /** The key bounds sent, by the same rules against the largest key `m`. */
  function ClientKeyRange(minField: string, maxField: string, m: int): (r: (int, int))
    requires m >= 1
    ensures 1 <= r.0 <= r.1 <= m
    ensures InRange(minField, 1, m) && minField != [] ==> r.0 == JsParseInt(minField).value
    ensures InRange(maxField, 1, m) && maxField != [] && r.0 <= JsParseInt(maxField).value ==>
      r.1 == JsParseInt(maxField).value
    ensures (JsParseInt(maxField).None? || JsParseInt(maxField).value < r.0) ==> r.1 == m
  {
    var parsedMin := JsParseInt(minField);
    var parsedMax := JsParseInt(maxField);
    var minKey :=
      if parsedMin.None? || parsedMin.value < DEFAULT_CUSTOM_MIN_KEY then DEFAULT_CUSTOM_MIN_KEY
      else Min(parsedMin.value, m);
    var maxKey :=
      if parsedMax.None? || parsedMax.value < minKey then Max(minKey, m)
      else Min(parsedMax.value, m);
    (minKey, if minKey > maxKey then minKey else maxKey)
  }

  /** The request body of a generation: language and difficulty, plus the
      four custom bounds for the custom difficulty. Every route type is a
      keyed task, so the key bounds always go with the length bounds. */
  function GenerationParams(lang: Language, difficulty: TaskService.TaskDifficulty, p: CustomParams)
    : (req: TaskService.GenerationRequest)
    ensures req.language == lang && req.difficulty == difficulty
    ensures difficulty != TaskService.CUSTOM ==>
      req.customMinTextLength.None? && req.customMaxTextLength.None?
      && req.customMinKey.None? && req.customMaxKey.None?
    ensures difficulty == TaskService.CUSTOM ==>
      && req.customMinTextLength.Some? && req.customMaxTextLength.Some?
      && req.customMinKey.Some? && req.customMaxKey.Some?
      && 1 <= req.customMinTextLength.value <= req.customMaxTextLength.value <= DEFAULT_CUSTOM_MAX_TEXT_LENGTH
      && 1 <= req.customMinKey.value <= req.customMaxKey.value <= MaxPossibleKeyOf(lang)
  {
    if difficulty != TaskService.CUSTOM then
      TaskService.GenerationRequest(lang, difficulty, None, None, None, None)
    else
      var (minLen, maxLen) := ClientLengthRange(p.minTextLength, p.maxTextLength);
      var (minKey, maxKey) := ClientKeyRange(p.minKey, p.maxKey, MaxPossibleKeyOf(lang));
      TaskService.GenerationRequest(lang, difficulty, Some(minLen), Some(maxLen), Some(minKey), Some(maxKey))
  }

  /** The client sends what the fields show: valid, filled-in fields go out
      as their own values. */
  lemma RequestFollowsFields(lang: Language, p: CustomParams)
    requires Valid(p, MaxPossibleKeyOf(lang))
    requires p.minTextLength != [] && p.maxTextLength != [] && p.minKey != [] && p.maxKey != []
    ensures var req := GenerationParams(lang, TaskService.CUSTOM, p);
      && req.customMinTextLength == JsParseInt(p.minTextLength)
      && req.customMaxTextLength == JsParseInt(p.maxTextLength)
      && req.customMinKey == JsParseInt(p.minKey)
      && req.customMaxKey == JsParseInt(p.maxKey)
  {
  }

  /** The server's own clamping leaves the client's custom bounds as they
      are: the task is generated within exactly the ranges sent. */
  lemma ServerKeepsClientRanges(lang: Language, p: CustomParams)
    ensures var req := GenerationParams(lang, TaskService.CUSTOM, p);
      && TaskService.CustomLengthRange(req.customMinTextLength, req.customMaxTextLength)
         == (req.customMinTextLength.value, req.customMaxTextLength.value)
      && TaskService.CustomKeyRange(req.customMinKey, req.customMaxKey, MaxShift(lang))
         == (req.customMinKey.value, req.customMaxKey.value)
  {
  }

  // ---------------------------------------------------------------------
  // The answer fields

  /** `handleKeySolutionChange`: the digits of the entry; none leaves the
      field empty; a zero other than a lone `0` becomes 1 and a value above
      the largest key becomes that key. */
  function KeySolutionChange(raw: string, maxKey: int): (shown: string)
    requires maxKey >= 1
    ensures shown == [] <==> DigitsOf(raw) == []
    ensures shown != [] ==> AllDigits(shown)
    ensures shown != [] ==>
      (JsParseInt(shown) == Some(if DigitsOf(raw) == "0" then 0 else Clamp(DigitsValue(DigitsOf(raw)), 1, maxKey)))
  {
    var sanitized := DigitsOf(raw);
    if sanitized == [] then [] else KeyOfDigits(sanitized, maxKey)
  }

  /** The key field's rule on the non-empty digits of an entry: `parseInt`
      reads them (it cannot fail on digits), a zero other than a lone `0`
      becomes 1 and a value above `maxKey` becomes `maxKey`. */
  function KeyOfDigits(sanitized: string, maxKey: int): (shown: string)
    requires AllDigits(sanitized) && sanitized != [] && maxKey >= 1
    ensures shown != [] && AllDigits(shown)
    ensures JsParseInt(shown) == Some(if sanitized == "0" then 0 else Clamp(DigitsValue(sanitized), 1, maxKey))
  {
    var parsed := JsParseInt(sanitized);
    ParseIntOfDigits(sanitized);
    if parsed.None? then sanitized
    else
      var n := parsed.value;
      var k := if n < 1 && sanitized != "0" then 1 else if n > maxKey then maxKey else n;
      ClampedKeyOfDigits(sanitized, maxKey);
      ParseIntOfNatToString(k);
      NatToString(k)
  }

  /** The key field's rule in closed form: a lone `0` stays 0, anything
      else is clamped into `[1, maxKey]`. */
  lemma ClampedKeyOfDigits(d: string, maxKey: int)
    requires AllDigits(d) && d != [] && maxKey >= 1
    ensures var n := DigitsValue(d) as int;
      (if n < 1 && d != "0" then 1 else if n > maxKey then maxKey else n)
        == (if d == "0" then 0 else Clamp(n, 1, maxKey))
  {
    if d == "0" {
      assert DigitsValue(d) == DigitsValue([]) * 10 + DigitValue('0');
    }
  }

  /** `handleSolutionTextChange`: entries beyond 150 characters are cut. */
  function SolutionTextChange(input: string): (shown: string)
    ensures |shown| <= MAX_TEXT_INPUT_LENGTH && |shown| <= |input|
    ensures shown == input[..|shown|]
    ensures |input| <= MAX_TEXT_INPUT_LENGTH ==> shown == input
  {
    if |input| <= MAX_TEXT_INPUT_LENGTH then input else input[..MAX_TEXT_INPUT_LENGTH]
  }

  /** Typing a cut entry again changes nothing. */
  lemma SolutionTextChangeIdempotent(input: string)
    ensures SolutionTextChange(SolutionTextChange(input)) == SolutionTextChange(input)
  {
  }
}

=== FILE: task_service.dfy ===
/** Caesar practice tasks on the server: choosing the text length and key
    for a difficulty, generating the source text from a word list, storing
    the expected answer under the task id, and checking a submitted
    solution against it.

    Randomness is a parameter: every `ThreadLocalRandom` draw is an
    arbitrary natural number reduced into the drawn range by `RandomIn`,
    which reaches every value of the range (`RandomInReaches`). */
module TaskService {
  import opened Common
  import opened Strings
  import opened Cipher

  datatype TaskDifficulty = EASY | MEDIUM | HARD | CUSTOM

  datatype CaesarTaskType = FIND_KEY | ENCRYPT_TEXT | DECRYPT_TEXT

  const MAX_GENERATED_TEXT_LENGTH: int := 100
  const MIN_GENERATED_TEXT_LENGTH: int := 1
  const MIN_RANDOM_SUFFIX_LENGTH: int := 3

  // ---------------------------------------------------------------------
  // Random draws

  /** `nextInt(lo, hi + 1)` driven by the draw `d`. */
  function RandomIn(d: nat, lo: int, hi: int): (v: int)
    requires lo <= hi
    ensures lo <= v <= hi
  {
    lo + d % (hi - lo + 1)
  }

  /** No value of the range is out of reach of some draw. */
  lemma RandomInReaches(v: int, lo: int, hi: int)
    requires lo <= v <= hi
    ensures RandomIn(v - lo, lo, hi) == v
  {
  }

  // ---------------------------------------------------------------------
  // Text length and key for a difficulty

  /** The largest usable key for an alphabet of the given length. */
  function MaxPossibleKey(alphabetLength: int): (m: int)
    ensures m >= 1
    ensures alphabetLength > 1 ==> m == alphabetLength - 1
  {
    if alphabetLength > 1 then alphabetLength - 1 else 1
  }

  /** The length bounds of a standard difficulty: the range 1..100 cut into
      three parts of 33, the default case behaving as MEDIUM. */
  function StandardLengthRange(difficulty: TaskDifficulty): (r: (int, int))
    ensures difficulty == EASY ==> r == (1, 33)
    ensures difficulty == HARD ==> r == (67, 100)
    ensures difficulty == MEDIUM || difficulty == CUSTOM ==> r == (34, 66)
  {
    var totalRange := MAX_GENERATED_TEXT_LENGTH - MIN_GENERATED_TEXT_LENGTH + 1;
    var partSize := Max(1, totalRange / 3);
    var (minLen, maxLen) :=
      match difficulty
      case EASY =>
        (MIN_GENERATED_TEXT_LENGTH, Min(MAX_GENERATED_TEXT_LENGTH, MIN_GENERATED_TEXT_LENGTH + partSize - 1))
      case HARD =>
        (Min(MAX_GENERATED_TEXT_LENGTH, MIN_GENERATED_TEXT_LENGTH + 2 * partSize), MAX_GENERATED_TEXT_LENGTH)
      case _ =>
        (Min(MAX_GENERATED_TEXT_LENGTH, MIN_GENERATED_TEXT_LENGTH + partSize),
         Min(MAX_GENERATED_TEXT_LENGTH, MIN_GENERATED_TEXT_LENGTH + 2 * partSize - 1));
    (if minLen > maxLen then maxLen else minLen, maxLen)
  }

  function TextLengthForStandardDifficulty(difficulty: TaskDifficulty, d: nat): (n: int)
    ensures var (lo, hi) := StandardLengthRange(difficulty); lo <= n <= hi
    ensures MIN_GENERATED_TEXT_LENGTH <= n <= MAX_GENERATED_TEXT_LENGTH
  {
    var (minLen, maxLen) := StandardLengthRange(difficulty);
    if minLen == maxLen then minLen else RandomIn(d, minLen, maxLen)
  }

  /** The key bounds of a standard difficulty for largest key `m`: thirds of
      `1..m` of size `m / 3` (at least 1), the last third taking the rest. */
  function StandardKeyRange(difficulty: TaskDifficulty, m: int): (r: (int, int))
    requires m > 0
    ensures 1 <= r.0 <= r.1 <= m
    ensures m >= 3 ==> var p := m / 3;
      && (difficulty == EASY ==> r == (1, p))
      && (difficulty == HARD ==> r == (2 * p + 1, m))
      && (difficulty == MEDIUM || difficulty == CUSTOM ==> r == (p + 1, 2 * p))
  {
    var keyPartSize := Max(1, m / 3);
    var (minK, maxK) :=
      match difficulty
      case EASY => (1, Min(m, keyPartSize))
      case HARD => (Min(m, 2 * keyPartSize + 1), m)
      case _ => (Min(m, keyPartSize + 1), Min(m, 2 * keyPartSize));
    var minK1 := Max(1, minK);
    var maxK1 := Max(minK1, maxK);
    var minK2 := if minK1 > m then m else minK1;
    var maxK2 := if maxK1 > m then m else maxK1;
    (if minK2 > maxK2 then maxK2 else minK2, maxK2)
  }

  /** With at least three keys, every key belongs to exactly one of the
      EASY, MEDIUM and HARD key ranges. */
  lemma StandardKeyRangesPartition(m: int, k: int)
    requires m >= 3 && 1 <= k <= m
    ensures var e := StandardKeyRange(EASY, m);
      var md := StandardKeyRange(MEDIUM, m);
      var h := StandardKeyRange(HARD, m);
      && (e.0 <= k <= e.1 || md.0 <= k <= md.1 || h.0 <= k <= h.1)
      && !(e.0 <= k <= e.1 && md.0 <= k <= md.1)
      && !(md.0 <= k <= md.1 && h.0 <= k <= h.1)
      && !(e.0 <= k <= e.1 && h.0 <= k <= h.1)
  {
  }

  function KeyForStandardDifficulty(difficulty: TaskDifficulty, m: int, d: nat): (k: int)
    ensures m <= 0 ==> k == 1
    ensures m > 0 ==> var (lo, hi) := StandardKeyRange(difficulty, m); 1 <= lo <= k <= hi <= m
  {
    if m <= 0 then 1
    else
      var (minK, maxK) := StandardKeyRange(difficulty, m);
      if minK == maxK then minK else RandomIn(d, minK, maxK)
  }

  /** A CUSTOM request's length bounds: a missing or too small minimum
      becomes 1, a missing or too large maximum becomes 100, and the
      maximum never drops below the minimum. */
  function CustomLengthRange(minParam: Option<int>, maxParam: Option<int>): (r: (int, int))
    ensures MIN_GENERATED_TEXT_LENGTH <= r.0 <= r.1 <= MAX_GENERATED_TEXT_LENGTH
    ensures minParam.Some? && MIN_GENERATED_TEXT_LENGTH <= minParam.value <= MAX_GENERATED_TEXT_LENGTH ==>
      r.0 == minParam.value
    ensures maxParam.Some? && r.0 <= maxParam.value <= MAX_GENERATED_TEXT_LENGTH ==> r.1 == maxParam.value
  {
    var minLen :=
      if minParam.None? || minParam.value < MIN_GENERATED_TEXT_LENGTH then MIN_GENERATED_TEXT_LENGTH
      else Min(minParam.value, MAX_GENERATED_TEXT_LENGTH);
    var maxLen :=
      if maxParam.None? || maxParam.value > MAX_GENERATED_TEXT_LENGTH then MAX_GENERATED_TEXT_LENGTH
      else Max(minLen, Min(maxParam.value, MAX_GENERATED_TEXT_LENGTH));
    (if minLen > maxLen then maxLen else minLen, maxLen)
  }

  /** A CUSTOM request's key bounds against the largest key `m`. */
  function CustomKeyRange(minParam: Option<int>, maxParam: Option<int>, m: int): (r: (int, int))
    ensures m > 0 ==> 1 <= r.0 <= r.1 <= m
    ensures m <= 0 ==> r.0 <= r.1
    ensures m > 0 && minParam.Some? && 1 <= minParam.value <= m ==> r.0 == minParam.value
    ensures m > 0 && maxParam.Some? && r.0 <= maxParam.value <= m ==> r.1 == maxParam.value
  {
    var minK := if minParam.None? || minParam.value < 1 then 1 else Min(minParam.value, m);
    var maxK := if maxParam.None? || maxParam.value > m then m else Max(minK, Min(maxParam.value, m));
    if minK > maxK && m > 0 then (maxK, maxK)
    else if minK > maxK && m <= 0 then (1, 1)
    else (minK, maxK)
  }

  /** The request body of task generation; the custom bounds are optional. */
  datatype GenerationRequest = GenerationRequest(
    language: Language, difficulty: TaskDifficulty,
    customMinTextLength: Option<int>, customMaxTextLength: Option<int>,
    customMinKey: Option<int>, customMaxKey: Option<int>)

  /** The text length and key of a new task, from two draws. */
  function TaskParameters(req: GenerationRequest, lengthDraw: nat, keyDraw: nat): (p: (int, int))
    ensures MIN_GENERATED_TEXT_LENGTH <= p.0 <= MAX_GENERATED_TEXT_LENGTH
    ensures 1 <= p.1 <= MaxShift(req.language)
    ensures req.difficulty == CUSTOM ==>
      && (var (lo, hi) := CustomLengthRange(req.customMinTextLength, req.customMaxTextLength); lo <= p.0 <= hi)
      && (var (lo, hi) := CustomKeyRange(req.customMinKey, req.customMaxKey, MaxShift(req.language)); lo <= p.1 <= hi)
    ensures req.difficulty != CUSTOM ==>
      && (var (lo, hi) := StandardLengthRange(req.difficulty); lo <= p.0 <= hi)
      && (var (lo, hi) := StandardKeyRange(req.difficulty, MaxShift(req.language)); lo <= p.1 <= hi)
  {
    var m := MaxPossibleKey(|Alphabet(req.language)|);
    var (textLength, key) :=
      if req.difficulty == CUSTOM then
        var (minLen, maxLen) := CustomLengthRange(req.customMinTextLength, req.customMaxTextLength);
        var (minK, maxK) := CustomKeyRange(req.customMinKey, req.customMaxKey, m);
        var k := if m > 0 then (if minK == maxK then minK else RandomIn(keyDraw, minK, maxK)) else 1;
        (RandomIn(lengthDraw, minLen, maxLen), k)
      else
        (TextLengthForStandardDifficulty(req.difficulty, lengthDraw),
         KeyForStandardDifficulty(req.difficulty, m, keyDraw));
    (textLength, if key == 0 && m > 0 then 1 else if m <= 0 then 1 else key)
  }

  // ---------------------------------------------------------------------
  // Source text

  /** A character the generator may emit: a space, an alphabet letter, or a
      character of one of the words. */
  predicate FromSources(c: char, words: seq<string>, alphabet: string) {
    c == ' ' || c in alphabet || exists k :: 0 <= k < |words| && c in words[k]
  }

  predicate Sourced(s: string, words: seq<string>, alphabet: string) {
    forall i :: 0 <= i < |s| ==> FromSources(s[i], words, alphabet)
  }

  lemma WordSourced(words: seq<string>, alphabet: string, j: int)
    requires 0 <= j < |words|
    ensures Sourced(words[j], words, alphabet)
  {
    forall i | 0 <= i < |words[j]|
      ensures FromSources(words[j][i], words, alphabet)
    {
      assert words[j][i] in words[j];
    }
  }

  lemma SourcedAppend(a: string, b: string, words: seq<string>, alphabet: string)
    requires Sourced(a, words, alphabet) && Sourced(b, words, alphabet)
    ensures Sourced(a + b, words, alphabet)
  {
    forall i | 0 <= i < |a + b|
      ensures FromSources((a + b)[i], words, alphabet)
    {
      if i >= |a| {
        assert (a + b)[i] == b[i - |a|];
      }
    }
  }

  lemma SourcedPrefix(a: string, n: int, words: seq<string>, alphabet: string)
    requires Sourced(a, words, alphabet) && 0 <= n <= |a|
    ensures Sourced(a[..n], words, alphabet)
  {
  }

  lemma SourcedTrim(a: string, words: seq<string>, alphabet: string)
    requires Sourced(a, words, alphabet)
    ensures Sourced(JavaTrim(a), words, alphabet)
  {
    TrimSlice(a, IsJavaTrimmable);
    var r := JavaTrim(a);
    forall i | 0 <= i < |r|
      ensures FromSources(r[i], words, alphabet)
    {
      var j :| 0 <= j < |a| && a[j] == r[i];
    }
  }

  /** Random alphabet letters, used when the language has no word list. */
  method RandomLetters(alphabet: string, length: int, draw: nat -> nat) returns (t: string)
    requires |alphabet| > 0
    ensures |t| == Max(length, 0)
    ensures forall i :: 0 <= i < |t| ==> t[i] in alphabet
  {
    t := [];
    var i := 0;
    while i < length
      invariant 0 <= i == |t| <= Max(length, 0)
      invariant forall j :: 0 <= j < |t| ==> t[j] in alphabet
    {
      t := t + [alphabet[draw(i) % |alphabet|]];
      i := i + 1;
    }
  }

  /** The word-fill generator: whole random words separated by single
      spaces while they fit, then a cut-off word when at least three
      characters remain (or nothing was written yet), then random letters
      for a deficit of at least three; the result is cut to `length` and
      trimmed. Without words it is `length` random letters. Every loaded
      word is non-empty, so each round of the fill loop grows the text. */
  method GenerateText(words: seq<string>, lang: Language, length: int, draw: nat -> nat) returns (t: string)
    requires forall k :: 0 <= k < |words| ==> |words[k]| > 0
    ensures length <= 0 ==> t == []
    ensures |t| <= Max(length, 0)
    ensures JavaTrim(t) == t
    ensures Sourced(t, words, Alphabet(lang))
    ensures |words| == 0 ==> |t| == Max(length, 0) && forall i :: 0 <= i < |t| ==> t[i] in Alphabet(lang)
  {
    var alphabet := Alphabet(lang);
    if length <= 0 {
      return [];
    }
    if |words| == 0 {
      t := RandomLetters(alphabet, length, draw);
      LettersTrimmed(t, alphabet);
      forall i | 0 <= i < |t|
        ensures FromSources(t[i], words, alphabet)
      {
      }
      return;
    }
    var tb: string := [];
    var n := 0;
    while |tb| < length
      invariant |tb| <= length
      invariant Sourced(tb, words, alphabet)
      decreases length - |tb|
    {
      var j := draw(n) % |words|;
      var w := words[j];
      n := n + 1;
      WordSourced(words, alphabet, j);
      var needsSpace := |tb| > 0;
      var spaceLength := if needsSpace then 1 else 0;
      if |tb| + spaceLength + |w| <= length {
        if needsSpace {
          SourcedAppend(tb, " ", words, alphabet);
          tb := tb + " ";
        }
        SourcedAppend(tb, w, words, alphabet);
        tb := tb + w;
      } else {
        var remaining := length - |tb|;
        if needsSpace && remaining > 1 {
          SourcedAppend(tb, " ", words, alphabet);
          tb := tb + " ";
          remaining := remaining - 1;
        }
        if remaining > 0 && (remaining >= MIN_RANDOM_SUFFIX_LENGTH || |tb| == 0) {
          SourcedPrefix(w, Min(|w|, remaining), words, alphabet);
          SourcedAppend(tb, w[..Min(|w|, remaining)], words, alphabet);
          tb := tb + w[..Min(|w|, remaining)];
        }
        break;
      }
    }
    // The fill loop leaves either a full text or a deficit of one or two
    // characters after a non-empty text, so the random-letter tail for a
    // deficit of at least three never runs, and the text never needs cutting.
    assert |tb| == length || (|tb| > 0 && length - |tb| < MIN_RANDOM_SUFFIX_LENGTH);
    var result := tb;
    SourcedTrim(result, words, alphabet);
    TrimIdempotent(result, IsJavaTrimmable);
    t := JavaTrim(result);
  }

  /** Alphabet letters are not trimmed away. */
  lemma LettersTrimmed(t: string, alphabet: string)
    requires forall i :: 0 <= i < |t| ==> t[i] in alphabet
    requires alphabet == Alphabet(EN) || alphabet == Alphabet(RU)
    ensures JavaTrim(t) == t
  {
    if |t| > 0 {
      LetterNotTrimmable(t[0], alphabet);
      LetterNotTrimmable(t[|t| - 1], alphabet);
      TrimStartStops(t, IsJavaTrimmable);
      TrimEndStops(t, IsJavaTrimmable);
    }
  }

  lemma LetterNotTrimmable(c: char, alphabet: string)
    requires c in alphabet
    requires alphabet == Alphabet(EN) || alphabet == Alphabet(RU)
    ensures !IsJavaTrimmable(c)
  {
    var i :| 0 <= i < |alphabet| && alphabet[i] == c;
    if alphabet == Alphabet(EN) {
      AlphabetValid(EN);
    } else {
      AlphabetValid(RU);
    }
  }

  // ---------------------------------------------------------------------
  // Generation and the answer store

  /** The answer kept for a task: the key, or the expected text. */
  datatype Answer = KeyAnswer(key: int) | TextAnswer(text: string)

  type AnswerStore = map<string, Answer>

  datatype TaskData =
    | FindKeyTask(taskId: string, language: Language, sourceText: string, encryptedText: string, actualKey: int)
    | EncryptTask(taskId: string, language: Language, sourceText: string, key: int)
    | DecryptTask(taskId: string, language: Language, encryptedText: string, actualKey: int)

  /** Generates one task under the fresh id `taskId`, with the word list of
      the request's language and the random draws as parameters. */
  method GenerateCaesarTask(taskType: CaesarTaskType, req: GenerationRequest, taskId: string,
                            store: AnswerStore, words: seq<string>,
                            lengthDraw: nat, keyDraw: nat, draw: nat -> nat)
    returns (task: TaskData, store': AnswerStore)
    requires forall k :: 0 <= k < |words| ==> |words[k]| > 0
    ensures taskId in store' && store'.Keys == store.Keys + {taskId}
    ensures forall id :: id in store && id != taskId ==> store'[id] == store[id]
    ensures var (textLength, key) := TaskParameters(req, lengthDraw, keyDraw);
      match task
      case FindKeyTask(id, lang, source, encrypted, actualKey) =>
        && taskType == FIND_KEY && id == taskId && lang == req.language && actualKey == key
        && |source| <= textLength
        && encrypted == Transform(source, key, Alphabet(lang), true)
        && store'[taskId] == KeyAnswer(key)
      case EncryptTask(id, lang, source, k) =>
        && taskType == ENCRYPT_TEXT && id == taskId && lang == req.language && k == key
        && |source| <= textLength
        && store'[taskId] == TextAnswer(Transform(source, key, Alphabet(lang), true))
      case DecryptTask(id, lang, encrypted, actualKey) =>
        && taskType == DECRYPT_TEXT && id == taskId && lang == req.language && actualKey == key
        && store'[taskId].TextAnswer? && |store'[taskId].text| <= textLength
        && encrypted == Transform(store'[taskId].text, key, Alphabet(lang), true)
  {
    var (textLength, key) := TaskParameters(req, lengthDraw, keyDraw);
    var lang := req.language;
    var source := GenerateText(words, lang, textLength, draw);
    var encryptedResult := Encrypt(Some(source), key, Some(lang));
    var encrypted := encryptedResult.value;
    match taskType
    case FIND_KEY =>
      task := FindKeyTask(taskId, lang, source, encrypted, key);
      store' := store[taskId := KeyAnswer(key)];
    case ENCRYPT_TEXT =>
      task := EncryptTask(taskId, lang, source, key);
      store' := store[taskId := TextAnswer(encrypted)];
    case DECRYPT_TEXT =>
      task := DecryptTask(taskId, lang, encrypted, key);
      store' := store[taskId := TextAnswer(source)];
  }

  // ---------------------------------------------------------------------
  // Verification

  datatype TaskSolution = TaskSolution(
    taskId: string, keySolution: Option<int>, textSolution: Option<string>,
    requestCorrectAnswerOnly: Option<bool>)

  /** A localised message key, or the correct-answer prefix followed by the
      answer. */
  datatype Message = MessageKey(key: string) | CorrectAnswerIs(answer: string)

  datatype VerificationResult = VerificationResult(correct: bool, message: Message, correctAnswer: Option<string>)

  /** The stored answer as text, or `None` when it is of the wrong kind for
      the task type (the cast that fails). */
  function AnswerString(taskType: CaesarTaskType, a: Answer): (s: Option<string>)
    ensures s.Some? <==> (taskType == FIND_KEY <==> a.KeyAnswer?)
  {
    match (taskType, a)
    case (FIND_KEY, KeyAnswer(k)) => Some(IntToString(k))
    case (FIND_KEY, TextAnswer(_)) => None
    case (_, TextAnswer(t)) => Some(t)
    case (_, KeyAnswer(_)) => None
  }

  /** A submitted solution against the store. The store is an argument and
      not a result: checking never changes it. */
  function VerifySolution(store: AnswerStore, taskType: CaesarTaskType, sol: TaskSolution): (r: VerificationResult)
    ensures sol.taskId !in store ==>
      r == VerificationResult(false, MessageKey("task.verification.error.notfound"), None)
    ensures sol.taskId in store && AnswerString(taskType, store[sol.taskId]).None? ==>
      r == VerificationResult(false, MessageKey("task.verification.error.internal"), None)
    ensures (sol.taskId in store && sol.requestCorrectAnswerOnly == Some(true)
             && AnswerString(taskType, store[sol.taskId]).Some?) ==>
      var s := AnswerString(taskType, store[sol.taskId]).value;
      r == VerificationResult(false, CorrectAnswerIs(s), Some(s))
    ensures r.correct <==>
      && sol.taskId in store
      && sol.requestCorrectAnswerOnly != Some(true)
      && match store[sol.taskId]
         case KeyAnswer(k) => taskType == FIND_KEY && sol.keySolution == Some(k)
         case TextAnswer(t) =>
           && taskType != FIND_KEY && sol.textSolution.Some?
           && JavaTrim(sol.textSolution.value) != []
           && EqualsIgnoreCase(JavaTrim(sol.textSolution.value), JavaTrim(t))
    ensures r.correct ==> r.message == MessageKey("task.answer.correct") && r.correctAnswer == None
  {
    if sol.taskId !in store then
      VerificationResult(false, MessageKey("task.verification.error.notfound"), None)
    else
      var answer := AnswerString(taskType, store[sol.taskId]);
      if answer.None? then
        VerificationResult(false, MessageKey("task.verification.error.internal"), None)
      else if sol.requestCorrectAnswerOnly == Some(true) then
        VerificationResult(false, CorrectAnswerIs(answer.value), Some(answer.value))
      else if taskType == FIND_KEY && sol.keySolution.None? then
        VerificationResult(false, MessageKey("validation.task.solution.key.missing"), None)
      else if taskType != FIND_KEY && (sol.textSolution.None? || JavaTrim(sol.textSolution.value) == []) then
        VerificationResult(false, MessageKey("validation.task.solution.text.missing"), None)
      else
        var isCorrect :=
          if taskType == FIND_KEY then
            ParseSignedIntToString(store[sol.taskId].key);
            Some(sol.keySolution.value) == ParseSigned(answer.value)
          else
            EqualsIgnoreCase(JavaTrim(sol.textSolution.value), JavaTrim(answer.value));
        if isCorrect then VerificationResult(true, MessageKey("task.answer.correct"), None)
        else VerificationResult(false, MessageKey("task.answer.incorrect"), None)
  }

  /** Submitting the expected answer of a freshly stored task is accepted:
      the key itself, or the expected text (any case, surrounding blanks
      ignored) when it is not blank. */
  lemma ExpectedAnswerAccepted(store: AnswerStore, taskType: CaesarTaskType, taskId: string,
                               answer: Answer, sol: TaskSolution)
    requires AnswerString(taskType, answer).Some?
    requires sol.taskId == taskId && sol.requestCorrectAnswerOnly != Some(true)
    requires answer.KeyAnswer? ==> sol.keySolution == Some(answer.key)
    requires answer.TextAnswer? ==> sol.textSolution == Some(answer.text) && JavaTrim(answer.text) != []
    ensures VerifySolution(store[taskId := answer], taskType, sol).correct
  {
  }

  /** Asking only for the answer of a stored task reveals exactly what was
      stored, written out as text, and is never marked correct. */
  lemma RevealGivesStoredAnswer(store: AnswerStore, taskType: CaesarTaskType, sol: TaskSolution)
    requires sol.taskId in store && sol.requestCorrectAnswerOnly == Some(true)
    requires AnswerString(taskType, store[sol.taskId]).Some?
    ensures var r := VerifySolution(store, taskType, sol);
      && !r.correct
      && (store[sol.taskId].KeyAnswer? ==>
            (r.correctAnswer.Some? && ParseSigned(r.correctAnswer.value) == Some(store[sol.taskId].key)))
      && (store[sol.taskId].TextAnswer? ==> r.correctAnswer == Some(store[sol.taskId].text))
  {
    if store[sol.taskId].KeyAnswer? {
      ParseSignedIntToString(store[sol.taskId].key);
    }
  }
}

=== FILE: task_session.dfy ===
/** The task page as a session record: the task of the route's type and a
    cache of one task per type, task generation, the answer fields, the
    verify and reveal buttons with their memo of the last check, the slot
    the answer state is persisted in, the effect that follows the task id,
    the result message, and the jump to the visualizer.

    Each call to the server is a `Reply` parameter. The route's task type
    is one of the three types, and the task shown is always one the server
    generated for that type, so the page's branches on the type and the
    task's own kind agree. */
module TaskSession {
  import opened Common
  import opened Strings
  import opened Cipher
  import opened InputUtils
  import opened TaskParams
  import TS = TaskService
  import VS = VisualizerSession
  import Paging
  import LocalStorage

  // ---------------------------------------------------------------------
  // The session

  /** What the page shows after a check: the server's verdict and whether
      it was a request for the answer. */
  datatype Shown = Shown(verdict: TS.VerificationResult, wasAnswerRequested: bool)

  /** A normalised answer: the key as a number or the text upper-cased and
      trimmed. */
  datatype Submitted = KeySubmitted(key: int) | TextSubmitted(text: string)

  /** The memo of the last check that reached the server. */
  datatype LastCheck =
    | Verified(taskId: string, submitted: Submitted, result: Shown)
    | Revealed(taskId: string, result: Shown)

  /** The persisted answer state of one task type. */
  datatype Slot = Slot(solution: string, keySolution: string, result: Option<Shown>,
                       last: Option<LastCheck>, associatedTaskId: Option<string>)

  datatype Session = Session(
    taskType: TS.CaesarTaskType, language: Language, difficulty: TS.TaskDifficulty,
    custom: CustomParams, task: Option<TS.TaskData>, cache: map<TS.CaesarTaskType, TS.TaskData>,
    solution: string, keySolution: string, result: Option<Shown>, last: Option<LastCheck>,
    slot: Option<Slot>, prevTaskId: Option<string>)

  /** The authentication state: still loading, and whether there is an
      access token. */
  datatype Access = Access(loading: bool, signedIn: bool)

  /** How a call to the server ended. */
  datatype Reply<T> = Ok(value: T) | NoResponse | ErrorResponse(message: string)

  datatype Notice =
    | NotAuthenticated
    | NoActiveTaskOrNotAuth
    | EnterKey
    | KeyMustBeNumber
    | EnterText
    | NetworkError
    | ServerMessage(message: string)
    | GenerationFailed
    | VerificationFailed
    | RevealFailed
    | TaskGenerated
    | DefaultKeyUsed
    | TaskNotLoaded

  /** A call the page makes: a generation for a type, or a check of a
      solution for a type. */
  datatype Request =
    | Generate(taskType: TS.CaesarTaskType, generation: TS.GenerationRequest)
    | Check(taskType: TS.CaesarTaskType, payload: TS.TaskSolution)

  /** The session after a handler, what it reported, and the call it made. */
  datatype Reaction = Reaction(session: Session, notice: Option<Notice>, request: Option<Request>)

  /** The error notice for a failed call: no response is a network error, a
      non-empty server message is shown as it is, anything else is the
      handler's own message. */
  function FailureNotice<T>(reply: Reply<T>, generic: Notice): (n: Notice)
    requires !reply.Ok?
    ensures reply.NoResponse? ==> n == NetworkError
    ensures reply.ErrorResponse? && reply.message != [] ==> n == ServerMessage(reply.message)
    ensures reply.ErrorResponse? && reply.message == [] ==> n == generic
  {
    match reply
    case NoResponse => NetworkError
    case ErrorResponse(m) => if m != [] then ServerMessage(m) else generic
  }

  /** `getEffectiveMaxKey`: the largest key of the task's language, or of the
      page's when there is no task. */
  function EffectiveMaxKey(s: Session): (m: int)
    ensures 1 <= m <= 32
    ensures s.task.Some? ==> m == MaxShift(s.task.value.language)
  {
    MaxPossibleKeyOf(if s.task.Some? then s.task.value.language else s.language)
  }

  // ---------------------------------------------------------------------
  // Generation and the cache

  /** `generateNewTaskInternal`. Without a token the task is dropped (with a
      notice unless authentication is still loading) and nothing is sent.
      Otherwise the answer fields, the result and the memo are cleared (and
      the persisted slot too when the user asked), the request is sent; a
      task that comes back is shown and cached for its type, and a failure
      drops the task and that type's cache entry. */
  function GenerateTask(s: Session, access: Access, userTriggered: bool, reply: Reply<TS.TaskData>)
    : (r: Reaction)
    ensures r.request.Some? <==> !access.loading && access.signedIn
    ensures r.request.None? ==>
      r.session == s.(task := None)
      && r.notice == (if access.loading then None else Some(NotAuthenticated))
    ensures r.request.Some? ==>
      && r.request.value == Generate(s.taskType, GenerationParams(s.language, s.difficulty, s.custom))
      && r.session.solution == [] && r.session.keySolution == []
      && r.session.result.None? && r.session.last.None?
      && r.session.slot == (if userTriggered then None else s.slot)
    ensures r.request.Some? && reply.Ok? ==>
      r.session.task == Some(reply.value) && r.session.cache == s.cache[s.taskType := reply.value]
      && r.notice == (if userTriggered then Some(TaskGenerated) else None)
    ensures r.request.Some? && !reply.Ok? ==>
      r.session.task.None? && r.session.cache == s.cache - {s.taskType}
      && r.notice == Some(FailureNotice(reply, GenerationFailed))
    ensures r.session.taskType == s.taskType && r.session.language == s.language
      && r.session.custom == s.custom && r.session.prevTaskId == s.prevTaskId
  {
    if access.loading || !access.signedIn then
      Reaction(s.(task := None), if access.loading then None else Some(NotAuthenticated), None)
    else
      var s1 := s.(solution := "", keySolution := "", result := None, last := None,
                   slot := if userTriggered then None else s.slot);
      var request := Generate(s.taskType, GenerationParams(s.language, s.difficulty, s.custom));
      match reply
      case Ok(t) =>
        Reaction(s1.(task := Some(t), cache := s.cache[s.taskType := t]),
                 if userTriggered then Some(TaskGenerated) else None, Some(request))
      case _ =>
        Reaction(s1.(task := None, cache := s.cache - {s.taskType}),
                 Some(FailureNotice(reply, GenerationFailed)), Some(request))
  }

  /** The effect that keeps a task on screen: nothing while authentication
      loads; without a token the task and the whole cache are dropped; a
      cached task of the route's type is shown (unless a task with its id
      already is) without any call; otherwise a task is generated. */
  function ManageTaskState(s: Session, access: Access, reply: Reply<TS.TaskData>): (r: Reaction)
    ensures access.loading ==> r == Reaction(s, None, None)
    ensures !access.loading && !access.signedIn ==>
      r == Reaction(s.(task := None, cache := map[]), Some(NotAuthenticated), None)
    ensures !access.loading && access.signedIn && s.taskType in s.cache ==>
      && r.request.None? && r.notice.None?
      && r.session.task.Some? && r.session.task.value.taskId == s.cache[s.taskType].taskId
      && r.session == s.(task := r.session.task)
    ensures !access.loading && access.signedIn && s.taskType !in s.cache ==>
      r == GenerateTask(s, access, false, reply)
  {
    if access.loading then Reaction(s, None, None)
    else if !access.signedIn then Reaction(s.(task := None, cache := map[]), Some(NotAuthenticated), None)
    else if s.taskType in s.cache then
      var cached := s.cache[s.taskType];
      if s.task.None? || s.task.value.taskId != cached.taskId then Reaction(s.(task := Some(cached)), None, None)
      else Reaction(s, None, None)
    else GenerateTask(s, access, false, reply)
  }

  /** A generated task is reused: once it is cached, the effect keeps it on
      screen and sends nothing, whatever the server would answer. */
  lemma GeneratedTaskIsReused(s: Session, access: Access, userTriggered: bool, t: TS.TaskData,
                              reply: Reply<TS.TaskData>)
    requires !access.loading && access.signedIn
    ensures var s1 := GenerateTask(s, access, userTriggered, Ok(t)).session;
      var r := ManageTaskState(s1, access, reply);
      r.request.None? && r.session == s1 && r.session.task == Some(t)
  {
  }

  /** A failed generation leaves no cache entry for the type, so the effect
      asks the server again. */
  lemma FailedGenerationRetries(s: Session, access: Access, userTriggered: bool,
                                failure: Reply<TS.TaskData>, reply: Reply<TS.TaskData>)
    requires !access.loading && access.signedIn && !failure.Ok?
    ensures var s1 := GenerateTask(s, access, userTriggered, failure).session;
      ManageTaskState(s1, access, reply).request.Some?
  {
  }

  // ---------------------------------------------------------------------
  // Submitting and revealing

  /** The answer checked before a submission: the key field trimmed, read
      as a number and clamped into `[1, maxKey]` (with the field rewritten
      when clamped), or the text upper-cased and trimmed. */
  datatype Prepared = Prepared(submitted: Submitted, keySolution: string)

  function PrepareAnswer(taskType: TS.CaesarTaskType, keySolution: string, solution: string, maxKey: int)
    : (r: Result<Prepared, Notice>)
    requires maxKey >= 1
    ensures taskType == TS.FIND_KEY ==>
      && (r.Success? <==> JsTrim(keySolution) != [] && JsParseInt(JsTrim(keySolution)).Some?)
      && (JsTrim(keySolution) == [] ==> r == Failure(EnterKey))
      && (JsTrim(keySolution) != [] && JsParseInt(JsTrim(keySolution)).None? ==> r == Failure(KeyMustBeNumber))
      && (r.Success? ==>
            var n := JsParseInt(JsTrim(keySolution)).value;
            && r.value.submitted == KeySubmitted(Clamp(n, 1, maxKey))
            && (1 <= n <= maxKey ==> r.value.keySolution == keySolution)
            && JsParseInt(r.value.keySolution) == Some(Clamp(n, 1, maxKey)))
    ensures taskType != TS.FIND_KEY ==>
      && (JsTrim(solution) == [] <==> r.Failure?)
      && (r.Failure? ==> r.error == EnterText)
      && (r.Success? ==> r.value == Prepared(TextSubmitted(JsTrim(UpperString(solution))), keySolution))
    ensures r.Success? ==> (r.value.submitted.KeySubmitted? <==> taskType == TS.FIND_KEY)
  {
    if taskType == TS.FIND_KEY then
      var trimmed := JsTrim(keySolution);
      if trimmed == [] then Failure(EnterKey)
      else match JsParseInt(trimmed)
        case None => Failure(KeyMustBeNumber)
        case Some(n) =>
          Paging.JsParseIntOfIntToString(1);
          Paging.JsParseIntOfIntToString(maxKey);
          KeyFieldReadsAsTrimmed(keySolution);
          if n < 1 then Success(Prepared(KeySubmitted(1), "1"))
          else if n > maxKey then Success(Prepared(KeySubmitted(maxKey), IntToString(maxKey)))
          else Success(Prepared(KeySubmitted(n), keySolution))
    else if JsTrim(solution) == [] then Failure(EnterText)
    else Success(Prepared(TextSubmitted(JsTrim(UpperString(solution))), keySolution))
  }

  /** Reading the key field and reading it trimmed give the same number. */
  lemma KeyFieldReadsAsTrimmed(s: string)
    ensures JsParseInt(s) == JsParseInt(JsTrim(s))
    ensures JsParseInt(s).Some? ==> JsTrim(s) != []
  {
    var a := TrimStart(s, IsJsWhitespace);
    var t := JsTrim(s);
    assert t == TrimEnd(a, IsJsWhitespace);
    if |t| > 0 {
      TrimStartStops(t, IsJsWhitespace);
    }
    ParseSignedOfTrimEnd(a);
    assert JsParseInt([]) == None;
  }

  /** `parseInt` stops before trailing whitespace, so dropping it changes
      nothing. */
  lemma ParseSignedOfTrimEnd(a: string)
    requires |a| == 0 || !IsJsWhitespace(a[0])
    ensures ParseSigned(TrimEnd(a, IsJsWhitespace)) == ParseSigned(a)
  {
    var t := TrimEnd(a, IsJsWhitespace);
    if |a| > 0 {
      assert |t| > 0;
      if |t| < |a| {
        assert IsJsWhitespace(a[|t|]);
      }
      ParseSignedPrefix(a, |t|);
    }
  }

  /** `parseInt` reads no further than the first non-digit after the sign,
      so cutting the text there changes nothing. */
  lemma ParseSignedPrefix(a: string, k: int)
    requires 0 < k <= |a|
    requires k < |a| ==> !IsDigit(a[k])
    ensures ParseSigned(a[..k]) == ParseSigned(a)
  {
    var t := a[..k];
    assert t[0] == a[0];
    if a[0] == '-' || a[0] == '+' {
      assert t[1..] == a[1..][..k - 1];
      DigitPrefixStops(a[1..], k - 1);
    } else {
      DigitPrefixStops(a, k);
    }
  }

  /** The digit prefix of a text that has no digit at position `k` lies
      within its first `k` characters. */
  lemma {:induction false} DigitPrefixStops(s: string, k: int)
    requires 0 <= k <= |s|
    requires k < |s| ==> !IsDigit(s[k])
    ensures DigitPrefix(s[..k]) == DigitPrefix(s)
    decreases k
  {
    if k > 0 && IsDigit(s[0]) {
      assert s[..k][1..] == s[1..][..k - 1];
      DigitPrefixStops(s[1..], k - 1);
    } else if k > 0 {
      assert s[..k][0] == s[0];
    }
  }

  /** The task id the buttons act on, when there is a task with one and a
      token. */
  predicate CanCheck(s: Session, access: Access) {
    s.task.Some? && s.task.value.taskId != [] && access.signedIn
  }

  /** `handleSubmit`. Without a task or token, or with an empty or
      non-numeric key, or with blank text, nothing is sent. Otherwise the
      answer is normalised; when the memo holds a verification of this task
      with the same normalised answer, its result is shown again without a
      call; else the answer is sent, and a verdict is shown and becomes the
      memo, while a failure clears the result and keeps the memo. */
  function Submit(s: Session, access: Access, reply: Reply<TS.VerificationResult>): (r: Reaction)
    ensures !CanCheck(s, access) ==> r == Reaction(s, Some(NoActiveTaskOrNotAuth), None)
    ensures CanCheck(s, access) && Prepare(s).Failure? ==> r == Reaction(s, Some(Prepare(s).error), None)
    ensures CanCheck(s, access) && Prepare(s).Success?
            && MemoAnswers(s.last, s.task.value.taskId, Prepare(s).value.submitted) ==>
      r == Reaction(s.(keySolution := Prepare(s).value.keySolution,
                       result := Some(s.last.value.result.(wasAnswerRequested := false))), None, None)
    ensures r.request.Some? ==>
      && CanCheck(s, access) && Prepare(s).Success?
      && !MemoAnswers(s.last, s.task.value.taskId, Prepare(s).value.submitted)
      && r.request.value == Check(s.taskType, SolutionPayload(s.task.value.taskId, Prepare(s).value.submitted))
      && r.session.keySolution == Prepare(s).value.keySolution
      && (reply.Ok? ==>
            r.session.result == Some(Shown(reply.value, false))
            && r.session.last == Some(Verified(s.task.value.taskId, Prepare(s).value.submitted, Shown(reply.value, false))))
      && (!reply.Ok? ==>
            r.session.result.None? && r.session.last == s.last
            && r.notice == Some(FailureNotice(reply, VerificationFailed)))
    ensures r.session.task == s.task && r.session.solution == s.solution && r.session.cache == s.cache
      && r.session.slot == s.slot && r.session.taskType == s.taskType
  {
    if !CanCheck(s, access) then Reaction(s, Some(NoActiveTaskOrNotAuth), None)
    else match Prepare(s)
      case Failure(n) => Reaction(s, Some(n), None)
      case Success(prepared) =>
        var id := s.task.value.taskId;
        var s1 := s.(keySolution := prepared.keySolution);
        if MemoAnswers(s.last, id, prepared.submitted) then
          Reaction(s1.(result := Some(s.last.value.result.(wasAnswerRequested := false))), None, None)
        else
          var request := Check(s.taskType, SolutionPayload(id, prepared.submitted));
          match reply
          case Ok(v) =>
            var shown := Shown(v, false);
            Reaction(s1.(result := Some(shown), last := Some(Verified(id, prepared.submitted, shown))),
                     None, Some(request))
          case _ =>
            Reaction(s1.(result := None), Some(FailureNotice(reply, VerificationFailed)), Some(request))
  }

  /** The session's answer prepared against its effective largest key. */
  function Prepare(s: Session): Result<Prepared, Notice> {
    PrepareAnswer(s.taskType, s.keySolution, s.solution, EffectiveMaxKey(s))
  }

  /** The memo holds a verification of task `id` with this normalised
      answer. */
  predicate MemoAnswers(last: Option<LastCheck>, id: string, submitted: Submitted) {
    last.Some? && last.value.Verified? && last.value.taskId == id && last.value.submitted == submitted
  }

  /** Preparing a prepared answer again gives the same answer: the key
      field, once rewritten, reads as the key it was clamped to. */
  lemma PrepareIsStable(taskType: TS.CaesarTaskType, keySolution: string, solution: string, m: int)
    requires m >= 1 && PrepareAnswer(taskType, keySolution, solution, m).Success?
    ensures var p := PrepareAnswer(taskType, keySolution, solution, m).value;
      PrepareAnswer(taskType, p.keySolution, solution, m) == Success(p)
  {
    var p := PrepareAnswer(taskType, keySolution, solution, m).value;
    if taskType == TS.FIND_KEY {
      KeyFieldReadsAsTrimmed(p.keySolution);
    }
  }

  /** The body of a verification: the key or the text, never a request for
      the answer. */
  function SolutionPayload(taskId: string, submitted: Submitted): (body: TS.TaskSolution)
    ensures body.taskId == taskId && body.requestCorrectAnswerOnly == Some(false)
    ensures submitted.KeySubmitted? ==> body.keySolution == Some(submitted.key) && body.textSolution.None?
    ensures submitted.TextSubmitted? ==> body.textSolution == Some(submitted.text) && body.keySolution.None?
  {
    match submitted
    case KeySubmitted(k) => TS.TaskSolution(taskId, Some(k), None, Some(false))
    case TextSubmitted(t) => TS.TaskSolution(taskId, None, Some(t), Some(false))
  }

  /** Submitting the same answer again after a verdict shows the same
      verdict without a second call. */
  lemma RepeatSubmitUsesMemo(s: Session, access: Access, v: TS.VerificationResult,
                             reply: Reply<TS.VerificationResult>)
    requires Submit(s, access, Ok(v)).request.Some?
    ensures var s1 := Submit(s, access, Ok(v)).session;
      var r := Submit(s1, access, reply);
      r.request.None? && r.session.result == Some(Shown(v, false)) && r.session.last == s1.last
  {
    var s1 := Submit(s, access, Ok(v)).session;
    PrepareIsStable(s.taskType, s.keySolution, s.solution, EffectiveMaxKey(s));
    assert EffectiveMaxKey(s1) == EffectiveMaxKey(s);
    assert Prepare(s1) == Prepare(s);
    assert MemoAnswers(s1.last, s1.task.value.taskId, Prepare(s1).value.submitted);
  }

  /** A failed verification hides the result but keeps the memo, so the
      memo still answers the previous submission. */
  lemma FailedSubmitKeepsMemo(s: Session, access: Access, reply: Reply<TS.VerificationResult>)
    requires !reply.Ok?
    ensures var r := Submit(s, access, reply);
      r.request.Some? ==> r.session.result.None? && r.session.last == s.last
  {
  }

  /** `handleRequestCorrectAnswer`. Without a task or token nothing is
      sent. When the memo holds a reveal for this task its result is shown
      again without a call; otherwise the request for the answer is sent,
      and the answer is shown and becomes the memo, while a failure clears
      the result and keeps the memo. */
  function Reveal(s: Session, access: Access, reply: Reply<TS.VerificationResult>): (r: Reaction)
    ensures !CanCheck(s, access) ==> r == Reaction(s, Some(NoActiveTaskOrNotAuth), None)
    ensures CanCheck(s, access) && s.last.Some? && s.last.value.Revealed? && s.last.value.taskId == s.task.value.taskId ==>
      r == Reaction(s.(result := Some(s.last.value.result.(wasAnswerRequested := true))), None, None)
    ensures r.request.Some? ==>
      && r.request.value == Check(s.taskType, TS.TaskSolution(s.task.value.taskId, None, None, Some(true)))
      && (reply.Ok? ==>
            r.session == s.(result := Some(Shown(reply.value, true)),
                            last := Some(Revealed(s.task.value.taskId, Shown(reply.value, true)))))
      && (!reply.Ok? ==>
            r.session == s.(result := None) && r.notice == Some(FailureNotice(reply, RevealFailed)))
  {
    if !CanCheck(s, access) then Reaction(s, Some(NoActiveTaskOrNotAuth), None)
    else
      var id := s.task.value.taskId;
      if s.last.Some? && s.last.value.Revealed? && s.last.value.taskId == id then
        Reaction(s.(result := Some(s.last.value.result.(wasAnswerRequested := true))), None, None)
      else
        var request := Check(s.taskType, TS.TaskSolution(id, None, None, Some(true)));
        match reply
        case Ok(v) =>
          var shown := Shown(v, true);
          Reaction(s.(result := Some(shown), last := Some(Revealed(id, shown))), None, Some(request))
        case _ =>
          Reaction(s.(result := None), Some(FailureNotice(reply, RevealFailed)), Some(request))
  }

  /** Asking for the answer twice calls the server once. */
  lemma RepeatRevealUsesMemo(s: Session, access: Access, v: TS.VerificationResult,
                             reply: Reply<TS.VerificationResult>)
    requires Reveal(s, access, Ok(v)).request.Some?
    ensures var s1 := Reveal(s, access, Ok(v)).session;
      Reveal(s1, access, reply) == Reaction(s1, None, None)
  {
  }

  /** A key typed into the field and submitted reaches the server as the
      typed digits' value clamped into `[1, largest key]`. */
  lemma TypedKeyIsSubmittedClamped(s: Session, access: Access, raw: string, reply: Reply<TS.VerificationResult>)
    requires s.taskType == TS.FIND_KEY && CanCheck(s, access)
    requires DigitsOf(raw) != [] && (s.last.None? || s.last.value.Revealed?)
    ensures var typed := s.(keySolution := KeySolutionChange(raw, EffectiveMaxKey(s)));
      var r := Submit(typed, access, reply);
      && r.request.Some?
      && r.request.value.payload.keySolution == Some(Clamp(DigitsValue(DigitsOf(raw)), 1, EffectiveMaxKey(s)))
  {
    var m := EffectiveMaxKey(s);
    var shown := KeySolutionChange(raw, m);
    var d := DigitsOf(raw);
    ParseIntOfDigits(d);
    ParseIntOfDigits(shown);
    KeyFieldReadsAsTrimmed(shown);
  }

  /** An expected key submitted for a find-key task is accepted by the
      server's check against its store. */
  lemma ExpectedKeyIsAccepted(store: TS.AnswerStore, s: Session, access: Access, key: int,
                              reply: Reply<TS.VerificationResult>)
    requires s.taskType == TS.FIND_KEY && CanCheck(s, access)
    requires 1 <= key <= EffectiveMaxKey(s) && s.keySolution == IntToString(key)
    requires s.last.None?
    ensures var r := Submit(s, access, reply);
      && r.request.Some?
      && TS.VerifySolution(store[s.task.value.taskId := TS.KeyAnswer(key)], TS.FIND_KEY, r.request.value.payload).correct
  {
    Paging.JsParseIntOfIntToString(key);
    KeyFieldReadsAsTrimmed(s.keySolution);
    var r := Submit(s, access, reply);
    TS.ExpectedAnswerAccepted(store, TS.FIND_KEY, s.task.value.taskId, TS.KeyAnswer(key), r.request.value.payload);
  }

  // ---------------------------------------------------------------------
  // Persisting, restoring and the task id

  /** The persist effect: the answer state and the id of the task it
      belongs to. */
  function Persist(s: Session): (slot: Slot)
    ensures slot.associatedTaskId.Some? <==> s.task.Some?
    ensures s.task.Some? ==> slot.associatedTaskId.value == s.task.value.taskId
  {
    Slot(s.solution, s.keySolution, s.result, s.last,
         if s.task.Some? then Some(s.task.value.taskId) else None)
  }

  /** The restore effect when the type or its slot changes: a slot's fields
      are taken (the memo only when the slot has one); no slot clears the
      answer state and the memo. */
  function Restore(s: Session): (r: Session)
    ensures s.slot.None? ==> r == s.(solution := "", keySolution := "", result := None, last := None)
    ensures s.slot.Some? ==>
      r == s.(solution := s.slot.value.solution, keySolution := s.slot.value.keySolution,
              result := s.slot.value.result,
              last := if s.slot.value.last.Some? then s.slot.value.last else s.last)
  {
    match s.slot
    case None => s.(solution := "", keySolution := "", result := None, last := None)
    case Some(p) =>
      s.(solution := p.solution, keySolution := p.keySolution, result := p.result,
         last := if p.last.Some? then p.last else s.last)
  }

  /** Persisting and restoring (a reload, or coming back to the type) gives
      back the answer fields, the result and the memo. */
  lemma PersistThenRestore(s: Session, before: Session)
    requires s.last.Some? || before.last.None?
    ensures var r := Restore(before.(slot := Some(Persist(s))));
      r.solution == s.solution && r.keySolution == s.keySolution
      && r.result == s.result && r.last == s.last
  {
  }

  /** The effect on the task id: a new task whose id is not the one the
      slot belongs to clears the result and the memo; losing the task
      clears them too. */
  function TaskIdChange(s: Session): (r: Session)
    ensures r.solution == s.solution && r.keySolution == s.keySolution && r.task == s.task
      && r.slot == s.slot && r.cache == s.cache
    ensures s.task.Some? && s.task.value.taskId != [] ==> r.prevTaskId == Some(s.task.value.taskId)
    ensures s.task.Some? && s.task.value.taskId != [] && s.prevTaskId != Some(s.task.value.taskId) ==>
      ((r.result.None? && r.last.None?) <==>
         ((s.slot.None? || s.slot.value.associatedTaskId != Some(s.task.value.taskId))
          || (s.result.None? && s.last.None?)))
    ensures s.task.None? && s.prevTaskId.Some? ==> r.result.None? && r.last.None? && r.prevTaskId.None?
  {
    if s.task.Some? && s.task.value.taskId != [] && s.prevTaskId != Some(s.task.value.taskId) then
      var id := s.task.value.taskId;
      if s.slot.None? || s.slot.value.associatedTaskId != Some(id) then
        s.(result := None, last := None, prevTaskId := Some(id))
      else s.(prevTaskId := Some(id))
    else if s.task.None? && s.prevTaskId.Some? then
      s.(result := None, last := None, prevTaskId := None)
    else s
  }

  /** How the result line looks. */
  datatype MessageClass = InfoStyle | SuccessStyle | ErrorStyle

  /** The result line: only a result for the task the slot belongs to is
      shown; a revealed answer is informational, a verdict is a success or
      an error. */
  function ResultMessage(s: Session): (m: Option<(MessageClass, TS.Message)>)
    ensures m.Some? <==>
      s.result.Some? && s.task.Some? && s.slot.Some? && s.slot.value.associatedTaskId == Some(s.task.value.taskId)
    ensures m.Some? ==>
      && m.value.1 == s.result.value.verdict.message
      && (m.value.0 == InfoStyle <==> s.result.value.wasAnswerRequested)
      && (m.value.0 == SuccessStyle <==> !s.result.value.wasAnswerRequested && s.result.value.verdict.correct)
  {
    if s.result.Some? && s.task.Some? && s.slot.Some? && s.slot.value.associatedTaskId == Some(s.task.value.taskId) then
      var shown := s.result.value;
      var cls := if shown.wasAnswerRequested then InfoStyle else if shown.verdict.correct then SuccessStyle else ErrorStyle;
      Some((cls, shown.verdict.message))
    else None
  }

  /** A result persisted for one task is never shown beside another task. */
  lemma ResultBelongsToTask(s: Session, t: TS.TaskData)
    requires s.slot.Some? && s.slot.value.associatedTaskId.Some? && s.slot.value.associatedTaskId.value != t.taskId
    ensures ResultMessage(s.(task := Some(t))).None?
  {
  }

  // ---------------------------------------------------------------------
  // The answer fields and the language

  /** Typing into the key field. */
  function TypeKey(s: Session, raw: string): (r: Session)
    ensures r == s.(keySolution := r.keySolution)
    ensures r.keySolution == [] <==> DigitsOf(raw) == []
    ensures r.keySolution != [] ==>
      (JsParseInt(r.keySolution).Some? && 0 <= JsParseInt(r.keySolution).value <= EffectiveMaxKey(s))
  {
    s.(keySolution := KeySolutionChange(raw, EffectiveMaxKey(s)))
  }

  /** Typing into the text field. */
  function TypeSolution(s: Session, input: string): (r: Session)
    ensures r == s.(solution := r.solution)
    ensures |r.solution| <= MAX_TEXT_INPUT_LENGTH && |r.solution| <= |input| && r.solution == input[..|r.solution|]
  {
    s.(solution := SolutionTextChange(input))
  }

  /** Editing a custom-range field, against the page language's largest
      key. The field's input is reduced to its digits before the handler
      sees it, so a sign, a letter or an exponent is dropped rather than
      read. */
  function EditCustom(s: Session, b: Bound, raw: string): (r: Session)
    ensures r == s.(custom := r.custom)
    ensures Valid(s.custom, MaxPossibleKeyOf(s.language)) ==> Valid(r.custom, MaxPossibleKeyOf(s.language))
    ensures DigitsOf(raw) == [] ==> r.custom.Field(b) == []
    ensures DigitsOf(raw) != [] ==>
      JsParseInt(r.custom.Field(b)) == Some(Clamp(DigitsValue(DigitsOf(raw)), 1, Limit(b, MaxPossibleKeyOf(s.language))))
  {
    var m := MaxPossibleKeyOf(s.language);
    var clean := DigitsOf(raw);
    ParseIntOfDigits(clean);
    var edited := CustomParamChange(s.custom, b, clean, m);
    if Valid(s.custom, m) then
      CustomParamChangeKeepsValid(s.custom, b, clean, m);
      s.(custom := edited)
    else s.(custom := edited)
  }

  /** Only the digits typed into a custom-range field matter: the edit of
      any input is the edit of its digits. */
  lemma EditCustomReadsDigitsOnly(s: Session, b: Bound, raw: string)
    ensures EditCustom(s, b, raw) == EditCustom(s, b, DigitsOf(raw))
  {
    DigitsOfIdempotent(raw);
  }

  /** Choosing a language, followed by the re-clamp effect. */
  function ChangeLanguage(s: Session, lang: Language): (r: Session)
    ensures r == s.(language := lang, custom := r.custom)
    ensures Valid(s.custom, MaxPossibleKeyOf(s.language)) ==> Valid(r.custom, MaxPossibleKeyOf(lang))
  {
    var reclamped := Reclamp(s.custom, MaxPossibleKeyOf(lang));
    if Valid(s.custom, MaxPossibleKeyOf(s.language)) then
      ReclampKeepsValid(s.custom, MaxPossibleKeyOf(s.language), MaxPossibleKeyOf(lang));
      s.(language := lang, custom := reclamped)
    else s.(language := lang, custom := reclamped)
  }

  // ---------------------------------------------------------------------
  // To the visualizer

  /** The visualizer link of a task: its language, its plain text (or the
      cipher text to decrypt), its key as text, and the mode. A find-key or
      decrypt task whose key reads as false (zero) falls back to key 3 with
      a notice; an empty text is left out of the link. */
  function VisualizeLink(s: Session): (r: (Option<VS.UrlParams>, Option<Notice>))
    ensures s.task.None? ==> r == (None, Some(TaskNotLoaded))
    ensures s.task.Some? ==>
      (r.0.Some? && r.0.value.alphabet == Some(LanguageName(s.task.value.language))
       && r.0.value.mode == Some(if s.task.value.DecryptTask? then VS.DECRYPT_MODE else VS.ENCRYPT_MODE))
    ensures s.task.Some? ==> (r.1 == Some(DefaultKeyUsed) <==> !s.task.value.EncryptTask? && s.task.value.actualKey == 0)
  {
    match s.task
    case None => (None, Some(TaskNotLoaded))
    case Some(t) =>
      var (text, key, mode, notice) :=
        match t
        case EncryptTask(_, _, source, k) => (source, IntToString(k), VS.ENCRYPT_MODE, None)
        case FindKeyTask(_, _, source, _, k) =>
          (source, if k != 0 then IntToString(k) else "3", VS.ENCRYPT_MODE, if k != 0 then None else Some(DefaultKeyUsed))
        case DecryptTask(_, _, encrypted, k) =>
          (encrypted, if k != 0 then IntToString(k) else "3", VS.DECRYPT_MODE, if k != 0 then None else Some(DefaultKeyUsed));
      (Some(VS.UrlParams(if text != [] then Some(text) else None, Some(LanguageName(t.language)),
                         Some(mode), Some(key))), notice)
  }

  /** The select-box tag of a language. */
  function LanguageName(lang: Language): (tag: string)
    ensures VS.KnownTag(tag) == Some(lang)
  {
    match lang
    case EN => "EN"
    case RU => "RU"
  }

  /** A link with a text, a language tag, a mode and an in-range key opens
      the visualizer on exactly those. */
  lemma LinkOpens(v: VS.Session, text: string, lang: Language, mode: string, k: int,
                  persisted: Option<VS.Persisted>, defaultTag: string, stored: Option<LocalStorage.Json>)
    requires 1 <= k <= MaxShift(lang)
    ensures var link := VS.UrlParams(if text != [] then Some(text) else None, Some(LanguageName(lang)),
                                     Some(mode), Some(IntToString(k)));
      var h := VS.Hydrate(v, link, persisted, defaultTag, stored);
      && h.text == text && VS.KnownTag(h.language) == Some(lang)
      && (h.mode == VS.DECRYPT_MODE <==> mode == VS.DECRYPT_MODE)
      && VS.CheckedShift(h.shift, h.language) == Some(k)
  {
    var link := VS.UrlParams(if text != [] then Some(text) else None, Some(LanguageName(lang)),
                             Some(mode), Some(IntToString(k)));
    var name := LanguageName(lang);
    var h := VS.Hydrate(v, link, persisted, defaultTag, stored);
    assert VS.HasUrlParams(link);
    assert UpperString(name) == name;
    assert h.language == name;
    assert VS.KnownTag(name) == Some(lang);
    VS.InRangeKeyKept(k, name);
  }

  /** The visualizer opens a task's link on the task itself: its text, its
      language, the right mode, and its key ready to use. */
  lemma VisualizerOpensTask(s: Session, v: VS.Session, persisted: Option<VS.Persisted>, defaultTag: string,
                            stored: Option<LocalStorage.Json>)
    requires s.task.Some?
    requires var t := s.task.value;
      (t.EncryptTask? ==> 1 <= t.key <= MaxShift(t.language))
      && (!t.EncryptTask? ==> 1 <= t.actualKey <= MaxShift(t.language))
    ensures var t := s.task.value;
      var h := VS.Hydrate(v, VisualizeLink(s).0.value, persisted, defaultTag, stored);
      && h.text == (if t.DecryptTask? then t.encryptedText else t.sourceText)
      && VS.KnownTag(h.language) == Some(t.language)
      && (h.mode == VS.DECRYPT_MODE <==> t.DecryptTask?)
      && VS.CheckedShift(h.shift, h.language) == Some(if t.EncryptTask? then t.key else t.actualKey)
  {
    var t := s.task.value;
    match t
    case EncryptTask(_, lang, source, k) =>
      LinkOpens(v, source, lang, VS.ENCRYPT_MODE, k, persisted, defaultTag, stored);
    case FindKeyTask(_, lang, source, _, k) =>
      LinkOpens(v, source, lang, VS.ENCRYPT_MODE, k, persisted, defaultTag, stored);
    case DecryptTask(_, lang, encrypted, k) =>
      LinkOpens(v, encrypted, lang, VS.DECRYPT_MODE, k, persisted, defaultTag, stored);
  }
}

=== FILE: tokens.dfy ===
/** The two token services over the token tables, with the clock and the
    generated token values as inputs: refresh tokens (at most one per
    user, replaced on each log-in) and password-reset tokens. A token is
    valid up to and including its expiry instant. */
module Tokens {
  import opened Common
  import opened Failures
  import opened UserStore

  // ---------------------------------------------------------------------
  // Refresh tokens

  /** `createOrUpdateRefreshToken`: the user's old token is deleted and a
      new one stored under `value`, expiring `durationMs` after `now`. A
      value another token already holds breaks the unique column. */
  function CreateOrUpdateRefreshToken(db: Db, userId: int, now: int, durationMs: int, value: string)
    : (r: Result<Db, Failure>)
    ensures !Exists(db.users, ById(userId)) ==> r == Failure(ResourceNotFound("error.resource.notfound"))
    ensures Exists(db.users, ById(userId)) ==>
      (r.Failure? <==> value in db.refresh && db.refresh[value].user != userId)
    ensures r.Failure? && Exists(db.users, ById(userId)) ==> r.error.DataIntegrity?
    ensures r.Success? ==>
      && r.value.users == db.users && r.value.reset == db.reset && r.value.roleNames == db.roleNames
      && TokensOf(r.value.refresh, userId) == {value}
      && r.value.refresh[value] == Token(userId, now + durationMs)
      && (forall v :: v in db.refresh && db.refresh[v].user != userId ==> v in r.value.refresh && r.value.refresh[v] == db.refresh[v])
      && (forall v :: v in r.value.refresh && v != value ==> v in db.refresh && db.refresh[v].user != userId)
  {
    if !Exists(db.users, ById(userId)) then Failure(ResourceNotFound("error.resource.notfound"))
    else
      var kept := DropTokensOf(db.refresh, userId);
      if value in kept then Failure(DataIntegrity(None))
      else Success(db.(refresh := kept[value := Token(userId, now + durationMs)]))
  }

  /** A new refresh token keeps the tables consistent. */
  lemma CreateRefreshKeepsConsistent(db: Db, userId: int, now: int, durationMs: int, value: string)
    requires Consistent(db) && CreateOrUpdateRefreshToken(db, userId, now, durationMs, value).Success?
    ensures Consistent(CreateOrUpdateRefreshToken(db, userId, now, durationMs, value).value)
  {
  }

  /** A checked token with the tables after the check. */
  datatype Checked = Checked(db: Db, result: Result<Token, Failure>)

  /** `verifyExpiration`: a token whose expiry lies strictly before `now`
      is refused as expired; any other is returned as it is. The service
      deletes the expired token and then throws an unchecked exception
      inside its transaction, so the delete is rolled back: either way
      the tables come out as they went in. */
  function VerifyExpiration(db: Db, value: string, token: Token, now: int): (c: Checked)
    ensures c.db == db
    ensures c.result.Failure? <==> token.expiry < now
    ensures c.result.Failure? ==> c.result == Failure(TokenRefresh(value, "error.token.refresh.expired"))
    ensures c.result.Success? ==> c.result.value == token
  {
    if token.expiry < now then Checked(db, Failure(TokenRefresh(value, "error.token.refresh.expired")))
    else Checked(db, Success(token))
  }

  /** The expiry instant itself is still valid; one millisecond later is
      not, and the refused token is still stored, so presenting it again
      is refused as expired again rather than as unknown. */
  lemma ExpiryIsInclusive(db: Db, value: string, token: Token, later: int)
    requires value in db.refresh && db.refresh[value] == token
    requires token.expiry < later
    ensures VerifyExpiration(db, value, token, token.expiry).result.Success?
    ensures var c := VerifyExpiration(db, value, token, token.expiry + 1);
      && c.result.Failure?
      && value in c.db.refresh
      && VerifyExpiration(c.db, value, c.db.refresh[value], later).result
         == Failure(TokenRefresh(value, "error.token.refresh.expired"))
  {
  }

  /** A deletion with the tables after it and the count it reports. */
  datatype Deleted = Deleted(db: Db, count: int)

  /** `deleteByUserId`: for a stored user, their refresh token is removed;
      the count is 1 when there was one and 0 otherwise. */
  function DeleteRefreshByUserId(db: Db, userId: int): (r: Result<Deleted, Failure>)
    ensures !Exists(db.users, ById(userId)) ==> r == Failure(ResourceNotFound("error.resource.notfound"))
    ensures Exists(db.users, ById(userId)) ==> r.Success?
    ensures r.Success? ==>
      && TokensOf(r.value.db.refresh, userId) == {}
      && (r.value.count == 1 <==> TokensOf(db.refresh, userId) != {})
      && (r.value.count == 0 <==> TokensOf(db.refresh, userId) == {})
      && r.value.db.users == db.users && r.value.db.reset == db.reset
      && (forall v :: v in db.refresh && db.refresh[v].user != userId ==>
            v in r.value.db.refresh && r.value.db.refresh[v] == db.refresh[v])
  {
    if !Exists(db.users, ById(userId)) then Failure(ResourceNotFound("error.resource.notfound"))
    else if TokensOf(db.refresh, userId) != {} then Success(Deleted(db.(refresh := DropTokensOf(db.refresh, userId)), 1))
    else Success(Deleted(db, 0))
  }

  /** A second log-out finds nothing to delete and changes nothing. */
  lemma DeleteRefreshSettles(db: Db, userId: int)
    requires Exists(db.users, ById(userId))
    ensures var first := DeleteRefreshByUserId(db, userId);
      && first.Success?
      && DeleteRefreshByUserId(first.value.db, userId) == Success(Deleted(first.value.db, 0))
  {
  }

  // ---------------------------------------------------------------------
  // Password-reset tokens

  /** `createPasswordResetToken`: every earlier reset token of the user is
      deleted and one new token stored under `value`, expiring `durationMs`
      after `now`. */
  function CreatePasswordResetToken(db: Db, userId: int, now: int, durationMs: int, value: string)
    : (r: Result<Db, Failure>)
    ensures r.Failure? <==> value in db.reset && db.reset[value].user != userId
    ensures r.Failure? ==> r.error.DataIntegrity?
    ensures r.Success? ==>
      && r.value.users == db.users && r.value.refresh == db.refresh && r.value.roleNames == db.roleNames
      && TokensOf(r.value.reset, userId) == {value}
      && r.value.reset[value] == Token(userId, now + durationMs)
      && (forall v :: v in db.reset && db.reset[v].user != userId ==> v in r.value.reset && r.value.reset[v] == db.reset[v])
  {
    var kept := DropTokensOf(db.reset, userId);
    if value in kept then Failure(DataIntegrity(None))
    else Success(db.(reset := kept[value := Token(userId, now + durationMs)]))
  }

  /** `validatePasswordResetToken`: the owner of a known token that has not
      expired; the tables are only read. */
  function ValidatePasswordResetToken(db: Db, value: string, now: int): (r: Result<int, Failure>)
    ensures value !in db.reset ==> r == Failure(ResourceNotFound("error.password.reset.token.notfound"))
    ensures value in db.reset && db.reset[value].expiry < now ==>
      r == Failure(TokenRefresh(value, "error.password.reset.token.expired"))
    ensures r.Success? <==> value in db.reset && now <= db.reset[value].expiry
    ensures r.Success? ==> r.value == db.reset[value].user
  {
    if value !in db.reset then Failure(ResourceNotFound("error.password.reset.token.notfound"))
    else if db.reset[value].expiry < now then Failure(TokenRefresh(value, "error.password.reset.token.expired"))
    else Success(db.reset[value].user)
  }

  /** `deleteToken`: no token is a no-op; a token is removed. */
  function DeleteResetToken(db: Db, token: Option<string>): (r: Db)
    ensures token.None? ==> r == db
    ensures token.Some? ==> r.reset.Keys == db.reset.Keys - {token.value}
    ensures r.users == db.users && r.refresh == db.refresh
    ensures forall v :: v in r.reset ==> r.reset[v] == db.reset[v]
  {
    if token.None? then db else db.(reset := db.reset - {token.value})
  }

  /** `deleteTokenByValue`: the token with that value is removed if there
      is one. */
  function DeleteResetTokenByValue(db: Db, value: string): (r: Db)
    ensures value !in r.reset
    ensures r.reset.Keys == db.reset.Keys - {value}
    ensures r.users == db.users && r.refresh == db.refresh
    ensures forall v :: v in r.reset ==> r.reset[v] == db.reset[v]
  {
    DeleteResetToken(db, if value in db.reset then Some(value) else None)
  }

  /** Deleting by value twice is deleting once. */
  lemma DeleteByValueIdempotent(db: Db, value: string)
    ensures DeleteResetTokenByValue(DeleteResetTokenByValue(db, value), value) == DeleteResetTokenByValue(db, value)
  {
  }

  /** A reset token's life: right after it is created it validates for its
      owner up to its expiry and is refused after it; once deleted it is
      unknown. Creating it keeps the tables consistent. */
  lemma ResetTokenLifecycle(db: Db, userId: int, now: int, durationMs: int, value: string, later: int)
    requires CreatePasswordResetToken(db, userId, now, durationMs, value).Success?
    ensures var made := CreatePasswordResetToken(db, userId, now, durationMs, value).value;
      && (later <= now + durationMs ==> ValidatePasswordResetToken(made, value, later) == Success(userId))
      && (later > now + durationMs ==> ValidatePasswordResetToken(made, value, later).error.TokenRefresh?)
      && ValidatePasswordResetToken(DeleteResetTokenByValue(made, value), value, later).error.ResourceNotFound?
    ensures Consistent(db) && Exists(db.users, ById(userId)) ==>
      Consistent(CreatePasswordResetToken(db, userId, now, durationMs, value).value)
  {
  }
}

=== FILE: user_details.dfy ===
/** Loading the authenticated principal of a user: by name or e-mail for
    a log-in, by id for a bearer token. The principal class is not part of
    this model; it is taken to copy the user's id, name, e-mail, password
    hash and enabled flag and to grant one authority per role name. */
module UserDetails {
  import opened Common
  import opened Failures
  import opened UserStore

  datatype Principal = Principal(
    id: int, username: string, email: string, passwordHash: string, enabled: bool, authorities: set<string>)

  function Build(u: User): Principal {
    Principal(u.id, u.username, u.email, u.passwordHash, u.enabled, u.roles)
  }

  /** The request's security context: no authentication (or one that is
      not authenticated), the anonymous user, a principal of this
      application, or a principal of another kind with its name. */
  datatype Auth = Unauthenticated | AnonymousUser | Authenticated(principal: Principal) | OtherPrincipal(name: string)

  /** `loadUserByUsername`: the identifier is tried as a user name first
      and as an e-mail second; neither gives a not-found authentication
      failure. */
  function LoadUserByUsername(users: seq<User>, usernameOrEmail: string): (r: Result<Principal, Failure>)
    ensures r.Failure? <==>
      forall i :: 0 <= i < |users| ==> users[i].username != usernameOrEmail && users[i].email != usernameOrEmail
    ensures r.Failure? ==> r.error == AuthenticationFailed("error.user.notfound.identifier")
    ensures r.Success? ==> exists i :: 0 <= i < |users| && r.value == Build(users[i])
    ensures r.Success? ==> r.value.username == usernameOrEmail || r.value.email == usernameOrEmail
    ensures (exists i :: 0 <= i < |users| && users[i].username == usernameOrEmail) ==>
      r.Success? && r.value.username == usernameOrEmail
  {
    match Lookup(users, ByUsername(usernameOrEmail))
    case Some(u) => Success(Build(u))
    case None =>
      match Lookup(users, ByEmail(usernameOrEmail))
      case Some(u) => Success(Build(u))
      case None => Failure(AuthenticationFailed("error.user.notfound.identifier"))
  }

  /** `loadUserById`: the user with that id, or a not-found
      authentication failure. */
  function LoadUserById(users: seq<User>, id: int): (r: Result<Principal, Failure>)
    ensures r.Failure? <==> forall i :: 0 <= i < |users| ==> users[i].id != id
    ensures r.Failure? ==> r.error == AuthenticationFailed("error.user.notfound.id")
    ensures r.Success? ==> r.value.id == id && exists i :: 0 <= i < |users| && r.value == Build(users[i])
  {
    match Lookup(users, ById(id))
    case Some(u) => Success(Build(u))
    case None => Failure(AuthenticationFailed("error.user.notfound.id"))
  }

  /** When one user's name is another user's e-mail, the identifier logs in
      as the user with that name. */
  lemma UsernameBeatsEmail(users: seq<User>, i: nat, j: nat)
    requires UniqueUsers(users) && i < |users| && j < |users|
    requires users[i].username == users[j].email
    ensures LoadUserByUsername(users, users[i].username) == Success(Build(users[i]))
  {
    FindUnique(users, ByUsername(users[i].username), i);
  }

  /** Every stored user can be loaded back by id, by name and by e-mail
      when no other user's name is that e-mail. */
  lemma StoredUsersLoad(users: seq<User>, i: nat)
    requires UniqueUsers(users) && i < |users|
    ensures LoadUserById(users, users[i].id) == Success(Build(users[i]))
    ensures LoadUserByUsername(users, users[i].username) == Success(Build(users[i]))
    ensures (forall j :: 0 <= j < |users| ==> users[j].username != users[i].email) ==>
      LoadUserByUsername(users, users[i].email) == Success(Build(users[i]))
  {
    FindUnique(users, ById(users[i].id), i);
    FindUnique(users, ByUsername(users[i].username), i);
    FindUnique(users, ByEmail(users[i].email), i);
  }
}

=== FILE: user_store.dfy ===
/** The server's tables: users in insertion order, refresh tokens and
    password-reset tokens keyed by their (unique) token value, and the set
    of role names in the role table.

    A user's roles are held as role names. Stored roles carry a real id
    and a unique name, where `Roles.AgreeOnStoredRoles` shows that the role
    entity's equality is equality of names, so a set of stored roles is
    its set of names. Times are instants on one clock, in milliseconds. */
module UserStore {
  import opened Common

  datatype User = User(
    id: int, username: string, email: string, passwordHash: string, enabled: bool, roles: set<string>)

  /** A refresh or reset token's row, minus its value (the map key). */
  datatype Token = Token(user: int, expiry: int)

  datatype Db = Db(
    users: seq<User>, refresh: map<string, Token>, reset: map<string, Token>, roleNames: set<string>)

  /** The three repository lookups of a user. */
  datatype Key = ById(id: int) | ByUsername(username: string) | ByEmail(email: string)

  predicate Matches(u: User, k: Key) {
    match k
    case ById(id) => u.id == id
    case ByUsername(n) => u.username == n
    case ByEmail(e) => u.email == e
  }

  /** The position of the first user matching the key. */
  function Find(users: seq<User>, k: Key): (r: Option<nat>)
    ensures r.Some? ==>
      && r.value < |users| && Matches(users[r.value], k)
      && (forall j :: 0 <= j < r.value ==> !Matches(users[j], k))
    ensures r.None? ==> forall j :: 0 <= j < |users| ==> !Matches(users[j], k)
  {
    if users == [] then None
    else if Matches(users[0], k) then Some(0)
    else
      var rest := Find(users[1..], k);
      if rest.Some? then Some(rest.value + 1) else None
  }

  /** `existsBy...`: some user matches. */
  predicate Exists(users: seq<User>, k: Key) {
    Find(users, k).Some?
  }

  /** The user matching the key, if any. */
  function Lookup(users: seq<User>, k: Key): (u: Option<User>)
    ensures u.Some? <==> Exists(users, k)
    ensures u.Some? ==> u.value in users && Matches(u.value, k)
  {
    var i := Find(users, k);
    if i.Some? then Some(users[i.value]) else None
  }

  /** Ids, names and e-mails are unique columns. */
  predicate UniqueUsers(users: seq<User>) {
    forall i, j :: 0 <= i < j < |users| ==>
      && users[i].id != users[j].id
      && users[i].username != users[j].username
      && users[i].email != users[j].email
  }

  /** With unique columns, a matching user is the one found. */
  lemma FindUnique(users: seq<User>, k: Key, i: nat)
    requires UniqueUsers(users) && i < |users| && Matches(users[i], k)
    ensures Find(users, k) == Some(i)
  {
  }

  /** The foreign keys and the one-to-one rule: every token belongs to a
      stored user, and a user holds at most one refresh token. */
  predicate Consistent(db: Db) {
    && UniqueUsers(db.users)
    && (forall v :: v in db.refresh ==> Exists(db.users, ById(db.refresh[v].user)))
    && (forall v, w :: v in db.refresh && w in db.refresh && db.refresh[v].user == db.refresh[w].user ==> v == w)
    && (forall v :: v in db.reset ==> Exists(db.users, ById(db.reset[v].user)))
  }

  /** `deleteByUser` on a token table: every token of the user is gone,
      every other token is kept as it was. */
  function DropTokensOf(m: map<string, Token>, id: int): (r: map<string, Token>)
    ensures forall v :: v in r <==> v in m && m[v].user != id
    ensures forall v :: v in r ==> r[v] == m[v]
  {
    map v | v in m && m[v].user != id :: m[v]
  }

  /** The number of tokens a user holds. */
  function TokensOf(m: map<string, Token>, id: int): (s: set<string>)
    ensures forall v :: v in s <==> v in m && m[v].user == id
  {
    set v | v in m && m[v].user == id
  }

  /** Replacing the user at position `i`. */
  function Replace(users: seq<User>, i: nat, u: User): (r: seq<User>)
    requires i < |users|
    ensures |r| == |users| && r[i] == u
    ensures forall j :: 0 <= j < |users| && j != i ==> r[j] == users[j]
  {
    users[i := u]
  }

  /** Removing the user at position `i`, keeping the others in order. */
  function RemoveAt(users: seq<User>, i: nat): (r: seq<User>)
    requires i < |users|
    ensures |r| == |users| - 1
    ensures forall j :: 0 <= j < i ==> r[j] == users[j]
    ensures forall j :: i <= j < |r| ==> r[j] == users[j + 1]
  {
    users[..i] + users[i + 1..]
  }

  /** Removing a user from unique columns leaves them unique, and the
      removed id is no longer found. */
  lemma RemoveAtKeepsUnique(users: seq<User>, i: nat)
    requires UniqueUsers(users) && i < |users|
    ensures UniqueUsers(RemoveAt(users, i))
    ensures !Exists(RemoveAt(users, i), ById(users[i].id))
    ensures forall id :: id != users[i].id && Exists(users, ById(id)) ==> Exists(RemoveAt(users, i), ById(id))
  {
    var r := RemoveAt(users, i);
    forall a, b | 0 <= a < b < |r|
      ensures r[a].id != r[b].id && r[a].username != r[b].username && r[a].email != r[b].email
    {
      var a' := if a < i then a else a + 1;
      var b' := if b < i then b else b + 1;
      assert r[a] == users[a'] && r[b] == users[b'] && a' < b';
    }
    forall id | id != users[i].id && Exists(users, ById(id))
      ensures Exists(r, ById(id))
    {
      var j := Find(users, ById(id)).value;
      assert j != i;
      var k := if j < i then j else j - 1;
      assert r[k] == users[j];
    }
  }
}

=== FILE: visualizer_session.dfy ===
/** The visualizer page as a session record with one transition per handler
    or effect: hydration from the address bar or the persisted slot, the
    shift and language inputs, the encrypt and decrypt buttons with their
    one-entry memo of the last successful request, the alphabet rows, and
    reset. Paging and the steps-per-page field use the shared paging rules.

    The call to the visualisation endpoint is an `Outcome` parameter. The
    page's language is the text of its select box (`RU`, `EN`, or whatever
    the persisted slot held); `ALPHABETS[tag] || ALPHABETS.RU` falls back to
    the Russian alphabet for any other tag. */
module VisualizerSession {
  import opened Common
  import opened Strings
  import opened Cipher
  import opened InputUtils
  import opened LocalStorage
  import opened Paging
  import opened ClientCipher

  const MIN_STEPS_PER_PAGE: int := 1
  const MAX_STEPS_PER_PAGE: int := 10
  const DEFAULT_STEPS_PER_PAGE: int := 3
  const ENCRYPT_MODE: string := "encrypt"
  const DECRYPT_MODE: string := "decrypt"

  // ---------------------------------------------------------------------
  // Language tags and the shift check

  /** The language a select-box tag names, if any. */
  function KnownTag(tag: string): Option<Language> {
    if tag == "EN" then Some(EN) else if tag == "RU" then Some(RU) else None
  }

  /** The alphabet the page uses for a tag: English for `EN`, Russian for
      anything else. */
  function AlphabetOfTag(tag: string): string {
    Alphabet(LanguageOfTag(tag))
  }

  /** The language whose alphabet the page uses for a tag. */
  function LanguageOfTag(tag: string): Language {
    if tag == "EN" then EN else RU
  }

  /** `maxValidKey`: one less than the alphabet's length (both alphabets
      are non-empty, so the fallback `1` never applies). */
  function MaxKeyOfTag(tag: string): (m: int)
    ensures m == |AlphabetOfTag(tag)| - 1
    ensures 1 <= m <= 32
  {
    MaxShift(LanguageOfTag(tag))
  }

  /** The shift as the handlers accept it: a non-empty text whose parsed
      value lies in `[1, maxValidKey]`; `None` means the key-range error. */
  function CheckedShift(shift: string, tag: string): (r: Option<int>)
    ensures r.Some? <==> shift != [] && JsParseInt(shift).Some? && 1 <= JsParseInt(shift).value <= MaxKeyOfTag(tag)
    ensures r.Some? ==> r.value == JsParseInt(shift).value
  {
    var numeric := JsParseInt(shift);
    if shift == [] || numeric.None? || numeric.value <= 0 || numeric.value > MaxKeyOfTag(tag) then None
    else numeric
  }

  /** A shift the page accepts for a known language is one the server's
      validation accepts too. */
  lemma CheckedShiftPassesServer(shift: string, tag: string, text: string)
    requires CheckedShift(shift, tag).Some? && KnownTag(tag).Some?
    ensures ValidateInput(Some(text), CheckedShift(shift, tag).value, KnownTag(tag)).Success?
  {
  }

  /** The page's default: `EN` when the application language is `en`,
      `RU` otherwise. */
  function DefaultTag(resolved: Option<string>, language: string): (tag: string)
    ensures tag == "EN" || tag == "RU"
    ensures resolved.Some? && resolved.value != [] ==> (tag == "EN" <==> resolved.value == "en")
    ensures (resolved.None? || resolved.value == []) ==> (tag == "EN" <==> HasPrimary(language, 'e', 'n'))
  {
    AppLanguageIs(resolved, language, 'e', 'n');
    if AppLanguage(resolved, language) == "en" then "EN" else "RU"
  }

  // ---------------------------------------------------------------------
  // The session

  /** The last successful request and its answer. */
  datatype Memo = Memo(text: string, language: string, shift: int, encrypt: bool,
                       resultText: string, steps: seq<VisualizationStep>)

  datatype Session = Session(
    text: string, language: string, shift: string, mode: string,
    steps: seq<VisualizationStep>, finalResultText: string, currentPage: int,
    stepsPerPage: int, stepsPerPageInput: string, memo: Option<Memo>)

  /** How a call to the endpoint ended: an answer, or an error with or
      without a response (and a response with or without a message). */
  datatype Outcome =
    | Answered(steps: seq<VisualizationStep>, resultText: string)
    | NoResponse
    | ErrorResponse(message: string)

  /** What the page reports to the notification queue. */
  datatype Notice =
    | KeyRange(maxKey: int)
    | NotAuthenticated
    | EnterText
    | NetworkError
    | ServerMessage(message: string)
    | ProcessingError

  datatype Auth = AuthLoading | SignedOut | SignedIn

  /** The session after a handler, what it reported, and whether it called
      the endpoint. */
  datatype Reaction = Reaction(session: Session, notice: Option<Notice>, called: bool)

  /** The error notice for a failed call: no response is a network error,
      a non-empty server message is shown as it is, anything else is the
      generic processing error. */
  function FailureNotice(o: Outcome): (n: Notice)
    requires !o.Answered?
    ensures o.NoResponse? ==> n == NetworkError
    ensures o.ErrorResponse? && o.message != [] ==> n == ServerMessage(o.message)
    ensures o.ErrorResponse? && o.message == [] ==> n == ProcessingError
  {
    match o
    case NoResponse => NetworkError
    case ErrorResponse(m) => if m != [] then ServerMessage(m) else ProcessingError
  }

  /** `handleProcessText`: the shift is checked again; a good one sends the
      page back to 0 and calls the endpoint. An answer replaces the steps and
      the result and becomes the memo; a failure only reports. */
  function CallEndpoint(s: Session, encrypt: bool, o: Outcome): (r: Reaction)
    ensures r.called <==> CheckedShift(s.shift, s.language).Some?
    ensures !r.called ==> r.session == s && r.notice == Some(KeyRange(MaxKeyOfTag(s.language)))
    ensures r.called ==> (r.session.currentPage == 0
      && r.session == s.(currentPage := 0, steps := r.session.steps,
                         finalResultText := r.session.finalResultText, memo := r.session.memo))
    ensures r.called && !o.Answered? ==>
      r.session == s.(currentPage := 0) && r.notice == Some(FailureNotice(o))
    ensures r.called && o.Answered? ==>
      && r.session.steps == o.steps && r.session.finalResultText == o.resultText && r.notice.None?
      && r.session.memo == Some(Memo(s.text, s.language, CheckedShift(s.shift, s.language).value,
                                     encrypt, o.resultText, o.steps))
  {
    var numeric := CheckedShift(s.shift, s.language);
    if numeric.None? then Reaction(s, Some(KeyRange(MaxKeyOfTag(s.language))), false)
    else
      var s1 := s.(currentPage := 0);
      match o
      case Answered(steps, result) =>
        Reaction(s1.(steps := steps, finalResultText := result,
                     memo := Some(Memo(s.text, s.language, numeric.value, encrypt, result, steps))),
                 None, true)
      case _ => Reaction(s1, Some(FailureNotice(o)), true)
  }

  /** The memo answers a request with the same text, language tag, numeric
      shift and direction. */
  predicate MemoMatches(memo: Option<Memo>, text: string, tag: string, shift: int, encrypt: bool) {
    memo.Some? && memo.value.text == text && memo.value.language == tag
    && memo.value.shift == shift && memo.value.encrypt == encrypt
  }

  /** `handleEncrypt` (`encrypt`) and `handleDecrypt`: nothing while the
      sign-in state is loading; then a signed-in user, a non-blank text and
      a shift in range are required, each failure reported and nothing else
      done. A request the memo answers shows the remembered steps and result
      without a call; any other sets the mode and goes to the endpoint. */
  function Operate(s: Session, auth: Auth, encrypt: bool, o: Outcome): (r: Reaction)
    ensures r.called <==>
      && auth.SignedIn? && JsTrim(s.text) != []
      && CheckedShift(s.shift, s.language).Some?
      && !MemoMatches(s.memo, s.text, s.language, CheckedShift(s.shift, s.language).value, encrypt)
    ensures auth.AuthLoading? ==> r == Reaction(s, None, false)
    ensures auth.SignedOut? ==> r == Reaction(s, Some(NotAuthenticated), false)
    ensures auth.SignedIn? && JsTrim(s.text) == [] ==> r == Reaction(s, Some(EnterText), false)
    ensures auth.SignedIn? && JsTrim(s.text) != [] && CheckedShift(s.shift, s.language).None? ==>
      r == Reaction(s, Some(KeyRange(MaxKeyOfTag(s.language))), false)
    ensures r.session.text == s.text && r.session.language == s.language && r.session.shift == s.shift
    ensures !r.called ==> r.session.memo == s.memo && r.session.currentPage == s.currentPage
  {
    if auth.AuthLoading? then Reaction(s, None, false)
    else if auth.SignedOut? then Reaction(s, Some(NotAuthenticated), false)
    else if JsTrim(s.text) == [] then Reaction(s, Some(EnterText), false)
    else
      var numeric := CheckedShift(s.shift, s.language);
      if numeric.None? then Reaction(s, Some(KeyRange(MaxKeyOfTag(s.language))), false)
      else
        var s1 := s.(mode := if encrypt then ENCRYPT_MODE else DECRYPT_MODE);
        if MemoMatches(s.memo, s.text, s.language, numeric.value, encrypt) then
          Reaction(s1.(steps := s.memo.value.steps, finalResultText := s.memo.value.resultText), None, false)
        else
          CallEndpoint(s1, encrypt, o)
  }

  /** Pressing the same button again after a successful request makes no
      call and shows the same steps and result, whatever the endpoint would
      now answer. */
  lemma RepeatUsesMemo(s: Session, encrypt: bool, o1: Outcome, o2: Outcome)
    requires o1.Answered?
    ensures var r1 := Operate(s, SignedIn, encrypt, o1);
      var r2 := Operate(r1.session, SignedIn, encrypt, o2);
      (r1.called ==> !r2.called)
      && r2.session.steps == r1.session.steps
      && r2.session.finalResultText == r1.session.finalResultText
  {
  }

  /** A call that fails leaves the steps, the result and the memo as they
      were: only the page goes back to 0 and the error is reported. */
  lemma FailureKeepsResults(s: Session, auth: Auth, encrypt: bool, o: Outcome)
    requires !o.Answered?
    ensures var r := Operate(s, auth, encrypt, o);
      r.called ==> (r.session.steps == s.steps && r.session.finalResultText == s.finalResultText
        && r.session.memo == s.memo && r.notice == Some(FailureNotice(o)))
  {
  }

  /** When the endpoint answers as the server computes it, the page shows
      the server's trace, and its result is the cipher of the text with the
      checked shift. */
  lemma AnswerShowsCipher(s: Session, encrypt: bool, lang: Language)
    requires KnownTag(s.language) == Some(lang) && CheckedShift(s.shift, s.language).Some?
    ensures var n := CheckedShift(s.shift, s.language).value;
      var o := Answered(Trace(s.text, n, lang, encrypt), Transform(s.text, n, Alphabet(lang), encrypt));
      var r := Operate(s, SignedIn, encrypt, o);
      r.called ==> (r.session.finalResultText == Transform(s.text, n, Alphabet(lang), encrypt)
        && |r.session.steps| == |s.text|
        && (|s.text| > 0 ==> r.session.steps[|s.text| - 1].intermediateText == r.session.finalResultText))
  {
    var n := CheckedShift(s.shift, s.language).value;
    if |s.text| > 0 {
      LastStepIsOutput(s.text, n, lang, encrypt);
    }
  }

  // ---------------------------------------------------------------------
  // Shift and language inputs

  /** Typing into the shift field: the digits of the entry; none gives an
      empty field, otherwise the number clamped into `[1, maxValidKey]`. */
  function ShiftChange(s: Session, raw: string): (r: Session)
    ensures r == s.(shift := r.shift)
    ensures r.shift == [] <==> DigitsOf(raw) == []
    ensures r.shift != [] ==>
      CheckedShift(r.shift, s.language) == Some(Clamp(DigitsValue(DigitsOf(raw)), 1, MaxKeyOfTag(s.language)))
  {
    var d := DigitsOf(raw);
    ParseIntOfDigits(d);
    if d == [] then s.(shift := "")
    else match JsParseInt(d)
      case None => s.(shift := "")
      case Some(v) =>
        var maxKey := MaxKeyOfTag(s.language);
        var m := if v <= 0 then 1 else if v > maxKey then maxKey else v;
        JsParseIntOfIntToString(m);
        s.(shift := IntToString(m))
  }

  /** The field's own text typed again changes nothing. */
  lemma ShiftChangeIdempotent(s: Session, raw: string)
    ensures var r := ShiftChange(s, raw); ShiftChange(r, r.shift) == r
  {
    var r := ShiftChange(s, raw);
    var d := DigitsOf(raw);
    if d != [] {
      ParseIntOfDigits(d);
      var v := DigitsValue(d) as int;
      var maxKey := MaxKeyOfTag(s.language);
      var m := if v <= 0 then 1 else if v > maxKey then maxKey else v;
      assert r == s.(shift := NatToString(m));
      InRangeShiftKept(r, m);
    }
  }

  /** A key in `[1, maxValidKey]` typed as its own digits is kept as is. */
  lemma InRangeShiftKept(s: Session, m: int)
    requires 1 <= m <= MaxKeyOfTag(s.language) && s.shift == NatToString(m)
    ensures ShiftChange(s, s.shift) == s
  {
    CanonicalDigits(m);
    assert ShiftChange(s, s.shift) == s.(shift := IntToString(m));
  }

  /** A number's own decimal digits: kept by the digit filter, parsed back
      to the number, and written the same way by `IntToString`. */
  lemma CanonicalDigits(m: nat)
    ensures var t := NatToString(m);
      DigitsOf(t) == t && JsParseInt(DigitsOf(t)) == Some(m) && IntToString(m) == t
  {
    var t := NatToString(m);
    DigitsOfFixedIff(t);
    ParseIntOfNatToString(m);
  }

  /** Choosing another alphabet: a shift that parses is pulled into
      `[1, maxValidKey]` of the new alphabet; one that does not parse is
      left alone. */
  function LanguageChange(s: Session, tag: string): (r: Session)
    ensures r == s.(language := tag, shift := r.shift)
    ensures JsParseInt(s.shift).None? ==> r.shift == s.shift
    ensures JsParseInt(s.shift).Some? ==>
      JsParseInt(r.shift) == Some(Clamp(JsParseInt(s.shift).value, 1, MaxKeyOfTag(tag)))
  {
    var s1 := s.(language := tag);
    match JsParseInt(s.shift)
    case None => s1
    case Some(n) =>
      var maxKey := MaxKeyOfTag(tag);
      JsParseIntOfIntToString(maxKey);
      JsParseIntOfIntToString(1);
      if n > maxKey then s1.(shift := IntToString(maxKey))
      else if n <= 0 && maxKey >= 1 then s1.(shift := "1")
      else s1
  }

  /** A shift that parses stays acceptable across a change of alphabet. */
  lemma LanguageChangeKeepsShiftValid(s: Session, tag: string)
    requires JsParseInt(s.shift).Some?
    ensures CheckedShift(LanguageChange(s, tag).shift, tag).Some?
  {
    var r := LanguageChange(s, tag);
  }

  // ---------------------------------------------------------------------
  // Alphabet rows

  /** The two rows for an alphabet and a checked shift: the alphabet, and
      below it the alphabet rotated by the shift, or the plain alphabet
      again when there is no acceptable shift. */
  function Rows(a: string, checked: Option<int>): (rows: (string, string))
    ensures rows.0 == a && |rows.1| == |a|
    ensures checked.None? ==> rows.1 == a
    ensures checked.Some? ==> forall i :: 0 <= i < |a| ==> rows.1[i] == a[(i + checked.value) % |a|]
  {
    if |a| == 0 then (a, "")
    else match checked
      case None => (a, a)
      case Some(n) => (a, ShiftedAlphabet(a, n))
  }

  /** `updateAlphabetDisplays`: the rows for the session's alphabet and
      shift. */
  function AlphabetRows(s: Session): (string, string) {
    Rows(AlphabetOfTag(s.language), CheckedShift(s.shift, s.language))
  }

  /** With an acceptable shift, each letter of the lower row is the
      encryption of the letter above it. */
  lemma RowsShowEncryption(s: Session, i: int)
    requires CheckedShift(s.shift, s.language).Some?
    requires 0 <= i < |AlphabetOfTag(s.language)|
    ensures var rows := AlphabetRows(s);
      rows.0 == AlphabetOfTag(s.language)
      && rows.1[i] == ProcessChar(rows.0[i], CheckedShift(s.shift, s.language).value, rows.0, true)
  {
    ShiftedRowEncrypts(LanguageOfTag(s.language), CheckedShift(s.shift, s.language).value, i);
  }

  // ---------------------------------------------------------------------
  // Hydration, persistence and reset

  /** The four address-bar parameters. */
  datatype UrlParams = UrlParams(text: Option<string>, alphabet: Option<string>,
                                 mode: Option<string>, key: Option<string>)

  predicate HasUrlParams(u: UrlParams) {
    u.text.Some? || u.alphabet.Some? || u.mode.Some? || u.key.Some?
  }

  /** The persisted slot; a missing field reads as empty. */
  datatype Persisted = Persisted(
    text: string, language: string, shift: string, mode: string,
    steps: seq<VisualizationStep>, finalResultText: string, currentPage: int,
    lastProcessed: Option<Memo>)

  /** `parseInt` applied to a parsed JSON value: a number is itself, text
      is parsed, anything else is `NaN`. */
  function JsonParseInt(v: Json): Option<int> {
    match v
    case JNum(n) => Some(n)
    case JStr(t) => JsParseInt(t)
    case _ => None
  }

  /** The steps-per-page size the page settles on when it reads the stored
      value at hydration: missing gives 3; `NaN` passes through the clamp,
      and the size effect then replaces it by 3; a number is clamped into
      `[1, 10]`. */
  function HydratedStepsPerPage(stored: Option<Json>): (k: int)
    ensures MIN_STEPS_PER_PAGE <= k <= MAX_STEPS_PER_PAGE
    ensures stored.Some? && JsonParseInt(stored.value).Some? ==>
      k == Clamp(JsonParseInt(stored.value).value, MIN_STEPS_PER_PAGE, MAX_STEPS_PER_PAGE)
    ensures (stored.None? || JsonParseInt(stored.value).None?) ==> k == DEFAULT_STEPS_PER_PAGE
  {
    if stored.None? then DEFAULT_STEPS_PER_PAGE
    else match JsonParseInt(stored.value)
      case None => DEFAULT_STEPS_PER_PAGE
      case Some(n) => Max(MIN_STEPS_PER_PAGE, Min(n, MAX_STEPS_PER_PAGE))
  }

  /** A new steps-per-page size, with the field rewritten by the size
      effect when the size actually changes. */
  function WithStepsPerPage(s: Session, k: int): Session {
    if k != s.stepsPerPage then s.(stepsPerPage := k, stepsPerPageInput := IntToString(k)) else s
  }

  /** The key from the address bar: kept when it parses to a number in
      `[1, maxValidKey]` of the chosen alphabet, written back as that
      number; dropped otherwise. */
  function UrlKey(key: Option<string>, tag: string): (shift: string)
    ensures shift == [] || (key.Some? && JsParseInt(key.value).Some? && shift == IntToString(JsParseInt(key.value).value))
    ensures shift != [] <==> key.Some? && JsParseInt(key.value).Some? && 0 < JsParseInt(key.value).value <= MaxKeyOfTag(tag)
  {
    if key.None? then ""
    else
      var numeric := JsParseInt(key.value);
      if numeric.Some? && numeric.value > 0 && numeric.value <= MaxKeyOfTag(tag) then IntToString(numeric.value)
      else ""
  }

  /** The alphabet from the address bar, upper-cased, when it names one;
      the default otherwise. */
  function UrlLanguage(alphabet: Option<string>, defaultTag: string): (tag: string)
    ensures KnownTag(tag).Some? || tag == defaultTag
    ensures alphabet.Some? && KnownTag(UpperString(alphabet.value)).Some? ==> tag == UpperString(alphabet.value)
    ensures alphabet.None? || KnownTag(UpperString(alphabet.value)).None? ==> tag == defaultTag
  {
    if alphabet.Some? && alphabet.value != [] && KnownTag(UpperString(alphabet.value)).Some? then
      UpperString(alphabet.value)
    else defaultTag
  }

  /** The hydration effect. Address-bar parameters win: the text, a known
      alphabet, a known mode and an acceptable key are taken, and the steps,
      the result, the page and the memo are cleared. Otherwise a persisted
      slot is restored field by field. Otherwise only the default language
      is set. The steps-per-page size is re-read from storage in the first
      and last cases. */
  function Hydrate(s: Session, url: UrlParams, persisted: Option<Persisted>, defaultTag: string,
                   stored: Option<Json>): (r: Session)
    ensures HasUrlParams(url) ==>
      && r.text == url.text.GetOr("")
      && r.language == UrlLanguage(url.alphabet, defaultTag)
      && (r.mode == DECRYPT_MODE <==> url.mode == Some(DECRYPT_MODE))
      && (r.mode == ENCRYPT_MODE <==> url.mode != Some(DECRYPT_MODE))
      && r.shift == UrlKey(url.key, r.language)
      && r.steps == [] && r.finalResultText == [] && r.currentPage == 0 && r.memo.None?
      && r.stepsPerPage == HydratedStepsPerPage(stored)
    ensures !HasUrlParams(url) && persisted.Some? ==>
      var p := persisted.value;
      && r.text == p.text && r.shift == p.shift && r.steps == p.steps
      && r.finalResultText == p.finalResultText && r.currentPage == p.currentPage
      && r.memo == p.lastProcessed
      && r.language == (if p.language != [] then p.language else defaultTag)
      && r.mode == (if p.mode != [] then p.mode else ENCRYPT_MODE)
      && r.stepsPerPage == s.stepsPerPage && r.stepsPerPageInput == s.stepsPerPageInput
    ensures !HasUrlParams(url) && persisted.None? ==>
      r == WithStepsPerPage(s.(language := defaultTag), HydratedStepsPerPage(stored))
  {
    if HasUrlParams(url) then
      var tag := UrlLanguage(url.alphabet, defaultTag);
      var mode := if url.mode == Some(DECRYPT_MODE) || url.mode == Some(ENCRYPT_MODE) then url.mode.value else ENCRYPT_MODE;
      var s1 := s.(text := url.text.GetOr(""), language := tag, mode := mode,
                   shift := UrlKey(url.key, tag), steps := [], finalResultText := "",
                   currentPage := 0, memo := None);
      WithStepsPerPage(s1, HydratedStepsPerPage(stored))
    else if persisted.Some? then
      var p := persisted.value;
      s.(text := p.text, language := if p.language != [] then p.language else defaultTag,
         shift := p.shift, mode := if p.mode != [] then p.mode else ENCRYPT_MODE,
         steps := p.steps, finalResultText := p.finalResultText,
         currentPage := p.currentPage, memo := p.lastProcessed)
    else
      WithStepsPerPage(s.(language := defaultTag), HydratedStepsPerPage(stored))
  }

  /** The persist effect: what the slot holds after a change. */
  function Persist(s: Session): (p: Persisted)
    ensures p.lastProcessed == s.memo && p.currentPage == s.currentPage && p.steps == s.steps
  {
    Persisted(s.text, s.language, s.shift, s.mode, s.steps, s.finalResultText, s.currentPage, s.memo)
  }

  /** The slot records everything about the session except the page size:
      two sessions are saved alike exactly when they differ in the size
      fields alone. */
  lemma PersistForgetsOnlySize(s: Session, t: Session)
    ensures Persist(s) == Persist(t) <==>
      s == t.(stepsPerPage := s.stepsPerPage, stepsPerPageInput := s.stepsPerPageInput)
  {
  }

  /** Reloading without address-bar parameters restores what was
      persisted: the session comes back as it was, apart from the size
      field, which has its own storage. */
  lemma PersistThenHydrate(s: Session, before: Session, defaultTag: string, stored: Option<Json>)
    requires s.language != [] && s.mode != []
    ensures Hydrate(before, UrlParams(None, None, None, None), Some(Persist(s)), defaultTag, stored)
      == s.(stepsPerPage := before.stepsPerPage, stepsPerPageInput := before.stepsPerPageInput)
  {
  }

  /** A link carrying an acceptable key for a known alphabet opens the page
      with that key ready to use. */
  lemma UrlKeyIsAccepted(s: Session, url: UrlParams, persisted: Option<Persisted>, defaultTag: string,
                         stored: Option<Json>)
    requires HasUrlParams(url)
    ensures var r := Hydrate(s, url, persisted, defaultTag, stored);
      r.shift != [] ==> CheckedShift(r.shift, r.language) == JsParseInt(url.key.value)
  {
    var r := Hydrate(s, url, persisted, defaultTag, stored);
    if r.shift != [] {
      var n := JsParseInt(url.key.value).value;
      JsParseIntOfIntToString(n);
    }
  }

  /** A key in `[1, maxValidKey]` written out survives the address bar and
      checks as itself. */
  lemma InRangeKeyKept(k: int, tag: string)
    requires 1 <= k <= MaxKeyOfTag(tag)
    ensures UrlKey(Some(IntToString(k)), tag) == IntToString(k)
    ensures CheckedShift(IntToString(k), tag) == Some(k)
  {
    JsParseIntOfIntToString(k);
  }

  /** What reset does besides the session: the persisted slot is emptied,
      and the address bar is cleared when it had parameters. */
  datatype ResetEffect = ResetEffect(session: Session, persisted: Option<Persisted>, clearUrl: bool)

  /** `handleReset`: empty text and shift, the default language, encrypt
      mode, no steps, no result, page 0, size 3, no memo, no persisted
      slot. */
  function Reset(s: Session, defaultTag: string, url: UrlParams): (e: ResetEffect)
    ensures var r := e.session;
      && r.text == [] && r.shift == [] && r.language == defaultTag && r.mode == ENCRYPT_MODE
      && r.steps == [] && r.finalResultText == [] && r.currentPage == 0
      && r.stepsPerPage == DEFAULT_STEPS_PER_PAGE && r.memo.None?
    ensures e.persisted.None? && (e.clearUrl <==> HasUrlParams(url))
  {
    var s1 := s.(text := "", language := defaultTag, shift := "", mode := ENCRYPT_MODE,
                 steps := [], finalResultText := "", currentPage := 0, memo := None);
    ResetEffect(WithStepsPerPage(s1, DEFAULT_STEPS_PER_PAGE), None, HasUrlParams(url))
  }

  /** After a reset no button reaches the endpoint until text is typed, and
      a second reset changes nothing. */
  lemma ResetIsQuiet(s: Session, defaultTag: string, url: UrlParams, auth: Auth, encrypt: bool, o: Outcome)
    ensures var r := Reset(s, defaultTag, url).session;
      && !Operate(r, auth, encrypt, o).called
      && Reset(r, defaultTag, UrlParams(None, None, None, None)).session == r
  {
    var r := Reset(s, defaultTag, url).session;
    assert JsTrim(r.text) == [];
  }
}
